=== FILE: README.md ===
# AIY Raspbian tools, modelled in Dafny

This project models the logic of the Python helpers that ship on the AIY
Projects Raspbian image and of the scripts that build and shrink that
image. One Dafny module stands for each source file.

- **Bluetooth provisioning** (`bt_prov_server.dfy`):
  - the 4-byte big-endian length framing of requests and responses;
  - the dispatch of one connection's requests;
  - the device name and its Bluetooth alias;
  - the Wi-Fi summary;
  - trigger selection;
  - the one-time `Close`.
- **wpa_supplicant control-interface client** (`wpas_client.dfy`):
  - the `STATUS`, `SIGNAL_POLL`, `SCAN_RESULTS` and `LIST_NETWORKS` parsers;
  - the SSID unescaper;
  - the `SET_NETWORK` commands;
  - the deadline-ordered alarm queue;
  - the attach/detach flags.
- **The two wpa_supplicant clients built on it**:
  - the station client (`sta_wpas_client.dfy`): association and DHCP bookkeeping, `WaitForNetwork`, `ConnectNetwork`;
  - the P2P group-owner client (`p2p_wpas_client.dfy`).
- **dhcpcd monitor client** (`dhcpcd_client.dfy`):
  - the length-prefixed, NUL-separated `key=value` event record;
  - the interface filter;
  - the handshake;
  - `Close`.
- **Code-with-Cloud websocket protocol**:
  - the two JSON Schema documents as predicates (`cwc_schema.dfy`);
  - the server's message builders and parsers with their defaults (`cwc_server.dfy`);
  - the client's builders and its message loop (`cwc_client.dfy`).
- **Disk-image tools**:
  - `parted` and `resize2fs` output and the `fdisk` script (`imgtools.dfy`);
  - root-partition growth, the mount-point ancestor search, the bind-mount list and the chroot command line (`build_common.dfy`);
  - shrinking, the resize-on-first-boot switch and the step order (`shrink_image.dfy`).
- **Board identification**:
  - the MCU firmware updater's tables, version check and flash decision (`mcu_updater.dfy`);
  - the board name derived from the device tree (`board_info.dfy`).

Helper modules model the Python library behaviour the sources rely on:

- `Wrappers`: `Option` for `None` returns, and `Result` for raised exceptions.
- `PyStr`: `str` methods and `int()`.
- `PyPath`: `posixpath`.
- `Utf8`: the strict UTF-8 codec.
- `Base64`: section 4 of RFC 4648.

Sockets, subprocesses, files, clocks, MD5 and protocol buffers are
parameters of the model:

- the replies and bytes they deliver are inputs;
- the commands and bytes sent are recorded as sequences;
- the objects the source updates in place are classes whose methods are
  proved against reference functions.

## Model

| member | source | states |
|---|---|---|
| WpasClient.EntrySlices | packages/aiy-bt-prov-server/wpas_client.py:58-60 | `entry[0:pos]` and `entry[pos + 1:]` with `pos = entry.find("=")`, including the `-1` case where the key drops the last character and the value is the whole entry |
| WpasClient.EntryWithEquals | packages/aiy-bt-prov-server/wpas_client.py:59-60 | an entry holding `=` is exactly key, `=`, value, and the key holds no `=` |
| WpasClient.EntryWithoutEquals | packages/aiy-bt-prov-server/wpas_client.py:59-60 | an entry without `=` is stored whole as the value under its text minus the last character |
| WpasClient.KeyValuesDomain | packages/aiy-bt-prov-server/wpas_client.py:58-60 | a key is in the dictionary iff some reply line has that key |
| WpasClient.KeyValuesLast | packages/aiy-bt-prov-server/wpas_client.py:58-60 | a later line overwrites an earlier one: a key holds the value of its last line |
| WpasClient.ParseKeyValues | packages/aiy-bt-prov-server/wpas_client.py:58-60 | the loop builds exactly the dictionary of the reply lines |
| WpasClient.StatusOf | packages/aiy-bt-prov-server/wpas_client.py:54-63 | reference for GetStatus: the STATUS dictionary with `ssid` decoded by the corrected unescaper; StatusOfPrintedSsid reads a printed name back through it |
| WpasClient.GetStatus | packages/aiy-bt-prov-server/wpas_client.py:54-63 | the STATUS dictionary, its `ssid` value decoded by the corrected unescaper `DecodedSsid` of the first Findings row rather than the source's chained `replace`; decoding errors propagate |
| WpasClient.StatusOfPrintedSsid | packages/aiy-bt-prov-server/wpas_client.py:54-63 | with the corrected unescaper, a reply whose `ssid` line is what wpa_supplicant prints for a UTF-8 name yields that name, other keys unchanged |
| WpasClient.GetSignal | packages/aiy-bt-prov-server/wpas_client.py:65-73 | empty when the reply contains `FAIL`, otherwise the dictionary of the stripped reply lines |
| WpasClient.SignalOf | packages/aiy-bt-prov-server/wpas_client.py:65-73 | an empty dictionary exactly for a `FAIL` reply, otherwise the stripped `key=value` dictionary; GetSignal's loop is proved equal to it |
| WpasClient.HexChar | packages/aiy-bt-prov-server/wpas_client.py:201-202 | the hex digit that `int(_, 16)` reads back as the value |
| WpasClient.DecodeSsid | packages/aiy-bt-prov-server/wpas_client.py:186-207 | the corrected decoder (escapes undone in one pass, then UTF-8) computed by a loop over the text |
| WpasClient.DecodedSsid | packages/aiy-bt-prov-server/wpas_client.py:186-207 | the corrected unescaper of the first Findings row: one left-to-right pass, then strict UTF-8; SsidRoundTrip and UnescapePrintfEncode prove it inverts wpa_supplicant's printing |
| WpasClient.UnescapeEscapeByte | packages/aiy-bt-prov-server/wpas_client.py:186-206 | each escape wpa_supplicant prints for a byte is read back as that byte |
| WpasClient.UnescapePrintfEncode | packages/aiy-bt-prov-server/wpas_client.py:186-206 | unescaping what wpa_supplicant printed gives back the SSID bytes |
| WpasClient.SsidRoundTrip | packages/aiy-bt-prov-server/wpas_client.py:186-207 | an SSID that is UTF-8 text decodes back to that text |
| WpasClient.PrintfEncodePrintable | packages/aiy-bt-prov-server/wpas_client.py:98-99 | a printed SSID is printable ASCII only: every control character and every byte from 0x7F on is escaped |
| WpasClient.PrintfEncodeNoRaw | packages/aiy-bt-prov-server/wpas_client.py:98-99 | no character outside printable ASCII appears raw in a printed SSID; the tab and newline cases follow |
| WpasClient.PrintfEncodeNoTab | packages/aiy-bt-prov-server/wpas_client.py:99 | an escaped SSID holds no tab, so it stays one field of a scan line |
| WpasClient.PrintfEncodeNoNewline | packages/aiy-bt-prov-server/wpas_client.py:98 | an escaped SSID holds no newline, so it stays on its line |
| WpasClient.DecodeSsidAsWritten | packages/aiy-bt-prov-server/wpas_client.py:186-207 | the source's decoder: six sequential `replace` calls, then the `\xNN` loop, then UTF-8, computed by a loop |
| WpasClient.AsWrittenDecodedSsid | packages/aiy-bt-prov-server/wpas_client.py:186-207 | the source's unescaper as written: six chained `replace` calls, the `\xNN` loop, UTF-8; AsWrittenEscapedBackslash and AsWrittenEscapeE exhibit where it differs from DecodedSsid |
| WpasClient.ReplaceEscapesNoBackslash | packages/aiy-bt-prov-server/wpas_client.py:188-193 | the replacement chain leaves text without a backslash untouched |
| WpasClient.HexBytesNoBackslash | packages/aiy-bt-prov-server/wpas_client.py:198-206 | without a backslash, each character becomes its own code as one byte |
| WpasClient.DecodeNoBackslash | packages/aiy-bt-prov-server/wpas_client.py:186-207 | ASCII text without a backslash decodes to itself under both decoders |
| WpasClient.AsWrittenOneAscii | packages/aiy-bt-prov-server/wpas_client.py:186-207 | text the replacement chain turns into one plain ASCII character decodes, as written, to it |
| WpasClient.DecodedOfPrinted | packages/aiy-bt-prov-server/wpas_client.py:186-207 | the corrected decoder inverts wpa_supplicant's printing of UTF-8 names |
| WpasClient.AsWrittenEscapedBackslash | packages/aiy-bt-prov-server/wpas_client.py:188-191 | the SSID `\n` (backslash, n), printed as `\\n`, decodes as written to a newline, and correctly to itself |
| WpasClient.AsWrittenEscapeE | packages/aiy-bt-prov-server/wpas_client.py:190 | the SSID ESC, printed as `\e`, decodes as written to `E`, and correctly to ESC |
| WpasClient.BodyLinesOfReply | packages/aiy-bt-prov-server/wpas_client.py:98 | `response.split("\n")[1:-1]` of a header and newline-terminated lines is exactly those lines |
| WpasClient.EntriesOfFailure | packages/aiy-bt-prov-server/wpas_client.py:98-105 | the first line that raises (wrong field count, bad `int`, bad SSID) makes the whole call raise |
| WpasClient.ScanLine | packages/aiy-bt-prov-server/wpas_client.py:99-105 | one SCAN_RESULTS line: five tab-separated fields or a ValueError, an empty SSID skipped, the SSID decoded by the corrected unescaper and the rssi by `int()`; ScanLineRoundTrip reads printed lines back |
| WpasClient.IndexOfSsid | packages/aiy-bt-prov-server/wpas_client.py:104 | the position of an SSID in the results dictionary, or -1; the first such position |
| WpasClient.GetScanResults | packages/aiy-bt-prov-server/wpas_client.py:89-106 | the loop computes the deduplicated scan results, SSIDs decoded by the corrected unescaper, or the error of the first bad line |
| WpasClient.ParseScanLine | packages/aiy-bt-prov-server/wpas_client.py:99-105 | one line of the loop yields what ScanLine defines: a ValueError unless there are five tab-separated fields, no entry for an empty SSID, else the decoded SSID, `_IsSecure` of the flags and the integer rssi |
| WpasClient.KeepStronger | packages/aiy-bt-prov-server/wpas_client.py:104-105 | the dictionary update of one entry is Upsert: kept out only when its SSID already has a stronger signal |
| WpasClient.IsSecure | packages/aiy-bt-prov-server/wpas_client.py:92-93 | `_IsSecure`: a network counts as secure only when its flags name a `-PSK` mode, so enterprise and open networks do not |
| WpasClient.IsSecureGroup | packages/aiy-bt-prov-server/wpas_client.py:92-93 | a WPA2-PSK or WPA-PSK group anywhere among the flags makes the network secure |
| WpasClient.Dedup | packages/aiy-bt-prov-server/wpas_client.py:97-106 | the dictionary of `GetScanResults` as a list: never more entries than lines; DedupMembers, DedupOrder and DedupWinner say which entries |
| WpasClient.ScanResultsOf | packages/aiy-bt-prov-server/wpas_client.py:89-106 | reference for GetScanResults: one entry per SSID from its best line, in first-seen order; DedupMembers, DedupAbsent, DedupOrder and DedupWinner characterise it |
| WpasClient.BestIndex | packages/aiy-bt-prov-server/wpas_client.py:104-105 | the line that supplies an SSID's entry: strongest signal, later line among equals |
| WpasClient.DedupMembers | packages/aiy-bt-prov-server/wpas_client.py:100-106 | every named SSID of the reply has an entry, and every entry comes from the reply |
| WpasClient.DedupAbsent | packages/aiy-bt-prov-server/wpas_client.py:100-106 | an SSID without an entry is on no line |
| WpasClient.DedupOrder | packages/aiy-bt-prov-server/wpas_client.py:104-106 | entries come in order of their SSID's first line, so none is listed twice |
| WpasClient.DedupWinner | packages/aiy-bt-prov-server/wpas_client.py:104-105 | each entry is the one from its SSID's best line (highest rssi, later on ties) |
| WpasClient.ScanLineRoundTrip | packages/aiy-bt-prov-server/wpas_client.py:99-105 | with the corrected unescaper, a scan line as wpa_supplicant prints it reads back as name, security flag and rssi |
| WpasClient.NetworksOfFailure | packages/aiy-bt-prov-server/wpas_client.py:113-114 | a line without exactly four fields makes the whole call raise |
| WpasClient.NetworksOf | packages/aiy-bt-prov-server/wpas_client.py:108-121 | reference for GetNetworks: one network per LIST_NETWORKS line, in order, or the error of the first line without four fields; NetworksOfLines and NetworkLineRoundTrip characterise it |
| WpasClient.GetNetworks | packages/aiy-bt-prov-server/wpas_client.py:108-121 | the loop computes the network list of the body lines |
| WpasClient.NetworksOfLines | packages/aiy-bt-prov-server/wpas_client.py:113-120 | the list exists iff every line parses, one network per line in order |
| WpasClient.NetworkLineRoundTrip | packages/aiy-bt-prov-server/wpas_client.py:114-120 | a LIST_NETWORKS line reads back as its network |
| WpasClient.GetNetworkBySsid | packages/aiy-bt-prov-server/wpas_client.py:123-128 | the first network with the SSID, `None` if there is none; a malformed listing raises |
| WpasClient.SetNetworkCommand | packages/aiy-bt-prov-server/wpas_client.py:176-178 | `_SetNetworkProperty`'s command, for a property without spaces, reads back as `SET_NETWORK`, the id, the property and the whole value |
| WpasClient.SsidCommand | packages/aiy-bt-prov-server/wpas_client.py:150-152 | `SetNetworkSsid` sets `ssid` to the name in double quotes |
| WpasClient.PskCommand | packages/aiy-bt-prov-server/wpas_client.py:154-156 | `SetNetworkPsk` sets `psk` to the key in double quotes |
| WpasClient.ScanSsidCommand | packages/aiy-bt-prov-server/wpas_client.py:158-160 | `SetNetworkScanSsid` sets `scan_ssid` to `1` iff scanning is asked for and `0` otherwise |
| WpasClient.KeyMgmtCommand | packages/aiy-bt-prov-server/wpas_client.py:162-165 | `SetNetworkKeyMgmt` sets `key_mgmt` to `WPA-PSK` or `NONE` as KeyMgmtValue chooses |
| WpasClient.SetNetworkCommandParts | packages/aiy-bt-prov-server/wpas_client.py:176-178 | a SET_NETWORK command reads back as verb, id, property and value |
| WpasClient.KeyMgmtSecure | packages/aiy-bt-prov-server/wpas_client.py:162-165 | the key management value is `WPA-PSK` iff the network is secure |
| WpasClient.Due | packages/aiy-bt-prov-server/wpas_client.py:252-265 | the alarms whose deadline is not after `now`, in list order; DueDeadlines, DuePendingMultiset and SortedDueFirst characterise it |
| WpasClient.Pending | packages/aiy-bt-prov-server/wpas_client.py:252-265 | the alarms whose deadline is after `now`, in list order; with Due a partition of the alarms (DuePendingMultiset), sorted when the list was (PendingSorted) |
| WpasClient.InsertByDeadline | packages/aiy-bt-prov-server/wpas_client.py:234-237 | append, then a stable sort by deadline; InsertStable, InsertMultiset and InsertSorted characterise it |
| WpasClient.DuePendingMultiset | packages/aiy-bt-prov-server/wpas_client.py:264-265 | the two list comprehensions split the alarms without losing or duplicating one |
| WpasClient.DueDeadlines | packages/aiy-bt-prov-server/wpas_client.py:261-265 | fired alarms have reached their deadline, kept ones have not |
| WpasClient.SortedDueFirst | packages/aiy-bt-prov-server/wpas_client.py:237-265 | on the sorted list the fired alarms are a prefix |
| WpasClient.EarlyReturnNothingDue | packages/aiy-bt-prov-server/wpas_client.py:255-259 | the early returns skip only cases in which nothing is due |
| WpasClient.InsertStable | packages/aiy-bt-prov-server/wpas_client.py:236-237 | append-then-stable-sort puts the new alarm after every alarm due no later and before later ones |
| WpasClient.InsertMultiset | packages/aiy-bt-prov-server/wpas_client.py:236-237 | `SetAlarm` adds exactly the new alarm |
| WpasClient.InsertSorted | packages/aiy-bt-prov-server/wpas_client.py:237 | the alarm list stays sorted by deadline |
| WpasClient.PendingSorted | packages/aiy-bt-prov-server/wpas_client.py:265 | the kept alarms stay sorted |
| WpasClient.EventThread.SetAlarm | packages/aiy-bt-prov-server/wpas_client.py:234-237 | the alarm list becomes the sorted insertion of `(now + delay, alarm)` and stays sorted |
| WpasClient.EventThread.ProcessAlarms | packages/aiy-bt-prov-server/wpas_client.py:252-268 | due alarms are removed and fired in list order; the rest stay, still sorted |
| WpasClient.InterfaceConnection.Attach | packages/aiy-bt-prov-server/wpas_client.py:330-338 | no-op when attached; otherwise ATTACH, then LEVEL and the flag on `OK`, else an exception |
| WpasClient.InterfaceConnection.Detach | packages/aiy-bt-prov-server/wpas_client.py:340-349 | no-op when detached; otherwise DETACH, the flag cleared unless the reply has `FAIL`, which raises |
| WpasClient.InterfaceConnection.CloseAsWritten | packages/aiy-bt-prov-server/wpas_client.py:306-315 | `Close` as written: the undefined `detach` raises, the bare except clears the flag, nothing is sent |
| WpasClient.InterfaceConnection.Close | packages/aiy-bt-prov-server/wpas_client.py:306-315 | `Close` calling `Detach`: an attached connection sends DETACH, then the socket is closed |
| WpasClient.AsWrittenCloseSkipsDetach | packages/aiy-bt-prov-server/wpas_client.py:306-311 | an attached connection closed as written has sent only ATTACH and LEVEL |
| WpasClient.CloseSendsDetach | packages/aiy-bt-prov-server/wpas_client.py:306-311 | the same connection closed by the corrected `Close` also sends DETACH |
| WpasClient.EventThread.constructor | packages/aiy-bt-prov-server/wpas_client.py:218-225 | a new event thread has no alarms pending |
| WpasClient.InterfaceConnection.constructor | packages/aiy-bt-prov-server/wpas_client.py:280-297 | a connected socket is started, not attached, and has sent nothing |
| StaWpasClient.LastIndex | packages/aiy-bt-prov-server/sta_wpas_client.py:210 | the last quote on the line, where greedy `.*` stops |
| StaWpasClient.LineOf | packages/aiy-bt-prov-server/sta_wpas_client.py:210 | what `.` can match: the text up to the first newline, which holds none |
| StaWpasClient.QuotedGroupOf | packages/aiy-bt-prov-server/sta_wpas_client.py:209-211 | `re.search("'(.*)'", event).group(1)` of a one-line event is the whole quoted name, inner quotes included |
| StaWpasClient.NewStatus | packages/aiy-bt-prov-server/sta_wpas_client.py:191-195 | the status installed is `GetStatus`; without `wpa_state` the lookup raises KeyError |
| StaWpasClient.RssiReported | packages/aiy-bt-prov-server/sta_wpas_client.py:184-186 | a SIGNAL_POLL reply whose `RSSI` holds a decimal reports that number |
| StaWpasClient.RssiAbsent | packages/aiy-bt-prov-server/sta_wpas_client.py:184-186 | a reply with `FAIL` or without `RSSI` reports 0 |
| StaWpasClient.GetRssi | packages/aiy-bt-prov-server/sta_wpas_client.py:184-186 | `_GetRssi`, 0 when `RSSI` is missing, an error when it is not an integer |
| StaWpasClient.Station.constructor | packages/aiy-bt-prov-server/sta_wpas_client.py:32-35 | the initial state: `wpa_state` UNKNOWN, no associating SSID, no address, no disabled event |
| StaWpasClient.Station.GetSsid | packages/aiy-bt-prov-server/sta_wpas_client.py:175-182 | the associating SSID while ASSOCIATING, else the status `ssid`, else the empty string |
| StaWpasClient.Station.UpdateSupplicantStatus | packages/aiy-bt-prov-server/sta_wpas_client.py:191-195 | the new status replaces the old, the result says whether `wpa_state` changed; a failure changes nothing |
| StaWpasClient.Station.Associate | packages/aiy-bt-prov-server/sta_wpas_client.py:209-211 | the quoted SSID of a `Trying to associate` event, decoded by the corrected unescaper, becomes the associating SSID; no quotes is an AttributeError, an undecodable SSID the decoder's error, and either leaves it unchanged |
| StaWpasClient.Station.OnEvent | packages/aiy-bt-prov-server/sta_wpas_client.py:197-232 | STATUS echoes ignored; status refreshed; associating SSID kept, cleared or set from the event, and kept or cleared as the state decides when the event fails; which waiters are woken, as iffs, including those already woken when the temp-disabled groups fail to parse; the disabled event recorded |
| StaWpasClient.Station.OnNewIp | packages/aiy-bt-prov-server/sta_wpas_client.py:234-239 | the status is refreshed, then the address recorded; a failed refresh changes nothing |
| StaWpasClient.Station.IsConnected | packages/aiy-bt-prov-server/sta_wpas_client.py:58-59 | connected means COMPLETED with an address, so the SSID reported is the status one, not the associating one |
| StaWpasClient.Station.WaitForNetworkStart | packages/aiy-bt-prov-server/sta_wpas_client.py:53-68 | False on a disabled interface or with no network, True when already connected, otherwise wait |
| StaWpasClient.ReportedIpIdempotent | packages/aiy-bt-prov-server/sta_wpas_client.py:249-259 | handling the same event twice reports nothing new the second time |
| StaWpasClient.ReportedIpCases | packages/aiy-bt-prov-server/sta_wpas_client.py:251-256 | an interface going down releases the address; an event without address keys keeps the last one |
| StaWpasClient.ReportedIp | packages/aiy-bt-prov-server/sta_wpas_client.py:249-259 | the address the dhcpcd client reports after an event: empty when the interface goes down, else the new address when there is one, else the last one reported; ReportedIpIdempotent and ReportedIpCases characterise it |
| StaWpasClient.NewIpDhcpcdClient.OnEvent | packages/aiy-bt-prov-server/sta_wpas_client.py:249-259 | the owner is told exactly when the address changes, and is given the new one |
| StaWpasClient.DisableAll | packages/aiy-bt-prov-server/sta_wpas_client.py:103-104 | one DISABLE_NETWORK per configured network, in order |
| StaWpasClient.SetNetworkDistinct | packages/aiy-bt-prov-server/sta_wpas_client.py:123-127 | the SET_NETWORK commands of the setup are distinct when property or value differ |
| StaWpasClient.NetworkSetup | packages/aiy-bt-prov-server/sta_wpas_client.py:121-130 | the commands after ADD_NETWORK: ssid, scan_ssid, key_mgmt, the psk iff non-empty, SELECT_NETWORK; NetworkSetupPsk and NetworkSetupKeyMgmt state its iffs |
| StaWpasClient.NetworkSetupPsk | packages/aiy-bt-prov-server/sta_wpas_client.py:122-127 | the PSK is sent iff the psk is non-empty |
| StaWpasClient.NetworkSetupKeyMgmt | packages/aiy-bt-prov-server/sta_wpas_client.py:122-130 | key management is WPA-PSK iff the psk is non-empty, and SELECT_NETWORK comes last |
| StaWpasClient.PrepareConnect | packages/aiy-bt-prov-server/sta_wpas_client.py:95-104 | LIST_NETWORKS, the removal of the first old network of the same name, LIST_NETWORKS again, then DISABLE_NETWORK for every listed network; a malformed listing raises after the commands already sent |
| StaWpasClient.ConnectNetwork | packages/aiy-bt-prov-server/sta_wpas_client.py:90-173 | True iff both listings parse, the address was released, ADD_NETWORK gave an id and the connection came up; every command sent, in order: both LIST_NETWORKS, the removal and disables, ADD_NETWORK, the SET_NETWORK commands, SELECT_NETWORK, then SAVE_CONFIG or REMOVE_NETWORK |
| StaWpasClient.NewIpDhcpcdClient.constructor | packages/aiy-bt-prov-server/sta_wpas_client.py:243-245 | no IP address has been reported yet |
| P2pWpasClient.P2pInterfaces | packages/aiy-bt-prov-server/p2p_wpas_client.py:67-68 | the listed names that start with `p2p-` and the client's interface, and only those |
| P2pWpasClient.RemoveCommands | packages/aiy-bt-prov-server/p2p_wpas_client.py:69 | one `P2P_GROUP_REMOVE <ifname>` per name, in order |
| P2pWpasClient.RemoveAllP2pInterfaces | packages/aiy-bt-prov-server/p2p_wpas_client.py:66-70 | the loop sends the removal commands of the matching interfaces, in listing order |
| P2pWpasClient.RemovedAreP2p | packages/aiy-bt-prov-server/p2p_wpas_client.py:66-70 | an interface is removed iff it is listed and has the client's `p2p-` prefix |
| P2pWpasClient.P2pClient.constructor | packages/aiy-bt-prov-server/p2p_wpas_client.py:30-38 | no group owner, nothing pending, and the device name and SSID postfix set to `AIY` |
| P2pWpasClient.P2pClient.OnEvent | packages/aiy-bt-prov-server/p2p_wpas_client.py:72-93 | a started group is recorded, ends the pending state and wakes waiters; a removed group is forgotten; a non-matching started event raises |
| P2pWpasClient.P2pClient.OnAlarm | packages/aiy-bt-prov-server/p2p_wpas_client.py:95-104 | only CHECK_GROUP with no group and a pending creation removes the P2P interfaces, clears pending and wakes waiters |
| P2pWpasClient.P2pClient.Close | packages/aiy-bt-prov-server/p2p_wpas_client.py:40-44 | the recorded group, if any, is removed |
| P2pWpasClient.StartP2pGo | packages/aiy-bt-prov-server/p2p_wpas_client.py:46-64 | the first group-owner interface observed after a wait, `None` iff none was |
| DhcpcdClient.Le32 | packages/aiy-bt-prov-server/dhcpcd_client.py:127 | `struct.unpack("@I", buf)[0]` is an unsigned 32-bit value |
| DhcpcdClient.Le32RoundTrip | packages/aiy-bt-prov-server/dhcpcd_client.py:126-127 | the four length bytes dhcpcd sends unpack to the length |
| DhcpcdClient.Payload | packages/aiy-bt-prov-server/dhcpcd_client.py:126-128 | the payload follows the 4-byte length and is no longer than what the socket holds |
| DhcpcdClient.PayloadOfFrame | packages/aiy-bt-prov-server/dhcpcd_client.py:126-128 | a framed payload is read back exactly, whatever follows it |
| DhcpcdClient.EntryTextParts | packages/aiy-bt-prov-server/dhcpcd_client.py:132-134 | `entry[0]` is the text before the first `=`, `entry[1]` the text up to the second |
| DhcpcdClient.EntryNoIndexError | packages/aiy-bt-prov-server/dhcpcd_client.py:132-134 | a record that holds `=` and decodes has at least two pieces, so `entry[1]` exists |
| DhcpcdClient.Entry | packages/aiy-bt-prov-server/dhcpcd_client.py:132-134 | a record's UTF-8 text split at `=`, pieces 0 and 1 as a pair; UnicodeDecodeError for bad UTF-8 and IndexError without `=`; EntryTextParts, EntryNoIndexError and EntryOfBytes characterise it |
| DhcpcdClient.EventOfFailure | packages/aiy-bt-prov-server/dhcpcd_client.py:132 | the first record that fails to decode makes the whole call raise |
| DhcpcdClient.EventOf | packages/aiy-bt-prov-server/dhcpcd_client.py:129-135 | the event dictionary of a payload: records split at NUL, undecodable ones raise, those without `=` skipped, the last record of a key wins; EventOfDrops, MapOfLast, MapOfDomain and EventOfPieces characterise it |
| DhcpcdClient.ReceiveEvent | packages/aiy-bt-prov-server/dhcpcd_client.py:125-135 | the loop computes the event dictionary of the bytes on the socket |
| DhcpcdClient.EventOfDrops | packages/aiy-bt-prov-server/dhcpcd_client.py:132 | a record without `=` is skipped wherever it stands |
| DhcpcdClient.MapOfLast | packages/aiy-bt-prov-server/dhcpcd_client.py:133-134 | a key holds the value of its last record |
| DhcpcdClient.MapOfDomain | packages/aiy-bt-prov-server/dhcpcd_client.py:133-134 | a key is present iff some record has it |
| DhcpcdClient.EntryOfBytes | packages/aiy-bt-prov-server/dhcpcd_client.py:129-134 | one `key=value` record without NUL or further `=` reads back as its pair |
| DhcpcdClient.EventOfPieces | packages/aiy-bt-prov-server/dhcpcd_client.py:129-135 | the records of an event read back as the dictionary of their pairs |
| DhcpcdClient.ReceiveEncoded | packages/aiy-bt-prov-server/dhcpcd_client.py:125-135 | a framed, NUL-separated event reads back as its dictionary |
| DhcpcdClient.ForwardEvents | packages/aiy-bt-prov-server/dhcpcd_client.py:63-71 | the forwarded events are exactly `Forwarded` of the events before the first one without `interface`: those of the thread's interface, in order and with repeats; failure iff such an event exists, its KeyError ending the thread |
| DhcpcdClient.MonitorConnection.constructor | packages/aiy-bt-prov-server/dhcpcd_client.py:84-101 | the handshake: `--getinterfaces`, a 4-byte read, `--listen` |
| DhcpcdClient.MonitorConnection.Close | packages/aiy-bt-prov-server/dhcpcd_client.py:112-116 | the socket is closed only while started, so closing twice closes once |
| DhcpcdClient.EventThread.Close | packages/aiy-bt-prov-server/dhcpcd_client.py:59-61 | the loop flag is set and the monitor connection closed |
| DhcpcdClient.CloseTwice | packages/aiy-bt-prov-server/dhcpcd_client.py:112-116 | a connection closed twice has sent one close after its handshake |
| DhcpcdClient.EventThread.constructor | packages/aiy-bt-prov-server/dhcpcd_client.py:49-54 | a new event thread holds its monitor connection and is not closed |
| BtProvServer.Be32 | packages/aiy-bt-prov-server/bt_prov_server.py:312 | `struct.unpack("!I", buf)[0]` is an unsigned 32-bit value |
| BtProvServer.Be32RoundTrip | packages/aiy-bt-prov-server/bt_prov_server.py:300-312 | the length packed by `_SendMessage` unpacks to itself |
| BtProvServer.Be32BytesOf | packages/aiy-bt-prov-server/bt_prov_server.py:300-312 | every four bytes are the packing of the length they unpack to |
| BtProvServer.NextFrame | packages/aiy-bt-prov-server/bt_prov_server.py:310-313 | the next frame is read iff its 4-byte length and that many bytes arrive |
| BtProvServer.NextFrameOfFrame | packages/aiy-bt-prov-server/bt_prov_server.py:296-313 | a frame written by `_SendMessage` is read back exactly, whatever follows |
| BtProvServer.FrameOfNextFrame | packages/aiy-bt-prov-server/bt_prov_server.py:310-313 | whatever is read as a frame was one |
| BtProvServer.Frame | packages/aiy-bt-prov-server/bt_prov_server.py:296-301 | `_SendMessage` writes the message's length as four big-endian bytes that unpack to it, then the message itself |
| BtProvServer.WifiInfoOf | packages/aiy-bt-prov-server/bt_prov_server.py:318-325 | DISABLED iff `INTERFACE_DISABLED`, CONNECTED iff `COMPLETED`, else DISCONNECTED; the other fields copied |
| BtProvServer.AliasParts | packages/aiy-bt-prov-server/bt_prov_server.py:199-204 | the alias `AIY-<kit_id>-<name>` reads back as kit id and device name |
| BtProvServer.SetDeviceNameReply | packages/aiy-bt-prov-server/bt_prov_server.py:254-259 | the reply carries the stored name, with SUCCESS iff it is the requested one |
| BtProvServer.HandleAsWritten | packages/aiy-bt-prov-server/bt_prov_server.py:221-253 | as written, `set_device_name` always raises AttributeError; every other request is handled as intended |
| BtProvServer.Handle | packages/aiy-bt-prov-server/bt_prov_server.py:240-294 | the handlers with the corrected `set_device_name`: each known request's response, stored name and station calls, `None` otherwise; HandleKnown and SetDeviceNameStores characterise it |
| BtProvServer.SetDeviceNameStores | packages/aiy-bt-prov-server/bt_prov_server.py:250-260 | with the name stored, `set_device_name` succeeds and the new name is kept |
| BtProvServer.HandleKnown | packages/aiy-bt-prov-server/bt_prov_server.py:221-238 | with the corrected `set_device_name` handler, exactly the five known requests are answered; only `set_device_name` changes the name |
| BtProvServer.UnknownEndsDialogue | packages/aiy-bt-prov-server/bt_prov_server.py:236-238 | an unknown request ends the connection, nothing sent, the rest unread |
| BtProvServer.Dialogue | packages/aiy-bt-prov-server/bt_prov_server.py:221-238 | reference for `_HandleConnection`: reads frames until the bytes run out or a request is unknown or undecodable, answering each with Handle; DialogueStep, UnknownEndsDialogue and RenameThenGetState characterise it |
| BtProvServer.DialogueStep | packages/aiy-bt-prov-server/bt_prov_server.py:221-238 | with the corrected `set_device_name` handler, each known request is answered with one frame, in order |
| BtProvServer.RenameThenGetState | packages/aiy-bt-prov-server/bt_prov_server.py:240-260 | with the corrected `set_device_name` handler, `get_state` after `set_device_name` reports the new name |
| BtProvServer.CloseEffectsCover | packages/aiy-bt-prov-server/bt_prov_server.py:93-108 | the station client is closed first; each socket and the trigger are closed iff present; discoverable is switched off |
| BtProvServer.Server.constructor | packages/aiy-bt-prov-server/bt_prov_server.py:64-85 | the trigger is used iff enabled and `kit_id != 0`; the name is the kit name |
| BtProvServer.Server.Triggered | packages/aiy-bt-prov-server/bt_prov_server.py:194-197 | the flag is set, so `_WaitForTrigger` stops waiting |
| BtProvServer.Server.Accept | packages/aiy-bt-prov-server/bt_prov_server.py:153 | a client connects with the data it will send |
| BtProvServer.Server.SetName | packages/aiy-bt-prov-server/bt_prov_server.py:199-204 | the device name is stored and the alias set from it |
| BtProvServer.Server.SetDiscoverable | packages/aiy-bt-prov-server/bt_prov_server.py:206-216 | the adapter properties and `hciconfig` command for each setting |
| BtProvServer.Server.Close | packages/aiy-bt-prov-server/bt_prov_server.py:93-108 | only the first call closes anything |
| BtProvServer.Server.Recv | packages/aiy-bt-prov-server/bt_prov_server.py:306 | `recv` returns between 1 and `max` bytes, in order; IOError at the end of the data |
| BtProvServer.Server.ReceiveBytes | packages/aiy-bt-prov-server/bt_prov_server.py:303-308 | exactly `num_bytes` bytes however the data is split; IOError if the client stops first |
| BtProvServer.Server.ReceiveRequest | packages/aiy-bt-prov-server/bt_prov_server.py:310-316 | the payload of the next frame, parsed; IOError or DecodeError otherwise |
| BtProvServer.Server.SendMessage | packages/aiy-bt-prov-server/bt_prov_server.py:296-301 | nothing without a client; otherwise the framed message, or struct.error on a length over 32 bits |
| BtProvServer.Server.HandleGetState | packages/aiy-bt-prov-server/bt_prov_server.py:240-248 | sends the `get_state` reply: version, kit id, stored name, wifi info |
| BtProvServer.Server.HandleSetDeviceName | packages/aiy-bt-prov-server/bt_prov_server.py:250-260 | the corrected handler of the third Findings row: stores the name and sends the reply with it |
| BtProvServer.Server.HandleSetDeviceNameAsWritten | packages/aiy-bt-prov-server/bt_prov_server.py:250-253 | the undefined `_UpdateDeviceName` raises AttributeError |
| BtProvServer.Server.HandleIdentify | packages/aiy-bt-prov-server/bt_prov_server.py:262-267 | sends SUCCESS with the fixed test text |
| BtProvServer.Server.HandleScanNetworks | packages/aiy-bt-prov-server/bt_prov_server.py:269-282 | scans, with the default timeout unless one is given, and sends the results |
| BtProvServer.Server.HandleConnectNetwork | packages/aiy-bt-prov-server/bt_prov_server.py:284-294 | connects, with the default timeout unless one is given, and sends the status and wifi info |
| BtProvServer.Server.Dispatch | packages/aiy-bt-prov-server/bt_prov_server.py:224-238 | a known request goes to its handler, `set_device_name` to the corrected one; an unknown request changes nothing |
| BtProvServer.Server.HandleConnection | packages/aiy-bt-prov-server/bt_prov_server.py:221-238 | the loop's total effect is the dialogue over the incoming bytes, with the corrected `set_device_name` handler: frames sent, station calls, stored name, unread rest, outcome |
| BtProvServer.CloseTwice | packages/aiy-bt-prov-server/bt_prov_server.py:93-108 | a server closed twice shows only the first call's effects |
| CwcSchema.ClientMessageShapes | packages/aiy-cwc-server/schema.py:20-82 | a client message is valid iff it is a stdout, stderr or exit message; the tag check adds nothing |
| CwcSchema.ServerCommandShapes | packages/aiy-cwc-server/schema.py:84-172 | a valid command has one of the three shapes, told apart by its `type` |
| CwcSchema.BareRunCommand | packages/aiy-cwc-server/schema.py:86-121 | `{"type": "run"}` alone is a valid command |
| CwcSchema.SignalRange | packages/aiy-cwc-server/schema.py:122-137 | a signal command is valid iff `signum` is within 1..32 |
| CwcServer.StreamMsg | packages/aiy-cwc-server/server.py:125-127 | a stream message has exactly the `type` and `data` keys and the requested kind |
| CwcServer.StreamMsgData | packages/aiy-cwc-server/server.py:125-127 | the `data` field base64-decodes back to the bytes sent |
| CwcServer.ExitMsg | packages/aiy-cwc-server/server.py:129-131 | an exit message carries the exit code |
| CwcServer.SentMessagesValid | packages/aiy-cwc-server/server.py:125-131 | every message the server sends is valid under the client-message schema |
| CwcServer.ValidateMsg | packages/aiy-cwc-server/server.py:133-134 | the identity, except that with validation enabled a message outside the command schema is an error |
| CwcServer.Get | packages/aiy-cwc-server/server.py:137 | `get` fails on a non-object, returns the field when present and the default otherwise |
| CwcServer.Index | packages/aiy-cwc-server/server.py:139 | indexing succeeds exactly when the key is present, returning its value |
| CwcServer.Tagged | packages/aiy-cwc-server/server.py:137 | the tag check succeeds exactly on a validated object and holds iff `type` is the tag |
| CwcServer.ParseRunMsg | packages/aiy-cwc-server/server.py:136-144 | `None` exactly when the tag is not `run`; otherwise `args` plus five fields with their defaults (1024, pipe, pipe, empty env, no files) |
| CwcServer.ParseSignalMsg | packages/aiy-cwc-server/server.py:146-149 | `None` exactly when the tag is not `signal`; otherwise the `signum` field |
| CwcServer.ParseStdinMsg | packages/aiy-cwc-server/server.py:151-154 | `None` exactly when the tag is not `stdin`; otherwise the base64-decoded `data` |
| CwcServer.ParsersExclusive | packages/aiy-cwc-server/server.py:136-154 | no message is accepted by two of the three parsers |
| CwcServer.ValidatedSignum | packages/aiy-cwc-server/server.py:146-149 | with validation on, a parsed signal number is a number within 1..32 |
| CwcServer.Convert | packages/aiy-cwc-server/server.py:91-95 | the three redirection names map to pipe, stdout and null; any other name fails |
| CwcServer.ChainMap | packages/aiy-cwc-server/server.py:103 | the chained environment has the keys of both maps, and the request's values win |
| CwcServer.Unpacked | packages/aiy-cwc-server/server.py:99 | `*args` gives a list's items or a string's one-character strings, and any other value cannot be unpacked |
| CwcServer.Argv | packages/aiy-cwc-server/server.py:99-105 | the command line exists iff every unpacked item is a string, and holds those strings in order |
| CwcServer.StartProcess | packages/aiy-cwc-server/server.py:97-106 | an `args` that cannot be unpacked is a TypeError before anything else; then the redirections go through `CONVERT`; starting succeeds iff there is a program, every argument is a string, both redirections are known and `env` maps names to strings; the child's environment is the request's in front of the server's |
| CwcServer.StartProcessTypeError | packages/aiy-cwc-server/server.py:97-106 | with known redirections, an empty argument list or a non-string argument is a TypeError |
| CwcServer.InheritedEnv | packages/aiy-cwc-server/server.py:103 | the server's environment is carried over key by key |
| CwcServer.ReadStreams | packages/aiy-cwc-server/server.py:194-197 | stdout is read iff it is piped; stderr is read iff it is piped |
| CwcServer.MessageOps | packages/aiy-cwc-server/server.py:165-180 | one message yields at most a signal and a stdin operation |
| CwcServer.ReceiveOp | packages/aiy-cwc-server/server.py:163-180 | the operations applied to the child are those of each message in turn |
| CwcServer.ReceiveOpsAppend | packages/aiy-cwc-server/server.py:163-180 | messages are handled independently: two batches give the first batch's operations, then the second's |
| CwcServer.UntilEmpty | packages/aiy-cwc-server/server.py:157-160 | the chunks forwarded are a prefix of the reads, all non-empty, stopped by the first empty read |
| CwcServer.ReadOp | packages/aiy-cwc-server/server.py:156-161 | the messages sent are the stream messages of the chunks read before end of stream |
| CwcServer.UntilEmptyPrefix | packages/aiy-cwc-server/server.py:157-160 | the forwarded chunks are exactly the reads before the first empty one |
| CwcClient.DecodeEncode | packages/aiy-cwc-server/client.py:46-50 | `decode` undoes `encode` |
| CwcClient.Encode | packages/aiy-cwc-server/client.py:46-47 | `base64.b64encode(...).decode()`; DecodeEncode proves Decode inverts it |
| CwcClient.Decode | packages/aiy-cwc-server/client.py:49-50 | `base64.b64decode`, an error on non-canonical text; DecodeEncode proves it inverts Encode |
| CwcClient.Strings | packages/aiy-cwc-server/client.py:136 | the argument list becomes a JSON array of the same strings, in order |
| CwcClient.StringMap | packages/aiy-cwc-server/client.py:134-135 | a dictionary of strings becomes a JSON object with the same keys and values |
| CwcClient.MakeRunMsg | packages/aiy-cwc-server/client.py:52-59 | a run command has exactly the seven keys and the `run` tag |
| CwcClient.MakeSignalMsg | packages/aiy-cwc-server/client.py:61-63 | a signal command has exactly `type` and `signum` and the `signal` tag |
| CwcClient.MakeStdinMsg | packages/aiy-cwc-server/client.py:65-67 | a stdin command has exactly `type` and `data` and is valid under the command schema |
| CwcClient.RunMsgValid | packages/aiy-cwc-server/client.py:52-59 | the run command passes the schema iff the chunk size is not negative and both redirection names are allowed |
| CwcClient.RunMsgParsed | packages/aiy-cwc-server/client.py:52-59 | the server's run parser recovers all six fields the client put in |
| CwcClient.SignalMsgValid | packages/aiy-cwc-server/client.py:61-63 | a signal command passes the schema iff its number is within 1..32 |
| CwcClient.SignalMsgHandled | packages/aiy-cwc-server/client.py:61-63 | the server signals the child unless validation is on and the number is out of range |
| CwcClient.StdinMsgHandled | packages/aiy-cwc-server/client.py:65-67 | stdin data reaches the child unchanged, and empty data closes its stdin |
| CwcClient.Run | packages/aiy-cwc-server/client.py:101-115 | the message loop writes stream data out, returns the first exit code, and returns 127 when the socket closes first |
| CwcClient.ClientRun | packages/aiy-cwc-server/client.py:101-115 | reference for the message loop: stdout and stderr written, the first `exit` code returned, 127 when the socket closes first; ExitEndsRun, StdoutMsgWritten and StdoutThenExit characterise it |
| CwcClient.Texts | packages/aiy-cwc-server/client.py:101-103 | each JSON message becomes one text frame, in order |
| CwcClient.ExitEndsRun | packages/aiy-cwc-server/client.py:106-107 | an exit message ends the run with its code, whatever follows |
| CwcClient.StdoutMsgWritten | packages/aiy-cwc-server/client.py:108-110 | a stdout message's bytes are written, then the run goes on |
| CwcClient.StdoutReachesClient | packages/aiy-cwc-server/client.py:101-113 | the chunks the server forwards from the child's stdout are written to the client's stdout, in order |
| CwcClient.TextsSnoc | packages/aiy-cwc-server/client.py:101-103 | framing one more message appends one frame |
| CwcClient.StdoutThenExit | packages/aiy-cwc-server/client.py:101-115 | for a child that writes and exits, the client writes exactly its bytes and returns its code |
| CwcClient.SpawnUri | packages/aiy-cwc-server/client.py:130 | the URI is `ws://`, the host, a colon, the port (which reads back as the number) and `/spawn` |
| CwcClient.MainRunMsg | packages/aiy-cwc-server/client.py:134-137 | `main`'s run command runs the launcher with the extra arguments, unbuffered, with the file as `main.py`, and is valid exactly when the chunk size is not negative |
| CwcClient.MainRunMsgParsed | packages/aiy-cwc-server/client.py:130-138 | the server runs `/usr/bin/env python3 main.py` with the extra arguments, unbuffered, with the file's text as `main.py` |
| CwcClient.MainRunMsgStarts | packages/aiy-cwc-server/client.py:134-137 | the server starts `main`'s run command as the launcher and the extra arguments, with `PYTHONUNBUFFERED=1` |
| ImgTools.Rows | scripts/imgtools.py:115-131 | each line of the listing gives its own row, or none when it is skipped |
| ImgTools.GetPartitionInfo | scripts/imgtools.py:113-133 | the loop builds the table of the rows of the split output, a later row replacing an earlier one |
| ImgTools.TableStep | scripts/imgtools.py:131 | a skipped line leaves the table as it is; a parsed line files its partition under its number |
| ImgTools.TableNumbers | scripts/imgtools.py:131 | every entry is filed under its own partition number |
| ImgTools.TableFromRows | scripts/imgtools.py:115-131 | every entry comes from some parsed line |
| ImgTools.TableLastWins | scripts/imgtools.py:131 | the last line with a given number is the one kept |
| ImgTools.PartitionTableSpec | scripts/imgtools.py:115-133 | a number is in the table iff some line parses with it, and the entry is that of the last such line |
| ImgTools.PartitionTable | scripts/imgtools.py:98-133 | reference for get_partition_info: the parsed rows filed by number, the last row of a number winning; PartitionTableSpec, TableNumbers and TableLastWins characterise it |
| ImgTools.SectorsOfDecimal | scripts/imgtools.py:125-127 | a sector count printed with its `s` suffix reads back as itself |
| ImgTools.DecimalWord | scripts/imgtools.py:116 | a printed number is one non-empty field |
| ImgTools.RowRoundTrip | scripts/imgtools.py:116-131 | a printed row whose type and file system are single words parses back to the same partition |
| ImgTools.Resize2fsCommands | scripts/imgtools.py:149-157 | `e2fsck -yf` runs first; then `resize2fs -M` for minimum, plain `resize2fs` for maximum, and nothing for any other size |
| ImgTools.DigitRun | scripts/imgtools.py:163 | the run of digits after a position is maximal and all digits |
| ImgTools.ReportedSize | scripts/imgtools.py:163-170 | a reported size is a whole number of 4 KiB blocks |
| ImgTools.Resize2fs | scripts/imgtools.py:139-170 | a size other than minimum or maximum is a `ValueError`; a new size is a non-negative multiple of 4096; otherwise the exit status is 1 |
| ImgTools.ReportedSizeTo | scripts/imgtools.py:163-170 | "to N (4k) blocks" gives N × 4096 bytes when nothing earlier matches |
| ImgTools.BlocksAtReport | scripts/imgtools.py:163-165 | the pattern matches where the count is printed, capturing that count |
| ImgTools.BlocksAtDigits | scripts/imgtools.py:163-165 | a match is the lead text, a maximal run of digits and the block suffix |
| ImgTools.DigitRunExact | scripts/imgtools.py:163 | the digit run stops at the first non-digit |
| ImgTools.SearchFirst | scripts/imgtools.py:163-165 | `re.search` returns the first match |
| ImgTools.SearchNone | scripts/imgtools.py:163-165 | with no match anywhere, the search finds nothing |
| ImgTools.SearchNoneOnly | scripts/imgtools.py:163-165 | a search that finds nothing saw no match |
| ImgTools.Resize2fsExit | scripts/imgtools.py:163-168 | the exit with status 1 happens iff the size is accepted and neither pattern occurs anywhere in the output |
| ImgTools.FdiskScriptLines | scripts/imgtools.py:180-187 | the script is exactly `d`, n, `n`, `p`, n, start, end, `w`, one per line, and ends with a newline |
| ImgTools.ResizePart | scripts/imgtools.py:172-190 | `sudo fdisk <disk>` fed the delete-and-recreate script; FdiskScriptLines gives the script's lines |
| BuildCommon.DoExpand | scripts/build_common.py:29-44 | a missing root partition is a `KeyError` raised after the image file has grown by `expand_bytes`; otherwise the file grows by `expand_bytes`, the start is kept, the end moves by `expand_bytes // 512` sectors, fdisk gets the resize script for those bounds, and resize2fs works at the start's byte offset |
| BuildCommon.ExpandFits | scripts/build_common.py:32-43 | a root partition that fitted the image still fits after growing; one that reached the image's end reaches it again, short by less than one sector |
| BuildCommon.SplitShorter | scripts/build_common.py:95 | splitting a path that is not all separators gives a shorter head, so the loop ends |
| BuildCommon.PosixSplit | scripts/build_common.py:95 | `os.path.split` shortens the path and joins back to it |
| BuildCommon.FindExisting | scripts/build_common.py:90-95 | the loop's result is that of the reference walk over successive splits |
| BuildCommon.Steps | scripts/build_common.py:91-95 | the walk starts from the given path with no name |
| BuildCommon.FindExistingFirst | scripts/build_common.py:90-95 | the result is the first visited path that exists, with the name of its child; if the walk runs out, no visited path exists |
| BuildCommon.StepsJoin | scripts/build_common.py:95 | each later step holds the name whose join with its path gives the previous path |
| BuildCommon.MountPointCleansUp | scripts/build_common.py:97-105 | an existing mount point is left alone; for a missing one, `makedirs` runs on the path and the tree removed on exit is the topmost missing directory, whose parent exists |
| BuildCommon.MountPoint | scripts/build_common.py:89-105 | on entry the path is created when an ancestor is missing, on exit the topmost created directory is removed; TypeError when nothing exists, a hang on an all-slash path; MountPointCleansUp characterises it |
| BuildCommon.BindTargets | scripts/build_common.py:122-125 | the bind list succeeds iff every host path exists and every image path is absolute, and each image path is re-rooted under the mount point |
| BuildCommon.ReRooted | scripts/build_common.py:125 | an absolute image path lands directly under the mount point |
| BuildCommon.SystemMountsReRooted | scripts/build_common.py:113-125 | `/dev`, `/sys`, `/proc` and `/dev/pts` land at the same paths inside the image |
| BuildCommon.MountAndSetupOrder | scripts/build_common.py:109-129 | the boot partition goes at `boot` under the mount point, then the four system directories, then the caller's mounts in order |
| BuildCommon.MountAndSetup | scripts/build_common.py:109-129 | the partitions' byte offsets (KeyError when either is missing), the boot mount, the system bind mounts, then the caller's; MountAndSetupOrder, BindTargets and SystemMountsReRooted characterise it |
| BuildCommon.EnvList | scripts/build_common.py:140-145 | one `k=v` entry per variable, followed by the four fixed locale and emulator settings |
| BuildCommon.RunInChroot | scripts/build_common.py:133-148 | a `ValueError` exactly for an empty command, or one whose program is absolute or not a file in the image |
| BuildCommon.ChrootArgv | scripts/build_common.py:140-147 | the argv is `sudo`, the assignments, `chroot .` and the command unchanged; each assignment splits back at its first `=` |
| ShrinkImage.ResizeTruncatesAtEnd | scripts/shrink_image.py:33-65 | the image is cut exactly after the root partition as read back, which keeps its start and is recreated by fdisk with the computed end |
| ShrinkImage.ResizeChecksEnd | scripts/shrink_image.py:53-60 | after shrinking, the run exits with status 1 exactly when the end sector read back differs from start + size // 512 − 1, after fdisk has rewritten the table with the computed bounds; it is cut otherwise |
| ShrinkImage.ResizeNeedsSize | scripts/shrink_image.py:40-43 | with no size in the resize2fs output, the run ends in `Exited(1)`, which carries no fdisk call: the partition table is not touched |
| ShrinkImage.ResizeRaises | scripts/shrink_image.py:37-56 | the KeyError before anything changes happens exactly when the root partition is missing from the first table; a root partition missing from the table read back raises only after fdisk has rewritten it with the computed bounds |
| ShrinkImage.DoResize | scripts/shrink_image.py:33-65 | reference for do_resize: a KeyError before the table is touched, an exit before the table is touched, a KeyError or an exit after the rewrite, or the cut; ResizeRaises, ResizeTruncatesAtEnd, ResizeChecksEnd and ResizeNeedsSize characterise it |
| ShrinkImage.NewCmdline | scripts/shrink_image.py:74-83 | enabling leaves the flags in the line; disabling a line without the flags, or enabling one that has them, changes nothing |
| ShrinkImage.SetExpandBoot | scripts/shrink_image.py:86-89 | the file is rewritten only with a line that differs from the old one |
| ShrinkImage.ExpandBootIdempotent | scripts/shrink_image.py:79-89 | enabling twice writes the file only once |
| ShrinkImage.NoExpandWithoutFlags | scripts/shrink_image.py:77-86 | disabling on a line without the flags writes nothing |
| ShrinkImage.NoExpandUndoesExpand | scripts/shrink_image.py:77-83 | disabling after enabling gives back the stripped line, newline-terminated |
| ShrinkImage.NotBefore | scripts/shrink_image.py:74-78 | no occurrence of the flags starts inside the text they were appended to |
| ShrinkImage.FlagSpaces | scripts/shrink_image.py:74 | the flags hold spaces at their first and seventh characters only |
| ShrinkImage.StripInside | scripts/shrink_image.py:81 | stripping a line cannot create an occurrence of the flags |
| ShrinkImage.Links | scripts/shrink_image.py:127-130 | one link path per run level, `etc/rc<level>.d/S01resize2fs_once` |
| ShrinkImage.JoinTwo | scripts/shrink_image.py:127-131 | joining two relative names below the mount point puts one separator between each |
| ShrinkImage.EtcDirShape | scripts/shrink_image.py:127 | the `etc` directory path ends in `c`, not a separator |
| ShrinkImage.ScriptPathShape | scripts/shrink_image.py:127 | the script is `init.d/resize2fs_once` below `etc` |
| ShrinkImage.LinkPathShape | scripts/shrink_image.py:128-130 | the run-level 3 link is `rc3.d/S01resize2fs_once` below `etc` |
| ShrinkImage.LinkTailMatches | scripts/shrink_image.py:131 | the link's place below `etc` matches `rc?.d/???resize2fs_once` |
| ShrinkImage.GlobBelowEtc | scripts/shrink_image.py:131 | a path below `etc` is listed by the pattern iff its rest matches it |
| ShrinkImage.LinkMatchesGlob | scripts/shrink_image.py:128-131 | the link that enabling creates is one that disabling removes, and the script is not |
| ShrinkImage.WithoutScriptOf | scripts/shrink_image.py:143-150 | a map holding exactly the entries other than the script and the links is the image after disabling |
| ShrinkImage.ExpandRootCreates | scripts/shrink_image.py:133-141 | enabling creates exactly the executable script and its link when neither exists, and enabling again changes nothing |
| ShrinkImage.NoExpandRemoves | scripts/shrink_image.py:143-150 | disabling leaves neither the script nor any start link, and keeps every other entry |
| ShrinkImage.NoExpandUndoesExpandRoot | scripts/shrink_image.py:133-150 | disabling after enabling restores an image that had neither the script nor a start link |
| ShrinkImage.ExpandRoot | scripts/shrink_image.py:91-150 | reference for set_expand_root: enabling writes the executable script and its links unless present, disabling removes the script and every matching link; ExpandRootCreates, NoExpandRemoves and NoExpandUndoesExpandRoot characterise it |
| ShrinkImage.ImageRoot.constructor | scripts/shrink_image.py:91 | the image's files are those given |
| ShrinkImage.ImageRoot.SetExpandRoot | scripts/shrink_image.py:91-150 | the files after `set_expand_root` are those of the reference definition, which fails when a link already exists |
| ShrinkImage.ImageRoot.Install | scripts/shrink_image.py:133-141 | writing the script and creating the links gives the reference result |
| ShrinkImage.ImageRoot.Uninstall | scripts/shrink_image.py:143-150 | removing the script and then every entry the pattern lists leaves the files without the script and the links |
| ShrinkImage.MainSteps | scripts/shrink_image.py:203-209 | resize runs iff asked, the expand switch always with the option's value, compression iff asked with its `xz` argv, in that order |
| ShrinkImage.RunStepsStops | scripts/shrink_image.py:203-211 | a run stops at the first failing step; status 0 means every step completed |
| ShrinkImage.MainOrder | scripts/shrink_image.py:203-209 | expansion is switched only after a requested resize succeeded, and compression only after both |
| McuUpdater.FirmwareFor | packages/aiy-io-mcu-firmware/aiy_mcu_updater.py:44-48 | a firmware file is known exactly for the three (product, version) pairs, always reporting version 0.5 under a relative file name |
| McuUpdater.I2cAddress | packages/aiy-io-mcu-firmware/aiy_mcu_updater.py:50-53 | the address is 0x51 for the Vision Bonnet, 0x52 for the Voice Bonnet, and there is none for any other product |
| McuUpdater.FirmwareHasAddress | packages/aiy-io-mcu-firmware/aiy_mcu_updater.py:44-53 | every product with known firmware has an I2C address |
| McuUpdater.Hex | packages/aiy-io-mcu-firmware/aiy_mcu_updater.py:38-39 | the hexadecimal form of a number is never empty |
| McuUpdater.Format2X | packages/aiy-io-mcu-firmware/aiy_mcu_updater.py:38-39 | `%2X` gives at least two characters |
| McuUpdater.BonnetAddresses | packages/aiy-io-mcu-firmware/aiy_mcu_updater.py:38-53 | the two boards' files are those of I2C devices 1-0051 and 1-0052 |
| McuUpdater.Format2XPads | packages/aiy-io-mcu-firmware/aiy_mcu_updater.py:38-39 | an address below 0x10 is padded with a space |
| McuUpdater.Trim | packages/aiy-io-mcu-firmware/aiy_mcu_updater.py:62-71 | after trimming, the name neither starts nor ends with whitespace |
| McuUpdater.TrimDeviceTreeString | packages/aiy-io-mcu-firmware/aiy_mcu_updater.py:62-71 | a NUL-terminated device-tree string reads back as itself |
| McuUpdater.ProductName | packages/aiy-io-mcu-firmware/aiy_mcu_updater.py:56-63 | `get_product_name`: present iff the `product` node exists, with no whitespace left at either end |
| McuUpdater.ProductVersion | packages/aiy-io-mcu-firmware/aiy_mcu_updater.py:66-72 | `get_product_version`: present iff the `product_ver` node exists, with no whitespace left at either end |
| McuUpdater.ProductOfDeviceTree | packages/aiy-io-mcu-firmware/aiy_mcu_updater.py:56-72 | NUL-terminated device-tree strings read back as the name and version written |
| McuUpdater.BoardAddress | packages/aiy-io-mcu-firmware/aiy_mcu_updater.py:85-90 | `get_i2c_address`: 0x51 iff the product is the Vision Bonnet, 0x52 iff the Voice Bonnet, none otherwise |
| McuUpdater.FirmwarePath | packages/aiy-io-mcu-firmware/aiy_mcu_updater.py:75-82 | `get_firmware_path`: present iff both nodes exist and the pair is in the table; the firmware then reports 0.5 and the board has an address |
| McuUpdater.StatusMessage | packages/aiy-io-mcu-firmware/aiy_mcu_updater.py:93-100 | a status message is read only from the board's own status file |
| McuUpdater.VersionString | packages/aiy-io-mcu-firmware/aiy_mcu_updater.py:103-111 | a version is the three characters after a leading `OK-V`: a digit, any character but a newline, a digit |
| McuUpdater.VersionStringOf | packages/aiy-io-mcu-firmware/aiy_mcu_updater.py:103-111 | a message starting with the pattern yields its three version characters, whatever follows |
| McuUpdater.NeedsUpdate | packages/aiy-io-mcu-firmware/aiy_mcu_updater.py:114-121 | `needs_update`: no update only for a message starting with `OK-V` and the target version; a message without a version always needs one |
| McuUpdater.NeedsUpdateCases | packages/aiy-io-mcu-firmware/aiy_mcu_updater.py:114-121 | an update is needed iff the message does not start with `OK-V` and the target version; a message without a version always needs one |
| McuUpdater.FlashOnlyWhenNeeded | packages/aiy-io-mcu-firmware/aiy_mcu_updater.py:124-142 | firmware is written only to a known board whose status shows another version, only when the file exists, and the name written is the file's name, to the board's own update file |
| McuUpdater.SuccessMeansCurrent | packages/aiy-io-mcu-firmware/aiy_mcu_updater.py:137-154 | status 0 means the board reports the firmware's version: before, if nothing was written, or after flashing |
| McuUpdater.UpToDateUntouched | packages/aiy-io-mcu-firmware/aiy_mcu_updater.py:140-145 | an up-to-date board is left alone with status 0 |
| McuUpdater.UpdaterRun | packages/aiy-io-mcu-firmware/aiy_mcu_updater.py:124-154 | reference for main: the firmware write, if any, and the exit status; FlashOnlyWhenNeeded, SuccessMeansCurrent and UpToDateUntouched characterise it |
| BoardInfo.SimpleHash | packages/aiy-board-info/aiy_board_info.py:28-30 | exactly `length` decimal digits, each the digest byte modulo 10; a digest shorter than `length` is an `IndexError` |
| BoardInfo.SimpleHashOfDigest | packages/aiy-board-info/aiy_board_info.py:28-30 | the four-digit hash of a 16-byte MD5 digest always exists |
| BoardInfo.DeviceTreeNode | packages/aiy-board-info/aiy_board_info.py:33-35 | the node's bytes contain no NUL, and none are added |
| BoardInfo.DeviceTreeNodeAppend | packages/aiy-board-info/aiy_board_info.py:35 | removing NULs piece by piece is removing them from the whole |
| BoardInfo.DeviceTreeNodeKeeps | packages/aiy-board-info/aiy_board_info.py:35 | bytes without NUL are kept as they are |
| BoardInfo.DeviceTreeString | packages/aiy-board-info/aiy_board_info.py:35-41 | a NUL-terminated device-tree string decodes back to its text |
| BoardInfo.Node | packages/aiy-board-info/aiy_board_info.py:33-35 | a node read from the device tree holds no NUL |
| BoardInfo.Identify | packages/aiy-board-info/aiy_board_info.py:46-51 | a Google board keeps its product id and takes its name from the table, defaulting to `AIY-Board`; any other vendor is board 0 named `Board` |
| BoardInfo.HatBoard | packages/aiy-board-info/aiy_board_info.py:39-43 | the HAT's five fields read in the source's order, the first missing or malformed node raising, the two hex ids read by `int()` on bytes, which skips only ASCII whitespace; HatBoardName characterises its use |
| BoardInfo.BytesHexRejectsNonAsciiSpace | packages/aiy-board-info/aiy_board_info.py:40-41 | `int(b, 16)` on bytes is a ValueError when either end is a byte that only a `str` treats as whitespace (0x1C–0x1F, 0x85, 0xA0) |
| BoardInfo.BytesHexUnpadded | packages/aiy-board-info/aiy_board_info.py:40-41 | bytes with no whitespace at either end parse as the text they spell |
| BoardInfo.HexNodeNextLine | packages/aiy-board-info/aiy_board_info.py:40-41 | a hex node holding the bytes 0x85 0x31 is a ValueError |
| BoardInfo.HatBoardName | packages/aiy-board-info/aiy_board_info.py:38-52 | with a HAT, the name is a known stem, a dash and the four-digit hash of the HAT's UUID, with the id as the vendor decides |
| BoardInfo.PiBoardName | packages/aiy-board-info/aiy_board_info.py:54-55 | without a HAT, the result is board 0 named `Raspberry-Pi-` and the four-digit hash of the serial number |
| BoardInfo.NamedParts | packages/aiy-board-info/aiy_board_info.py:52-55 | `'%s-%s' % (stem, hash)` splits back into the stem, a dash and the four digits |
| BoardInfo.StemKnown | packages/aiy-board-info/aiy_board_info.py:22-51 | every HAT's name stem is one of the table's names, `AIY-Board` or `Board` |
| BoardInfo.NoHatBoard | packages/aiy-board-info/aiy_board_info.py:54-55 | without a HAT, a present serial number always gives board 0 |
| BoardInfo.NamedClean | packages/aiy-board-info/aiy_board_info.py:52-55 | a name built from a stem without a newline and digits has no newline |
| BoardInfo.BoardNameClean | packages/aiy-board-info/aiy_board_info.py:38-55 | board names hold no newline |
| BoardInfo.BoardInfo | packages/aiy-board-info/aiy_board_info.py:36-55 | reference for board_info: the HAT branch or the serial-number branch; its hex ids are read as HatBoard reads them; HatBoardName, PiBoardName, NoHatBoard and BoardNameClean characterise it |
| BoardInfo.SplitTwoLines | packages/aiy-board-info/aiy_board_info.py:59 | two newline-terminated lines without newlines split back into those lines and an empty rest |
| BoardInfo.MessageReadsBack | packages/aiy-board-info/aiy_board_info.py:59 | the message splits into `AIY_BOARD_ID=<id>` and `AIY_BOARD_NAME=<name>` lines plus a final newline, and the id parses back |
| BoardInfo.Message | packages/aiy-board-info/aiy_board_info.py:59 | the two `AIY_BOARD_*` lines; MessageReadsBack proves they split back into the id and the name |
| BoardInfo.MainOutputReadsBack | packages/aiy-board-info/aiy_board_info.py:58-59 | what `main` writes reads back as the board's id and name |

## Left out

- Sockets, `select`, D-Bus, Bluetooth, websockets and `subprocess` calls: their replies and output are parameters; what is sent is recorded.
- Threads, locks, condition waits, timeouts and asyncio tasks: only the state transitions are modelled.
- The waiting loops of `WaitForNetwork`, `ConnectNetwork` and `StartP2pGo`: they are modelled through what each wait ends with.
- Logging and printed progress messages.
- The GB printouts and `time.monotonic()`: alarm deadlines and the current time are integers.
- MD5 is an uninterpreted parameter, and protocol-buffer parsing and serialisation are parameters.
- Python's `re` engine is left out:
  - the simple patterns are written out as parsers;
  - the groups of the `CTRL-EVENT-SSID-TEMP-DISABLED`, `P2P-GROUP-STARTED` and `P2P-GROUP-REMOVED` patterns are inputs.
- Decimal digits are ASCII only, both for `\d` and `int()`: Python also accepts other Unicode digits.
- Base64.Decode accepts only canonical, padded input: `base64.b64decode` without `validate` also discards characters outside the alphabet. The model treats those as errors.
- dhcpcd's length prefix is read in native order, which is taken to be little-endian as on the Raspberry Pi.
- In `int()` on device-tree bytes, each byte is read as the character with that code; as in Python, only ASCII whitespace around the digits is skipped.
- BuildCommon.FindExisting: for a path made only of separators that does not exist, the source loops forever. The model returns `Spins` and does not model the hang.
- The order in which `glob` lists the links does not matter to the result. `glob` metacharacters inside the mount path are not modelled: it is taken literally.
- ShrinkImage.ImageRoot.SetExpandRoot:
  - the mode the script had before `chmod` is not modelled;
  - directories are not modelled;
  - the `PermissionError` that `set_expand` reports is not modelled.
- The `zerofree` call, its warning and the `xz` compression are not modelled. Compression is the argv it would run.
- ShrinkImage.NoExpandWithoutFlags: stated only for a command line without the flags. Removing the flags from a crafted line can create a new occurrence, so disabling is not idempotent in general.
- McuUpdater.UpdaterRun: the files under `/sys` are read as one snapshot. The source re-reads the product name each time it computes the I2C address; the model reads it once.
- McuUpdater.UpdaterRun: the write to `update_firmware` always succeeds.
- The firmware directory is a set of file names.
- StaWpasClient uses the corrected `DecodeSsid` (see Findings).
- StaWpasClient.Station.Associate: decodes the SSID with the corrected `DecodeSsid`, not `_DecodeSsid`; on `\\n` or `\e` the associating SSID differs from the source's.
- WpasClient.StatusOf: decodes `ssid` with the corrected `DecodedSsid` of the first Findings row, not with the chained `replace` of `_DecodeSsid`.
- WpasClient.GetStatus: returns StatusOf, so its `ssid` is decoded by the corrected unescaper; on `\\n` or `\e` it differs from the source.
- WpasClient.StatusOfPrintedSsid: holds for the corrected unescaper only. The source's `_DecodeSsid` breaks it for names holding a backslash or ESC.
- WpasClient.ScanLine: decodes the SSID with the corrected unescaper, not `_DecodeSsid`.
- WpasClient.ScanResultsOf: built on ScanLine, so it also uses the corrected unescaper.
- WpasClient.GetScanResults: returns ScanResultsOf, with the corrected unescaper.
- WpasClient.ScanLineRoundTrip: holds for the corrected unescaper only, like StatusOfPrintedSsid.
- BtProvServer.Handle: answers `set_device_name` with the corrected handler of the third Findings row. In the source that request raises AttributeError, which the `except` of `Run` does not catch, so the server run ends.
- BtProvServer.HandleKnown: counts `set_device_name` among the answered requests, which holds for the corrected handler only.
- BtProvServer.Dialogue: continues after `set_device_name`, where the source's AttributeError ends the server run.
- BtProvServer.DialogueStep: holds for the corrected handler only.
- BtProvServer.RenameThenGetState: holds for the corrected handler only. In the source no `get_state` follows a `set_device_name` on the same run.
- BtProvServer.Server.HandleSetDeviceName: the corrected handler. HandleSetDeviceNameAsWritten is the source's.
- BtProvServer.Server.Dispatch: routes `set_device_name` to the corrected handler.
- BtProvServer.Server.HandleConnection: its loop uses Dispatch, so it continues after `set_device_name` where the source's exception escapes `Run`.
- BtProvServer.Server.Recv: the end of the client's data is an IOError. If the socket instead returned `b""` on an orderly close, the source's `_ReceiveBytes` would loop forever; that hang is not modelled.
- BtProvServer.Server.ReceiveBytes: "IOError if the client stops first" rests on that reading of `recv`.
- BtProvServer.Server.SendMessage: writes the whole frame. `socket.send` may write only part of its buffer, and the source does not check how much it wrote.
- StaWpasClient.ConnectNetwork: the reset of `_last_disabled_event` before SELECT_NETWORK and the wait that reads it are summed up by the `connected` parameter. The `rfkill` call is not modelled.
- CwcSchema: JSON numbers are integers (`JNumber(n: int)`). The schema's `number` type also accepts fractional values, such as a `chunk_size` of 1.5 or a `signum` of 2.5; those are not modelled.
- CwcServer.Unpacked: Python unpacks an object given as `args` into its keys, in insertion order. `Json` objects keep no key order, so the model reads such an `args` as not iterable (TypeError).
- CwcServer.StartProcess: once the arguments, the redirections and the environment have the right types, the child is taken to start. A program that is missing or cannot be run, a NUL character in an argument or a variable, and `=` in a variable name are not modelled.
- Not modelled:
  - the GPIO trigger modules;
  - the I/O permission service;
  - the command-line drivers and samples;
  - the `LoopDev`, `Mount`, `MountAt` and `BindMount` context managers and `SetupEmulator` (pure I/O).

## Findings

| source | as written | input that shows it | evidently intended | confidence | as-written member | corrected member |
|---|---|---|---|---|---|---|
| packages/aiy-bt-prov-server/wpas_client.py:186-207 | the escapes are undone by chained `replace` calls: `\\` is replaced first and its result is replaced again, and `\e` becomes `E` (0x45) | the SSID `\n` (backslash, `n`), printed by wpa_supplicant as `\\n`, decodes to a newline; ESC, printed as `\e`, decodes to `E` | one left-to-right pass that undoes wpa_supplicant's escaping, so that every printed SSID decodes to itself | not executed | WpasClient.AsWrittenEscapedBackslash | WpasClient.SsidRoundTrip |
| packages/aiy-bt-prov-server/wpas_client.py:306-311 | `Close` calls `self.detach()`, which the class does not define; the bare `except` swallows the AttributeError and only clears the flag | an attached connection is closed: DETACH is never sent | `Close` detaches an attached connection before closing the socket | not executed | WpasClient.AsWrittenCloseSkipsDetach | WpasClient.CloseSendsDetach |
| packages/aiy-bt-prov-server/bt_prov_server.py:250-253 | `_HandleSetDeviceName` calls `self._UpdateDeviceName`, which the class does not define | any `set_device_name` request raises AttributeError, which escapes `Run` and ends the server | the requested name is stored and reported back with SUCCESS | not executed | BtProvServer.HandleAsWritten | BtProvServer.SetDeviceNameStores |

=== FILE: base64.dfy ===
/** Base64 with the standard alphabet and `=` padding, as in section 4 of
    RFC 4648: `base64.b64encode` and the canonical inputs of
    `base64.b64decode`. */
module Base64 {
  import opened Wrappers

  /** The alphabet of section 4 of RFC 4648: the character for a 6-bit value. */
  function Digit(v: int): (c: char)
    requires 0 <= v < 64
    ensures c != '='
  {
    if v < 26 then ('A' as int + v) as char
    else if v < 52 then ('a' as int + (v - 26)) as char
    else if v < 62 then ('0' as int + (v - 52)) as char
    else if v == 62 then '+'
    else '/'
  }

  /** The 6-bit value of an alphabet character; `None` outside the alphabet. */
  function Value(c: char): (r: Option<int>)
    ensures r.Some? ==> 0 <= r.value < 64
  {
    if 'A' <= c <= 'Z' then Some(c as int - 'A' as int)
    else if 'a' <= c <= 'z' then Some(c as int - 'a' as int + 26)
    else if '0' <= c <= '9' then Some(c as int - '0' as int + 52)
    else if c == '+' then Some(62)
    else if c == '/' then Some(63)
    else None
  }

  lemma ValueDigit(v: int)
    requires 0 <= v < 64
    ensures Value(Digit(v)) == Some(v)
  {
  }

  // The four 6-bit groups of three bytes b0 b1 b2, most significant first.
  function Sextet0(b0: byte): (r: int) ensures 0 <= r < 64 { b0 / 4 }
  function Sextet1(b0: byte, b1: byte): (r: int) ensures 0 <= r < 64 { (b0 % 4) * 16 + b1 / 16 }
  function Sextet2(b1: byte, b2: byte): (r: int) ensures 0 <= r < 64 { (b1 % 16) * 4 + b2 / 64 }
  function Sextet3(b2: byte): (r: int) ensures 0 <= r < 64 { b2 % 64 }

  // The three bytes carried by four 6-bit groups v0 v1 v2 v3.
  function Octet0(v0: int, v1: int): byte
    requires 0 <= v0 < 64 && 0 <= v1 < 64
  {
    v0 * 4 + v1 / 16
  }
  function Octet1(v1: int, v2: int): byte
    requires 0 <= v1 < 64 && 0 <= v2 < 64
  {
    (v1 % 16) * 16 + v2 / 4
  }
  function Octet2(v2: int, v3: int): byte
    requires 0 <= v2 < 64 && 0 <= v3 < 64
  {
    (v2 % 4) * 64 + v3
  }

  /** Splitting three bytes into 6-bit groups and joining them back. */
  lemma OctetsOfSextets(b0: byte, b1: byte, b2: byte)
    ensures Octet0(Sextet0(b0), Sextet1(b0, b1)) == b0
    ensures Octet1(Sextet1(b0, b1), Sextet2(b1, b2)) == b1
    ensures Octet2(Sextet2(b1, b2), Sextet3(b2)) == b2
  {
    var x0: int, x1: int, x2: int := b0, b1, b2;
    var c1 := (x0 % 4) * 16 + x1 / 16;
    var c2 := (x1 % 16) * 4 + x2 / 64;
    assert c1 / 16 == x0 % 4 && c1 % 16 == x1 / 16;
    assert c2 / 4 == x1 % 16 && c2 % 4 == x2 / 64;
  }

  /** `base64.b64encode(d).decode()`: every three bytes become four
      characters; a final one or two bytes are padded with `==` or `=`. */
  function Encode(d: seq<byte>): (r: string)
    ensures |r| == 4 * ((|d| + 2) / 3)
  {
    if |d| == 0 then []
    else if |d| == 1 then
      [Digit(Sextet0(d[0])), Digit(Sextet1(d[0], 0)), '=', '=']
    else if |d| == 2 then
      [Digit(Sextet0(d[0])), Digit(Sextet1(d[0], d[1])), Digit(Sextet2(d[1], 0)), '=']
    else
      [Digit(Sextet0(d[0])), Digit(Sextet1(d[0], d[1])),
       Digit(Sextet2(d[1], d[2])), Digit(Sextet3(d[2]))] + Encode(d[3..])
  }

  /** One 4-character group; `=` padding is accepted only when `final`
      holds, that is, in the last group. */
  function Quad(c0: char, c1: char, c2: char, c3: char, final: bool): (r: Option<seq<byte>>)
    ensures r.Some? ==> 1 <= |r.value| <= 3
    ensures r.Some? && |r.value| < 3 ==> final
  {
    var v0, v1, v2, v3 := Value(c0), Value(c1), Value(c2), Value(c3);
    if v0.None? || v1.None? then None
    else if final && c2 == '=' && c3 == '=' then
      Some([Octet0(v0.value, v1.value)])
    else if v2.None? then None
    else if final && c3 == '=' then
      Some([Octet0(v0.value, v1.value), Octet1(v1.value, v2.value)])
    else if v3.None? then None
    else Some([Octet0(v0.value, v1.value), Octet1(v1.value, v2.value), Octet2(v2.value, v3.value)])
  }

  /** `base64.b64decode(s)` on text made of alphabet characters and final
      padding; `None` stands for the `binascii.Error` raised on a length
      that is not a multiple of four, a character outside the alphabet or
      misplaced padding. */
  function Decode(s: string): (r: Option<seq<byte>>)
  {
    if s == [] then Some([])
    else if |s| < 4 then None
    else
      match Quad(s[0], s[1], s[2], s[3], |s| == 4)
      case None => None
      case Some(g) =>
        match Decode(s[4..])
        case None => None
        case Some(rest) => Some(g + rest)
  }

  // Decoding the characters of known 6-bit values, one lemma per group shape.
  lemma QuadOfDigits(v0: int, v1: int, v2: int, v3: int, final: bool)
    requires 0 <= v0 < 64 && 0 <= v1 < 64 && 0 <= v2 < 64 && 0 <= v3 < 64
    ensures Quad(Digit(v0), Digit(v1), Digit(v2), Digit(v3), final)
            == Some([Octet0(v0, v1), Octet1(v1, v2), Octet2(v2, v3)])
  {
    ValueDigit(v0);
    ValueDigit(v1);
    ValueDigit(v2);
    ValueDigit(v3);
  }

  lemma QuadOfDigitsPad1(v0: int, v1: int, v2: int)
    requires 0 <= v0 < 64 && 0 <= v1 < 64 && 0 <= v2 < 64
    ensures Quad(Digit(v0), Digit(v1), Digit(v2), '=', true) == Some([Octet0(v0, v1), Octet1(v1, v2)])
  {
    ValueDigit(v0);
    ValueDigit(v1);
    ValueDigit(v2);
  }

  lemma QuadOfDigitsPad2(v0: int, v1: int)
    requires 0 <= v0 < 64 && 0 <= v1 < 64
    ensures Quad(Digit(v0), Digit(v1), '=', '=', true) == Some([Octet0(v0, v1)])
  {
    ValueDigit(v0);
    ValueDigit(v1);
  }

  lemma DecodeLast(e: string, g: seq<byte>)
    requires |e| == 4 && Quad(e[0], e[1], e[2], e[3], true) == Some(g)
    ensures Decode(e) == Some(g)
  {
    assert e[4..] == [] && g + [] == g;
  }

  lemma DecodeFront(e: string, g: seq<byte>, rest: seq<byte>)
    requires |e| > 4 && Quad(e[0], e[1], e[2], e[3], false) == Some(g)
    requires Decode(e[4..]) == Some(rest)
    ensures Decode(e) == Some(g + rest)
  {
  }

  lemma DecodeEncodeOne(b0: byte)
    ensures Decode(Encode([b0])) == Some([b0])
  {
    var e := Encode([b0]);
    assert e == [Digit(Sextet0(b0)), Digit(Sextet1(b0, 0)), '=', '='];
    QuadOfDigitsPad2(Sextet0(b0), Sextet1(b0, 0));
    OctetsOfSextets(b0, 0, 0);
    DecodeLast(e, [b0]);
  }

  lemma DecodeEncodeTwo(b0: byte, b1: byte)
    ensures Decode(Encode([b0, b1])) == Some([b0, b1])
  {
    var e := Encode([b0, b1]);
    assert e == [Digit(Sextet0(b0)), Digit(Sextet1(b0, b1)), Digit(Sextet2(b1, 0)), '='];
    QuadOfDigitsPad1(Sextet0(b0), Sextet1(b0, b1), Sextet2(b1, 0));
    OctetsOfSextets(b0, b1, 0);
    DecodeLast(e, [b0, b1]);
  }

  lemma SplitThree(d: seq<byte>)
    requires |d| >= 3
    ensures [d[0], d[1], d[2]] + d[3..] == d
  {
  }

  lemma DecodeEncodeStep(d: seq<byte>)
    requires |d| >= 3 && Decode(Encode(d[3..])) == Some(d[3..])
    ensures Decode(Encode(d)) == Some(d)
  {
    var e := Encode(d);
    var g := [Digit(Sextet0(d[0])), Digit(Sextet1(d[0], d[1])),
              Digit(Sextet2(d[1], d[2])), Digit(Sextet3(d[2]))];
    assert e == g + Encode(d[3..]);
    assert e[4..] == Encode(d[3..]);
    QuadOfDigits(Sextet0(d[0]), Sextet1(d[0], d[1]), Sextet2(d[1], d[2]), Sextet3(d[2]), |e| == 4);
    OctetsOfSextets(d[0], d[1], d[2]);
    if |d| == 3 {
      assert d[3..] == [] && e[4..] == [];
      DecodeLast(e, [d[0], d[1], d[2]]);
      assert [d[0], d[1], d[2]] == d;
    } else {
      DecodeFront(e, [d[0], d[1], d[2]], d[3..]);
      SplitThree(d);
    }
  }

  /** Decoding what was encoded gives back the bytes. */
  lemma {:induction false} DecodeEncode(d: seq<byte>)
    ensures Decode(Encode(d)) == Some(d)
    decreases |d|
  {
    if |d| == 1 {
      DecodeEncodeOne(d[0]);
      assert d == [d[0]];
    } else if |d| == 2 {
      DecodeEncodeTwo(d[0], d[1]);
      assert d == [d[0], d[1]];
    } else if |d| >= 3 {
      DecodeEncode(d[3..]);
      DecodeEncodeStep(d);
    }
  }

  /** Encoded text uses only the alphabet, with `=` only in the last two
      positions. */
  lemma {:induction false} EncodeAlphabet(d: seq<byte>)
    ensures forall j :: 0 <= j < |Encode(d)| ==>
      Value(Encode(d)[j]).Some? || (Encode(d)[j] == '=' && j >= |Encode(d)| - 2)
    decreases |d|
  {
    var e := Encode(d);
    if |d| >= 3 {
      EncodeAlphabet(d[3..]);
      var t := Encode(d[3..]);
      assert e[4..] == t;
      ValueDigit(Sextet0(d[0]));
      ValueDigit(Sextet1(d[0], d[1]));
      ValueDigit(Sextet2(d[1], d[2]));
      ValueDigit(Sextet3(d[2]));
      forall j | 4 <= j < |e|
        ensures Value(e[j]).Some? || (e[j] == '=' && j >= |e| - 2)
      {
        assert e[j] == t[j - 4];
      }
    } else if |d| == 2 {
      ValueDigit(Sextet0(d[0]));
      ValueDigit(Sextet1(d[0], d[1]));
      ValueDigit(Sextet2(d[1], 0));
    } else if |d| == 1 {
      ValueDigit(Sextet0(d[0]));
      ValueDigit(Sextet1(d[0], 0));
    }
  }
}

=== FILE: board_info.dfy ===
/** packages/aiy-board-info/aiy_board_info.py: naming the board from the
    device tree (the HAT's vendor, product id and UUID, or the Raspberry
    Pi's serial number) and printing the result as two shell variables.
    The device tree is a map from node to raw bytes; MD5 is a parameter. */
module BoardInfo {
  import opened Wrappers
  import opened PyStr
  import Utf8

  const AiyBoards: map<int, string> := map[1 := "Voice-HAT", 2 := "Vision-Bonnet", 3 := "Voice-Bonnet"]
  const GoogleVendor := "Google, LLC"
  const HashLength := 4

  // ---------------------------------------------------------------------
  // simple_hash

  /** `simple_hash(data, length)` given `md5(data).digest()`: one decimal
      digit per leading digest byte, the byte modulo 10; a digest shorter
      than `length` is an IndexError. */
  function SimpleHash(digest: seq<byte>, length: nat): (r: Result<string>)
    ensures r.Success? <==> length <= |digest|
    ensures r.Success? ==> |r.value| == length
    ensures r.Success? ==> forall i :: 0 <= i < length ==>
      IsDecimalDigit(r.value[i]) && DigitValue(r.value[i], 10) == digest[i] % 10
  {
    if length > |digest| then Failure("IndexError")
    else Success(seq(length, i requires 0 <= i < length => DigitChar(digest[i] % 10)))
  }

  /** An MD5 digest has sixteen bytes, so the default four-digit hash
      always exists. */
  lemma SimpleHashOfDigest(digest: seq<byte>)
    requires |digest| == 16
    ensures SimpleHash(digest, HashLength).Success?
  {
  }

  // ---------------------------------------------------------------------
  // device_tree_node

  /** `f.read().replace(b'\x00', b'')` */
  function DeviceTreeNode(raw: seq<byte>): (r: seq<byte>)
    ensures 0 !in r
    ensures |r| <= |raw|
  {
    if raw == [] then []
    else (if raw[0] == 0 then [] else [raw[0]]) + DeviceTreeNode(raw[1..])
  }

  /** Removing NULs piece by piece is removing them from the whole. */
  lemma {:induction false} DeviceTreeNodeAppend(a: seq<byte>, b: seq<byte>)
    ensures DeviceTreeNode(a + b) == DeviceTreeNode(a) + DeviceTreeNode(b)
  {
    if a != [] {
      var head: seq<byte> := if a[0] == 0 then [] else [a[0]];
      assert (a + b)[0] == a[0];
      assert (a + b)[1..] == a[1..] + b;
      assert DeviceTreeNode(a + b) == head + DeviceTreeNode(a[1..] + b);
      DeviceTreeNodeAppend(a[1..], b);
      assert DeviceTreeNode(a) == head + DeviceTreeNode(a[1..]);
      assert head + (DeviceTreeNode(a[1..]) + DeviceTreeNode(b)) == (head + DeviceTreeNode(a[1..])) + DeviceTreeNode(b);
    } else {
      assert a + b == b;
    }
  }

  /** Bytes without NUL are kept as they are. */
  lemma {:induction false} DeviceTreeNodeKeeps(raw: seq<byte>)
    requires 0 !in raw
    ensures DeviceTreeNode(raw) == raw
  {
    if raw != [] {
      assert 0 !in raw[1..];
      DeviceTreeNodeKeeps(raw[1..]);
    }
  }

  /** A NUL-terminated device-tree string reads back as the text it holds. */
  lemma DeviceTreeString(s: string)
    requires '\0' !in s
    ensures Utf8.Decode(DeviceTreeNode(Utf8.Encode(s) + [0])) == Some(s)
  {
    var e := Utf8.Encode(s);
    Utf8.EncodeNoNul(s);
    DeviceTreeNodeAppend(e, [0]);
    DeviceTreeNodeKeeps(e);
    assert DeviceTreeNode([0]) == [] + DeviceTreeNode([]);
    assert DeviceTreeNode(e + [0]) == e;
    Utf8.DecodeEncode(s);
  }

  // ---------------------------------------------------------------------
  // board_info

  /** The `Board` named tuple. */
  datatype Board = Board(product: string, productId: int, productVer: int, uuid: seq<byte>, vendor: string)

  /** What `/proc/device-tree/` holds: whether `hat/` exists, and the
      contents of its nodes. */
  datatype DeviceTree = DeviceTree(hat: bool, nodes: map<string, seq<byte>>)

  /** `device_tree_node(node)`; a missing node is a FileNotFoundError. */
  function Node(dt: DeviceTree, node: string): (r: Result<seq<byte>>)
    ensures r.Success? ==> 0 !in r.value
  {
    if node in dt.nodes then Success(DeviceTreeNode(dt.nodes[node])) else Failure("FileNotFoundError")
  }

  /** `device_tree_node(node).decode('utf-8')` */
  function TextNode(dt: DeviceTree, node: string): Result<string> {
    match Node(dt, node)
    case Failure(e) => Failure(e)
    case Success(raw) =>
      match Utf8.Decode(raw)
      case None => Failure("UnicodeDecodeError")
      case Some(s) => Success(s)
  }

  /** Bytes read as text by `int()`, one character per byte. */
  function AsText(b: seq<byte>): string {
    seq(|b|, i requires 0 <= i < |b| => b[i] as char)
  }

  /** The whitespace `int()` skips around the digits of a `bytes`
      argument: ASCII only. */
  const AsciiSpace := Chars({' ', '\t', '\n', '\U{000B}', '\U{000C}', '\r'})

  /** The bytes that a `str` treats as whitespace but a `bytes` does not. */
  predicate NonAsciiSpace(x: byte) {
    0x1C <= x <= 0x1F || x == 0x85 || x == 0xA0
  }

  /** `int(b, 16)` on bytes: only ASCII whitespace is skipped at either
      end, so any other byte that a `str` treats as whitespace is a
      ValueError (`None`). */
  function BytesHex(b: seq<byte>): Option<int> {
    var t := RStrip(LStrip(AsText(b), AsciiSpace), AsciiSpace);
    if t != [] && (InClass(t[0], Whitespace) || InClass(t[|t| - 1], Whitespace)) then None
    else PyInt(t, 16)
  }

  /** Bytes that a `str` would count as whitespace, at either end, make
      `int()` on bytes fail. */
  lemma BytesHexRejectsNonAsciiSpace(b: seq<byte>)
    requires |b| > 0 && (NonAsciiSpace(b[0]) || NonAsciiSpace(b[|b| - 1]))
    ensures BytesHex(b) == None
  {
    var s := AsText(b);
    var l := LStrip(s, AsciiSpace);
    var t := RStrip(l, AsciiSpace);
    LStripSuffix(s, AsciiSpace);
    RStripPrefix(l, AsciiSpace);
    if NonAsciiSpace(b[0]) {
      assert s[0] == b[0] as char && !InClass(s[0], AsciiSpace);
      assert |l| == |s| && t != [] && t[0] == s[0];
    } else {
      assert s[|s| - 1] == b[|b| - 1] as char && !InClass(s[|s| - 1], AsciiSpace);
      assert l != [] && l[|l| - 1] == s[|s| - 1];
      assert t == l;
    }
  }

  /** Bytes without whitespace at either end are read as their text. */
  lemma BytesHexUnpadded(b: seq<byte>)
    requires b == [] || (!InClass(b[0] as char, Whitespace) && !InClass(b[|b| - 1] as char, Whitespace))
    ensures BytesHex(b) == PyInt(AsText(b), 16)
  {
    var s := AsText(b);
    if s != [] {
      assert !InClass(s[0], AsciiSpace) && !InClass(s[|s| - 1], AsciiSpace);
      assert LStrip(s, AsciiSpace) == s;
      assert RStrip(s, AsciiSpace) == s;
    }
  }

  /** `int(device_tree_node(node), 16)` */
  function HexNode(dt: DeviceTree, node: string): Result<int> {
    match Node(dt, node)
    case Failure(e) => Failure(e)
    case Success(raw) =>
      match BytesHex(raw)
      case None => Failure("ValueError")
      case Some(n) => Success(n)
  }

  /** A hex node holding NEXT LINE (0x85) before its digit is a ValueError,
      although `int('\x851', 16)` on the decoded text would give 1. */
  lemma HexNodeNextLine(dt: DeviceTree, node: string)
    requires node in dt.nodes && dt.nodes[node] == [0x85, 0x31]
    ensures HexNode(dt, node) == Failure("ValueError")
  {
    DeviceTreeNodeKeeps([0x85, 0x31]);
    BytesHexRejectsNonAsciiSpace([0x85, 0x31]);
  }

  /** The HAT's fields, read in the order the source reads them. */
  function HatBoard(dt: DeviceTree): Result<Board> {
    match TextNode(dt, "hat/product")
    case Failure(e) => Failure(e)
    case Success(product) =>
      match HexNode(dt, "hat/product_id")
      case Failure(e) => Failure(e)
      case Success(id) =>
        match HexNode(dt, "hat/product_ver")
        case Failure(e) => Failure(e)
        case Success(ver) =>
          match Node(dt, "hat/uuid")
          case Failure(e) => Failure(e)
          case Success(uuid) =>
            match TextNode(dt, "hat/vendor")
            case Failure(e) => Failure(e)
            case Success(vendor) => Success(Board(product, id, ver, uuid, vendor))
  }

  /** The id and name stem of a HAT: a Google board is known by its
      product id, falling back to "AIY-Board"; any other is board 0. */
  function Identify(b: Board): (r: (int, string))
    ensures b.vendor == GoogleVendor ==> r.0 == b.productId
    ensures b.vendor == GoogleVendor && b.productId in AiyBoards ==> r.1 == AiyBoards[b.productId]
    ensures b.vendor == GoogleVendor && b.productId !in AiyBoards ==> r.1 == "AIY-Board"
    ensures b.vendor != GoogleVendor ==> r == (0, "Board")
  {
    if b.vendor == GoogleVendor then
      (b.productId, if b.productId in AiyBoards then AiyBoards[b.productId] else "AIY-Board")
    else (0, "Board")
  }

  /** `'%s-%s' % (stem, simple_hash(data))` with the id. */
  function Named(id: int, stem: string, hash: Result<string>): Result<(int, string)> {
    match hash
    case Failure(e) => Failure(e)
    case Success(h) => Success((id, stem + "-" + h))
  }

  /** `board_info()` */
  function BoardInfo(dt: DeviceTree, md5: seq<byte> -> seq<byte>): Result<(int, string)> {
    if dt.hat then
      match HatBoard(dt)
      case Failure(e) => Failure(e)
      case Success(b) =>
        var (id, stem) := Identify(b);
        Named(id, stem, SimpleHash(md5(b.uuid), HashLength))
    else
      match Node(dt, "serial-number")
      case Failure(e) => Failure(e)
      case Success(serial) => Named(0, "Raspberry-Pi", SimpleHash(md5(serial), HashLength))
  }

  /** The stems a board name can have. */
  predicate KnownStem(stem: string) {
    stem in {"Voice-HAT", "Vision-Bonnet", "Voice-Bonnet", "AIY-Board", "Board", "Raspberry-Pi"}
  }

  /** With a HAT, a board name is a known stem, a dash and the four
      digits of the hash of the HAT's UUID; a board not made by Google is
      board 0 named "Board", a Google board keeps its product id. */
  lemma HatBoardName(dt: DeviceTree, md5: seq<byte> -> seq<byte>)
    requires dt.hat
    ensures var r := BoardInfo(dt, md5);
      r.Success? ==>
        && HatBoard(dt).Success?
        && var b := HatBoard(dt).value;
           var n := r.value.1;
           && |n| >= 5 && KnownStem(n[..|n| - 5]) && n[|n| - 5] == '-'
           && n[|n| - 4..] == SimpleHash(md5(b.uuid), HashLength).value
           && (forall i :: |n| - 4 <= i < |n| ==> IsDecimalDigit(n[i]))
           && (b.vendor != GoogleVendor ==> r.value.0 == 0 && n[..|n| - 5] == "Board")
           && (b.vendor == GoogleVendor ==> r.value.0 == b.productId)
  {
    if HatBoard(dt).Success? {
      var b := HatBoard(dt).value;
      StemKnown(b);
      NamedParts(Identify(b).0, Identify(b).1, SimpleHash(md5(b.uuid), HashLength));
    }
  }

  /** Without a HAT, the board is board 0, named "Raspberry-Pi", a dash
      and the four digits of the hash of the serial number. */
  lemma PiBoardName(dt: DeviceTree, md5: seq<byte> -> seq<byte>)
    requires !dt.hat
    ensures var r := BoardInfo(dt, md5);
      r.Success? ==>
        && "serial-number" in dt.nodes
        && var n := r.value.1;
           && r.value.0 == 0
           && |n| >= 5 && n[..|n| - 5] == "Raspberry-Pi" && n[|n| - 5] == '-'
           && n[|n| - 4..] == SimpleHash(md5(DeviceTreeNode(dt.nodes["serial-number"])), HashLength).value
           && (forall i :: |n| - 4 <= i < |n| ==> IsDecimalDigit(n[i]))
  {
    if Node(dt, "serial-number").Success? {
      NamedParts(0, "Raspberry-Pi", SimpleHash(md5(Node(dt, "serial-number").value), HashLength));
    }
  }

  /** A name made of a stem and a hash of four digits splits back into
      the stem, a dash and the digits. */
  lemma NamedParts(id: int, stem: string, hash: Result<string>)
    requires hash.Success? ==> |hash.value| == 4 && forall i :: 0 <= i < 4 ==> IsDecimalDigit(hash.value[i])
    ensures var r := Named(id, stem, hash);
      r.Success? ==>
        && r.value.0 == id
        && var n := r.value.1;
           && |n| >= 5 && n[..|n| - 5] == stem && n[|n| - 5] == '-' && n[|n| - 4..] == hash.value
           && (forall i :: |n| - 4 <= i < |n| ==> IsDecimalDigit(n[i]))
  {
    if hash.Success? {
      var n := stem + "-" + hash.value;
      assert n[..|n| - 5] == stem;
      assert n[|n| - 4..] == hash.value;
      assert forall i :: |n| - 4 <= i < |n| ==> n[i] == hash.value[i - (|n| - 4)];
    }
  }

  /** Every HAT is named after a known stem. */
  lemma StemKnown(b: Board)
    ensures KnownStem(Identify(b).1)
  {
    if b.vendor == GoogleVendor && b.productId in AiyBoards {
      assert b.productId == 1 || b.productId == 2 || b.productId == 3;
    }
  }

  /** Without a HAT, only the serial number matters: the result fails
      only when it is missing or the digest is short. */
  lemma NoHatBoard(dt: DeviceTree, md5: seq<byte> -> seq<byte>)
    requires !dt.hat && "serial-number" in dt.nodes
    requires |md5(DeviceTreeNode(dt.nodes["serial-number"]))| == 16
    ensures BoardInfo(dt, md5).Success?
    ensures BoardInfo(dt, md5).value.0 == 0
  {
  }

  /** A name made of a stem without newline and a hash has no newline. */
  lemma NamedClean(id: int, stem: string, hash: Result<string>)
    requires '\n' !in stem
    requires hash.Success? ==> forall i :: 0 <= i < |hash.value| ==> IsDecimalDigit(hash.value[i])
    ensures Named(id, stem, hash).Success? ==> '\n' !in Named(id, stem, hash).value.1
  {
  }

  /** Board names hold no newline. */
  lemma BoardNameClean(dt: DeviceTree, md5: seq<byte> -> seq<byte>)
    ensures BoardInfo(dt, md5).Success? ==> '\n' !in BoardInfo(dt, md5).value.1
  {
    if dt.hat {
      if HatBoard(dt).Success? {
        var b := HatBoard(dt).value;
        var stem := Identify(b).1;
        StemKnown(b);
        NamedClean(Identify(b).0, stem, SimpleHash(md5(b.uuid), HashLength));
      }
    } else if Node(dt, "serial-number").Success? {
      NamedClean(0, "Raspberry-Pi", SimpleHash(md5(Node(dt, "serial-number").value), HashLength));
    }
  }

  // ---------------------------------------------------------------------
  // main

  /** `'AIY_BOARD_ID=%d\nAIY_BOARD_NAME=%s\n' % (id, name)` */
  function Message(id: int, name: string): string {
    "AIY_BOARD_ID=" + Decimal(id) + "\nAIY_BOARD_NAME=" + name + "\n"
  }

  /** Two lines without the separator, each followed by it, split back
      into the two lines and an empty rest. */
  lemma SplitTwoLines<T>(l0: seq<T>, l1: seq<T>, c: T)
    requires c !in l0 && c !in l1
    ensures Split(l0 + [c] + l1 + [c], c) == [l0, l1, []]
  {
    var rest := l1 + [c] + [];
    SplitNone([], c);
    SplitCons(l1, c, []);
    assert l0 + [c] + l1 + [c] == l0 + [c] + rest;
    SplitCons(l0, c, rest);
  }

  /** The output reads back line by line: the id after `AIY_BOARD_ID=`,
      the name after `AIY_BOARD_NAME=`, and a final newline. */
  lemma MessageReadsBack(id: int, name: string)
    requires '\n' !in name
    ensures Split(Message(id, name), '\n') == ["AIY_BOARD_ID=" + Decimal(id), "AIY_BOARD_NAME=" + name, []]
    ensures PyInt(Decimal(id), 10) == Some(id)
  {
    var l0 := "AIY_BOARD_ID=" + Decimal(id);
    var l1 := "AIY_BOARD_NAME=" + name;
    assert '\n' !in Decimal(id) by {
      assert forall j :: 0 <= j < |Decimal(id)| ==> Decimal(id)[j] != '\n';
    }
    assert '\n' !in l0 && '\n' !in l1;
    assert Message(id, name) == l0 + ['\n'] + l1 + ['\n'];
    SplitTwoLines(l0, l1, '\n');
    DecimalRoundTrip(id);
  }

  /** What `main` writes reads back as the board's id and name. */
  lemma MainOutputReadsBack(dt: DeviceTree, md5: seq<byte> -> seq<byte>)
    requires BoardInfo(dt, md5).Success?
    ensures var (id, name) := BoardInfo(dt, md5).value;
      && Split(Message(id, name), '\n') == ["AIY_BOARD_ID=" + Decimal(id), "AIY_BOARD_NAME=" + name, []]
      && PyInt(Decimal(id), 10) == Some(id)
  {
    BoardNameClean(dt, md5);
    var (id, name) := BoardInfo(dt, md5).value;
    MessageReadsBack(id, name);
  }
}

=== FILE: bt_prov_server.dfy ===
/** The Bluetooth provisioning server of
    packages/aiy-bt-prov-server/bt_prov_server.py: the length-prefixed
    framing of requests and responses on the RFCOMM socket, the dispatch of
    one connection's requests to their handlers, the device name and the
    Bluetooth alias derived from it, the Wi-Fi summary sent with
    `get_state` and `connect_network`, the choice of trigger and the
    one-time `Close`.

    Protocol-buffer parsing and serialisation are parameters (`parse`,
    `serialize`); the station client's answers during one connection are
    the value `Station`; what arrives on the client socket is the list of
    segments that `recv` hands out. */
module BtProvServer {
  import opened Wrappers
  import opened PyStr
  import WpasClient

  const ProtocolVersion := 1
  const IdentifyData := "Test response to identify"
  /** `StaWpasClient.Scan` and `StaWpasClient.ConnectNetwork` defaults. */
  const DefaultScanTimeout := 10
  const DefaultConnectTimeout := 20
  const Pow32 := 0x1_0000_0000

  // ---------------------------------------------------------------------
  // Framing: `struct.pack("!I", n)` and `struct.unpack("!I", buf)`

  /** A big-endian unsigned 32-bit length. */
  function Be32(b: seq<byte>): (n: int)
    requires |b| == 4
    ensures 0 <= n < Pow32
  {
    var b0: int, b1: int, b2: int, b3: int := b[0], b[1], b[2], b[3];
    0x100_0000 * b0 + 0x1_0000 * b1 + 0x100 * b2 + b3
  }

  function Be32Bytes(n: int): (r: seq<byte>)
    requires 0 <= n < Pow32
    ensures |r| == 4
  {
    [n / 0x100_0000, (n / 0x1_0000) % 0x100, (n / 0x100) % 0x100, n % 0x100]
  }

  lemma Be32RoundTrip(n: int)
    requires 0 <= n < Pow32
    ensures Be32(Be32Bytes(n)) == n
  {
    var q1 := n / 0x100;
    var q2 := q1 / 0x100;
    var q3 := q2 / 0x100;
    assert n == q1 * 0x100 + n % 0x100;
    assert q1 == q2 * 0x100 + q1 % 0x100;
    assert q2 == q3 * 0x100 + q2 % 0x100;
    assert n / 0x1_0000 == q2;
    assert n / 0x100_0000 == q3;
  }

  /** Every four bytes are the packing of the length they unpack to. */
  lemma Be32BytesOf(b: seq<byte>)
    requires |b| == 4
    ensures Be32Bytes(Be32(b)) == b
  {
    var b0: int, b1: int, b2: int, b3: int := b[0], b[1], b[2], b[3];
    var n := Be32(b);
    assert n == 0x100 * (0x1_0000 * b0 + 0x100 * b1 + b2) + b3;
    assert n % 0x100 == b3 && n / 0x100 == 0x1_0000 * b0 + 0x100 * b1 + b2;
    assert n == 0x1_0000 * (0x100 * b0 + b1) + (0x100 * b2 + b3);
    assert n / 0x1_0000 == 0x100 * b0 + b1;
    assert n == 0x100_0000 * b0 + (0x1_0000 * b1 + 0x100 * b2 + b3);
    assert n / 0x100_0000 == b0;
  }

  /** What `_SendMessage` writes for a serialised message: its length as
      four big-endian bytes, then the message. */
  function Frame(payload: seq<byte>): (r: seq<byte>)
    requires |payload| < Pow32
    ensures |r| == 4 + |payload| && Be32(r[..4]) == |payload| && r[4..] == payload
  {
    Be32RoundTrip(|payload|);
    var r := Be32Bytes(|payload|) + payload;
    assert r[..4] == Be32Bytes(|payload|);
    r
  }

  /** What `_ReceiveRequest` reads from the bytes still to come: the
      payload of the next frame and what follows it, or `None` when the
      bytes run out first. */
  function NextFrame(s: seq<byte>): (r: Option<(seq<byte>, seq<byte>)>)
    ensures r.Some? ==> |r.value.1| + 4 <= |s|
    ensures r.None? <==> |s| < 4 || |s| - 4 < Be32(s[..4])
  {
    if |s| < 4 then None
    else
      var n := Be32(s[..4]);
      if |s| - 4 < n then None else Some((s[4..4 + n], s[4 + n..]))
  }

  /** A framed payload is read back exactly, whatever follows it. */
  lemma NextFrameOfFrame(payload: seq<byte>, rest: seq<byte>)
    requires |payload| < Pow32
    ensures NextFrame(Frame(payload) + rest) == Some((payload, rest))
  {
    var s := Frame(payload) + rest;
    assert s[..4] == Be32Bytes(|payload|);
    Be32RoundTrip(|payload|);
    assert s[4..4 + |payload|] == payload;
    assert s[4 + |payload|..] == rest;
  }

  /** Conversely, whatever is read as a frame was one. */
  lemma FrameOfNextFrame(s: seq<byte>)
    requires NextFrame(s).Some?
    ensures |NextFrame(s).value.0| < Pow32
    ensures s == Frame(NextFrame(s).value.0) + NextFrame(s).value.1
  {
    var n := Be32(s[..4]);
    Be32BytesOf(s[..4]);
    assert |s[4..4 + n]| == n;
    assert s == s[..4] + s[4..4 + n] + s[4 + n..];
  }

  // ---------------------------------------------------------------------
  // Messages

  datatype Request =
    | GetState
    | SetDeviceName(deviceName: string)
    | Identify(data: string)
    | ScanNetworks(timeout: int)
    | ConnectNetwork(ssid: string, psk: string, timeout: int)
      /** A request whose `request` field is unset or unknown. */
    | NoRequest

  datatype Status = SUCCESS | FAILURE
  datatype WifiState = Disconnected | Connected | Disabled
  datatype WifiInfo = WifiInfo(state: WifiState, ssid: string, ip: string, rssi: int)

  datatype Response =
    | GetStateResponse(status: Status, protocolVersion: int, kitId: int, deviceName: string, wifiInfo: WifiInfo)
    | SetDeviceNameResponse(status: Status, deviceName: string)
    | IdentifyResponse(status: Status, data: string)
    | ScanNetworksResponse(status: Status, results: seq<WpasClient.ScanResult>)
    | ConnectNetworkResponse(status: Status, wifiInfo: WifiInfo)

  /** What the station client answers while one connection lasts:
      `GetState`, the entries of `Scan` and the result of `ConnectNetwork`. */
  datatype Station = Station(wpaState: string, ssid: string, ip: string, rssi: int,
                             scanResults: seq<WpasClient.ScanResult>, connects: bool)

  /** A call made on the station client, with the timeout it is given. */
  datatype StationCall = Scan(timeout: int) | Connect(ssid: string, psk: string, timeout: int)

  /** `_SetWifiInfo` */
  function WifiInfoOf(st: Station): (r: WifiInfo)
    ensures r.state == Disabled <==> st.wpaState == "INTERFACE_DISABLED"
    ensures r.state == Connected <==> st.wpaState == "COMPLETED"
    ensures (r.ssid, r.ip, r.rssi) == (st.ssid, st.ip, st.rssi)
  {
    var state :=
      if st.wpaState == "INTERFACE_DISABLED" then Disabled
      else if st.wpaState == "COMPLETED" then Connected
      else Disconnected;
    WifiInfo(state, st.ssid, st.ip, st.rssi)
  }

  /** The Bluetooth alias `"AIY-%d-%s" % (kit_id, device_name)`. */
  function BtAlias(kitId: int, deviceName: string): string {
    AliasPrefix(kitId) + deviceName
  }

  function AliasPrefix(kitId: int): string {
    "AIY-" + Decimal(kitId) + "-"
  }

  /** The alias starts with the kit's prefix and the device name is what
      follows it; the kit id is the decimal text after "AIY-". */
  lemma AliasParts(kitId: int, deviceName: string)
    ensures StartsWith(BtAlias(kitId, deviceName), AliasPrefix(kitId))
    ensures BtAlias(kitId, deviceName)[|AliasPrefix(kitId)|..] == deviceName
    ensures PyInt(BtAlias(kitId, deviceName)[4..|AliasPrefix(kitId)| - 1], 10) == Some(kitId)
  {
    var a := BtAlias(kitId, deviceName);
    assert a[..|AliasPrefix(kitId)|] == AliasPrefix(kitId);
    assert a[4..|AliasPrefix(kitId)| - 1] == Decimal(kitId);
    DecimalRoundTrip(kitId);
  }

  /** The reply to `set_device_name` once the name is stored: `SUCCESS`
      exactly when the stored name is the one requested. */
  function SetDeviceNameReply(requested: string, stored: string): (r: Response)
    ensures r.SetDeviceNameResponse? && r.deviceName == stored
    ensures r.status == SUCCESS <==> requested == stored
  {
    SetDeviceNameResponse(if requested == stored then SUCCESS else FAILURE, stored)
  }

  /** The timeout handed to the station client: the request's when
      positive, else the call's default. */
  function TimeoutOr(timeout: int, default: int): int {
    if timeout > 0 then timeout else default
  }

  /** One handled request: the response sent, the device name afterwards
      and the station-client calls made. */
  datatype Step = Step(response: Response, name: string, calls: seq<StationCall>)

  /** The handlers of `_HandleConnection` as they are evidently meant to
      behave; `None` for a request they do not know, which ends the
      connection. `set_device_name` stores the requested name. */
  function Handle(req: Request, kitId: int, name: string, st: Station): Option<Step> {
    match req
    case GetState =>
      Some(Step(GetStateResponse(SUCCESS, ProtocolVersion, kitId, name, WifiInfoOf(st)), name, []))
    case SetDeviceName(n) =>
      Some(Step(SetDeviceNameReply(n, n), n, []))
    case Identify(_) =>
      Some(Step(IdentifyResponse(SUCCESS, IdentifyData), name, []))
    case ScanNetworks(t) =>
      Some(Step(ScanNetworksResponse(SUCCESS, st.scanResults), name,
                [Scan(TimeoutOr(t, DefaultScanTimeout))]))
    case ConnectNetwork(ssid, psk, t) =>
      Some(Step(ConnectNetworkResponse(if st.connects then SUCCESS else FAILURE, WifiInfoOf(st)), name,
                [Connect(ssid, psk, TimeoutOr(t, DefaultConnectTimeout))]))
    case NoRequest => None
  }

  /** The handlers as written: `_HandleSetDeviceName` calls
      `self._UpdateDeviceName`, which the class does not define, so every
      `set_device_name` request raises AttributeError. */
  function HandleAsWritten(req: Request, kitId: int, name: string, st: Station): (r: Result<Option<Step>>)
    ensures r.Failure? <==> req.SetDeviceName?
    ensures r.Success? ==> r.value == Handle(req, kitId, name, st)
  {
    if req.SetDeviceName? then Failure("AttributeError") else Success(Handle(req, kitId, name, st))
  }

  /** A renamed device reports its new name, and the reply says so. */
  lemma SetDeviceNameStores(n: string, kitId: int, name: string, st: Station)
    ensures Handle(SetDeviceName(n), kitId, name, st)
            == Some(Step(SetDeviceNameResponse(SUCCESS, n), n, []))
  {
  }

  /** The requests that keep the connection open are exactly the five
      known ones; every one of them answers and only `set_device_name`
      changes the name. */
  lemma HandleKnown(req: Request, kitId: int, name: string, st: Station)
    ensures Handle(req, kitId, name, st).None? <==> req.NoRequest?
    ensures Handle(req, kitId, name, st).Some? && !req.SetDeviceName? ==>
      Handle(req, kitId, name, st).value.name == name
  {
  }

  // ---------------------------------------------------------------------
  // One connection

  /** How `_HandleConnection` ends: an unknown request ends it normally;
      running out of bytes is the IOError `Run` catches; a payload that
      does not parse, or a response too long for its length prefix,
      raises out of the loop. */
  datatype Outcome = UnknownRequest | ConnectionLost | DecodeError | PackError

  /** The sum of one connection: bytes sent, station calls made, the device
      name afterwards, the bytes left unread and how it ended. */
  datatype Exchange = Exchange(wire: seq<byte>, calls: seq<StationCall>, name: string,
                               rest: seq<byte>, outcome: Outcome)

  /** `_HandleConnection` over the bytes the client sends. */
  function Dialogue(s: seq<byte>, parse: seq<byte> -> Option<Request>, serialize: Response -> seq<byte>,
                    kitId: int, name: string, st: Station): Exchange
    decreases |s|
  {
    match NextFrame(s)
    case None => Exchange([], [], name, [], ConnectionLost)
    case Some((payload, rest)) =>
      match parse(payload)
      case None => Exchange([], [], name, rest, DecodeError)
      case Some(req) =>
        match Handle(req, kitId, name, st)
        case None => Exchange([], [], name, rest, UnknownRequest)
        case Some(step) =>
          var buf := serialize(step.response);
          if |buf| >= Pow32 then Exchange([], step.calls, step.name, rest, PackError)
          else
            var e := Dialogue(rest, parse, serialize, kitId, step.name, st);
            Exchange(Frame(buf) + e.wire, step.calls + e.calls, e.name, e.rest, e.outcome)
  }

  /** An unknown request ends the connection with nothing sent and the
      bytes after it unread. */
  lemma UnknownEndsDialogue(payload: seq<byte>, rest: seq<byte>, parse: seq<byte> -> Option<Request>,
                            serialize: Response -> seq<byte>, kitId: int, name: string, st: Station)
    requires |payload| < Pow32 && parse(payload) == Some(NoRequest)
    ensures Dialogue(Frame(payload) + rest, parse, serialize, kitId, name, st)
            == Exchange([], [], name, rest, UnknownRequest)
  {
    NextFrameOfFrame(payload, rest);
  }

  /** Each known request is answered with one frame, in order: the
      exchange over a framed request and what follows is its response's
      frame followed by the exchange over the rest. */
  lemma DialogueStep(payload: seq<byte>, rest: seq<byte>, parse: seq<byte> -> Option<Request>,
                     serialize: Response -> seq<byte>, kitId: int, name: string, st: Station)
    requires |payload| < Pow32 && parse(payload).Some?
    requires Handle(parse(payload).value, kitId, name, st).Some?
    requires |serialize(Handle(parse(payload).value, kitId, name, st).value.response)| < Pow32
    ensures var step := Handle(parse(payload).value, kitId, name, st).value;
            var e := Dialogue(rest, parse, serialize, kitId, step.name, st);
            Dialogue(Frame(payload) + rest, parse, serialize, kitId, name, st)
            == Exchange(Frame(serialize(step.response)) + e.wire, step.calls + e.calls, e.name, e.rest, e.outcome)
  {
    NextFrameOfFrame(payload, rest);
  }

  /** After `set_device_name`, `get_state` reports the new name. */
  lemma RenameThenGetState(p1: seq<byte>, p2: seq<byte>, rest: seq<byte>, n: string,
                           parse: seq<byte> -> Option<Request>, serialize: Response -> seq<byte>,
                           kitId: int, name: string, st: Station)
    requires |p1| < Pow32 && |p2| < Pow32
    requires parse(p1) == Some(SetDeviceName(n)) && parse(p2) == Some(GetState)
    requires |serialize(SetDeviceNameResponse(SUCCESS, n))| < Pow32
    requires |serialize(GetStateResponse(SUCCESS, ProtocolVersion, kitId, n, WifiInfoOf(st)))| < Pow32
    ensures Dialogue(Frame(p1) + (Frame(p2) + rest), parse, serialize, kitId, name, st).wire
            == Frame(serialize(SetDeviceNameResponse(SUCCESS, n)))
               + Frame(serialize(GetStateResponse(SUCCESS, ProtocolVersion, kitId, n, WifiInfoOf(st))))
               + Dialogue(rest, parse, serialize, kitId, n, st).wire
  {
    DialogueStep(p1, Frame(p2) + rest, parse, serialize, kitId, name, st);
    DialogueStep(p2, rest, parse, serialize, kitId, n, st);
  }

  /** The sockets are a connection's concatenated segments. */
  function Concat(ss: seq<seq<byte>>): seq<byte> {
    if ss == [] then [] else ss[0] + Concat(ss[1..])
  }

  /** Cleanup actions, in the order `Close` takes them. */
  datatype Effect =
    | SetAdapter(property: string, value: int)
    | HciConfig(command: string)
    | CloseStation
    | CloseClientSocket
    | CloseServerSocket
    | CloseTrigger

  const DiscoverableProperty := "Discoverable"
  const DiscoverableTimeoutProperty := "DiscoverableTimeout"
  /** `_HciConfigCommand` runs this followed by its argument. */
  const HciConfigCommand := "/bin/hciconfig hci0 "

  /** `_SetDiscoverable` */
  function DiscoverableEffects(discoverable: bool): seq<Effect> {
    if discoverable then
      [SetAdapter(DiscoverableTimeoutProperty, 0), SetAdapter(DiscoverableProperty, 1), HciConfig(HciConfigCommand + "leadv 3")]
    else
      [SetAdapter(DiscoverableProperty, 0), HciConfig(HciConfigCommand + "noleadv")]
  }

  /** What the first `Close` does. */
  function CloseEffects(clientOpen: bool, serverOpen: bool, hasTrigger: bool): seq<Effect> {
    [CloseStation]
    + (if clientOpen then [CloseClientSocket] else [])
    + (if serverOpen then [CloseServerSocket] else [])
    + DiscoverableEffects(false)
    + (if hasTrigger then [CloseTrigger] else [])
  }

  /** The station client is closed first, the adapter stops advertising,
      and each socket and the trigger are closed exactly when present. */
  lemma CloseEffectsCover(clientOpen: bool, serverOpen: bool, hasTrigger: bool)
    ensures var r := CloseEffects(clientOpen, serverOpen, hasTrigger);
      && r[0] == CloseStation
      && (CloseClientSocket in r <==> clientOpen)
      && (CloseServerSocket in r <==> serverOpen)
      && (CloseTrigger in r <==> hasTrigger)
      && SetAdapter(DiscoverableProperty, 0) in r
  {
    var r := CloseEffects(clientOpen, serverOpen, hasTrigger);
    var c := if clientOpen then [CloseClientSocket] else [];
    var v := if serverOpen then [CloseServerSocket] else [];
    var t := if hasTrigger then [CloseTrigger] else [];
    var d := DiscoverableEffects(false);
    assert r == [CloseStation] + c + v + d + t;
    assert CloseClientSocket !in d && CloseServerSocket !in d && CloseTrigger !in d;
    assert d[0] == SetAdapter(DiscoverableProperty, 0);
    assert r[1 + |c| + |v|] == d[0];
  }

  class Server {
    const kitId: int
    /** `_trigger is not None` */
    const hasTrigger: bool
    var deviceName: string
    /** The adapter's `Alias` property. */
    var alias: string
    var closed: bool
    var triggered: bool
    /** `_client_socket is not None`, `_server_socket is not None` */
    var clientOpen: bool
    var serverOpen: bool
    /** What the client has sent and the server not yet read, as `recv`
        hands it out. */
    var segments: seq<seq<byte>>
    /** What the server has written to the client socket. */
    var wire: seq<byte>
    var calls: seq<StationCall>
    var effects: seq<Effect>

    ghost predicate Valid()
      reads this
    {
      && alias == BtAlias(kitId, deviceName)
      && forall k :: 0 <= k < |segments| ==> segments[k] != []
    }

    /** `__init__`: the kit's trigger is used only when it is enabled and a
        kit is detected (`kit_id != 0`). */
    constructor (kitId: int, kitName: string, enableTrigger: bool)
      ensures Valid()
      ensures this.kitId == kitId && deviceName == kitName
      ensures hasTrigger <==> enableTrigger && kitId != 0
      ensures !closed && !triggered && !clientOpen && !serverOpen
      ensures segments == [] && wire == [] && calls == [] && effects == []
    {
      this.kitId := kitId;
      deviceName := kitName;
      alias := BtAlias(kitId, kitName);
      closed := false;
      triggered := false;
      hasTrigger := enableTrigger && kitId != 0;
      clientOpen := false;
      serverOpen := false;
      segments := [];
      wire := [];
      calls := [];
      effects := [];
    }

    /** `_WaitForTrigger` would block: a trigger exists and has neither
        fired nor been overtaken by `Close`. */
    predicate WaitsForTrigger()
      reads this
    {
      hasTrigger && !triggered && !closed
    }

    /** `_Triggered` */
    method Triggered()
      modifies this`triggered
      ensures triggered && !WaitsForTrigger()
    {
      triggered := true;
    }

    /** A client connects; `incoming` is what it will send. */
    method Accept(incoming: seq<seq<byte>>)
      requires Valid()
      requires forall k :: 0 <= k < |incoming| ==> incoming[k] != []
      modifies this`clientOpen, this`segments
      ensures Valid() && clientOpen && segments == incoming
    {
      clientOpen := true;
      segments := incoming;
    }

    /** `_SetDeviceName`: stores the name and sets the alias. */
    method SetName(name: string)
      requires Valid()
      modifies this`deviceName, this`alias
      ensures Valid() && deviceName == name
    {
      deviceName := name;
      alias := BtAlias(kitId, name);
    }

    /** `_SetDiscoverable` */
    method SetDiscoverable(discoverable: bool)
      modifies this`effects
      ensures effects == old(effects) + DiscoverableEffects(discoverable)
    {
      effects := effects + DiscoverableEffects(discoverable);
    }

    /** `Close`: only the first call closes anything. */
    method Close()
      modifies this`closed, this`effects
      ensures closed
      ensures old(closed) ==> effects == old(effects)
      ensures !old(closed) ==> effects == old(effects) + CloseEffects(clientOpen, serverOpen, hasTrigger)
    {
      if closed {
        return;
      }
      closed := true;
      var closing := [CloseStation];
      if clientOpen {
        closing := closing + [CloseClientSocket];
      }
      if serverOpen {
        closing := closing + [CloseServerSocket];
      }
      effects := effects + closing;
      SetDiscoverable(false);
      if hasTrigger {
        effects := effects + [CloseTrigger];
      }
    }

    /** The socket's `recv(max)`: at most `max` bytes of the segment that
        arrived first; IOError once the connection has nothing left. */
    method Recv(max: nat) returns (r: Result<seq<byte>>)
      requires Valid() && max > 0
      modifies this`segments
      ensures Valid()
      ensures old(segments) == [] ==> r == Failure("IOError") && segments == []
      ensures old(segments) != [] ==>
        r.Success? && 0 < |r.value| <= max && r.value + Concat(segments) == Concat(old(segments))
    {
      if segments == [] {
        return Failure("IOError");
      }
      var seg := segments[0];
      if |seg| <= max {
        segments := segments[1..];
        return Success(seg);
      }
      segments := [seg[max..]] + segments[1..];
      assert seg[..max] + seg[max..] == seg;
      return Success(seg[..max]);
    }

    /** `_ReceiveBytes`: reads until exactly `numBytes` bytes are in hand,
        however the client's data is split. */
    method ReceiveBytes(numBytes: nat) returns (r: Result<seq<byte>>)
      requires Valid()
      modifies this`segments
      ensures Valid()
      ensures var s := Concat(old(segments));
        && (|s| >= numBytes ==> r == Success(s[..numBytes]) && Concat(segments) == s[numBytes..])
        && (|s| < numBytes ==> r == Failure("IOError") && segments == [])
    {
      ghost var s := Concat(segments);
      var received: seq<byte> := [];
      while numBytes > |received|
        invariant Valid()
        invariant |received| <= numBytes
        invariant received + Concat(segments) == s
        decreases numBytes - |received|
      {
        var buf := Recv(numBytes - |received|);
        if buf.Failure? {
          assert received == s;
          return Failure("IOError");
        }
        received := received + buf.value;
      }
      assert s[..numBytes] == received;
      assert s[numBytes..] == Concat(segments);
      return Success(received);
    }

    /** `_ReceiveRequest`: the next frame's payload, parsed. */
    method ReceiveRequest(parse: seq<byte> -> Option<Request>) returns (r: Result<Request>)
      requires Valid()
      modifies this`segments
      ensures Valid()
      ensures var f := NextFrame(Concat(old(segments)));
        && (f.None? ==> r == Failure("IOError") && segments == [])
        && (f.Some? && parse(f.value.0).None? ==>
              r == Failure("DecodeError") && Concat(segments) == f.value.1)
        && (f.Some? && parse(f.value.0).Some? ==>
              r == Success(parse(f.value.0).value) && Concat(segments) == f.value.1)
    {
      ghost var s := Concat(segments);
      var buf := ReceiveBytes(4);
      if buf.Failure? {
        return Failure("IOError");
      }
      assert buf.value == s[..4];
      var numBytes := Be32(buf.value);
      buf := ReceiveBytes(numBytes);
      if buf.Failure? {
        return Failure("IOError");
      }
      assert s[4..][..numBytes] == s[4..4 + numBytes];
      assert s[4..][numBytes..] == s[4 + numBytes..];
      var request := parse(buf.value);
      if request.None? {
        return Failure("DecodeError");
      }
      return Success(request.value);
    }

    /** `_SendMessage`: nothing without a client; otherwise the frame of
        the serialised message, or struct.error when its length does not
        fit the prefix. */
    method SendMessage(buf: seq<byte>) returns (ok: bool)
      modifies this`wire
      ensures !clientOpen ==> ok && wire == old(wire)
      ensures clientOpen ==> (ok <==> |buf| < Pow32)
      ensures clientOpen && |buf| < Pow32 ==> wire == old(wire) + Frame(buf)
      ensures clientOpen && |buf| >= Pow32 ==> wire == old(wire)
    {
      if !clientOpen {
        return true;
      }
      if |buf| >= Pow32 {
        return false;
      }
      wire := wire + Be32Bytes(|buf|);
      wire := wire + buf;
      return true;
    }

    /** A handler's effect: `step` was taken, its response sent if `ok`. */
    ghost predicate Answered(step: Step, serialize: Response -> seq<byte>,
                             calls0: seq<StationCall>, wire0: seq<byte>, ok: bool)
      reads this
    {
      && deviceName == step.name
      && calls == calls0 + step.calls
      && (ok <==> |serialize(step.response)| < Pow32)
      && (ok ==> wire == wire0 + Frame(serialize(step.response)))
      && (!ok ==> wire == wire0)
    }

    /** `_HandleGetState` */
    method HandleGetState(serialize: Response -> seq<byte>, st: Station) returns (ok: bool)
      requires Valid() && clientOpen
      modifies this`wire
      ensures Answered(Handle(GetState, kitId, deviceName, st).value, serialize, calls, old(wire), ok)
    {
      var response := GetStateResponse(SUCCESS, ProtocolVersion, kitId, deviceName, WifiInfoOf(st));
      ok := SendMessage(serialize(response));
    }

    /** `_HandleSetDeviceName` with the name stored by `_SetDeviceName`. */
    method HandleSetDeviceName(requested: string, serialize: Response -> seq<byte>, ghost st: Station)
      returns (ok: bool)
      requires Valid() && clientOpen
      modifies this`deviceName, this`alias, this`wire
      ensures Valid()
      ensures Answered(Handle(SetDeviceName(requested), kitId, old(deviceName), st).value,
                       serialize, calls, old(wire), ok)
    {
      SetName(requested);
      var response := SetDeviceNameReply(requested, deviceName);
      ok := SendMessage(serialize(response));
    }

    /** `_HandleSetDeviceName` as written: the call to the undefined
        `_UpdateDeviceName` raises before anything is stored or sent. */
    method HandleSetDeviceNameAsWritten(requested: string) returns (r: Result<()>)
      ensures r == Failure("AttributeError")
    {
      r := Failure("AttributeError");
    }

    /** `_HandleIdentify` */
    method HandleIdentify(data: string, serialize: Response -> seq<byte>, ghost st: Station) returns (ok: bool)
      requires Valid() && clientOpen
      modifies this`wire
      ensures Answered(Handle(Identify(data), kitId, deviceName, st).value, serialize, calls, old(wire), ok)
    {
      ok := SendMessage(serialize(IdentifyResponse(SUCCESS, IdentifyData)));
    }

    /** `_HandleScanNetworks` */
    method HandleScanNetworks(timeout: int, serialize: Response -> seq<byte>, st: Station) returns (ok: bool)
      requires Valid() && clientOpen
      modifies this`calls, this`wire
      ensures Answered(Handle(ScanNetworks(timeout), kitId, deviceName, st).value,
                       serialize, old(calls), old(wire), ok)
    {
      if timeout > 0 {
        calls := calls + [Scan(timeout)];
      } else {
        calls := calls + [Scan(DefaultScanTimeout)];
      }
      var response := ScanNetworksResponse(SUCCESS, st.scanResults);
      ok := SendMessage(serialize(response));
    }

    /** `_HandleConnectNetwork` */
    method HandleConnectNetwork(ssid: string, psk: string, timeout: int, serialize: Response -> seq<byte>,
                                st: Station) returns (ok: bool)
      requires Valid() && clientOpen
      modifies this`calls, this`wire
      ensures Answered(Handle(ConnectNetwork(ssid, psk, timeout), kitId, deviceName, st).value,
                       serialize, old(calls), old(wire), ok)
    {
      if timeout > 0 {
        calls := calls + [Connect(ssid, psk, timeout)];
      } else {
        calls := calls + [Connect(ssid, psk, DefaultConnectTimeout)];
      }
      var status := if st.connects then SUCCESS else FAILURE;
      var response := ConnectNetworkResponse(status, WifiInfoOf(st));
      ok := SendMessage(serialize(response));
    }

    /** The `if`/`elif` chain of `_HandleConnection`: a known request is
        handed to its handler; `known` is false for any other. */
    method Dispatch(req: Request, serialize: Response -> seq<byte>, st: Station) returns (known: bool, ok: bool)
      requires Valid() && clientOpen
      modifies this`deviceName, this`alias, this`wire, this`calls
      ensures Valid()
      ensures known <==> Handle(req, kitId, old(deviceName), st).Some?
      ensures known ==> Answered(Handle(req, kitId, old(deviceName), st).value, serialize, old(calls), old(wire), ok)
      ensures !known ==> deviceName == old(deviceName) && wire == old(wire) && calls == old(calls)
    {
      known := true;
      match req {
        case GetState =>
          ok := HandleGetState(serialize, st);
        case SetDeviceName(n) =>
          ok := HandleSetDeviceName(n, serialize, st);
        case Identify(data) =>
          ok := HandleIdentify(data, serialize, st);
        case ScanNetworks(t) =>
          ok := HandleScanNetworks(t, serialize, st);
        case ConnectNetwork(ssid, psk, t) =>
          ok := HandleConnectNetwork(ssid, psk, t, serialize, st);
        case NoRequest =>
          known, ok := false, true;
      }
    }

    /** `_HandleConnection`: requests are answered in order until one is
        unknown or the connection fails. */
    method HandleConnection(parse: seq<byte> -> Option<Request>, serialize: Response -> seq<byte>, st: Station)
      returns (outcome: Outcome)
      requires Valid() && clientOpen
      modifies this`segments, this`deviceName, this`alias, this`wire, this`calls
      ensures Valid()
      ensures var e := Dialogue(Concat(old(segments)), parse, serialize, kitId, old(deviceName), st);
        && wire == old(wire) + e.wire
        && calls == old(calls) + e.calls
        && deviceName == e.name
        && Concat(segments) == e.rest
        && outcome == e.outcome
    {
      ghost var e0 := Dialogue(Concat(segments), parse, serialize, kitId, deviceName, st);
      ghost var wire0, calls0 := wire, calls;
      while true
        invariant Valid()
        invariant Continues(e0, wire0, calls0, Dialogue(Concat(segments), parse, serialize, kitId, deviceName, st),
                            wire, calls)
        decreases |Concat(segments)|
      {
        ghost var s := Concat(segments);
        ghost var name := deviceName;
        ghost var wire1, calls1 := wire, calls;
        var received := ReceiveRequest(parse);
        if received.Failure? {
          return if received.error == "IOError" then ConnectionLost else DecodeError;
        }
        var known, ok := Dispatch(received.value, serialize, st);
        if !known {
          return UnknownRequest;
        }
        DialogueUnfold(s, parse, serialize, kitId, name, st);
        if !ok {
          return PackError;
        }
        ContinuesStep(e0, wire0, calls0, Dialogue(s, parse, serialize, kitId, name, st), wire1, calls1,
                      Dialogue(Concat(segments), parse, serialize, kitId, deviceName, st),
                      Frame(serialize(Handle(received.value, kitId, name, st).value.response)),
                      Handle(received.value, kitId, name, st).value.calls);
      }
    }
  }

  /** The loop invariant of `Server.HandleConnection`: what is already
      sent and called, followed by the exchange `e` over the bytes still
      unread, is the exchange `e0` over the whole connection. */
  ghost predicate Continues(e0: Exchange, wire0: seq<byte>, calls0: seq<StationCall>,
                            e: Exchange, wire: seq<byte>, calls: seq<StationCall>)
  {
    && wire0 + e0.wire == wire + e.wire
    && calls0 + e0.calls == calls + e.calls
    && e.name == e0.name && e.rest == e0.rest && e.outcome == e0.outcome
  }

  lemma ContinuesStep(e0: Exchange, wire0: seq<byte>, calls0: seq<StationCall>,
                      e: Exchange, wire: seq<byte>, calls: seq<StationCall>,
                      e1: Exchange, frame: seq<byte>, stepCalls: seq<StationCall>)
    requires Continues(e0, wire0, calls0, e, wire, calls)
    requires e == Exchange(frame + e1.wire, stepCalls + e1.calls, e1.name, e1.rest, e1.outcome)
    ensures Continues(e0, wire0, calls0, e1, wire + frame, calls + stepCalls)
  {
    assert wire + e.wire == (wire + frame) + e1.wire;
    assert calls + e.calls == (calls + stepCalls) + e1.calls;
  }

  /** One round of `Dialogue`, unfolded for a frame whose request is
      known. */
  lemma DialogueUnfold(s: seq<byte>, parse: seq<byte> -> Option<Request>, serialize: Response -> seq<byte>,
                       kitId: int, name: string, st: Station)
    requires NextFrame(s).Some? && parse(NextFrame(s).value.0).Some?
    requires Handle(parse(NextFrame(s).value.0).value, kitId, name, st).Some?
    ensures var rest := NextFrame(s).value.1;
      var step := Handle(parse(NextFrame(s).value.0).value, kitId, name, st).value;
      var buf := serialize(step.response);
      var e := Dialogue(s, parse, serialize, kitId, name, st);
      && (|buf| >= Pow32 ==> e == Exchange([], step.calls, step.name, rest, PackError))
      && (|buf| < Pow32 ==>
            var e1 := Dialogue(rest, parse, serialize, kitId, step.name, st);
            e == Exchange(Frame(buf) + e1.wire, step.calls + e1.calls, e1.name, e1.rest, e1.outcome))
  {
  }

  /** A second `Close` does nothing: a fresh server closed twice shows only
      the first call's effects. */
  method CloseTwice(kitId: int, kitName: string, enableTrigger: bool) returns (effects: seq<Effect>)
    ensures effects == CloseEffects(false, false, enableTrigger && kitId != 0)
  {
    var server := new Server(kitId, kitName, enableTrigger);
    server.Close();
    server.Close();
    effects := server.effects;
  }
}

=== FILE: build_common.dfy ===
/** scripts/build_common.py: growing the root partition of an image, the
    mount-point helper that creates (and later removes) missing
    directories, the list of bind mounts set up before entering the
    image, and the command line that runs a program inside it. The file
    system is a set of existing paths; commands are argument vectors. */
module BuildCommon {
  import opened Wrappers
  import opened PyStr
  import PyPath
  import ImgTools

  // ---------------------------------------------------------------------
  // do_expand

  const DefaultExpandBytes := 0x4000_0000

  /** What `do_expand` does to the image, given its partition table. */
  datatype Expansion = Expansion(
    growBytes: int,                  // appended to the image file
    fdiskInput: string,              // fed to `sudo fdisk <disk>`
    start: int, end: int,            // the root partition's new bounds
    rootOffset: int)                 // loop-device offset for resize2fs

  /** How `do_expand` ends: the expansion, or the KeyError for a missing
      root partition, raised after the image file has already grown by
      `grownBytes`. */
  datatype ExpandRun = Expanded(expansion: Expansion) | RootMissing(grownBytes: int)

  /** `do_expand(args, image, expand_bytes)`: grow the image file, then
      keep the root partition's start and move its end by
      `expand_bytes // 512` sectors. */
  function DoExpand(table: map<int, ImgTools.PartitionInfo>, rootNumber: int, expandBytes: int): (r: ExpandRun)
    ensures r.RootMissing? <==> rootNumber !in table
    ensures r.RootMissing? ==> r.grownBytes == expandBytes
    ensures r.Expanded? ==>
      && r.expansion.growBytes == expandBytes
      && r.expansion.start == table[rootNumber].start
      && r.expansion.end - table[rootNumber].end == expandBytes / ImgTools.SectorBytes
      && r.expansion.fdiskInput == ImgTools.FdiskScript(rootNumber, r.expansion.start, r.expansion.end)
      && r.expansion.rootOffset == r.expansion.start * ImgTools.SectorBytes
  {
    var expandSectors := expandBytes / ImgTools.SectorBytes;
    if rootNumber !in table then RootMissing(expandBytes)
    else
      var root := table[rootNumber];
      var start, end := root.start, root.end + expandSectors;
      Expanded(Expansion(expandBytes, ImgTools.FdiskScript(rootNumber, start, end), start, end, start * ImgTools.SectorBytes))
  }

  /** A root partition that fitted in the image still fits after the
      image grows; one that reached the image's end reaches it again,
      short of it by less than one sector. */
  lemma ExpandFits(table: map<int, ImgTools.PartitionInfo>, rootNumber: int, expandBytes: nat, imageBytes: int)
    requires rootNumber in table
    requires (table[rootNumber].end + 1) * ImgTools.SectorBytes <= imageBytes
    ensures var e := DoExpand(table, rootNumber, expandBytes).expansion;
      (e.end + 1) * ImgTools.SectorBytes <= imageBytes + e.growBytes
    ensures var e := DoExpand(table, rootNumber, expandBytes).expansion;
      (table[rootNumber].end + 1) * ImgTools.SectorBytes == imageBytes ==>
        imageBytes + e.growBytes - (e.end + 1) * ImgTools.SectorBytes < ImgTools.SectorBytes
  {
    var oldEnd := table[rootNumber].end;
    var e := DoExpand(table, rootNumber, expandBytes).expansion;
    assert e.end == oldEnd + expandBytes / 512;
    assert (expandBytes / 512) * 512 <= expandBytes < (expandBytes / 512) * 512 + 512;
  }

  // ---------------------------------------------------------------------
  // MountPoint

  /** How `find_existing` ends: with the deepest existing ancestor and the
      name of its child on the way down; by running out of path (the
      caller then fails to unpack `None`); or never, on a path made only
      of separators that does not exist, which `os.path.split` leaves
      unchanged. */
  datatype Existing = Found(path: string, name: Option<string>) | Exhausted | Spins

  /** What the loop needs of `os.path.split`: it shortens every path not
      made only of separators. */
  ghost predicate Shortens(split: string -> (string, string)) {
    forall p :: !PyPath.AllSlashes(p) ==> |split(p).0| < |p|
  }

  /** What the clean-up needs of it: on a normal path, the head is normal
      and joins back with a non-empty tail to the path. */
  ghost predicate JoinsBack(split: string -> (string, string)) {
    forall p :: PyPath.Normal(p) && !PyPath.AllSlashes(p) ==>
      PyPath.Join(split(p).0, split(p).1) == p && PyPath.Normal(split(p).0) && split(p).1 != []
  }

  lemma SplitShorter(p: string)
    requires !PyPath.AllSlashes(p)
    ensures |PyPath.Split(p).0| < |p|
  {
    var h := PyPath.Split(p).0;
    assert h == p[..|h|];
    assert p[..|p|] == p;
  }

  /** `os.path.split` has both properties. */
  lemma PosixSplit()
    ensures Shortens(PyPath.Split) && JoinsBack(PyPath.Split)
  {
    forall p | !PyPath.AllSlashes(p) ensures |PyPath.Split(p).0| < |p| {
      SplitShorter(p);
    }
    forall p | PyPath.Normal(p) && !PyPath.AllSlashes(p)
      ensures PyPath.Join(PyPath.Split(p).0, PyPath.Split(p).1) == p && PyPath.Normal(PyPath.Split(p).0) && PyPath.Split(p).1 != []
    {
      PyPath.SplitJoin(p);
    }
  }

  /** The loop of `find_existing` with `os.path.split` as `split`, from
      `path` with the current `name`. */
  function FindExistingFrom(split: string -> (string, string), path: string, name: Option<string>, existing: set<string>): Existing
    requires Shortens(split)
    decreases |path|
  {
    if path == [] then Exhausted
    else if path in existing then Found(path, name)
    else if PyPath.AllSlashes(path) then Spins
    else
      var parts := split(path);
      FindExistingFrom(split, parts.0, Some(parts.1), existing)
  }

  /** `find_existing(path)` */
  method FindExisting(path: string, existing: set<string>) returns (r: Existing)
    ensures Shortens(PyPath.Split) && r == FindExistingFrom(PyPath.Split, path, None, existing)
  {
    PosixSplit();
    var p, name := path, None;
    while p != []
      invariant FindExistingFrom(PyPath.Split, p, name, existing) == FindExistingFrom(PyPath.Split, path, None, existing)
      decreases |p|
    {
      if p in existing {
        return Found(p, name);
      }
      if PyPath.AllSlashes(p) {
        // `os.path.split(p) == (p, '')`: the source loops for ever here
        return Spins;
      }
      SplitShorter(p);
      var parts := PyPath.Split(p);
      p, name := parts.0, Some(parts.1);
    }
    return Exhausted;
  }

  /** The (path, name) pairs the loop holds at the top of each round,
      starting from `path` and `name`. */
  function Steps(split: string -> (string, string), path: string, name: Option<string>): (r: seq<(string, Option<string>)>)
    requires Shortens(split)
    ensures r != [] ==> r[0] == (path, name)
    decreases |path|
  {
    if path == [] then []
    else if PyPath.AllSlashes(path) then [(path, name)]
    else
      var parts := split(path);
      [(path, name)] + Steps(split, parts.0, Some(parts.1))
  }

  /** `find_existing` returns the first pair whose path exists; when it
      does not return, none of the paths it visits exists. */
  lemma {:induction false} FindExistingFirst(split: string -> (string, string), path: string, name: Option<string>, existing: set<string>)
    requires Shortens(split)
    ensures var r := FindExistingFrom(split, path, name, existing);
      var st := Steps(split, path, name);
      && (r.Found? ==>
          exists k :: 0 <= k < |st| && st[k] == (r.path, r.name) && st[k].0 in existing
                      && forall j :: 0 <= j < k ==> st[j].0 !in existing)
      && (!r.Found? ==> forall j :: 0 <= j < |st| ==> st[j].0 !in existing)
    decreases |path|
  {
    if path != [] && path !in existing && !PyPath.AllSlashes(path) {
      var parts := split(path);
      var rest := Steps(split, parts.0, Some(parts.1));
      var st := Steps(split, path, name);
      FindExistingFirst(split, parts.0, Some(parts.1), existing);
      var r := FindExistingFrom(split, path, name, existing);
      assert r == FindExistingFrom(split, parts.0, Some(parts.1), existing);
      assert st == [(path, name)] + rest;
      if r.Found? {
        var k :| 0 <= k < |rest| && rest[k] == (r.path, r.name) && rest[k].0 in existing
                 && forall j :: 0 <= j < k ==> rest[j].0 !in existing;
        assert st[k + 1] == rest[k];
        assert forall j :: 1 <= j < k + 1 ==> st[j] == rest[j - 1];
      } else {
        assert forall j :: 1 <= j < |st| ==> st[j] == rest[j - 1];
      }
    }
  }

  /** From a normal path, every later pair names the child that joins
      its (normal) path back to the previous path. */
  lemma {:induction false} StepsJoin(split: string -> (string, string), path: string, name: Option<string>, j: nat)
    requires Shortens(split) && JoinsBack(split)
    requires PyPath.Normal(path) && 0 < j < |Steps(split, path, name)|
    ensures var st := Steps(split, path, name);
      && st[j].1.Some? && st[j].1.value != []
      && PyPath.Join(st[j].0, st[j].1.value) == st[j - 1].0
      && PyPath.Normal(st[j].0)
    decreases |path|
  {
    var parts := split(path);
    var rest := Steps(split, parts.0, Some(parts.1));
    assert Steps(split, path, name) == [(path, name)] + rest;
    if j > 1 {
      StepsJoin(split, parts.0, Some(parts.1), j - 1);
    }
  }

  /** What `MountPoint(path)` does around its body. */
  datatype MountPointRun =
    | Hangs
    | Raises(error: string)
    | Runs(onEnter: seq<string>, onExit: seq<string>)   // directories created, trees removed

  /** `MountPoint(path)`: when `find_existing` names a child, the path is
      created on entry and that child's tree removed on exit. */
  function MountPoint(path: string, existing: set<string>): MountPointRun {
    PosixSplit();
    match FindExistingFrom(PyPath.Split, path, None, existing)
    case Spins => Hangs
    case Exhausted => Raises("TypeError")
    case Found(e, name) =>
      if name.Some? && name.value != [] then Runs([path], [PyPath.Join(e, name.value)])
      else Runs([], [])
  }

  /** An existing mount point is left alone. For a missing one, given as
      a normal path, the tree removed on exit is one of the paths
      `find_existing` visited and found missing, and its parent exists:
      exactly the directory `makedirs` created topmost. */
  lemma MountPointCleansUp(path: string, existing: set<string>)
    ensures path != [] && path in existing ==> MountPoint(path, existing) == Runs([], [])
    ensures PyPath.Normal(path) && path !in existing && MountPoint(path, existing).Runs? ==>
      (PosixSplit();
       var m := MountPoint(path, existing);
       var st := Steps(PyPath.Split, path, None);
       && m.onEnter == [path] && |m.onExit| == 1
       && m.onExit[0] !in existing
       && exists j :: 0 <= j < |st| - 1 && st[j].0 == m.onExit[0] && st[j + 1].0 in existing)
  {
    PosixSplit();
    FindExistingFirst(PyPath.Split, path, None, existing);
    var r := FindExistingFrom(PyPath.Split, path, None, existing);
    var st := Steps(PyPath.Split, path, None);
    if PyPath.Normal(path) && path !in existing && r.Found? {
      var k :| 0 <= k < |st| && st[k] == (r.path, r.name) && st[k].0 in existing
               && forall j :: 0 <= j < k ==> st[j].0 !in existing;
      assert k > 0;
      StepsJoin(PyPath.Split, path, None, k);
      assert PyPath.Join(r.path, r.name.value) == st[k - 1].0;
    }
  }

  // ---------------------------------------------------------------------
  // MountAndSetupEmulator

  const SystemMounts: seq<(string, string)> :=
    [("/dev", "/dev"), ("/sys", "/sys"), ("/proc", "/proc"), ("/dev/pts", "/dev/pts")]

  /** The bind mounts, as (host path, mount point) pairs: every host path
      must exist and every image path be absolute (an AssertionError
      otherwise), and the image path is re-rooted under `rootMnt`. */
  function BindTargets(rootMnt: string, mounts: seq<(string, string)>, hostExists: set<string>): (r: Result<seq<(string, string)>>)
    ensures r.Success? <==> forall i :: 0 <= i < |mounts| ==> mounts[i].0 in hostExists && PyPath.IsAbs(mounts[i].1)
    ensures r.Success? ==> (|r.value| == |mounts|
      && forall i :: 0 <= i < |mounts| ==>
           r.value[i] == (mounts[i].0, PyPath.Join(rootMnt, mounts[i].1[1..])))
  {
    if mounts == [] then Success([])
    else
      var (host, img) := mounts[0];
      if host !in hostExists || !PyPath.IsAbs(img) then Failure("AssertionError")
      else
        match BindTargets(rootMnt, mounts[1..], hostExists)
        case Failure(e) => Failure(e)
        case Success(rest) => Success([(host, PyPath.Join(rootMnt, img[1..]))] + rest)
  }

  /** Where the image is mounted and what is bound into it. */
  datatype MountPlan = MountPlan(rootOffset: int, bootOffset: int, bootMount: string, binds: seq<(string, string)>)

  /** `MountAndSetupEmulator`: the offsets of the two partitions (a
      KeyError if either is missing), the boot partition under `boot`,
      then the system directories and the caller's mounts. */
  function MountAndSetup(table: map<int, ImgTools.PartitionInfo>, bootNumber: int, rootNumber: int,
                         rootMnt: string, mounts: seq<(string, string)>, hostExists: set<string>): Result<MountPlan>
  {
    if bootNumber !in table || rootNumber !in table then Failure("KeyError")
    else
      match BindTargets(rootMnt, SystemMounts + mounts, hostExists)
      case Failure(e) => Failure(e)
      case Success(binds) =>
        Success(MountPlan(table[rootNumber].start * ImgTools.SectorBytes, table[bootNumber].start * ImgTools.SectorBytes,
                          PyPath.Join(rootMnt, "boot"), binds))
  }

  /** An absolute image path lands under the mount point. */
  lemma ReRooted(rootMnt: string, img: string)
    requires rootMnt != [] && rootMnt[|rootMnt| - 1] != '/'
    requires PyPath.IsAbs(img) && !PyPath.IsAbs(img[1..])
    ensures PyPath.Join(rootMnt, img[1..]) == rootMnt + img
  {
    assert "/" + img[1..] == img;
  }

  /** Each system directory lands at the same path inside the image. */
  lemma SystemMountsReRooted(rootMnt: string)
    requires rootMnt != [] && rootMnt[|rootMnt| - 1] != '/'
    ensures forall i :: 0 <= i < |SystemMounts| ==>
      && SystemMounts[i].0 == SystemMounts[i].1
      && PyPath.IsAbs(SystemMounts[i].1)
      && PyPath.Join(rootMnt, SystemMounts[i].1[1..]) == rootMnt + SystemMounts[i].1
  {
    ReRooted(rootMnt, "/dev");
    ReRooted(rootMnt, "/sys");
    ReRooted(rootMnt, "/proc");
    ReRooted(rootMnt, "/dev/pts");
  }

  /** With the system directories present, the first bind mounts put
      `/dev`, `/sys`, `/proc` and `/dev/pts` at the same places inside the
      image, and the caller's mounts follow in order. */
  lemma MountAndSetupOrder(table: map<int, ImgTools.PartitionInfo>, bootNumber: int, rootNumber: int,
                           rootMnt: string, mounts: seq<(string, string)>, hostExists: set<string>)
    requires bootNumber in table && rootNumber in table
    requires rootMnt != [] && rootMnt[|rootMnt| - 1] != '/'
    requires MountAndSetup(table, bootNumber, rootNumber, rootMnt, mounts, hostExists).Success?
    ensures var p := MountAndSetup(table, bootNumber, rootNumber, rootMnt, mounts, hostExists).value;
      && p.bootMount == rootMnt + "/boot"
      && |p.binds| == |SystemMounts| + |mounts|
      && (forall i :: 0 <= i < |SystemMounts| ==> p.binds[i] == (SystemMounts[i].0, rootMnt + SystemMounts[i].0))
      && forall i :: 0 <= i < |mounts| ==>
           && PyPath.IsAbs(mounts[i].1)
           && p.binds[|SystemMounts| + i] == (mounts[i].0, PyPath.Join(rootMnt, mounts[i].1[1..]))
  {
    var all := SystemMounts + mounts;
    assert forall i :: 0 <= i < |SystemMounts| ==> all[i] == SystemMounts[i];
    assert forall i :: 0 <= i < |mounts| ==> all[|SystemMounts| + i] == mounts[i];
    SystemMountsReRooted(rootMnt);
    assert PyPath.Join(rootMnt, "boot") == rootMnt + "/boot";
  }

  // ---------------------------------------------------------------------
  // run_in_chroot

  const FixedEnv := ["LANG=C.UTF-8", "LANGUAGE=C:", "LC_CTYPE=C.UTF-8", "QEMU_CPU=arm1176"]

  /** `['%s=%s' % item for item in env.items()]` followed by the fixed
      locale and emulator settings. */
  function EnvList(env: seq<(string, string)>): (r: seq<string>)
    ensures |r| == |env| + 4 && r[|env|..] == FixedEnv
    ensures forall i :: 0 <= i < |env| ==> r[i] == env[i].0 + "=" + env[i].1
  {
    seq(|env|, i requires 0 <= i < |env| => env[i].0 + "=" + env[i].1) + FixedEnv
  }

  /** `run_in_chroot`: the argument vector run from `rootMnt`, or the
      ValueError for an empty command or one whose program is absolute
      or not a file inside the image. */
  function RunInChroot(rootMnt: string, cmd: seq<string>, env: seq<(string, string)>, isFile: set<string>): (r: Result<seq<string>>)
    ensures r.Failure? <==> cmd == [] || PyPath.IsAbs(cmd[0]) || PyPath.Join(rootMnt, cmd[0]) !in isFile
  {
    if cmd == [] then Failure("ValueError")
    else if PyPath.IsAbs(cmd[0]) || PyPath.Join(rootMnt, cmd[0]) !in isFile then Failure("ValueError")
    else Success(["sudo"] + EnvList(env) + ["chroot", "."] + cmd)
  }

  /** The command line is `sudo`, one assignment per variable, `chroot .`
      and the command unchanged; each assignment splits back at its first
      `=` into the variable's name and value. */
  lemma ChrootArgv(rootMnt: string, cmd: seq<string>, env: seq<(string, string)>, isFile: set<string>)
    requires RunInChroot(rootMnt, cmd, env, isFile).Success?
    requires forall i :: 0 <= i < |env| ==> '=' !in env[i].0
    ensures var argv := RunInChroot(rootMnt, cmd, env, isFile).value;
      var n := |env| + 4;
      && |argv| == n + 3 + |cmd|
      && argv[0] == "sudo" && argv[n + 1..n + 3] == ["chroot", "."] && argv[n + 3..] == cmd
      && argv[n - 3..n + 1] == FixedEnv
      && forall i :: 0 <= i < |env| ==>
           var a := argv[1 + i]; var k := Find(a, '=');
           k >= 0 && a[..k] == env[i].0 && a[k + 1..] == env[i].1
  {
    var argv := RunInChroot(rootMnt, cmd, env, isFile).value;
    var el := EnvList(env);
    assert argv == ["sudo"] + el + ["chroot", "."] + cmd;
    assert argv[1..1 + |el|] == el;
    forall i | 0 <= i < |env|
      ensures var a := argv[1 + i]; var k := Find(a, '=');
              k >= 0 && a[..k] == env[i].0 && a[k + 1..] == env[i].1
    {
      var a := argv[1 + i];
      assert a == el[i] == env[i].0 + "=" + env[i].1;
      FindAt(a, '=', |env[i].0|);
      assert a[..|env[i].0|] == env[i].0;
      assert a[|env[i].0| + 1..] == env[i].1;
    }
  }
}

=== FILE: cwc_client.dfy ===
/** The Code-with-Cloud command-line client of
    packages/aiy-cwc-server/client.py: the base64 helpers, the commands it
    builds, the message loop of `run` and the run command `main` sends.
    Next to each command builder sits what the server of
    packages/aiy-cwc-server/server.py makes of it, and next to `run` what
    the client makes of the server's messages. The websocket, the
    terminal and the signal handlers are replaced by the messages they
    deliver. */
module CwcClient {
  import opened Wrappers
  import opened CwcSchema
  import Base64
  import PyStr
  import CwcServer

  /** `run`'s result when the socket closes without an `exit` message. */
  const ClosedWithoutExit := 127
  /** The command line `main` runs on the server: the uploaded file as
      `main.py`, under `python3`. */
  const Launcher := ["/usr/bin/env", "python3", "main.py"]

  /** `encode` */
  function Encode(data: seq<byte>): string {
    Base64.Encode(data)
  }

  /** `decode`; text that is not base64 raises binascii.Error. */
  function Decode(text: string): Result<seq<byte>> {
    match Base64.Decode(text)
    case None => Failure("binascii.Error")
    case Some(d) => Success(d)
  }

  lemma DecodeEncode(data: seq<byte>)
    ensures Decode(Encode(data)) == Success(data)
  {
    Base64.DecodeEncode(data);
  }

  /** A list of strings as JSON. */
  function Strings(xs: seq<string>): (r: Json)
    ensures IsStringArray(r) && |r.items| == |xs|
    ensures forall i :: 0 <= i < |xs| ==> r.items[i] == JString(xs[i])
  {
    JArray(seq(|xs|, i requires 0 <= i < |xs| => JString(xs[i])))
  }

  /** A dictionary of strings as JSON. */
  function StringMap(m: map<string, string>): (r: Json)
    ensures r.JObject? && r.fields.Keys == m.Keys
    ensures forall k :: k in m ==> r.fields[k] == JString(m[k])
  {
    JObject(map k | k in m :: JString(m[k]))
  }

  /** `make_run_msg` */
  function MakeRunMsg(args: seq<string>, stdout: string, stderr: string, chunkSize: int,
                      env: map<string, string>, files: map<string, string>): (m: Json)
    ensures m.JObject? && m.fields.Keys == {"type", "args", "stdout", "stderr", "chunk_size", "env", "files"}
    ensures m.fields["type"] == JString("run")
  {
    JObject(map["type" := JString("run"), "args" := Strings(args), "stdout" := JString(stdout),
                "stderr" := JString(stderr), "chunk_size" := JNumber(chunkSize),
                "env" := StringMap(env), "files" := StringMap(files)])
  }

  /** `make_signal_msg` */
  function MakeSignalMsg(signum: int): (m: Json)
    ensures m.JObject? && m.fields.Keys == {"type", "signum"}
    ensures m.fields["type"] == JString("signal")
  {
    JObject(map["type" := JString("signal"), "signum" := JNumber(signum)])
  }

  /** `make_stdin_msg` */
  function MakeStdinMsg(data: seq<byte>): (m: Json)
    ensures StdinCommand(m) && m.fields.Keys == {"type", "data"}
  {
    JObject(map["type" := JString("stdin"), "data" := JString(Encode(data))])
  }

  // ---------------------------------------------------------------------
  // What the server makes of the client's commands

  /** The run command passes the schema exactly when its chunk size is
      not negative and its redirections are among the allowed names. */
  lemma RunMsgValid(args: seq<string>, stdout: string, stderr: string, chunkSize: int,
                    env: map<string, string>, files: map<string, string>)
    ensures ServerCommand(MakeRunMsg(args, stdout, stderr, chunkSize, env, files))
            <==> chunkSize >= 0 && stdout in {"null", "pipe"} && stderr in {"null", "pipe", "stdout"}
  {
    var m := MakeRunMsg(args, stdout, stderr, chunkSize, env, files);
    assert m.fields["args"] == Strings(args) && m.fields["chunk_size"] == JNumber(chunkSize);
    assert m.fields["stdout"] == JString(stdout) && m.fields["stderr"] == JString(stderr);
    assert m.fields["env"] == StringMap(env) && m.fields["files"] == StringMap(files);
    ServerCommandShapes(m);
  }

  /** The server's `parse_run_msg` recovers all six fields the client put
      in, with or without validation when the command is valid. */
  lemma RunMsgParsed(args: seq<string>, stdout: string, stderr: string, chunkSize: int,
                     env: map<string, string>, files: map<string, string>, validating: bool)
    requires validating ==> chunkSize >= 0 && stdout in {"null", "pipe"} && stderr in {"null", "pipe", "stdout"}
    ensures CwcServer.ParseRunMsg(MakeRunMsg(args, stdout, stderr, chunkSize, env, files), validating)
            == Success(Some(CwcServer.RunMsg(Strings(args), JNumber(chunkSize), JString(stdout), JString(stderr),
                                             StringMap(env), StringMap(files))))
  {
    var m := MakeRunMsg(args, stdout, stderr, chunkSize, env, files);
    RunMsgValid(args, stdout, stderr, chunkSize, env, files);
    assert CwcServer.Tagged(m, "run", validating) == Success(true);
  }

  lemma SignalMsgValid(signum: int)
    ensures ServerCommand(MakeSignalMsg(signum)) <==> 1 <= signum <= 32
  {
    ServerCommandShapes(MakeSignalMsg(signum));
  }

  /** A signal command makes the server signal the child, unless
      validation is on and the number is outside 1..32. */
  lemma SignalMsgHandled(signum: int, validating: bool)
    ensures CwcServer.MessageOps(CwcServer.WsText(Some(MakeSignalMsg(signum))), validating)
            == if !validating || 1 <= signum <= 32 then [CwcServer.SendSignal(JNumber(signum))] else []
  {
    var m := MakeSignalMsg(signum);
    SignalMsgValid(signum);
    assert CwcServer.Tagged(m, "stdin", validating).Success? ==> CwcServer.Tagged(m, "stdin", validating) == Success(false);
  }

  /** Stdin data reaches the child unchanged; empty data closes its
      stdin. */
  lemma StdinMsgHandled(data: seq<byte>, validating: bool)
    ensures CwcServer.MessageOps(CwcServer.WsText(Some(MakeStdinMsg(data))), validating)
            == if data == [] then [CwcServer.CloseStdin] else [CwcServer.WriteStdin(data)]
  {
    var m := MakeStdinMsg(data);
    ServerCommandShapes(m);
    assert CwcServer.Tagged(m, "signal", validating) == Success(false);
    assert CwcServer.Tagged(m, "stdin", validating) == Success(true);
    DecodeEncode(data);
  }

  // ---------------------------------------------------------------------
  // run

  /** How `run` ends — the code it returns, or the exception that escapes
      it — with the bytes it wrote to stdout and stderr. */
  datatype RunOutcome = RunOutcome(code: Result<Json>, stdout: seq<byte>, stderr: seq<byte>)

  /** `decode(params['data'])` */
  function MessageData(params: Json): Result<seq<byte>> {
    match CwcServer.Index(params, "data")
    case Failure(e) => Failure(e)
    case Success(data) => if data.JString? then Decode(data.s) else Failure("AttributeError")
  }

  /** Bytes written before the rest of the run. */
  function Written(out: seq<byte>, err: seq<byte>, r: RunOutcome): RunOutcome {
    RunOutcome(r.code, out + r.stdout, err + r.stderr)
  }

  /** The message loop of `run`: stream data is written out, the first
      `exit` message ends the run with its `code`, other frames and kinds
      are skipped; 127 if the socket closes first. */
  function ClientRun(msgs: seq<CwcServer.WsMessage>): RunOutcome
    decreases |msgs|
  {
    if msgs == [] then RunOutcome(Success(JNumber(ClosedWithoutExit)), [], [])
    else
      match msgs[0]
      case WsOther => ClientRun(msgs[1..])
      case WsText(None) => RunOutcome(Failure("JSONDecodeError"), [], [])
      case WsText(Some(params)) =>
        match CwcServer.Index(params, "type")
        case Failure(e) => RunOutcome(Failure(e), [], [])
        case Success(kind) =>
          if kind == JString("exit") then
            RunOutcome(CwcServer.Index(params, "code"), [], [])
          else if kind == JString("stdout") then
            match MessageData(params)
            case Failure(e) => RunOutcome(Failure(e), [], [])
            case Success(d) => Written(d, [], ClientRun(msgs[1..]))
          else if kind == JString("stderr") then
            match MessageData(params)
            case Failure(e) => RunOutcome(Failure(e), [], [])
            case Success(d) => Written([], d, ClientRun(msgs[1..]))
          else ClientRun(msgs[1..])
  }

  /** `run` after the run command is sent. */
  method Run(msgs: seq<CwcServer.WsMessage>) returns (r: RunOutcome)
    ensures r == ClientRun(msgs)
  {
    var out: seq<byte>, err: seq<byte> := [], [];
    var i := 0;
    while i < |msgs|
      invariant 0 <= i <= |msgs|
      invariant ClientRun(msgs) == Written(out, err, ClientRun(msgs[i..]))
    {
      assert msgs[i..][1..] == msgs[i + 1..];
      match msgs[i] {
        case WsOther =>
        case WsText(parsed) =>
          if parsed.None? {
            return RunOutcome(Failure("JSONDecodeError"), out, err);
          }
          var params := parsed.value;
          var kind := CwcServer.Index(params, "type");
          if kind.Failure? {
            return RunOutcome(Failure(kind.error), out, err);
          }
          if kind.value == JString("exit") {
            return RunOutcome(CwcServer.Index(params, "code"), out, err);
          } else if kind.value == JString("stdout") {
            var d := MessageData(params);
            if d.Failure? {
              return RunOutcome(Failure(d.error), out, err);
            }
            out := out + d.value;
          } else if kind.value == JString("stderr") {
            var d := MessageData(params);
            if d.Failure? {
              return RunOutcome(Failure(d.error), out, err);
            }
            err := err + d.value;
          }
      }
      i := i + 1;
    }
    return RunOutcome(Success(JNumber(ClosedWithoutExit)), out, err);
  }

  /** The text frames carrying `ms`. */
  function Texts(ms: seq<Json>): (r: seq<CwcServer.WsMessage>)
    ensures |r| == |ms| && forall i :: 0 <= i < |ms| ==> r[i] == CwcServer.WsText(Some(ms[i]))
  {
    seq(|ms|, i requires 0 <= i < |ms| => CwcServer.WsText(Some(ms[i])))
  }

  function Flatten(chunks: seq<seq<byte>>): seq<byte> {
    if chunks == [] then [] else Flatten(chunks[..|chunks| - 1]) + chunks[|chunks| - 1]
  }

  /** The server's `exit_msg` ends the run with its code, whatever
      follows. */
  lemma ExitEndsRun(code: int, rest: seq<CwcServer.WsMessage>)
    ensures ClientRun([CwcServer.WsText(Some(CwcServer.ExitMsg(code)))] + rest)
            == RunOutcome(Success(JNumber(code)), [], [])
  {
  }

  /** One `stream_msg` of stdout data: its bytes are written, then the
      run goes on. */
  lemma StdoutMsgWritten(data: seq<byte>, rest: seq<CwcServer.WsMessage>)
    ensures ClientRun([CwcServer.WsText(Some(CwcServer.StreamMsg(data, "stdout")))] + rest)
            == Written(data, [], ClientRun(rest))
  {
    var msgs := [CwcServer.WsText(Some(CwcServer.StreamMsg(data, "stdout")))] + rest;
    CwcServer.StreamMsgData(data, "stdout");
    assert msgs[1..] == rest;
  }

  /** The bytes the server read from the child's stdout and forwarded
      with `stream_msg` are written to the client's stdout, in order,
      before whatever follows is handled. */
  lemma {:induction false} StdoutReachesClient(chunks: seq<seq<byte>>, rest: seq<CwcServer.WsMessage>)
    ensures ClientRun(Texts(CwcServer.StreamMsgs(chunks, "stdout")) + rest)
            == Written(Flatten(chunks), [], ClientRun(rest))
    decreases |chunks|
  {
    if chunks == [] {
      assert Texts([]) + rest == rest;
    } else {
      var front, last := chunks[..|chunks| - 1], chunks[|chunks| - 1];
      var m := CwcServer.StreamMsg(last, "stdout");
      var rest' := [CwcServer.WsText(Some(m))] + rest;
      assert CwcServer.StreamMsgs(chunks, "stdout") == CwcServer.StreamMsgs(front, "stdout") + [m];
      TextsSnoc(CwcServer.StreamMsgs(front, "stdout"), m, rest);
      calc {
        ClientRun(Texts(CwcServer.StreamMsgs(chunks, "stdout")) + rest);
        ClientRun(Texts(CwcServer.StreamMsgs(front, "stdout")) + rest');
        { StdoutReachesClient(front, rest'); }
        Written(Flatten(front), [], ClientRun(rest'));
        { StdoutMsgWritten(last, rest); }
        Written(Flatten(front), [], Written(last, [], ClientRun(rest)));
        { assert Flatten(front) + (last + ClientRun(rest).stdout) == (Flatten(front) + last) + ClientRun(rest).stdout; }
        Written(Flatten(front) + last, [], ClientRun(rest));
      }
    }
  }

  /** One more message at the end of the stream, followed by `rest`. */
  lemma TextsSnoc(ms: seq<Json>, m: Json, rest: seq<CwcServer.WsMessage>)
    ensures Texts(ms + [m]) + rest == Texts(ms) + ([CwcServer.WsText(Some(m))] + rest)
  {
  }

  /** The whole exchange for a program that writes to stdout and exits:
      the client writes exactly the bytes the child wrote and returns its
      exit code. */
  lemma StdoutThenExit(chunks: seq<seq<byte>>, code: int)
    ensures ClientRun(Texts(CwcServer.StreamMsgs(chunks, "stdout")) + [CwcServer.WsText(Some(CwcServer.ExitMsg(code)))])
            == RunOutcome(Success(JNumber(code)), Flatten(chunks), [])
  {
    StdoutReachesClient(chunks, [CwcServer.WsText(Some(CwcServer.ExitMsg(code)))]);
    ExitEndsRun(code, []);
  }

  // ---------------------------------------------------------------------
  // main

  /** The URI `main` connects to, `'ws://%s:%d/spawn' % (host, port)`:
      the host and the port, which reads back as the number, between the
      scheme and the `/spawn` path. */
  function SpawnUri(host: string, port: int): (r: string)
    ensures |r| >= |host| + 12
    ensures r[..|host| + 6] == "ws://" + host + ":" && r[|r| - 6..] == "/spawn"
    ensures PyStr.PyInt(r[|host| + 6..|r| - 6], 10) == Some(port)
  {
    var d := PyStr.Decimal(port);
    PyStr.DecimalRoundTrip(port);
    var r := "ws://" + host + ":" + d + "/spawn";
    assert r[|host| + 6..|r| - 6] == d;
    r
  }

  /** The run command `main` sends for the file's text `code` and the
      arguments after the known options: valid under the command schema
      exactly when the chunk size is not negative (argparse already
      restricts the redirection names), it runs the launcher with the
      extra arguments, unbuffered, with the file as `main.py`. */
  function MainRunMsg(code: string, extraArgs: seq<string>, stdout: string, stderr: string, chunkSize: int): (m: Json)
    ensures stdout in {"null", "pipe"} && stderr in {"null", "pipe", "stdout"} ==>
      (ServerCommand(m) <==> chunkSize >= 0)
    ensures m.JObject? && "args" in m.fields && m.fields["args"] == Strings(Launcher + extraArgs)
    ensures "env" in m.fields && m.fields["env"] == JObject(map["PYTHONUNBUFFERED" := JString("1")])
    ensures "files" in m.fields && m.fields["files"] == JObject(map["main.py" := JString(code)])
  {
    var env, files := map["PYTHONUNBUFFERED" := "1"], map["main.py" := code];
    RunMsgValid(Launcher + extraArgs, stdout, stderr, chunkSize, env, files);
    assert StringMap(env) == JObject(map["PYTHONUNBUFFERED" := JString("1")]);
    assert StringMap(files) == JObject(map["main.py" := JString(code)]);
    MakeRunMsg(Launcher + extraArgs, stdout, stderr, chunkSize, env, files)
  }

  /** With the options `main` accepts, the server starts
      `/usr/bin/env python3 main.py` and the extra arguments, unbuffered,
      with the file's text as `main.py`; validation refuses only a
      negative chunk size. */
  lemma MainRunMsgParsed(code: string, extraArgs: seq<string>, stdout: string, stderr: string,
                         chunkSize: int, validating: bool)
    requires stdout in {"null", "pipe"} && stderr in {"null", "pipe", "stdout"}
    requires validating ==> chunkSize >= 0
    ensures var run := CwcServer.ParseRunMsg(MainRunMsg(code, extraArgs, stdout, stderr, chunkSize), validating);
      && run.Success? && run.value.Some?
      && run.value.value.args == Strings(Launcher + extraArgs)
      && run.value.value.env == JObject(map["PYTHONUNBUFFERED" := JString("1")])
      && run.value.value.files == JObject(map["main.py" := JString(code)])
      && run.value.value.stdout == JString(stdout) && run.value.value.stderr == JString(stderr)
      && run.value.value.chunkSize == JNumber(chunkSize)
  {
    var env, files := map["PYTHONUNBUFFERED" := "1"], map["main.py" := code];
    RunMsgParsed(Launcher + extraArgs, stdout, stderr, chunkSize, env, files, validating);
    assert StringMap(env) == JObject(map["PYTHONUNBUFFERED" := JString("1")]);
    assert StringMap(files) == JObject(map["main.py" := JString(code)]);
  }

  /** The server starts `main`'s run command as `/usr/bin/env python3
      main.py` and the extra arguments, with `PYTHONUNBUFFERED=1` in front
      of its own environment. */
  lemma MainRunMsgStarts(code: string, extraArgs: seq<string>, stdout: string, stderr: string,
                         chunkSize: int, validating: bool, environ: map<string, string>)
    requires stdout in {"null", "pipe"} && stderr in {"null", "pipe", "stdout"}
    requires validating ==> chunkSize >= 0
    ensures var run := CwcServer.ParseRunMsg(MainRunMsg(code, extraArgs, stdout, stderr, chunkSize), validating);
      && run.Success? && run.value.Some?
      && var started := CwcServer.StartProcess(run.value.value, environ);
         && started.Success?
         && started.value.args == Launcher + extraArgs
         && "PYTHONUNBUFFERED" in started.value.env && started.value.env["PYTHONUNBUFFERED"] == JString("1")
  {
    MainRunMsgParsed(code, extraArgs, stdout, stderr, chunkSize, validating);
    var run := CwcServer.ParseRunMsg(MainRunMsg(code, extraArgs, stdout, stderr, chunkSize), validating).value.value;
    var argv := Launcher + extraArgs;
    var items := Strings(argv).items;
    assert CwcServer.Unpacked(run.args) == Some(items);
    var a := CwcServer.Argv(items);
    assert a.Some?;
    assert a.value == argv;
  }
}

=== FILE: cwc_schema.dfy ===
/** JSON values as the Code-with-Cloud server and client exchange them,
    and the two JSON Schema documents of
    packages/aiy-cwc-server/schema.py written as predicates: what a client
    may receive (`CLIENT_MESSAGES`) and what the server accepts
    (`SERVER_COMMANDS`). Numbers are integers. */
module CwcSchema {

  datatype Json =
    | JNull
    | JBool(b: bool)
    | JNumber(n: int)
    | JString(s: string)
    | JArray(items: seq<Json>)
    | JObject(fields: map<string, Json>)

  /** `{'type': 'string', 'enum': options}` */
  predicate IsStringIn(v: Json, options: set<string>) {
    v.JString? && v.s in options
  }

  predicate IsStringArray(v: Json) {
    v.JArray? && forall i :: 0 <= i < |v.items| ==> v.items[i].JString?
  }

  // ---------------------------------------------------------------------
  // CLIENT_MESSAGES

  /** `stdout_message` and `stderr_message`: the tag and a string `data`. */
  predicate StreamMessage(v: Json, kind: string) {
    && v.JObject?
    && "type" in v.fields && v.fields["type"] == JString(kind)
    && "data" in v.fields && v.fields["data"].JString?
  }

  /** `exit_message`: the tag and a numeric `code`. */
  predicate ExitMessage(v: Json) {
    && v.JObject?
    && "type" in v.fields && v.fields["type"] == JString("exit")
    && "code" in v.fields && v.fields["code"].JNumber?
  }

  /** The whole `CLIENT_MESSAGES` schema: the `allOf` of the tag check and
      the `anyOf` of the three message shapes. */
  predicate ClientMessage(v: Json) {
    && v.JObject?
    && "type" in v.fields && IsStringIn(v.fields["type"], {"stdout", "stderr", "exit"})
    && (StreamMessage(v, "stdout") || StreamMessage(v, "stderr") || ExitMessage(v))
  }

  /** The tag check of the `allOf` adds nothing to the three shapes: a
      message is valid exactly when it has one of them. */
  lemma ClientMessageShapes(v: Json)
    ensures ClientMessage(v) <==> StreamMessage(v, "stdout") || StreamMessage(v, "stderr") || ExitMessage(v)
  {
  }

  // ---------------------------------------------------------------------
  // SERVER_COMMANDS

  /** `run_command`: only `type` is required; each other property, when
      present, has its declared type and range. */
  predicate RunCommand(v: Json) {
    && v.JObject?
    && "type" in v.fields && v.fields["type"] == JString("run")
    && ("args" in v.fields ==> IsStringArray(v.fields["args"]))
    && ("chunk_size" in v.fields ==> v.fields["chunk_size"].JNumber? && v.fields["chunk_size"].n >= 0)
    && ("stdout" in v.fields ==> IsStringIn(v.fields["stdout"], {"null", "pipe"}))
    && ("stderr" in v.fields ==> IsStringIn(v.fields["stderr"], {"null", "pipe", "stdout"}))
    && ("files" in v.fields ==> v.fields["files"].JObject?)
    && ("env" in v.fields ==> v.fields["env"].JObject?)
  }

  /** `signal_command`: a `signum` between 1 and 32. */
  predicate SignalCommand(v: Json) {
    && v.JObject?
    && "type" in v.fields && v.fields["type"] == JString("signal")
    && "signum" in v.fields && v.fields["signum"].JNumber?
    && 1 <= v.fields["signum"].n <= 32
  }

  /** `stdin_command`: a string `data`. */
  predicate StdinCommand(v: Json) {
    && v.JObject?
    && "type" in v.fields && v.fields["type"] == JString("stdin")
    && "data" in v.fields && v.fields["data"].JString?
  }

  /** The whole `SERVER_COMMANDS` schema. */
  predicate ServerCommand(v: Json) {
    && v.JObject?
    && "type" in v.fields && IsStringIn(v.fields["type"], {"run", "signal", "stdin"})
    && (RunCommand(v) || SignalCommand(v) || StdinCommand(v))
  }

  /** A valid command has exactly one of the three shapes, told apart by
      its tag. */
  lemma ServerCommandShapes(v: Json)
    ensures ServerCommand(v) <==> RunCommand(v) || SignalCommand(v) || StdinCommand(v)
    ensures ServerCommand(v) ==>
      (RunCommand(v) <==> v.fields["type"] == JString("run"))
      && (SignalCommand(v) <==> v.fields["type"] == JString("signal"))
      && (StdinCommand(v) <==> v.fields["type"] == JString("stdin"))
  {
  }

  /** The smallest valid run command is the bare tag. */
  lemma BareRunCommand()
    ensures ServerCommand(JObject(map["type" := JString("run")]))
  {
    assert RunCommand(JObject(map["type" := JString("run")]));
  }

  /** A signal number outside 1..32 is refused, whatever else the command
      holds. */
  lemma SignalRange(fields: map<string, Json>, signum: int)
    requires "type" in fields && fields["type"] == JString("signal")
    ensures ServerCommand(JObject(fields["signum" := JNumber(signum)])) <==> 1 <= signum <= 32
  {
    var v := JObject(fields["signum" := JNumber(signum)]);
    assert v.fields["type"] == JString("signal");
  }
}

=== FILE: cwc_server.dfy ===
/** The Code-with-Cloud websocket server of
    packages/aiy-cwc-server/server.py: the messages it sends (`stream_msg`,
    `exit_msg`), the parsers of the commands it receives with their
    defaults, the optional schema validation, the `CONVERT` table, the
    child's environment, and what `ReceiveOp` and `ReadOp` do with the
    messages and output chunks that arrive. The websocket, the child
    process and the event loop are replaced by the sequences they
    deliver. */
module CwcServer {
  import opened Wrappers
  import opened CwcSchema
  import Base64

  const DefaultChunkSize := 1024

  /** `stream_msg(data, kind)` */
  function StreamMsg(data: seq<byte>, kind: string): (m: Json)
    ensures StreamMessage(m, kind) && m.fields.Keys == {"type", "data"}
  {
    JObject(map["type" := JString(kind), "data" := JString(Base64.Encode(data))])
  }

  /** The data of a stream message decodes to the bytes sent. */
  lemma StreamMsgData(data: seq<byte>, kind: string)
    ensures Base64.Decode(StreamMsg(data, kind).fields["data"].s) == Some(data)
  {
    Base64.DecodeEncode(data);
  }

  /** `exit_msg(code)` */
  function ExitMsg(code: int): (m: Json)
    ensures ExitMessage(m) && m.fields["code"] == JNumber(code)
  {
    JObject(map["type" := JString("exit"), "code" := JNumber(code)])
  }

  /** What the server sends is what the client schema allows. */
  lemma SentMessagesValid(data: seq<byte>, code: int)
    ensures ClientMessage(StreamMsg(data, "stdout")) && ClientMessage(StreamMsg(data, "stderr"))
    ensures ClientMessage(ExitMsg(code))
  {
  }

  /** `validate_msg`: the identity, unless validation was enabled, in
      which case a message outside `SERVER_COMMANDS` raises. */
  function ValidateMsg(msg: Json, validating: bool): (r: Result<Json>)
    ensures r.Success? ==> r.value == msg
    ensures r.Failure? <==> validating && !ServerCommand(msg)
  {
    if validating && !ServerCommand(msg) then Failure("ValidationError") else Success(msg)
  }

  /** `msg.get(key, default)`; a JSON value that is not an object has no
      `get`. */
  function Get(msg: Json, key: string, default: Json): (r: Result<Json>)
    ensures r.Success? <==> msg.JObject?
    ensures r.Success? && key in msg.fields ==> r.value == msg.fields[key]
    ensures r.Success? && key !in msg.fields ==> r.value == default
  {
    if !msg.JObject? then Failure("AttributeError")
    else if key in msg.fields then Success(msg.fields[key]) else Success(default)
  }

  /** `msg[key]` */
  function Index(msg: Json, key: string): (r: Result<Json>)
    ensures r.Success? <==> msg.JObject? && key in msg.fields
    ensures r.Success? ==> r.value == msg.fields[key]
  {
    if !msg.JObject? then Failure("TypeError")
    else if key in msg.fields then Success(msg.fields[key]) else Failure("KeyError")
  }

  /** Whether `validate_msg(msg).get('type')` is the tag: `Success(false)`
      is the early `return None`. */
  function Tagged(msg: Json, tag: string, validating: bool): (r: Result<bool>)
    ensures r.Success? <==> ValidateMsg(msg, validating).Success? && msg.JObject?
    ensures r.Success? ==> (r.value <==> "type" in msg.fields && msg.fields["type"] == JString(tag))
  {
    match ValidateMsg(msg, validating)
    case Failure(e) => Failure(e)
    case Success(m) =>
      match Get(m, "type", JNull)
      case Failure(e) => Failure(e)
      case Success(t) => Success(t == JString(tag))
  }

  /** The six values `parse_run_msg` returns. */
  datatype RunMsg = RunMsg(args: Json, chunkSize: Json, stdout: Json, stderr: Json, env: Json, files: Json)

  /** `parse_run_msg`: `args` must be present; the other five fall back
      to their defaults. */
  function ParseRunMsg(msg: Json, validating: bool): (r: Result<Option<RunMsg>>)
    ensures r == Success(None) <==> Tagged(msg, "run", validating) == Success(false)
    ensures r.Success? && r.value.Some? ==>
      && msg.JObject? && "args" in msg.fields && r.value.value.args == msg.fields["args"]
      && r.value.value.chunkSize == Field(msg.fields, "chunk_size", JNumber(DefaultChunkSize))
      && r.value.value.stdout == Field(msg.fields, "stdout", JString("pipe"))
      && r.value.value.stderr == Field(msg.fields, "stderr", JString("pipe"))
      && r.value.value.env == Field(msg.fields, "env", JObject(map[]))
      && r.value.value.files == Field(msg.fields, "files", JObject(map[]))
  {
    match Tagged(msg, "run", validating)
    case Failure(e) => Failure(e)
    case Success(isRun) =>
      if !isRun then Success(None)
      else if "args" !in msg.fields then Failure("KeyError")
      else
        var f := msg.fields;
        Success(Some(RunMsg(f["args"], Field(f, "chunk_size", JNumber(DefaultChunkSize)),
                            Field(f, "stdout", JString("pipe")), Field(f, "stderr", JString("pipe")),
                            Field(f, "env", JObject(map[])), Field(f, "files", JObject(map[])))))
  }

  function Field(fields: map<string, Json>, key: string, default: Json): Json {
    if key in fields then fields[key] else default
  }

  /** `parse_signal_msg` */
  function ParseSignalMsg(msg: Json, validating: bool): (r: Result<Option<Json>>)
    ensures r == Success(None) <==> Tagged(msg, "signal", validating) == Success(false)
    ensures r.Success? && r.value.Some? ==>
      msg.JObject? && "signum" in msg.fields && r.value.value == msg.fields["signum"]
  {
    match Tagged(msg, "signal", validating)
    case Failure(e) => Failure(e)
    case Success(isSignal) =>
      if !isSignal then Success(None)
      else
        match Index(msg, "signum")
        case Failure(e) => Failure(e)
        case Success(signum) => Success(Some(signum))
  }

  /** `parse_stdin_msg`: the base64-decoded `data`. */
  function ParseStdinMsg(msg: Json, validating: bool): (r: Result<Option<seq<byte>>>)
    ensures r == Success(None) <==> Tagged(msg, "stdin", validating) == Success(false)
    ensures r.Success? && r.value.Some? ==>
      && msg.JObject? && "data" in msg.fields && msg.fields["data"].JString?
      && Base64.Decode(msg.fields["data"].s) == Some(r.value.value)
  {
    match Tagged(msg, "stdin", validating)
    case Failure(e) => Failure(e)
    case Success(isStdin) =>
      if !isStdin then Success(None)
      else
        match Index(msg, "data")
        case Failure(e) => Failure(e)
        case Success(data) =>
          if !data.JString? then Failure("AttributeError")
          else
            match Base64.Decode(data.s)
            case None => Failure("binascii.Error")
            case Some(bytes) => Success(Some(bytes))
  }

  /** A message answers to at most one of the three parsers. */
  lemma ParsersExclusive(msg: Json, validating: bool)
    ensures !(ParseRunMsg(msg, validating).Success? && ParseRunMsg(msg, validating).value.Some?
              && ParseSignalMsg(msg, validating).Success? && ParseSignalMsg(msg, validating).value.Some?)
    ensures !(ParseSignalMsg(msg, validating).Success? && ParseSignalMsg(msg, validating).value.Some?
              && ParseStdinMsg(msg, validating).Success? && ParseStdinMsg(msg, validating).value.Some?)
    ensures !(ParseRunMsg(msg, validating).Success? && ParseRunMsg(msg, validating).value.Some?
              && ParseStdinMsg(msg, validating).Success? && ParseStdinMsg(msg, validating).value.Some?)
  {
  }

  /** With validation on, a parsed signal number is within 1..32. */
  lemma ValidatedSignum(msg: Json)
    requires ParseSignalMsg(msg, true).Success? && ParseSignalMsg(msg, true).value.Some?
    ensures ParseSignalMsg(msg, true).value.value.JNumber?
    ensures 1 <= ParseSignalMsg(msg, true).value.value.n <= 32
  {
    ServerCommandShapes(msg);
  }

  // ---------------------------------------------------------------------
  // Starting the child

  /** `asyncio.subprocess.PIPE`, `STDOUT` and `DEVNULL`. */
  datatype Redirect = Pipe | ToStdout | DevNull

  /** `CONVERT[name]` */
  function Convert(name: Json): (r: Result<Redirect>)
    ensures r.Success? <==> IsStringIn(name, {"pipe", "stdout", "null"})
    ensures r == Success(Pipe) <==> name == JString("pipe")
    ensures r == Success(ToStdout) <==> name == JString("stdout")
    ensures r == Success(DevNull) <==> name == JString("null")
  {
    if name == JString("pipe") then Success(Pipe)
    else if name == JString("stdout") then Success(ToStdout)
    else if name == JString("null") then Success(DevNull)
    else if name.JArray? || name.JObject? then Failure("TypeError")
    else Failure("KeyError")
  }

  /** `collections.ChainMap(front, back)` read as one mapping: every key
      of either, the front one's value winning. */
  function ChainMap<V>(front: map<string, V>, back: map<string, V>): (r: map<string, V>)
    ensures r.Keys == front.Keys + back.Keys
    ensures forall k :: k in front ==> r[k] == front[k]
    ensures forall k :: k in back && k !in front ==> r[k] == back[k]
  {
    back + front
  }

  /** How `start_process` starts the child: the program and its arguments,
      the redirections and the environment. */
  datatype ProcessSpec = ProcessSpec(args: seq<string>, stdout: Redirect, stderr: Redirect, env: map<string, Json>)

  /** What `*args` unpacks: the items of a list, or the one-character
      strings of a string; any other value is not iterable (`None`). */
  function Unpacked(args: Json): (r: Option<seq<Json>>)
    ensures r.Some? <==> args.JArray? || args.JString?
    ensures args.JArray? ==> r == Some(args.items)
    ensures args.JString? ==> r.Some? && |r.value| == |args.s|
    ensures args.JString? ==> forall i :: 0 <= i < |args.s| ==> r.value[i] == JString([args.s[i]])
  {
    match args
    case JArray(items) => Some(items)
    case JString(s) => Some(seq(|s|, i requires 0 <= i < |s| => JString([s[i]])))
    case _ => None
  }

  /** The command line the child is started with, present when every
      unpacked item is a string. */
  function Argv(items: seq<Json>): (r: Option<seq<string>>)
    ensures r.Some? <==> forall i :: 0 <= i < |items| ==> items[i].JString?
    ensures r.Some? ==> |r.value| == |items| && forall i :: 0 <= i < |items| ==> items[i] == JString(r.value[i])
  {
    if items == [] then Some([])
    else if !items[0].JString? then None
    else
      match Argv(items[1..])
      case None => None
      case Some(rest) => Some([items[0].s] + rest)
  }

  /** `start_process`: `*args` is unpacked first, then the redirections go
      through `CONVERT`; the call itself needs a program, string
      arguments and an environment mapping names to strings, the
      request's in front of the server's own. */
  function StartProcess(run: RunMsg, environ: map<string, string>): (r: Result<ProcessSpec>)
    ensures Unpacked(run.args).None? ==> r == Failure("TypeError")
    ensures r.Success? ==> Convert(run.stdout) == Success(r.value.stdout)
    ensures r.Success? ==> Convert(run.stderr) == Success(r.value.stderr)
    ensures r.Success? <==>
      && Unpacked(run.args).Some? && Unpacked(run.args).value != []
      && Argv(Unpacked(run.args).value).Some?
      && Convert(run.stdout).Success? && Convert(run.stderr).Success?
      && run.env.JObject? && forall k :: k in run.env.fields ==> run.env.fields[k].JString?
    ensures r.Success? ==> r.value.args != [] && Argv(Unpacked(run.args).value) == Some(r.value.args)
    ensures r.Success? ==> forall k :: k in run.env.fields ==> k in r.value.env && r.value.env[k] == run.env.fields[k]
    ensures r.Success? ==> forall k :: k in environ && k !in run.env.fields ==>
      k in r.value.env && r.value.env[k] == JString(environ[k])
  {
    match Unpacked(run.args)
    case None => Failure("TypeError")
    case Some(items) =>
      match Convert(run.stdout)
      case Failure(e) => Failure(e)
      case Success(out) =>
        match Convert(run.stderr)
        case Failure(e) => Failure(e)
        case Success(err) =>
          if items == [] || Argv(items).None? then Failure("TypeError")
          else if !run.env.JObject? || exists k :: k in run.env.fields && !run.env.fields[k].JString? then
            Failure("TypeError")
          else Success(ProcessSpec(Argv(items).value, out, err, ChainMap(run.env.fields, InheritedEnv(environ))))
  }

  /** Once both redirections are known, an empty argument list (no
      program) or a non-string argument is a TypeError, as is a value of
      `args` that cannot be unpacked at all, whatever the redirections. */
  lemma StartProcessTypeError(run: RunMsg, environ: map<string, string>, i: int)
    requires Convert(run.stdout).Success? && Convert(run.stderr).Success?
    requires run.args == JArray([]) || (run.args.JArray? && 0 <= i < |run.args.items| && !run.args.items[i].JString?)
    ensures StartProcess(run, environ) == Failure("TypeError")
  {
  }

  function InheritedEnv(environ: map<string, string>): (r: map<string, Json>)
    ensures r.Keys == environ.Keys && forall k :: k in environ ==> r[k] == JString(environ[k])
  {
    map k | k in environ :: JString(environ[k])
  }

  /** `communicate` reads the child's stdout only when it is piped, and
      its stderr only when that is piped separately. */
  function ReadStreams(spec: ProcessSpec): (r: (bool, bool))
    ensures r.0 <==> spec.stdout == Pipe
    ensures r.1 <==> spec.stderr == Pipe
  {
    (spec.stdout == Pipe, spec.stderr == Pipe)
  }

  // ---------------------------------------------------------------------
  // ReceiveOp and ReadOp

  /** A websocket message: a text frame, carrying its `json.loads` result
      (`None` when that raises), or any other frame. */
  datatype WsMessage = WsText(parsed: Option<Json>) | WsOther

  /** What the server does to the child. */
  datatype ProcessOp = SendSignal(signum: Json) | WriteStdin(data: seq<byte>) | CloseStdin

  /** One message of `ReceiveOp`: the signal first, then stdin; an
      exception ends the message's processing (it is logged) and keeps
      what was already done. */
  function MessageOps(m: WsMessage, validating: bool): (r: seq<ProcessOp>)
    ensures |r| <= 2
  {
    match m
    case WsOther => []
    case WsText(None) => []
    case WsText(Some(parsed)) =>
      match ParseSignalMsg(parsed, validating)
      case Failure(_) => []
      case Success(signal) =>
        var first := if signal.Some? then [SendSignal(signal.value)] else [];
        match ParseStdinMsg(parsed, validating)
        case Failure(_) => first
        case Success(None) => first
        case Success(Some(data)) => first + (if data == [] then [CloseStdin] else [WriteStdin(data)])
  }

  /** The results of `f` on each element, one after the other. */
  function ConcatMap<T, U>(xs: seq<T>, f: T -> seq<U>): seq<U> {
    if xs == [] then [] else ConcatMap(xs[..|xs| - 1], f) + f(xs[|xs| - 1])
  }

  lemma ConcatMapSnoc<T, U>(xs: seq<T>, f: T -> seq<U>, i: int)
    requires 0 <= i < |xs|
    ensures ConcatMap(xs[..i + 1], f) == ConcatMap(xs[..i], f) + f(xs[i])
  {
    assert xs[..i + 1][..i] == xs[..i];
  }

  lemma {:induction false} ConcatMapAppend<T, U>(a: seq<T>, b: seq<T>, f: T -> seq<U>)
    ensures ConcatMap(a + b, f) == ConcatMap(a, f) + ConcatMap(b, f)
    decreases |b|
  {
    if b == [] {
      assert a + b == a;
    } else {
      var b' := b[..|b| - 1];
      ConcatMapAppend(a, b', f);
      assert (a + b)[..|a + b| - 1] == a + b';
      assert (a + b)[|a + b| - 1] == b[|b| - 1];
    }
  }

  /** `ReceiveOp` over the messages that arrive while the child runs. */
  function ReceiveOps(msgs: seq<WsMessage>, validating: bool): seq<ProcessOp> {
    ConcatMap(msgs, m => MessageOps(m, validating))
  }

  /** `ReceiveOp`: every message is handled on its own; a bad one is
      logged and the loop goes on. */
  method ReceiveOp(msgs: seq<WsMessage>, validating: bool) returns (ops: seq<ProcessOp>)
    ensures ops == ReceiveOps(msgs, validating)
  {
    ops := [];
    for i := 0 to |msgs|
      invariant ops == ReceiveOps(msgs[..i], validating)
    {
      ConcatMapSnoc(msgs, m => MessageOps(m, validating), i);
      match msgs[i] {
        case WsOther =>
        case WsText(parsed) =>
          if parsed.Some? {
            var signal := ParseSignalMsg(parsed.value, validating);
            if signal.Success? {
              if signal.value.Some? {
                ops := ops + [SendSignal(signal.value.value)];
              }
              var stdin := ParseStdinMsg(parsed.value, validating);
              if stdin.Success? && stdin.value.Some? {
                if stdin.value.value != [] {
                  ops := ops + [WriteStdin(stdin.value.value)];
                } else {
                  ops := ops + [CloseStdin];
                }
              }
            }
          }
      }
    }
    assert msgs[..|msgs|] == msgs;
  }

  /** Each message is handled on its own: the operations for two
      batches of messages are those of the first, then those of the
      second. */
  lemma ReceiveOpsAppend(a: seq<WsMessage>, b: seq<WsMessage>, validating: bool)
    ensures ReceiveOps(a + b, validating) == ReceiveOps(a, validating) + ReceiveOps(b, validating)
  {
    ConcatMapAppend(a, b, m => MessageOps(m, validating));
  }

  /** The output chunks `ReadOp` forwards: those read before the first
      empty read (end of stream). */
  function UntilEmpty(chunks: seq<seq<byte>>): (r: seq<seq<byte>>)
    ensures |r| <= |chunks| && r == chunks[..|r|]
    ensures forall i :: 0 <= i < |r| ==> r[i] != []
    ensures |r| < |chunks| ==> chunks[|r|] == []
  {
    if chunks == [] || chunks[0] == [] then []
    else [chunks[0]] + UntilEmpty(chunks[1..])
  }

  function StreamMsgs(chunks: seq<seq<byte>>, kind: string): (r: seq<Json>)
    ensures |r| == |chunks|
  {
    if chunks == [] then [] else StreamMsgs(chunks[..|chunks| - 1], kind) + [StreamMsg(chunks[|chunks| - 1], kind)]
  }

  /** `ReadOp`: each chunk read from the stream is sent as a `kind`
      message until the stream ends. */
  method ReadOp(chunks: seq<seq<byte>>, kind: string) returns (sent: seq<Json>)
    ensures sent == StreamMsgs(UntilEmpty(chunks), kind)
  {
    sent := [];
    var i := 0;
    while i < |chunks| && chunks[i] != []
      invariant 0 <= i <= |chunks|
      invariant forall j :: 0 <= j < i ==> chunks[j] != []
      invariant sent == StreamMsgs(chunks[..i], kind)
    {
      assert chunks[..i + 1][..i] == chunks[..i];
      sent := sent + [StreamMsg(chunks[i], kind)];
      i := i + 1;
    }
    UntilEmptyPrefix(chunks, i);
  }

  lemma {:induction false} UntilEmptyPrefix(chunks: seq<seq<byte>>, i: int)
    requires 0 <= i <= |chunks|
    requires forall j :: 0 <= j < i ==> chunks[j] != []
    requires i == |chunks| || chunks[i] == []
    ensures UntilEmpty(chunks) == chunks[..i]
    decreases i
  {
    if i > 0 {
      UntilEmptyPrefix(chunks[1..], i - 1);
      assert chunks[..i] == [chunks[0]] + chunks[1..][..i - 1];
    }
  }
}

=== FILE: dhcpcd_client.dfy ===
/** The dhcpcd monitor client of
    packages/aiy-bt-prov-server/dhcpcd_client.py: the framing and decoding
    of one event (a 4-byte length in native order, then NUL-separated
    `key=value` records), the interface filter of the event thread, the
    handshake of the monitor connection and its `Close` flag. The bytes the
    socket delivers are a parameter. */
module DhcpcdClient {
  import opened Wrappers
  import opened PyStr
  import Utf8

  const Nul: byte := 0
  /** The byte of `=`. */
  const EqualsByte: byte := 0x3D

  // ---------------------------------------------------------------------
  // The length prefix

  /** `struct.unpack("@I", b)[0]`: an unsigned 32-bit integer in native
      order, which is little-endian on the Raspberry Pi. */
  function Le32(b: seq<byte>): (n: int)
    requires |b| == 4
    ensures 0 <= n < 0x1_0000_0000
  {
    var b0: int, b1: int, b2: int, b3: int := b[0], b[1], b[2], b[3];
    b0 + 0x100 * b1 + 0x1_0000 * b2 + 0x100_0000 * b3
  }

  /** `struct.pack("@I", n)`, the form in which dhcpcd sends the length. */
  function Le32Bytes(n: int): (r: seq<byte>)
    requires 0 <= n < 0x1_0000_0000
    ensures |r| == 4
  {
    [n % 0x100, (n / 0x100) % 0x100, (n / 0x1_0000) % 0x100, n / 0x100_0000]
  }

  lemma Le32RoundTrip(n: int)
    requires 0 <= n < 0x1_0000_0000
    ensures Le32(Le32Bytes(n)) == n
  {
    var q1 := n / 0x100;
    var q2 := q1 / 0x100;
    var q3 := q2 / 0x100;
    assert n == q1 * 0x100 + n % 0x100;
    assert q1 == q2 * 0x100 + q1 % 0x100;
    assert q2 == q3 * 0x100 + q2 % 0x100;
    assert n / 0x1_0000 == q2;
    assert n / 0x100_0000 == q3;
  }

  /** What `recv(4)` and then `recv(num_bytes)` return from the bytes the
      socket holds: fewer than four bytes fail to unpack; the payload is
      the next `num_bytes` bytes, or all that remain when fewer do. */
  function Payload(stream: seq<byte>): (r: Result<seq<byte>>)
    ensures r.Success? ==> |r.value| <= |stream| - 4
  {
    if |stream| < 4 then Failure("struct.error")
    else
      var n := Le32(stream[..4]);
      var rest := stream[4..];
      Success(if n <= |rest| then rest[..n] else rest)
  }

  /** A frame: the payload's length, then the payload. */
  function Frame(payload: seq<byte>): seq<byte>
    requires |payload| < 0x1_0000_0000
  {
    Le32Bytes(|payload|) + payload
  }

  /** The receiver reads back exactly the framed payload, whatever follows
      it on the socket. */
  lemma PayloadOfFrame(payload: seq<byte>, following: seq<byte>)
    requires |payload| < 0x1_0000_0000
    ensures Payload(Frame(payload) + following) == Success(payload)
  {
    var s := Frame(payload) + following;
    assert s[..4] == Le32Bytes(|payload|);
    Le32RoundTrip(|payload|);
    assert s[4..] == payload + following;
    assert (payload + following)[..|payload|] == payload;
  }

  // ---------------------------------------------------------------------
  // Records

  /** `text.split("=")`, keeping pieces 0 and 1; fewer than two pieces
      would raise IndexError. */
  function EntryText(t: string): Result<(string, string)> {
    var parts := Split(t, '=');
    if |parts| < 2 then Failure("IndexError") else Success((parts[0], parts[1]))
  }

  /** One record: `entry.decode("utf-8").split("=")`. */
  function Entry(piece: seq<byte>): Result<(string, string)> {
    match Utf8.Decode(piece)
    case None => Failure("UnicodeDecodeError")
    case Some(t) => EntryText(t)
  }

  /** The key is the text before the first `=`, the value the text up to
      the second `=`, if any. */
  lemma EntryTextParts(k: string, v: string, tail: string)
    requires '=' !in k && '=' !in v
    requires tail == [] || tail[0] == '='
    ensures EntryText(k + "=" + v + tail) == Success((k, v))
  {
    assert k + "=" + v + tail == k + ['='] + v + tail;
    SplitFirstTwo(k, v, tail, '=');
  }

  /** Splitting keeps the text before the first separator and the text
      between the first and the second. */
  lemma SplitFirstTwo<T>(k: seq<T>, v: seq<T>, tail: seq<T>, c: T)
    requires c !in k && c !in v
    requires tail == [] || tail[0] == c
    ensures var parts := Split(k + [c] + v + tail, c); |parts| >= 2 && parts[0] == k && parts[1] == v
  {
    assert k + [c] + v + tail == k + [c] + (v + tail);
    SplitCons(k, c, v + tail);
    SplitHead(v, tail, c);
  }

  /** Text without the separator, followed by nothing or by the separator,
      is the first piece. */
  lemma SplitHead<T>(v: seq<T>, tail: seq<T>, c: T)
    requires c !in v
    requires tail == [] || tail[0] == c
    ensures Split(v + tail, c)[0] == v
  {
    if tail == [] {
      assert v + tail == v;
      SplitNone(v, c);
    } else {
      assert v + tail == v + [c] + tail[1..];
      SplitCons(v, c, tail[1..]);
    }
  }

  /** A record that holds `=` and decodes never raises IndexError: `=`
      survives decoding as itself. */
  lemma {:induction false} EntryNoIndexError(piece: seq<byte>)
    requires EqualsByte in piece && Utf8.Decode(piece).Some?
    ensures Entry(piece).Success?
  {
    var i :| 0 <= i < |piece| && piece[i] == EqualsByte;
    Utf8.DecodeAsciiByte(piece, i);
    SplitTwo(Utf8.Decode(piece).value);
  }

  /** Text holding `=` splits into at least two pieces. */
  lemma {:induction false} SplitTwo(t: string)
    requires '=' in t
    ensures |Split(t, '=')| >= 2
  {
    var j :| 0 <= j < |t| && t[j] == '=';
    FindFirst(t, '=', j);
    var f := Find(t, '=');
    assert 0 <= f && t[f] == '=';
    assert '=' !in t[..f];
    assert t == t[..f] + [t[f]] + t[f + 1..];
    SplitCons(t[..f], '=', t[f + 1..]);
  }

  lemma FindFirst(s: string, c: char, j: int)
    requires 0 <= j < |s| && s[j] == c
    ensures 0 <= Find(s, c) <= j
  {
  }

  /** The event dictionary of the NUL-separated pieces: pieces without `=`
      are dropped, and a later key overwrites an earlier one. */
  function EventOf(pieces: seq<seq<byte>>): Result<map<string, string>> {
    if pieces == [] then Success(map[])
    else
      match EventOf(pieces[..|pieces| - 1])
      case Failure(e) => Failure(e)
      case Success(m) =>
        var last := pieces[|pieces| - 1];
        if EqualsByte !in last then Success(m)
        else
          match Entry(last)
          case Failure(e) => Failure(e)
          case Success(kv) => Success(m[kv.0 := kv.1])
  }

  /** The event `ReceiveEvent` returns for the bytes the socket holds. */
  function EventOfStream(stream: seq<byte>): Result<map<string, string>> {
    match Payload(stream)
    case Failure(e) => Failure(e)
    case Success(payload) => EventOf(Split(payload, Nul))
  }

  lemma EventOfFailure(pieces: seq<seq<byte>>, i: int)
    requires 0 <= i <= |pieces| && EventOf(pieces[..i]).Failure?
    ensures EventOf(pieces) == EventOf(pieces[..i])
    decreases |pieces| - i
  {
    if i < |pieces| {
      assert pieces[..i + 1][..i] == pieces[..i];
      EventOfFailure(pieces, i + 1);
    } else {
      assert pieces[..i] == pieces;
    }
  }

  /** `_MonitorConnection.ReceiveEvent` */
  method ReceiveEvent(stream: seq<byte>) returns (r: Result<map<string, string>>)
    ensures r == EventOfStream(stream)
  {
    if |stream| < 4 {
      return Failure("struct.error");
    }
    var numBytes := Le32(stream[..4]);
    var rest := stream[4..];
    var payload := if numBytes <= |rest| then rest[..numBytes] else rest;
    var pieces := Split(payload, Nul);
    var event: map<string, string> := map[];
    var i := 0;
    while i < |pieces|
      invariant 0 <= i <= |pieces|
      invariant EventOf(pieces[..i]) == Success(event)
    {
      assert pieces[..i + 1][..i] == pieces[..i];
      if EqualsByte in pieces[i] {
        var entry := Entry(pieces[i]);
        if entry.Failure? {
          EventOfFailure(pieces, i + 1);
          return Failure(entry.error);
        }
        event := event[entry.value.0 := entry.value.1];
      }
      i := i + 1;
    }
    assert pieces[..i] == pieces;
    r := Success(event);
  }

  /** A piece without `=` changes nothing, wherever it stands. */
  lemma {:induction false} EventOfDrops(a: seq<seq<byte>>, p: seq<byte>, b: seq<seq<byte>>)
    requires EqualsByte !in p
    ensures EventOf(a + [p] + b) == EventOf(a + b)
    decreases |b|
  {
    if b == [] {
      assert (a + [p] + b)[..|a|] == a;
      assert a + b == a;
    } else {
      var b' := b[..|b| - 1];
      var x := b[|b| - 1];
      assert (a + [p] + b)[..|a + [p] + b| - 1] == a + [p] + b';
      assert (a + b)[..|a + b| - 1] == a + b';
      EventOfDrops(a, p, b');
    }
  }

  // ---------------------------------------------------------------------
  // What dhcpcd sends

  /** The dictionary of a list of entries: a later key overwrites. */
  function MapOf(entries: seq<(string, string)>): map<string, string> {
    if entries == [] then map[]
    else
      var last := entries[|entries| - 1];
      MapOf(entries[..|entries| - 1])[last.0 := last.1]
  }

  /** A key is in the dictionary iff some entry has it, and its value is
      that of the last such entry. */
  lemma {:induction false} MapOfLast(entries: seq<(string, string)>, i: int)
    requires 0 <= i < |entries|
    requires forall j :: i < j < |entries| ==> entries[j].0 != entries[i].0
    ensures entries[i].0 in MapOf(entries) && MapOf(entries)[entries[i].0] == entries[i].1
  {
    var n := |entries|;
    if i < n - 1 {
      var front := entries[..n - 1];
      assert forall j :: i < j < |front| ==> front[j] == entries[j];
      MapOfLast(front, i);
    }
  }

  lemma {:induction false} MapOfDomain(entries: seq<(string, string)>, k: string)
    ensures k in MapOf(entries) <==> exists j :: 0 <= j < |entries| && entries[j].0 == k
  {
    var n := |entries|;
    if n > 0 {
      var front := entries[..n - 1];
      MapOfDomain(front, k);
      if exists j :: 0 <= j < |front| && front[j].0 == k {
        var j :| 0 <= j < |front| && front[j].0 == k;
        assert entries[j].0 == k;
      }
      if exists j :: 0 <= j < n && entries[j].0 == k {
        var j :| 0 <= j < n && entries[j].0 == k;
        if j < n - 1 {
          assert front[j].0 == k;
        }
      }
    }
  }

  /** An entry dhcpcd can send: its key and value hold neither `=` nor NUL. */
  predicate PlainEntry(e: (string, string)) {
    '=' !in e.0 && '=' !in e.1 && '\0' !in e.0 && '\0' !in e.1
  }

  function EntryBytes(e: (string, string)): seq<byte> {
    Utf8.Encode(e.0 + "=" + e.1)
  }

  function Pieces(entries: seq<(string, string)>): (r: seq<seq<byte>>)
    ensures |r| == |entries|
    ensures forall k :: 0 <= k < |entries| ==> r[k] == EntryBytes(entries[k])
  {
    if entries == [] then []
    else Pieces(entries[..|entries| - 1]) + [EntryBytes(entries[|entries| - 1])]
  }

  lemma EntryOfBytes(e: (string, string))
    requires PlainEntry(e)
    ensures EqualsByte in EntryBytes(e)
    ensures Entry(EntryBytes(e)) == Success(e)
    ensures Nul !in EntryBytes(e)
  {
    var t := e.0 + "=" + e.1;
    Utf8.DecodeEncode(t);
    EntryTextParts(e.0, e.1, []);
    assert t == e.0 + "=" + e.1 + [];
    assert t[|e.0|] == '=';
    Utf8.EncodeAscii([t[|e.0|]]);
    EncodePrefix(t, |e.0|);
    assert '\0' !in t;
    Utf8.EncodeNoNul(t);
  }

  /** The encoding of a character of text sits inside the text's encoding. */
  lemma {:induction false} EncodePrefix(t: string, i: int)
    requires 0 <= i < |t| && t[i] < '\U{0080}'
    ensures t[i] as int in Utf8.Encode(t)
  {
    if i == 0 {
      assert Utf8.Encode(t) == Utf8.EncodeChar(t[0]) + Utf8.Encode(t[1..]);
    } else {
      EncodePrefix(t[1..], i - 1);
      assert Utf8.Encode(t) == Utf8.EncodeChar(t[0]) + Utf8.Encode(t[1..]);
    }
  }

  lemma {:induction false} EventOfPieces(entries: seq<(string, string)>)
    requires forall k :: 0 <= k < |entries| ==> PlainEntry(entries[k])
    ensures EventOf(Pieces(entries)) == Success(MapOf(entries))
  {
    if entries != [] {
      var n := |entries|;
      var front := entries[..n - 1];
      EventOfPieces(front);
      assert Pieces(entries)[..n - 1] == Pieces(front);
      EntryOfBytes(entries[n - 1]);
    }
  }

  /** The payload dhcpcd sends for a list of entries. */
  function EventPayload(entries: seq<(string, string)>): seq<byte> {
    Join(Pieces(entries), [Nul])
  }

  /** Decoding a framed event gives back the dictionary of its entries. */
  lemma ReceiveEncoded(entries: seq<(string, string)>, following: seq<byte>)
    requires forall k :: 0 <= k < |entries| ==> PlainEntry(entries[k])
    requires |EventPayload(entries)| < 0x1_0000_0000
    ensures EventOfStream(Frame(EventPayload(entries)) + following) == Success(MapOf(entries))
  {
    var payload := EventPayload(entries);
    PayloadOfFrame(payload, following);
    var ps := Pieces(entries);
    EventOfPieces(entries);
    if entries == [] {
      assert payload == [];
      var one: seq<seq<byte>> := [[]];
      assert Split(payload, Nul) == one;
      assert one[..0] == [];
    } else {
      forall k | 0 <= k < |ps|
        ensures Nul !in ps[k]
      {
        EntryOfBytes(entries[k]);
      }
      JoinSplit(ps, Nul);
    }
  }

  // ---------------------------------------------------------------------
  // The event thread and the monitor connection

  /** The position of the first event without an `interface` key, or the
      number of events when every event has one. */
  function FirstWithoutInterface(events: seq<map<string, string>>): (stop: nat)
    ensures stop <= |events|
    ensures forall j :: 0 <= j < stop ==> "interface" in events[j]
    ensures stop < |events| ==> "interface" !in events[stop]
  {
    if events == [] || "interface" !in events[0] then 0
    else 1 + FirstWithoutInterface(events[1..])
  }

  /** The events of interface `ifname`, in order, each as often as it occurs. */
  function Forwarded(events: seq<map<string, string>>, ifname: string): seq<map<string, string>> {
    if events == [] then []
    else
      var last := events[|events| - 1];
      Forwarded(events[..|events| - 1], ifname)
      + (if "interface" in last && last["interface"] == ifname then [last] else [])
  }

  /** An event is forwarded exactly when it occurs and names the interface. */
  lemma {:induction false} ForwardedMembers(events: seq<map<string, string>>, ifname: string,
                                            e: map<string, string>)
    ensures e in Forwarded(events, ifname) <==> e in events && "interface" in e && e["interface"] == ifname
  {
    if events != [] {
      var init := events[..|events| - 1];
      ForwardedMembers(init, ifname, e);
      assert events == init + [events[|events| - 1]];
    }
  }

  /** Forwarding keeps order: the events forwarded from a concatenation are
      those of the first part followed by those of the second. */
  lemma {:induction false} ForwardedAppend(a: seq<map<string, string>>, b: seq<map<string, string>>,
                                           ifname: string)
    ensures Forwarded(a + b, ifname) == Forwarded(a, ifname) + Forwarded(b, ifname)
  {
    if b != [] {
      var init := b[..|b| - 1];
      ForwardedAppend(a, init, ifname);
      assert (a + b)[..|a + b| - 1] == a + init;
    } else {
      assert a + b == a;
    }
  }

  /** The events the event thread passes to its owner: those of its
      interface, in order, up to the first event without an `interface`
      key, whose KeyError ends the thread. */
  method ForwardEvents(events: seq<map<string, string>>, ifname: string)
    returns (forwarded: seq<map<string, string>>, failed: bool)
    ensures failed <==> exists j :: 0 <= j < |events| && "interface" !in events[j]
    ensures forwarded == Forwarded(events[..FirstWithoutInterface(events)], ifname)
    ensures forall e :: e in forwarded ==> "interface" in e && e["interface"] == ifname && e in events
    ensures !failed ==>
      forall e :: e in events && e["interface"] == ifname ==> e in forwarded
    ensures failed ==>
      exists stop :: (&& 0 <= stop < |events| && "interface" !in events[stop]
                      && (forall j :: 0 <= j < stop ==> "interface" in events[j])
                      && (forall j :: 0 <= j < stop && events[j]["interface"] == ifname ==> events[j] in forwarded))
  {
    forwarded := [];
    var i := 0;
    while i < |events|
      invariant 0 <= i <= |events|
      invariant forall j :: 0 <= j < i ==> "interface" in events[j]
      invariant forall e :: e in forwarded ==> "interface" in e && e["interface"] == ifname && e in events
      invariant forall j :: 0 <= j < i && events[j]["interface"] == ifname ==> events[j] in forwarded
      invariant i <= FirstWithoutInterface(events)
      invariant forwarded == Forwarded(events[..i], ifname)
    {
      if "interface" !in events[i] {
        return forwarded, true;
      }
      assert events[..i + 1][..i] == events[..i];
      if events[i]["interface"] == ifname {
        forwarded := forwarded + [events[i]];
      }
      i := i + 1;
    }
    assert events[..i] == events;
    failed := false;
  }

  /** What the monitor connection does on its socket. */
  datatype SocketOp = Send(command: string) | Recv(size: nat) | CloseSocket

  class MonitorConnection {
    var started: bool
    var ops: seq<SocketOp>

    /** The handshake once connected: ask for the interfaces, read the
        4-byte reply length, then ask to listen. */
    constructor ()
      ensures started
      ensures ops == [Send("--getinterfaces"), Recv(4), Send("--listen")]
    {
      started := true;
      ops := [Send("--getinterfaces"), Recv(4), Send("--listen")];
    }

    /** `Close` acts only while started, so closing twice closes once. */
    method Close()
      modifies this
      ensures !started
      ensures old(started) ==> ops == old(ops) + [CloseSocket]
      ensures !old(started) ==> ops == old(ops)
    {
      if started {
        ops := ops + [CloseSocket];
        started := false;
      }
    }
  }

  class EventThread {
    var closed: bool
    const monitor: MonitorConnection

    constructor (m: MonitorConnection)
      ensures !closed && monitor == m
    {
      closed := false;
      monitor := m;
    }

    /** `Close`: stop the polling loop and close the connection. */
    method Close()
      modifies this, monitor
      ensures closed && !monitor.started
      ensures old(monitor.started) ==> monitor.ops == old(monitor.ops) + [CloseSocket]
      ensures !old(monitor.started) ==> monitor.ops == old(monitor.ops)
    {
      closed := true;
      monitor.Close();
    }
  }

  /** Closing a monitor connection twice sends one close. */
  method CloseTwice() returns (ops: seq<SocketOp>)
    ensures ops == [Send("--getinterfaces"), Recv(4), Send("--listen"), CloseSocket]
  {
    var m := new MonitorConnection();
    m.Close();
    m.Close();
    ops := m.ops;
  }
}

=== FILE: imgtools.dfy ===
/** scripts/imgtools.py: reading the partition table that `parted` prints,
    running `resize2fs` and reading back the size it reports, and the
    command script that makes `fdisk` recreate a partition. The tools'
    output is a parameter; the commands are returned as argument vectors. */
module ImgTools {
  import opened Wrappers
  import opened PyStr

  const SectorBytes := 512

  /** One row of `parted -s <disk> unit s print`. */
  datatype PartitionInfo = PartitionInfo(number: int, start: int, end: int, size: int, partType: string, fs: string)

  /** `int(f.strip('s'))`: a sector count with its unit suffix. */
  function Sectors(f: string): Option<int> {
    PyInt(StripSet(f, Chars({'s'})), 10)
  }

  /** One line of the listing: six or more whitespace-separated fields,
      the first four integers (the last three with an `s` suffix);
      any other line is skipped. */
  function PartitionLine(line: string): Option<PartitionInfo> {
    var fields := SplitWhitespace(Strip(line));
    if |fields| < 6 then None
    else
      match (PyInt(fields[0], 10), Sectors(fields[1]), Sectors(fields[2]), Sectors(fields[3]))
      case (Some(number), Some(start), Some(end), Some(size)) =>
        Some(PartitionInfo(number, start, end, size, fields[4], fields[5]))
      case _ => None
  }

  /** The rows of the listing, one per line, `None` for a skipped line. */
  function Rows(lines: seq<string>): (r: seq<Option<PartitionInfo>>)
    ensures |r| == |lines| && forall i :: 0 <= i < |lines| ==> r[i] == PartitionLine(lines[i])
  {
    seq(|lines|, i requires 0 <= i < |lines| => PartitionLine(lines[i]))
  }

  /** The `info` dictionary after the loop has seen `rows`: each parsed
      row is stored under its number, a later row replacing an earlier one. */
  function Table(rows: seq<Option<PartitionInfo>>): map<int, PartitionInfo> {
    if rows == [] then map[]
    else
      var t := Table(rows[..|rows| - 1]);
      match rows[|rows| - 1]
      case None => t
      case Some(p) => t[p.number := p]
  }

  function PartitionTable(lines: seq<string>): map<int, PartitionInfo> {
    Table(Rows(lines))
  }

  /** `get_partition_info` on the text `parted` printed. */
  method GetPartitionInfo(partedOut: string) returns (info: map<int, PartitionInfo>)
    ensures info == PartitionTable(SplitLines(partedOut))
  {
    var lines := SplitLines(partedOut);
    ghost var rows := Rows(lines);
    info := map[];
    for i := 0 to |lines|
      invariant info == Table(rows[..i])
    {
      var row := PartitionLine(lines[i]);
      TableStep(rows, i);
      assert rows[i] == row;
      if row.Some? {
        info := info[row.value.number := row.value];
      }
    }
    assert rows[..|lines|] == rows;
  }

  /** One more row updates the table as the loop body does. */
  lemma TableStep(rows: seq<Option<PartitionInfo>>, i: int)
    requires 0 <= i < |rows|
    ensures rows[i].None? ==> Table(rows[..i + 1]) == Table(rows[..i])
    ensures rows[i].Some? ==> Table(rows[..i + 1]) == Table(rows[..i])[rows[i].value.number := rows[i].value]
  {
    assert rows[..i + 1][..i] == rows[..i];
  }

  /** Every entry is filed under its own partition number. */
  lemma {:induction false} TableNumbers(rows: seq<Option<PartitionInfo>>)
    ensures forall k :: k in Table(rows) ==> Table(rows)[k].number == k
  {
    if rows != [] {
      TableNumbers(rows[..|rows| - 1]);
    }
  }

  /** Every entry comes from some row of the listing. */
  lemma {:induction false} TableFromRows(rows: seq<Option<PartitionInfo>>, k: int)
    requires k in Table(rows)
    ensures exists i :: 0 <= i < |rows| && rows[i] == Some(Table(rows)[k])
  {
    var front := rows[..|rows| - 1];
    var last := rows[|rows| - 1];
    if last.Some? && last.value.number == k {
      assert rows[|rows| - 1] == Some(Table(rows)[k]);
    } else {
      TableFromRows(front, k);
      var i :| 0 <= i < |front| && front[i] == Some(Table(front)[k]);
      assert rows[i] == front[i];
    }
  }

  /** The last row with a given number is the one kept. */
  lemma {:induction false} TableLastWins(rows: seq<Option<PartitionInfo>>, i: int, p: PartitionInfo)
    requires 0 <= i < |rows| && rows[i] == Some(p)
    requires forall j :: i < j < |rows| && rows[j].Some? ==> rows[j].value.number != p.number
    ensures p.number in Table(rows) && Table(rows)[p.number] == p
  {
    if i < |rows| - 1 {
      var front := rows[..|rows| - 1];
      assert front[i] == rows[i];
      assert forall j :: i < j < |front| ==> front[j] == rows[j];
      TableLastWins(front, i, p);
    }
  }

  /** A number is in the table exactly when some line of the listing
      parses with that number, and it holds the last such line's row. */
  lemma PartitionTableSpec(lines: seq<string>, k: int)
    ensures k in PartitionTable(lines) ==>
      PartitionTable(lines)[k].number == k
      && exists i :: 0 <= i < |lines| && PartitionLine(lines[i]) == Some(PartitionTable(lines)[k])
    ensures forall i :: 0 <= i < |lines| && PartitionLine(lines[i]).Some? && PartitionLine(lines[i]).value.number == k
                        && (forall j :: i < j < |lines| && PartitionLine(lines[j]).Some? ==> PartitionLine(lines[j]).value.number != k)
                        ==> k in PartitionTable(lines) && Some(PartitionTable(lines)[k]) == PartitionLine(lines[i])
  {
    var rows := Rows(lines);
    TableNumbers(rows);
    if k in Table(rows) {
      TableFromRows(rows, k);
    }
    forall i | 0 <= i < |lines| && rows[i].Some? && rows[i].value.number == k
                && (forall j :: i < j < |lines| && rows[j].Some? ==> rows[j].value.number != k)
      ensures k in Table(rows) && Some(Table(rows)[k]) == rows[i]
    {
      TableLastWins(rows, i, rows[i].value);
    }
  }

  /** The row `parted` prints for a partition, single-spaced. */
  function Row(p: PartitionInfo): string {
    Join([Decimal(p.number), Decimal(p.start) + "s", Decimal(p.end) + "s", Decimal(p.size) + "s", p.partType, p.fs], " ")
  }

  /** A sector count printed with its suffix reads back as itself. */
  lemma SectorsOfDecimal(n: int)
    ensures Sectors(Decimal(n) + "s") == Some(n)
  {
    var d := Decimal(n);
    var s := d + "s";
    assert s[0] == d[0] && s[|s| - 1] == 's';
    assert LStrip(s, Chars({'s'})) == s;
    assert s[..|s| - 1] == d;
    assert RStrip(d, Chars({'s'})) == d;
    DecimalRoundTrip(n);
  }

  /** A word of `Row` holds no whitespace. */
  lemma DecimalWord(n: int, suffix: string)
    requires suffix == "" || suffix == "s"
    ensures Decimal(n) + suffix != [] && NoWhitespace(Decimal(n) + suffix)
  {
    var w := Decimal(n) + suffix;
    forall j | 0 <= j < |w| ensures !InClass(w[j], Whitespace) {
      if j < |Decimal(n)| {
        assert w[j] == Decimal(n)[j];
      }
    }
  }

  /** Reading a printed row gives back the partition, whenever its type
      and file system are single words. */
  lemma RowRoundTrip(p: PartitionInfo)
    requires p.partType != [] && NoWhitespace(p.partType)
    requires p.fs != [] && NoWhitespace(p.fs)
    ensures PartitionLine(Row(p)) == Some(p)
  {
    var words := [Decimal(p.number), Decimal(p.start) + "s", Decimal(p.end) + "s", Decimal(p.size) + "s", p.partType, p.fs];
    DecimalWord(p.number, "");
    DecimalWord(p.start, "s");
    DecimalWord(p.end, "s");
    DecimalWord(p.size, "s");
    assert AreWords(words);
    var row := Join(words, " ");
    assert row == words[0] + " " + Join(words[1..], " ");
    assert words == words[..5] + [p.fs];
    JoinSnoc(words[..5], p.fs, " ");
    assert row[0] == words[0][0] && row[|row| - 1] == p.fs[|p.fs| - 1];
    StripUnchanged(row, Whitespace);
    SplitWhitespaceJoin(words);
    DecimalRoundTrip(p.number);
    SectorsOfDecimal(p.start);
    SectorsOfDecimal(p.end);
    SectorsOfDecimal(p.size);
  }

  // ---------------------------------------------------------------------
  // resize2fs

  /** How a `resize2fs` call ends. */
  datatype ResizeOutcome =
    | NewSize(bytes: int)   // the new file-system size
    | BadSize               // ValueError for a size other than minimum/maximum
    | Exit(code: int)       // no size found in the output: sys.exit(1)

  /** The commands a `resize2fs` call runs, in order. */
  function Resize2fsCommands(dev: string, size: string): (r: seq<seq<string>>)
    ensures |r| >= 1 && r[0] == ["sudo", "e2fsck", "-yf", dev]
    ensures |r| == 2 <==> size in {"minimum", "maximum"}
    ensures size == "minimum" ==> r[1] == ["sudo", "resize2fs", "-M", dev]
    ensures size == "maximum" ==> r[1] == ["sudo", "resize2fs", dev]
  {
    [["sudo", "e2fsck", "-yf", dev]]
    + if size == "minimum" then [["sudo", "resize2fs", "-M", dev]]
      else if size == "maximum" then [["sudo", "resize2fs", dev]]
      else []
  }

  /** Number of ASCII digits starting at `j`. */
  function DigitRun(s: string, j: nat): (k: nat)
    requires j <= |s|
    ensures j + k <= |s|
    ensures forall m :: j <= m < j + k ==> IsDecimalDigit(s[m])
    ensures AllDigits(s[j..j + k], 10)
    ensures j + k == |s| || !IsDecimalDigit(s[j + k])
    decreases |s| - j
  {
    if j < |s| && IsDecimalDigit(s[j]) then
      var k := 1 + DigitRun(s, j + 1);
      var t := s[j..j + k];
      assert forall m :: 0 <= m < k ==> t[m] == s[j + m];
      k
    else 0
  }

  const BlocksSuffix := " (4k) blocks"

  /** The pattern `<lead>(\d+) \(4k\) blocks` matching at index `i`, and
      the number it captures. */
  function BlocksAt(s: string, i: int, lead: string): Option<nat> {
    if !OccursAt(s, lead, i) then None
    else
      var j := i + |lead|;
      var k := DigitRun(s, j);
      if k > 0 && OccursAt(s, BlocksSuffix, j + k) then Some(Captured(s[j..j + k]))
      else None
  }

  /** `int(m.group(1))` for the captured digits. */
  function Captured(t: string): nat
    requires AllDigits(t, 10)
  {
    DigitsValueNonNegative(t, 10);
    DigitsValue(t, 10)
  }

  /** `re.search`: the first match from index `i` on. */
  function SearchFrom(s: string, lead: string, i: nat): Option<nat>
    decreases |s| + 1 - i
  {
    if i > |s| then None
    else if BlocksAt(s, i, lead).Some? then BlocksAt(s, i, lead)
    else SearchFrom(s, lead, i + 1)
  }

  function SearchBlocks(s: string, lead: string): Option<nat> {
    SearchFrom(s, lead, 0)
  }

  /** The size `resize2fs` reports: the count after "to ", or else the one
      after "already ", in 4 KiB blocks. */
  function ReportedSize(out: string): (r: Option<nat>)
    ensures r.Some? ==> r.value % 4096 == 0
  {
    match SearchBlocks(out, "to ")
    case Some(n) => Some(n * 4096)
    case None =>
      match SearchBlocks(out, "already ")
      case Some(n) => Some(n * 4096)
      case None => None
  }

  /** `resize2fs(args, dev, size)`, given what the tool printed. */
  function Resize2fs(size: string, out: string): (r: ResizeOutcome)
    ensures r == BadSize <==> size !in {"minimum", "maximum"}
    ensures r.NewSize? ==> r.bytes >= 0 && r.bytes % 4096 == 0
    ensures r.Exit? ==> r.code == 1
  {
    if size != "minimum" && size != "maximum" then BadSize
    else
      match ReportedSize(out)
      case Some(b) => NewSize(b)
      case None => Exit(1)
  }

  /** A report "... to N (4k) blocks ..." yields N blocks when nothing
      earlier in the text matches. */
  lemma ReportedSizeTo(pre: string, n: nat, post: string)
    requires forall m :: 0 <= m < |pre| ==> BlocksAt(pre + "to " + NatToDecimal(n) + BlocksSuffix + post, m, "to ").None?
    ensures ReportedSize(pre + "to " + NatToDecimal(n) + BlocksSuffix + post) == Some(n * 4096)
  {
    var s := pre + "to " + NatToDecimal(n) + BlocksSuffix + post;
    BlocksAtReport(pre, "to ", n, post);
    SearchFirst(s, "to ", 0, |pre|);
  }

  /** The pattern matches where the count is printed, capturing it. */
  lemma BlocksAtReport(pre: string, lead: string, n: nat, post: string)
    ensures BlocksAt(pre + lead + NatToDecimal(n) + BlocksSuffix + post, |pre|, lead) == Some(n)
  {
    var d := NatToDecimal(n);
    var s := pre + lead + d + BlocksSuffix + post;
    var j := |pre| + |lead|;
    assert s == pre + lead + (d + BlocksSuffix + post);
    assert s[|pre|..j] == lead;
    assert s[j..j + |d|] == d;
    assert s[j + |d|..j + |d| + |BlocksSuffix|] == BlocksSuffix;
    NatToDecimalValue(n);
    BlocksAtDigits(s, |pre|, lead, d);
  }

  /** A match: the lead, a maximal run of digits, the suffix. */
  lemma BlocksAtDigits(s: string, i: int, lead: string, d: string)
    requires OccursAt(s, lead, i)
    requires d != [] && AllDigits(d, 10)
    requires OccursAt(s, d, i + |lead|) && OccursAt(s, BlocksSuffix, i + |lead| + |d|)
    ensures BlocksAt(s, i, lead) == Some(Captured(d))
  {
    var j := i + |lead|;
    assert forall m :: j <= m < j + |d| ==> s[m] == d[m - j];
    assert s[j + |d|] == BlocksSuffix[0];
    DigitRunExact(s, j, |d|);
  }

  lemma {:induction false} DigitRunExact(s: string, j: nat, k: nat)
    requires j + k < |s|
    requires forall m :: j <= m < j + k ==> IsDecimalDigit(s[m])
    requires !IsDecimalDigit(s[j + k])
    ensures DigitRun(s, j) == k
    decreases k
  {
    if k > 0 {
      DigitRunExact(s, j + 1, k - 1);
    }
  }

  /** The search returns the first match at or after `i`. */
  lemma {:induction false} SearchFirst(s: string, lead: string, i: nat, m: nat)
    requires i <= m <= |s| && BlocksAt(s, m, lead).Some?
    requires forall m' :: i <= m' < m ==> BlocksAt(s, m', lead).None?
    ensures SearchFrom(s, lead, i) == BlocksAt(s, m, lead)
    decreases m - i
  {
    if i < m {
      SearchFirst(s, lead, i + 1, m);
    }
  }

  /** With no match at or after `i`, the search finds nothing. */
  lemma {:induction false} SearchNone(s: string, lead: string, i: nat)
    requires forall m :: i <= m <= |s| ==> BlocksAt(s, m, lead).None?
    ensures SearchFrom(s, lead, i).None?
    decreases |s| + 1 - i
  {
    if i <= |s| {
      SearchNone(s, lead, i + 1);
    }
  }

  /** A search that finds nothing saw no match. */
  lemma {:induction false} SearchNoneOnly(s: string, lead: string, i: nat)
    requires SearchFrom(s, lead, i).None?
    ensures forall m :: i <= m <= |s| ==> BlocksAt(s, m, lead).None?
    decreases |s| + 1 - i
  {
    if i <= |s| {
      SearchNoneOnly(s, lead, i + 1);
    }
  }

  /** `resize2fs` exits with status 1 exactly when the size argument is
      accepted and neither pattern occurs anywhere in the output. */
  lemma Resize2fsExit(size: string, out: string)
    ensures Resize2fs(size, out) == Exit(1) <==>
      size in {"minimum", "maximum"}
      && (forall m :: 0 <= m <= |out| ==> BlocksAt(out, m, "to ").None?)
      && (forall m :: 0 <= m <= |out| ==> BlocksAt(out, m, "already ").None?)
  {
    if SearchBlocks(out, "to ").None? {
      SearchNoneOnly(out, "to ", 0);
    }
    if SearchBlocks(out, "already ").None? {
      SearchNoneOnly(out, "already ", 0);
    }
    if forall m :: 0 <= m <= |out| ==> BlocksAt(out, m, "to ").None? {
      SearchNone(out, "to ", 0);
    }
    if forall m :: 0 <= m <= |out| ==> BlocksAt(out, m, "already ").None? {
      SearchNone(out, "already ", 0);
    }
  }

  // ---------------------------------------------------------------------
  // resize_part

  /** The lines fed to `fdisk`: delete the partition, recreate it as a
      primary partition with the given bounds, write the table. */
  function FdiskLines(n: int, start: int, end: int): seq<string> {
    ["d", Decimal(n), "n", "p", Decimal(n), Decimal(start), Decimal(end), "w"]
  }

  function FdiskScript(n: int, start: int, end: int): string {
    Join(FdiskLines(n, start, end), "\n") + "\n"
  }

  /** `resize_part`: the command it runs and the text it feeds it. */
  function ResizePart(disk: string, n: int, start: int, end: int): (string, seq<string>) {
    (FdiskScript(n, start, end), ["sudo", "fdisk", disk])
  }

  /** Read line by line, the script holds exactly the eight answers, in
      order, with the numbers reading back as given, and ends with a
      newline. */
  lemma FdiskScriptLines(n: int, start: int, end: int)
    ensures var ls := Split(FdiskScript(n, start, end), '\n');
      && |ls| == 9 && ls[8] == ""
      && ls[0] == "d" && ls[2] == "n" && ls[3] == "p" && ls[7] == "w"
      && PyInt(ls[1], 10) == Some(n) && PyInt(ls[4], 10) == Some(n)
      && PyInt(ls[5], 10) == Some(start) && PyInt(ls[6], 10) == Some(end)
  {
    var lines := FdiskLines(n, start, end);
    JoinSnoc(lines, "", "\n");
    assert Join(lines, "\n") + "\n" == Join(lines + [""], "\n");
    forall k | 0 <= k < |lines + [""]| ensures '\n' !in (lines + [""])[k] {
      if k in {1, 4, 5, 6} {
        var d := (lines + [""])[k];
        assert forall j :: 0 <= j < |d| ==> d[j] != '\n';
      }
    }
    JoinSplit(lines + [""], '\n');
    DecimalRoundTrip(n);
    DecimalRoundTrip(start);
    DecimalRoundTrip(end);
  }
}

=== FILE: mcu_updater.dfy ===
/** packages/aiy-io-mcu-firmware/aiy_mcu_updater.py: deciding whether the
    microcontroller of an AIY bonnet needs new firmware, flashing it, and
    checking the version it reports afterwards. The files under /sys and
    /lib/firmware are a map from path to content; the status message the
    board reports after flashing is a parameter. */
module McuUpdater {
  import opened Wrappers
  import opened PyStr
  import PyPath

  const FirmwareDir := "/lib/firmware"
  const ProductNamePath := "/sys/firmware/devicetree/base/hat/product"
  const ProductVersionPath := "/sys/firmware/devicetree/base/hat/product_ver"

  const VisionBonnet := "AIY VisionBonnet"
  const VoiceBonnet := "AIY VoiceBonnet"

  // ---------------------------------------------------------------------
  // Tables

  /** `FIRMWARE_PATH_DICT.get((name, version))`: the firmware file and the
      version it reports. */
  function FirmwareFor(name: string, version: string): (r: Option<(string, string)>)
    ensures r.Some? <==> (name, version) in {(VisionBonnet, "0x0001"), (VisionBonnet, "0x0002"), (VoiceBonnet, "0x0001")}
    ensures r.Some? ==> r.value.1 == "0.5" && r.value.0 != [] && r.value.0[0] != '/'
  {
    if name == VisionBonnet && version == "0x0001" then Some(("aiy_mcu_fw_vision_pvt_0.5.bin", "0.5"))
    else if name == VisionBonnet && version == "0x0002" then Some(("aiy_mcu_fw_vision_pvt2_0.5.bin", "0.5"))
    else if name == VoiceBonnet && version == "0x0001" then Some(("aiy_mcu_fw_voice_pvt_0.5.bin", "0.5"))
    else None
  }

  /** `MCU_I2C_ADDRESS_DICT.get(name)` */
  function I2cAddress(name: string): (r: Option<int>)
    ensures r == Some(0x51) <==> name == VisionBonnet
    ensures r == Some(0x52) <==> name == VoiceBonnet
    ensures r.None? <==> name != VisionBonnet && name != VoiceBonnet
  {
    if name == VisionBonnet then Some(0x51)
    else if name == VoiceBonnet then Some(0x52)
    else None
  }

  /** Every product with known firmware has an I2C address. */
  lemma FirmwareHasAddress(name: string, version: string)
    requires FirmwareFor(name, version).Some?
    ensures I2cAddress(name).Some?
  {
  }

  // ---------------------------------------------------------------------
  // Paths

  function HexDigit(d: int): char
    requires 0 <= d < 16
  {
    if d < 10 then ('0' as int + d) as char else ('A' as int + d - 10) as char
  }

  /** The upper-case hexadecimal digits of `n`. */
  function Hex(n: nat): (r: string)
    ensures r != []
  {
    if n < 16 then [HexDigit(n)] else Hex(n / 16) + [HexDigit(n % 16)]
  }

  /** `'%2X' % n`: upper-case hexadecimal, padded with spaces to two characters. */
  function Format2X(n: nat): (r: string)
    ensures |r| >= 2
  {
    if |Hex(n)| < 2 then " " + Hex(n) else Hex(n)
  }

  function StatusPath(address: nat): string {
    "/sys/bus/i2c/devices/1-00" + Format2X(address) + "/status_message"
  }

  function UpdatePath(address: nat): string {
    "/sys/bus/i2c/devices/1-00" + Format2X(address) + "/update_firmware"
  }

  /** The two boards' files are those of I2C devices 1-0051 and 1-0052. */
  lemma BonnetAddresses()
    ensures Format2X(0x51) == "51" && Format2X(0x52) == "52"
  {
    assert Hex(0x51) == "51";
    assert Hex(0x52) == "52";
  }

  /** Addresses below 0x10 are padded with a space, as `%2X` pads. */
  lemma Format2XPads(n: nat)
    requires n < 16
    ensures Format2X(n) == [' ', HexDigit(n)]
  {
  }

  // ---------------------------------------------------------------------
  // Reading the board

  /** `str(f.read()).strip("\x00").strip()` */
  function Trim(s: string): (r: string)
    ensures r == [] || (!InClass(r[0], Whitespace) && !InClass(r[|r| - 1], Whitespace))
  {
    var t := StripSet(s, Chars({'\0'}));
    RStripPrefix(LStrip(t, Whitespace), Whitespace);
    Strip(t)
  }

  /** A device-tree string, terminated by NUL, reads back as itself. */
  lemma TrimDeviceTreeString(name: string)
    requires name != [] ==> name[0] != '\0' && name[|name| - 1] != '\0'
    requires name != [] ==> !InClass(name[0], Whitespace) && !InClass(name[|name| - 1], Whitespace)
    ensures Trim(name + "\0") == name
  {
    var s := name + "\0";
    if name == [] {
      assert LStrip(s, Chars({'\0'})) == LStrip([], Chars({'\0'}));
    } else {
      assert s[0] == name[0];
      assert LStrip(s, Chars({'\0'})) == s;
      assert s[..|s| - 1] == name;
      assert RStrip(s, Chars({'\0'})) == name;
      StripUnchanged(name, Whitespace);
    }
  }

  /** `get_product_name()`: the trimmed text of the HAT's `product` node;
      `None` when the file is missing (exit 1). */
  function ProductName(files: map<string, string>): (r: Option<string>)
    ensures r.Some? <==> ProductNamePath in files
    ensures r.Some? ==> r.value == [] || (!InClass(r.value[0], Whitespace) && !InClass(r.value[|r.value| - 1], Whitespace))
  {
    if ProductNamePath in files then Some(Trim(files[ProductNamePath])) else None
  }

  /** `get_product_version()`: the trimmed text of the HAT's `product_ver`
      node; `None` when the file is missing (exit 1). */
  function ProductVersion(files: map<string, string>): (r: Option<string>)
    ensures r.Some? <==> ProductVersionPath in files
    ensures r.Some? ==> r.value == [] || (!InClass(r.value[0], Whitespace) && !InClass(r.value[|r.value| - 1], Whitespace))
  {
    if ProductVersionPath in files then Some(Trim(files[ProductVersionPath])) else None
  }

  /** The device tree's NUL-terminated product strings are read back as
      written. */
  lemma ProductOfDeviceTree(files: map<string, string>, name: string, version: string)
    requires ProductNamePath in files && files[ProductNamePath] == name + "\0"
    requires ProductVersionPath in files && files[ProductVersionPath] == version + "\0"
    requires name != [] ==> name[0] != '\0' && name[|name| - 1] != '\0'
    requires name != [] ==> !InClass(name[0], Whitespace) && !InClass(name[|name| - 1], Whitespace)
    requires version != [] ==> version[0] != '\0' && version[|version| - 1] != '\0'
    requires version != [] ==> !InClass(version[0], Whitespace) && !InClass(version[|version| - 1], Whitespace)
    ensures ProductName(files) == Some(name) && ProductVersion(files) == Some(version)
  {
    TrimDeviceTreeString(name);
    TrimDeviceTreeString(version);
  }

  /** `get_i2c_address()`: `None` (exit 1) without a product name or for
      a product other than the two bonnets. */
  function BoardAddress(files: map<string, string>): (r: Option<int>)
    ensures r == Some(0x51) <==> ProductName(files) == Some(VisionBonnet)
    ensures r == Some(0x52) <==> ProductName(files) == Some(VoiceBonnet)
    ensures r.Some? ==> r.value in {0x51, 0x52}
  {
    match ProductName(files)
    case None => None
    case Some(name) => I2cAddress(name)
  }

  /** `get_status_message()`: the address and the message. */
  function StatusMessage(files: map<string, string>): (r: Option<(nat, string)>)
    ensures r.Some? ==> BoardAddress(files) == Some(r.value.0) && StatusPath(r.value.0) in files
  {
    match BoardAddress(files)
    case None => None
    case Some(address) =>
      if address >= 0 && StatusPath(address) in files then Some((address, files[StatusPath(address)]))
      else None
  }

  /** `get_firmware_path()`: `None` (exit 1) when either node is missing
      or the pair is not in the table. */
  function FirmwarePath(files: map<string, string>): (r: Option<(string, string)>)
    ensures r.Some? <==>
      && ProductName(files).Some? && ProductVersion(files).Some?
      && (ProductName(files).value, ProductVersion(files).value)
           in {(VisionBonnet, "0x0001"), (VisionBonnet, "0x0002"), (VoiceBonnet, "0x0001")}
    ensures r.Some? ==> r.value.1 == "0.5" && BoardAddress(files).Some?
  {
    match (ProductName(files), ProductVersion(files))
    case (Some(name), Some(version)) => FirmwareFor(name, version)
    case _ => None
  }

  // ---------------------------------------------------------------------
  // Versions

  /** `re.match("^OK-V(?P<version>\d.\d)", status)`: a digit, any
      character but a newline, and a digit after a leading `OK-V`. */
  function VersionString(status: string): (r: Option<string>)
    ensures r.Some? ==> |r.value| == 3 && StartsWith(status, "OK-V" + r.value)
    ensures r.Some? ==> IsDecimalDigit(r.value[0]) && r.value[1] != '\n' && IsDecimalDigit(r.value[2])
  {
    if |status| >= 7 && status[..4] == "OK-V"
       && IsDecimalDigit(status[4]) && status[5] != '\n' && IsDecimalDigit(status[6])
    then
      assert status[..7] == "OK-V" + status[4..7];
      Some(status[4..7])
    else None
  }

  /** A status message that starts with the pattern yields its three
      version characters, whatever follows. */
  lemma VersionStringOf(v: string, rest: string)
    requires |v| == 3 && IsDecimalDigit(v[0]) && v[1] != '\n' && IsDecimalDigit(v[2])
    ensures VersionString("OK-V" + v + rest) == Some(v)
  {
    var s := "OK-V" + v + rest;
    assert s[..4] == "OK-V";
    assert s[4..7] == v;
  }

  /** `needs_update(status, version)`: no update only when the message
      starts with `OK-V` and the target version. */
  predicate NeedsUpdate(status: string, version: string)
    ensures !NeedsUpdate(status, version) ==> StartsWith(status, "OK-V" + version)
    ensures VersionString(status).None? ==> NeedsUpdate(status, version)
  {
    VersionString(status) != Some(version)
  }

  /** A message without a version always asks for an update; one that
      reports the target version never does. */
  lemma NeedsUpdateCases(status: string, version: string)
    ensures VersionString(status).None? ==> NeedsUpdate(status, version)
    ensures NeedsUpdate(status, version) <==>
      (|version| != 3 || !StartsWith(status, "OK-V" + version)
       || !IsDecimalDigit(version[0]) || version[1] == '\n' || !IsDecimalDigit(version[2]))
  {
    if |version| == 3 && IsDecimalDigit(version[0]) && version[1] != '\n' && IsDecimalDigit(version[2])
       && StartsWith(status, "OK-V" + version) {
      assert status == "OK-V" + version + status[7..];
      VersionStringOf(version, status[7..]);
    }
  }

  // ---------------------------------------------------------------------
  // main

  /** What `main` does: the firmware write, if any (path and content),
      and the exit status. */
  datatype McuRun = McuRun(written: Option<(string, string)>, code: int)

  /** `main()`: `files` is the board before flashing, `statusAfter` the
      status file after it (`None` if it is missing). */
  function UpdaterRun(files: map<string, string>, statusAfter: Option<string>): McuRun {
    match StatusMessage(files)
    case None => McuRun(None, 1)
    case Some((address, status)) =>
      match FirmwarePath(files)
      case None => McuRun(None, 1)
      case Some((firmware, version)) =>
        if !NeedsUpdate(status, version) then McuRun(None, 0)
        else if PyPath.Join(FirmwareDir, firmware) !in files then McuRun(None, 1)
        else
          var written := Some((UpdatePath(address), firmware));
          match statusAfter
          case None => McuRun(written, 1)
          case Some(after) => McuRun(written, if NeedsUpdate(after, version) then 1 else 0)
  }

  /** Firmware is written only to a known board whose status shows another
      version, only when the file is present, and the name written is the
      file's name, to the board's own update file. */
  lemma FlashOnlyWhenNeeded(files: map<string, string>, statusAfter: Option<string>)
    ensures var r := UpdaterRun(files, statusAfter);
      r.written.Some? ==>
        && StatusMessage(files).Some? && FirmwarePath(files).Some?
        && var (address, status) := StatusMessage(files).value;
           var (firmware, version) := FirmwarePath(files).value;
           && NeedsUpdate(status, version)
           && FirmwareDir + "/" + firmware in files
           && r.written == Some((UpdatePath(address), firmware))
  {
    if StatusMessage(files).Some? && FirmwarePath(files).Some? {
      var firmware := FirmwarePath(files).value.0;
      assert PyPath.Join(FirmwareDir, firmware) == FirmwareDir + "/" + firmware;
    }
  }

  /** A run that ends with status 0 leaves the board reporting the
      firmware's version: the one it reported before if nothing was
      written, the one it reports after flashing otherwise. */
  lemma SuccessMeansCurrent(files: map<string, string>, statusAfter: Option<string>)
    ensures var r := UpdaterRun(files, statusAfter);
      r.code == 0 ==>
        && StatusMessage(files).Some?
        && VersionString(if r.written.None? then StatusMessage(files).value.1 else statusAfter.value) == Some("0.5")
  {
  }

  /** An up-to-date board is left alone, and exit status 0 is reported. */
  lemma UpToDateUntouched(files: map<string, string>, statusAfter: Option<string>)
    requires StatusMessage(files).Some? && FirmwarePath(files).Some?
    requires VersionString(StatusMessage(files).value.1) == Some(FirmwarePath(files).value.1)
    ensures UpdaterRun(files, statusAfter) == McuRun(None, 0)
  {
  }
}

=== FILE: p2p_wpas_client.dfy ===
/** The P2P group-owner client of
    packages/aiy-bt-prov-server/p2p_wpas_client.py: the group-owner
    interface and pending flag that wpa_supplicant events and the
    `CHECK_GROUP` alarm update, the removal of stale P2P interfaces and the
    result of starting a group owner. The regular expression that splits a
    `P2P-GROUP-STARTED` event arrives as its parsed groups; the names under
    /sys/class/net are a parameter; commands sent are recorded. */
module P2pWpasClient {
  import opened Wrappers
  import opened PyStr

  const DeviceName := "AIY"
  /** The interface every client of this kind is opened on. */
  const Ifname := "wlan0"
  const GroupStartedEvent := "P2P-GROUP-STARTED"
  const GroupRemovedEvent := "P2P-GROUP-REMOVED"
  const CheckGroupAlarm := "CHECK_GROUP"

  /** The groups of a `P2P-GROUP-STARTED` event. */
  datatype GoInterface = GoInterface(ifname: string, ssid: string, psk: string)

  /** `RemoveP2pGroup(ifname)` */
  function RemoveGroupCommand(ifname: string): string {
    "P2P_GROUP_REMOVE " + ifname
  }

  /** The names of P2P interfaces created on `own`, in listing order. */
  function P2pInterfaces(names: seq<string>, own: string): (r: seq<string>)
    ensures |r| <= |names|
    ensures forall x :: x in r <==> x in names && StartsWith(x, "p2p-" + own)
  {
    if names == [] then []
    else
      var front := P2pInterfaces(names[..|names| - 1], own);
      var last := names[|names| - 1];
      assert names == names[..|names| - 1] + [last];
      if StartsWith(last, "p2p-" + own) then front + [last] else front
  }

  /** One `P2P_GROUP_REMOVE` per name, in order. */
  function RemoveCommands(ifnames: seq<string>): (r: seq<string>)
    ensures |r| == |ifnames|
    ensures forall k :: 0 <= k < |ifnames| ==> r[k] == RemoveGroupCommand(ifnames[k])
  {
    if ifnames == [] then []
    else RemoveCommands(ifnames[..|ifnames| - 1]) + [RemoveGroupCommand(ifnames[|ifnames| - 1])]
  }

  lemma RemoveAllSnoc(names: seq<string>, own: string, i: int)
    requires 0 <= i < |names|
    ensures RemoveCommands(P2pInterfaces(names[..i + 1], own)) ==
      RemoveCommands(P2pInterfaces(names[..i], own))
      + (if StartsWith(names[i], "p2p-" + own) then [RemoveGroupCommand(names[i])] else [])
  {
    assert names[..i + 1][..i] == names[..i];
    var front := P2pInterfaces(names[..i], own);
    if StartsWith(names[i], "p2p-" + own) {
      assert P2pInterfaces(names[..i + 1], own) == front + [names[i]];
      assert (front + [names[i]])[..|front|] == front;
    }
  }

  /** `_RemoveAllP2pInterfaces`: a `P2P_GROUP_REMOVE` for each listed
      interface whose name starts with `p2p-` and the client's interface. */
  method RemoveAllP2pInterfaces(names: seq<string>) returns (sent: seq<string>)
    ensures sent == RemoveCommands(P2pInterfaces(names, Ifname))
  {
    sent := [];
    var i := 0;
    while i < |names|
      invariant 0 <= i <= |names|
      invariant sent == RemoveCommands(P2pInterfaces(names[..i], Ifname))
    {
      RemoveAllSnoc(names, Ifname, i);
      if StartsWith(names[i], "p2p-" + Ifname) {
        sent := sent + [RemoveGroupCommand(names[i])];
      }
      i := i + 1;
    }
    assert names[..i] == names;
  }

  /** Exactly the P2P interfaces of this client are removed: a removal
      command names a listed interface of the right prefix, and each such
      interface gets one. */
  lemma RemovedAreP2p(names: seq<string>, x: string)
    ensures RemoveGroupCommand(x) in RemoveCommands(P2pInterfaces(names, Ifname))
            <==> x in names && StartsWith(x, "p2p-" + Ifname)
  {
    var ps := P2pInterfaces(names, Ifname);
    var cs := RemoveCommands(ps);
    if RemoveGroupCommand(x) in cs {
      var k :| 0 <= k < |cs| && cs[k] == RemoveGroupCommand(x);
      assert RemoveGroupCommand(ps[k]) == RemoveGroupCommand(x);
      assert ps[k] == RemoveGroupCommand(ps[k])[|"P2P_GROUP_REMOVE "|..];
      assert ps[k] == x;
    }
    if x in names && StartsWith(x, "p2p-" + Ifname) {
      var k :| 0 <= k < |ps| && ps[k] == x;
      assert cs[k] == RemoveGroupCommand(x);
    }
  }

  class P2pClient {
    var goInterface: Option<GoInterface>
    var goPending: bool
    /** The commands sent to wpa_supplicant, in order. */
    var sent: seq<string>

    /** The device name and SSID postfix are set once the connection is up. */
    constructor ()
      ensures goInterface == None && !goPending
      ensures sent == ["SET device_name " + DeviceName, "P2P_SET ssid_postfix " + DeviceName]
    {
      goInterface := None;
      goPending := false;
      sent := ["SET device_name " + DeviceName, "P2P_SET ssid_postfix " + DeviceName];
    }

    /** `_OnEvent` with the groups of the group-started pattern; the result
        says whether waiters on a state change are woken. */
    method OnEvent(event: string, started: Option<GoInterface>) returns (r: Result<bool>)
      modifies this
      ensures sent == old(sent)
      ensures StartsWith(event, GroupStartedEvent) && started.Some? ==>
        r == Success(true) && goInterface == started && !goPending
      ensures StartsWith(event, GroupStartedEvent) && started.None? ==>
        r == Failure("AttributeError") && goInterface == old(goInterface) && goPending == old(goPending)
      ensures StartsWith(event, GroupRemovedEvent) ==>
        r == Success(false) && goInterface == None && goPending == old(goPending)
      ensures !StartsWith(event, GroupStartedEvent) && !StartsWith(event, GroupRemovedEvent) ==>
        r == Success(false) && goInterface == old(goInterface) && goPending == old(goPending)
    {
      r := Success(false);
      if StartsWith(event, GroupStartedEvent) {
        if started.None? {
          return Failure("AttributeError");
        }
        goInterface := started;
        goPending := false;
        r := Success(true);
      }
      if StartsWith(event, GroupRemovedEvent) {
        assert event[..|GroupStartedEvent|] != GroupStartedEvent by {
          assert event[10] == 'R';
          assert GroupStartedEvent[10] == 'S';
        }
        if goInterface.Some? {
          goInterface := None;
        }
      }
    }

    /** `_OnAlarm` with the interface names it would list; the result says
        whether waiters are woken. */
    method OnAlarm(alarm: string, names: seq<string>) returns (notify: bool)
      modifies this
      ensures goInterface == old(goInterface)
      ensures alarm != CheckGroupAlarm || goInterface.Some? || !old(goPending) ==>
        !notify && goPending == old(goPending) && sent == old(sent)
      ensures alarm == CheckGroupAlarm && goInterface.None? && old(goPending) ==>
        notify && !goPending && sent == old(sent) + RemoveCommands(P2pInterfaces(names, Ifname))
    {
      notify := false;
      if alarm == CheckGroupAlarm {
        if goInterface.Some? {
          return;
        }
        if goPending {
          var removed := RemoveAllP2pInterfaces(names);
          sent := sent + removed;
          goPending := false;
          notify := true;
        }
      }
    }

    /** `Close`: the group owner's group is removed if one is recorded; the
        connection itself is closed as `WpasClient.InterfaceConnection`
        models. */
    method Close()
      modifies this
      ensures goInterface == old(goInterface) && goPending == old(goPending)
      ensures goInterface.Some? ==> sent == old(sent) + [RemoveGroupCommand(goInterface.value.ifname)]
      ensures goInterface.None? ==> sent == old(sent)
    {
      if goInterface.Some? {
        sent := sent + [RemoveGroupCommand(goInterface.value.ifname)];
      }
    }
  }

  /** The result of `StartP2pGo`: `observed` lists the recorded group-owner
      interface after each wait, until the time runs out. The first one
      recorded is returned, `None` if none was. */
  method StartP2pGo(observed: seq<Option<GoInterface>>) returns (res: Option<GoInterface>)
    ensures res.None? <==> forall k :: 0 <= k < |observed| ==> observed[k].None?
    ensures res.Some? ==> exists k :: 0 <= k < |observed| && observed[k] == res
                           && forall j :: 0 <= j < k ==> observed[j].None?
  {
    res := None;
    var i := 0;
    while i < |observed|
      invariant 0 <= i <= |observed|
      invariant forall j :: 0 <= j < i ==> observed[j].None?
    {
      if observed[i].Some? {
        return observed[i];
      }
      i := i + 1;
    }
  }
}

=== FILE: pypath.dfy ===
/** The parts of Python's `posixpath` the image scripts rely on:
    `join`, `split` and `isabs`. */
module PyPath {
  import opened PyStr

  predicate IsAbs(p: string) {
    |p| > 0 && p[0] == '/'
  }

  /** `os.path.join(a, b)`: an absolute `b` replaces `a`; otherwise one
      separator is inserted unless `a` is empty or already ends in one. */
  function Join(a: string, b: string): (r: string)
    ensures IsAbs(b) ==> r == b
    ensures !IsAbs(b) ==> StartsWith(r, a) && EndsWith(r, b)
  {
    if IsAbs(b) then b
    else if a == [] || a[|a| - 1] == '/' then a + b
    else a + "/" + b
  }

  predicate AllSlashes(p: string) {
    forall j :: 0 <= j < |p| ==> p[j] == '/'
  }

  /** `p.rfind('/')` */
  function LastSlash(p: string): (r: int)
    ensures -1 <= r < |p|
    ensures r >= 0 ==> p[r] == '/'
    ensures forall j :: r < j < |p| ==> p[j] != '/'
  {
    if p == [] then -1
    else if p[|p| - 1] == '/' then |p| - 1
    else LastSlash(p[..|p| - 1])
  }

  /** `s.rstrip('/')` */
  function RStripSlashes(s: string): (r: string)
    ensures |r| <= |s| && r == s[..|r|]
    ensures r == [] || r[|r| - 1] != '/'
    ensures forall j :: |r| <= j < |s| ==> s[j] == '/'
  {
    if s != [] && s[|s| - 1] == '/' then RStripSlashes(s[..|s| - 1]) else s
  }

  /** `os.path.split(p)`: the tail after the last separator, and the head
      before it with its trailing separators removed unless it consists
      of separators only. */
  function Split(p: string): (r: (string, string))
    ensures '/' !in r.1 && EndsWith(p, r.1)
    ensures StartsWith(p, r.0)
    ensures r.0 == p <==> AllSlashes(p)
    ensures |r.0| <= |p|
  {
    var i := LastSlash(p) + 1;
    var head, tail := p[..i], p[i..];
    assert forall j :: 0 <= j < |tail| ==> tail[j] == p[i + j];
    var h := if head != [] && !AllSlashes(head) then RStripSlashes(head) else head;
    assert !AllSlashes(p) ==> |h| < |p| by {
      if !AllSlashes(p) && !(head != [] && !AllSlashes(head)) {
        assert |tail| > 0;
      }
    }
    assert AllSlashes(p) ==> h == p by {
      if AllSlashes(p) && p != [] {
        assert LastSlash(p) == |p| - 1;
      }
    }
    (h, tail)
  }

  /** No doubled separator and no trailing one, except for the root. */
  predicate Normal(p: string) {
    && (forall j :: 0 <= j < |p| - 1 ==> !(p[j] == '/' && p[j + 1] == '/'))
    && (p == "/" || p == [] || p[|p| - 1] != '/')
  }

  /** For a normal path, `split` undoes `join` and keeps the head normal. */
  lemma SplitJoin(p: string)
    requires Normal(p) && !AllSlashes(p)
    ensures Join(Split(p).0, Split(p).1) == p
    ensures Normal(Split(p).0)
    ensures Split(p).1 != []
  {
    var i := LastSlash(p) + 1;
    SplitParts(p);
    if i > 0 {
      assert p[i - 1] == '/';
      assert p[|p| - 1] != '/';
      assert p[i..][0] == p[i];
      if AllSlashes(p[..i]) {
        assert |p| < 2 || !(p[0] == '/' && p[1] == '/');
        assert p[..i] == "/";
        assert "/" + p[i..] == p;
      } else {
        NormalHead(p, i);
        assert p[..i - 1] + "/" + p[i..] == p;
      }
    }
  }

  /** `split` cuts after the last separator. */
  lemma SplitParts(p: string)
    ensures var i := LastSlash(p) + 1;
      Split(p) == (if p[..i] != [] && !AllSlashes(p[..i]) then RStripSlashes(p[..i]) else p[..i], p[i..])
  {
  }

  /** Dropping the last separator of a normal path's head leaves a normal
      path that does not end in a separator. */
  lemma NormalHead(p: string, i: int)
    requires Normal(p) && 0 < i <= |p| && p[i - 1] == '/' && !AllSlashes(p[..i])
    ensures RStripSlashes(p[..i]) == p[..i - 1]
    ensures Normal(p[..i - 1]) && p[..i - 1] != [] && p[i - 2] != '/'
  {
    var head := p[..i];
    assert |head| >= 2;
    assert head[|head| - 2] != '/';
    assert RStripSlashes(head[..|head| - 1]) == head[..|head| - 1];
  }
}

=== FILE: pystr.dfy ===
/** The parts of Python's `str` semantics the helpers rely on: `find`, `in`,
    `startswith`, `split(sep)`, `split()`, `splitlines()`, `strip()`,
    `replace`, `'%d' % n` and `int(s, base)`. */
module PyStr {
  import opened Wrappers

  // ---------------------------------------------------------------------
  // Searching

  /** `s.find(c)`: the first index of `c`, or -1. */
  function Find<T(==)>(s: seq<T>, c: T): (r: int)
    ensures -1 <= r < |s|
    ensures r >= 0 ==> s[r] == c
    ensures forall j :: 0 <= j < (if r == -1 then |s| else r) ==> s[j] != c
  {
    if s == [] then -1
    else if s[0] == c then 0
    else var k := Find(s[1..], c); if k == -1 then -1 else k + 1
  }

  predicate StartsWith(s: string, p: string) {
    |p| <= |s| && s[..|p|] == p
  }

  predicate EndsWith(s: string, p: string) {
    |p| <= |s| && s[|s| - |p|..] == p
  }

  /** `p` occurs in `s` starting at index `i`. */
  predicate OccursAt(s: string, p: string, i: int) {
    0 <= i <= |s| - |p| && s[i..i + |p|] == p
  }

  /** `p in s` for strings: `p` occurs as a contiguous piece of `s`. */
  predicate Contains(s: string, p: string) {
    exists i | 0 <= i <= |s| - |p| :: OccursAt(s, p, i)
  }

  lemma OccursAtTail(s: string, p: string, j: int)
    requires s != [] && 0 <= j
    ensures OccursAt(s[1..], p, j) <==> OccursAt(s, p, j + 1)
  {
    if 0 <= j <= |s| - 1 - |p| {
      assert s[1..][j..j + |p|] == s[j + 1..j + 1 + |p|];
    }
  }

  /** `s.find(p)` for a non-empty pattern. */
  function FindSub(s: string, p: string): (r: int)
    requires p != []
    ensures r == -1 || 0 <= r <= |s| - |p|
    ensures r >= 0 ==> OccursAt(s, p, r)
    ensures r >= 0 ==> forall j :: 0 <= j < r ==> !OccursAt(s, p, j)
    ensures r == -1 <==> !Contains(s, p)
    decreases |s|
  {
    if |s| < |p| then -1
    else if s[..|p|] == p then (assert OccursAt(s, p, 0); 0)
    else
      var k := FindSub(s[1..], p);
      assert forall j | 0 <= j :: OccursAt(s[1..], p, j) <==> OccursAt(s, p, j + 1) by {
        forall j | 0 <= j ensures OccursAt(s[1..], p, j) <==> OccursAt(s, p, j + 1) {
          OccursAtTail(s, p, j);
        }
      }
      assert !OccursAt(s, p, 0);
      if k == -1 then
        assert forall i :: !OccursAt(s, p, i) by {
          forall i ensures !OccursAt(s, p, i) {
            if i > 0 {
              assert !OccursAt(s[1..], p, i - 1);
            }
          }
        }
        -1
      else
        assert forall j :: 0 <= j < k + 1 ==> !OccursAt(s, p, j) by {
          forall j | 0 <= j < k + 1 ensures !OccursAt(s, p, j) {
            if j > 0 {
              assert !OccursAt(s[1..], p, j - 1);
            }
          }
        }
        k + 1
  }

  lemma ContainsMiddle(a: string, p: string, b: string)
    ensures Contains(a + p + b, p)
  {
    assert (a + p + b)[|a|..|a| + |p|] == p;
    assert OccursAt(a + p + b, p, |a|);
  }

  // ---------------------------------------------------------------------
  // Splitting and joining

  /** `sep.join(pieces)` */
  function Join<T>(pieces: seq<seq<T>>, sep: seq<T>): seq<T> {
    if pieces == [] then []
    else if |pieces| == 1 then pieces[0]
    else pieces[0] + sep + Join(pieces[1..], sep)
  }

  /** `s.split(c)` for a one-character separator: always at least one piece,
      and no piece holds the separator. */
  function Split<T(==)>(s: seq<T>, c: T): (r: seq<seq<T>>)
    ensures |r| >= 1
    ensures forall k :: 0 <= k < |r| ==> c !in r[k]
    decreases |s|
  {
    var i := Find(s, c);
    if i == -1 then [s] else [s[..i]] + Split(s[i + 1..], c)
  }

  lemma JoinCons<T>(p: seq<T>, rest: seq<seq<T>>, sep: seq<T>)
    requires rest != []
    ensures Join([p] + rest, sep) == p + sep + Join(rest, sep)
  {
    assert ([p] + rest)[1..] == rest;
  }

  lemma {:induction false} SplitJoin<T>(s: seq<T>, c: T)
    ensures Join(Split(s, c), [c]) == s
    decreases |s|
  {
    var i := Find(s, c);
    if i != -1 {
      var rest := Split(s[i + 1..], c);
      SplitJoin(s[i + 1..], c);
      JoinCons(s[..i], rest, [c]);
      assert s[..i] + [c] + s[i + 1..] == s;
    }
  }

  lemma FindAt<T>(s: seq<T>, c: T, k: int)
    requires 0 <= k < |s| && s[k] == c
    requires forall j :: 0 <= j < k ==> s[j] != c
    ensures Find(s, c) == k
  {
  }

  /** The first piece of a split ends at the first separator. */
  lemma SplitCons<T>(a: seq<T>, c: T, b: seq<T>)
    requires c !in a
    ensures Split(a + [c] + b, c) == [a] + Split(b, c)
  {
    var s := a + [c] + b;
    assert s[|a|] == c;
    assert forall j :: 0 <= j < |a| ==> s[j] == a[j];
    FindAt(s, c, |a|);
    assert s[..|a|] == a && s[|a| + 1..] == b;
  }

  /** Text without the separator is a single piece. */
  lemma SplitNone<T>(a: seq<T>, c: T)
    requires c !in a
    ensures Split(a, c) == [a]
  {
    assert Find(a, c) == -1;
  }

  lemma {:induction false} JoinSplit<T>(pieces: seq<seq<T>>, c: T)
    requires |pieces| >= 1
    requires forall k :: 0 <= k < |pieces| ==> c !in pieces[k]
    ensures Split(Join(pieces, [c]), c) == pieces
  {
    if |pieces| == 1 {
      assert Join(pieces, [c]) == pieces[0];
    } else {
      var rest := Join(pieces[1..], [c]);
      var s := pieces[0] + [c] + rest;
      assert Join(pieces, [c]) == s;
      assert s[..|pieces[0]|] == pieces[0];
      assert forall j :: 0 <= j < |pieces[0]| ==> s[j] == pieces[0][j];
      FindAt(s, c, |pieces[0]|);
      assert s[|pieces[0]| + 1..] == rest;
      JoinSplit(pieces[1..], c);
    }
  }

  /** A set of characters to search for or strip: Python's whitespace
      (`str.isspace()`), the line boundaries of `str.splitlines()`, or the
      characters of an explicit `strip(chars)` argument. */
  datatype CharClass = Whitespace | LineBreaks | Chars(members: set<char>)

  predicate InClass(c: char, cls: CharClass) {
    match cls
    case Whitespace =>
      '\t' <= c <= '\r' || '\U{001C}' <= c <= ' ' || c == '\U{0085}' || c == '\U{00A0}'
      || c == '\U{1680}' || '\U{2000}' <= c <= '\U{200A}' || c == '\U{2028}' || c == '\U{2029}'
      || c == '\U{202F}' || c == '\U{205F}' || c == '\U{3000}'
    case LineBreaks =>
      '\n' <= c <= '\r' || '\U{001C}' <= c <= '\U{001E}' || c == '\U{0085}'
      || c == '\U{2028}' || c == '\U{2029}'
    case Chars(m) => c in m
  }

  function FindIn(s: string, chars: CharClass): (r: int)
    ensures -1 <= r < |s|
    ensures r >= 0 ==> InClass(s[r], chars)
    ensures forall j :: 0 <= j < (if r == -1 then |s| else r) ==> !InClass(s[j], chars)
  {
    if s == [] then -1
    else if InClass(s[0], chars) then 0
    else var k := FindIn(s[1..], chars); if k == -1 then -1 else k + 1
  }

  /** `s.splitlines()`: no trailing empty line, no line holds a boundary. */
  function SplitLines(s: string): (r: seq<string>)
    ensures forall k :: 0 <= k < |r| ==> forall j :: 0 <= j < |r[k]| ==> !InClass(r[k][j], LineBreaks)
    decreases |s|
  {
    if s == [] then []
    else
      var i := FindIn(s, LineBreaks);
      if i == -1 then [s]
      else
        var next := if s[i] == '\r' && i + 1 < |s| && s[i + 1] == '\n' then i + 2 else i + 1;
        [s[..i]] + SplitLines(s[next..])
  }

  /** `s.lstrip(chars)` and `s.rstrip(chars)` */
  function LStrip(s: string, chars: CharClass): (r: string)
    ensures |r| <= |s|
    ensures r == [] || !InClass(r[0], chars)
    ensures forall j :: 0 <= j < |s| - |r| ==> InClass(s[j], chars)
  {
    if s != [] && InClass(s[0], chars) then LStrip(s[1..], chars) else s
  }

  function RStrip(s: string, chars: CharClass): (r: string)
    ensures |r| <= |s|
    ensures r == [] || !InClass(r[|r| - 1], chars)
    ensures forall j :: |r| <= j < |s| ==> InClass(s[j], chars)
  {
    if s != [] && InClass(s[|s| - 1], chars) then RStrip(s[..|s| - 1], chars) else s
  }

  /** What `lstrip` keeps is a suffix of its argument. */
  lemma {:induction false} LStripSuffix(s: string, chars: CharClass)
    ensures LStrip(s, chars) == s[|s| - |LStrip(s, chars)|..]
  {
    if s != [] && InClass(s[0], chars) {
      LStripSuffix(s[1..], chars);
    }
  }

  /** What `rstrip` keeps is a prefix of its argument. */
  lemma {:induction false} RStripPrefix(s: string, chars: CharClass)
    ensures RStrip(s, chars) == s[..|RStrip(s, chars)|]
  {
    if s != [] && InClass(s[|s| - 1], chars) {
      RStripPrefix(s[..|s| - 1], chars);
    }
  }

  /** `s.strip(chars)`; with `Whitespace` it is `s.strip()`. */
  function StripSet(s: string, chars: CharClass): string {
    RStrip(LStrip(s, chars), chars)
  }

  function Strip(s: string): string {
    StripSet(s, Whitespace)
  }

  lemma StripUnchanged(s: string, chars: CharClass)
    requires s != [] ==> !InClass(s[0], chars) && !InClass(s[|s| - 1], chars)
    ensures StripSet(s, chars) == s
  {
  }

  /** `w` holds no whitespace character. */
  predicate NoWhitespace(w: string) {
    forall j :: 0 <= j < |w| ==> !InClass(w[j], Whitespace)
  }

  /** `s.split()`: the maximal runs of non-whitespace characters. */
  function SplitWhitespace(s: string): seq<string>
    decreases |s|
  {
    var t := LStrip(s, Whitespace);
    if t == [] then []
    else
      var i := FindIn(t, Whitespace);
      if i == -1 then [t] else [t[..i]] + SplitWhitespace(t[i..])
  }

  predicate AreWords(r: seq<string>) {
    forall k :: 0 <= k < |r| ==> r[k] != [] && NoWhitespace(r[k])
  }

  lemma WordsCons(w: string, rest: seq<string>)
    requires w != [] && NoWhitespace(w) && AreWords(rest)
    ensures AreWords([w] + rest)
  {
    forall k | 0 <= k < |[w] + rest|
      ensures ([w] + rest)[k] != [] && NoWhitespace(([w] + rest)[k])
    {
      if k > 0 {
        assert ([w] + rest)[k] == rest[k - 1];
      }
    }
  }

  /** Every piece of `s.split()` is non-empty and holds no whitespace. */
  lemma {:induction false} SplitWhitespaceWords(s: string)
    ensures AreWords(SplitWhitespace(s))
    decreases |s|
  {
    var t := LStrip(s, Whitespace);
    if t != [] {
      var i := FindIn(t, Whitespace);
      if i != -1 {
        SplitWhitespaceWords(t[i..]);
        assert t[..i] != [] && NoWhitespace(t[..i]);
        WordsCons(t[..i], SplitWhitespace(t[i..]));
      }
    }
  }

  /** A word followed by one space: `split()` yields the word, then the
      pieces of the rest. */
  lemma SplitWhitespaceCons(w: string, rest: string)
    requires w != [] && NoWhitespace(w)
    ensures SplitWhitespace(w + " " + rest) == [w] + SplitWhitespace(rest)
  {
    var s := w + " " + rest;
    assert s[0] == w[0];
    assert LStrip(s, Whitespace) == s;
    assert forall j :: 0 <= j < |w| ==> s[j] == w[j];
    assert s[|w|] == ' ';
    assert FindIn(s, Whitespace) == |w| by {
      FindInAt(s, Whitespace, |w|);
    }
    assert s[..|w|] == w;
    assert s[|w|..] == " " + rest;
    assert (" " + rest)[1..] == rest;
  }

  lemma {:induction false} FindInAt(s: string, chars: CharClass, k: int)
    requires 0 <= k < |s| && InClass(s[k], chars)
    requires forall j :: 0 <= j < k ==> !InClass(s[j], chars)
    ensures FindIn(s, chars) == k
  {
    if k > 0 {
      FindInAt(s[1..], chars, k - 1);
    }
  }

  /** `' '.join(words).split() == words` when every word is non-empty and
      free of whitespace. */
  lemma {:induction false} SplitWhitespaceJoin(words: seq<string>)
    requires AreWords(words)
    ensures SplitWhitespace(Join(words, " ")) == words
  {
    if |words| == 1 {
      var w := words[0];
      assert LStrip(w, Whitespace) == w;
      assert FindIn(w, Whitespace) == -1;
    } else if |words| > 1 {
      SplitWhitespaceJoin(words[1..]);
      SplitWhitespaceCons(words[0], Join(words[1..], " "));
    }
  }

  /** `sep.join(pieces + [p])` */
  lemma {:induction false} JoinSnoc<T>(pieces: seq<seq<T>>, p: seq<T>, sep: seq<T>)
    requires pieces != []
    ensures Join(pieces + [p], sep) == Join(pieces, sep) + sep + p
  {
    if |pieces| > 1 {
      JoinSnoc(pieces[1..], p, sep);
      assert (pieces + [p])[1..] == pieces[1..] + [p];
    } else {
      assert (pieces + [p])[1..] == [p];
    }
  }

  /** `s.replace(old, new)`: every leftmost, non-overlapping occurrence. */
  function ReplaceAll(s: string, pat: string, rep: string): (r: string)
    requires pat != []
    ensures !Contains(s, pat) ==> r == s
    decreases |s|
  {
    var i := FindSub(s, pat);
    if i == -1 then s else s[..i] + rep + ReplaceAll(s[i + |pat|..], pat, rep)
  }

  /** A pattern at the start is replaced first. */
  lemma ReplaceAllAtStart(s: string, pat: string, rep: string)
    requires pat != [] && |pat| <= |s| && s[..|pat|] == pat
    ensures ReplaceAll(s, pat, rep) == rep + ReplaceAll(s[|pat|..], pat, rep)
  {
    assert OccursAt(s, pat, 0);
    assert FindSub(s, pat) == 0;
  }

  /** Text shorter than the pattern is left as it is. */
  lemma ReplaceAllShort(s: string, pat: string, rep: string)
    requires pat != [] && |s| < |pat|
    ensures ReplaceAll(s, pat, rep) == s
  {
  }

  /** Text as long as the pattern is replaced whole or not at all. */
  lemma ReplaceAllSameLength(s: string, pat: string, rep: string)
    requires pat != [] && |s| == |pat|
    ensures ReplaceAll(s, pat, rep) == if s == pat then rep else s
  {
    if s == pat {
      ReplaceAllAtStart(s, pat, rep);
      assert s[|pat|..] == [];
    } else {
      assert !OccursAt(s, pat, 0);
    }
  }

  // ---------------------------------------------------------------------
  // Integers

  function DigitChar(d: int): char
    requires 0 <= d < 10
  {
    ('0' as int + d) as char
  }

  predicate IsDecimalDigit(c: char) {
    '0' <= c <= '9'
  }

  /** The digits of `n` in base ten, most significant first, no leading zero. */
  function NatToDecimal(n: nat): (r: string)
    ensures r != [] && forall j :: 0 <= j < |r| ==> IsDecimalDigit(r[j])
    ensures n > 0 ==> r[0] != '0'
  {
    if n < 10 then [DigitChar(n)] else NatToDecimal(n / 10) + [DigitChar(n % 10)]
  }

  /** `'%d' % n` */
  function Decimal(n: int): (r: string)
    ensures r != []
    ensures forall j :: 0 <= j < |r| ==> IsDecimalDigit(r[j]) || (j == 0 && r[j] == '-')
    ensures r[0] == '-' <==> n < 0
  {
    if n < 0 then "-" + NatToDecimal(-n) else NatToDecimal(n)
  }

  /** The value of `c` as a digit of `base` (10 or 16), or -1. */
  function DigitValue(c: char, base: int): (r: int)
    ensures -1 <= r < base || (base < 10 && r < 10) || (base < 16 && r < 16)
    ensures r >= 0 ==> r < 16
  {
    if '0' <= c <= '9' && (c as int - '0' as int) < base then c as int - '0' as int
    else if base == 16 && 'a' <= c <= 'f' then c as int - 'a' as int + 10
    else if base == 16 && 'A' <= c <= 'F' then c as int - 'A' as int + 10
    else -1
  }

  predicate AllDigits(s: string, base: int) {
    forall j :: 0 <= j < |s| ==> DigitValue(s[j], base) >= 0 && DigitValue(s[j], base) < base
  }

  function DigitsValue(s: string, base: int): int
    requires AllDigits(s, base)
  {
    if s == [] then 0 else DigitsValue(s[..|s| - 1], base) * base + DigitValue(s[|s| - 1], base)
  }

  /** Digits of `base` separated by single underscores, as Python's `int()`
      accepts them: no underscore first, last or doubled. */
  predicate UnderscoredDigits(s: string, base: int) {
    && s != []
    && s[0] != '_' && s[|s| - 1] != '_'
    && (forall j :: 0 <= j < |s| ==> s[j] == '_' || (DigitValue(s[j], base) >= 0 && DigitValue(s[j], base) < base))
    && (forall j :: 0 <= j < |s| - 1 ==> !(s[j] == '_' && s[j + 1] == '_'))
  }

  function DropUnderscores(s: string): (r: string)
    ensures forall j :: 0 <= j < |r| ==> r[j] != '_'
    ensures (forall j :: 0 <= j < |s| ==> s[j] != '_') ==> r == s
  {
    if s == [] then [] else (if s[0] == '_' then [] else [s[0]]) + DropUnderscores(s[1..])
  }

  lemma DropUnderscoresDigits(s: string, base: int)
    requires forall j :: 0 <= j < |s| ==> s[j] == '_' || (DigitValue(s[j], base) >= 0 && DigitValue(s[j], base) < base)
    ensures AllDigits(DropUnderscores(s), base)
  {
    if s != [] {
      DropUnderscoresDigits(s[1..], base);
    }
  }

  /** The digits of an `int()` literal after its optional sign, with a
      `0x`/`0X` prefix (and one underscore after it) removed in base 16. */
  function DigitsBody(u: string, base: int): string {
    var prefixed := base == 16 && |u| >= 2 && u[0] == '0' && (u[1] == 'x' || u[1] == 'X');
    if prefixed then (if |u| > 2 && u[2] == '_' then u[3..] else u[2..]) else u
  }

  function ParseUnderscored(v: string, base: int): (r: Option<nat>)
    requires base == 10 || base == 16
    ensures r.Some? <==> UnderscoredDigits(v, base)
  {
    if !UnderscoredDigits(v, base) then None
    else
      DropUnderscoresDigits(v, base);
      var m := DigitsValue(DropUnderscores(v), base);
      assert m >= 0 by { DigitsValueNonNegative(DropUnderscores(v), base); }
      Some(m)
  }

  lemma {:induction false} DigitsValueNonNegative(s: string, base: int)
    requires base == 10 || base == 16
    requires AllDigits(s, base)
    ensures DigitsValue(s, base) >= 0
  {
    if s != [] {
      DigitsValueNonNegative(s[..|s| - 1], base);
    }
  }

  /** `int(s, base)` for base 10 or 16: surrounding whitespace, one sign,
      a `0x`/`0X` prefix in base 16 (optionally followed by one underscore),
      and underscores between digits. `None` is Python's ValueError. */
  function PyInt(s: string, base: int): (r: Option<int>)
    requires base == 10 || base == 16
  {
    var t := Strip(s);
    var neg := t != [] && t[0] == '-';
    var u := if t != [] && (t[0] == '-' || t[0] == '+') then t[1..] else t;
    match ParseUnderscored(DigitsBody(u, base), base)
    case None => None
    case Some(m) => var v: int := m; Some(if neg then -v else v)
  }

  lemma {:induction false} NatToDecimalValue(n: nat)
    ensures AllDigits(NatToDecimal(n), 10)
    ensures DigitsValue(NatToDecimal(n), 10) == n
  {
    var r := NatToDecimal(n);
    if n >= 10 {
      NatToDecimalValue(n / 10);
      assert r[..|r| - 1] == NatToDecimal(n / 10);
    }
  }

  lemma ParseDecimalDigits(n: nat)
    ensures ParseUnderscored(NatToDecimal(n), 10) == Some(n)
  {
    var d := NatToDecimal(n);
    NatToDecimalValue(n);
    assert DropUnderscores(d) == d;
    assert UnderscoredDigits(d, 10);
  }

  /** `int('%d' % n) == n`: the decimal rendering reads back as `n`. */
  lemma DecimalRoundTrip(n: int)
    ensures PyInt(Decimal(n), 10) == Some(n)
  {
    var d := Decimal(n);
    var m: nat := if n < 0 then -n else n;
    var digits := NatToDecimal(m);
    assert !InClass('-', Whitespace);
    assert d[|d| - 1] == digits[|digits| - 1];
    assert IsDecimalDigit(d[|d| - 1]);
    StripUnchanged(d, Whitespace);
    ParseDecimalDigits(m);
    if n < 0 {
      assert d[1..] == digits;
    }
  }
}

=== FILE: shrink_image.dfy ===
/** scripts/shrink_image.py: shrinking the root partition of an image to
    its smallest size, switching the resize-on-first-boot behaviour on or
    off, and the order of the steps. Tool output, partition tables read
    back and the files of the mounted image are parameters or state. */
module ShrinkImage {
  import opened Wrappers
  import opened PyStr
  import PyPath
  import ImgTools

  // ---------------------------------------------------------------------
  // do_resize

  /** How `do_resize` ends. `RaisedAfterRewrite` and `EndMismatch` follow
      the `fdisk` rewrite of the table, which stays rewritten. */
  datatype ResizeRun =
    | Raised                                        // KeyError before the table is touched
    | RaisedAfterRewrite(fdisk: (string, seq<string>))  // KeyError reading the new table back
    | Exited(code: int)                             // sys.exit before the table is touched
    | EndMismatch(fdisk: (string, seq<string>), expected: int, written: int)
    | Truncated(fdisk: (string, seq<string>), totalBytes: int)

  /** The exit status of a run that ends by `sys.exit`. */
  function ExitCode(r: ResizeRun): Option<int> {
    match r
    case Exited(code) => Some(code)
    case EndMismatch(_, _, _) => Some(1)
    case _ => None
  }

  /** `do_resize(args)`: `before` and `after` are the partition tables
      read before and after `fdisk`, `resizeOut` what `resize2fs -M`
      printed. The root partition keeps its start and ends where the
      shrunk file system ends; the table is read back and the image cut
      after the root partition only if the end sector was written. */
  function DoResize(disk: string, rootNumber: int, before: map<int, ImgTools.PartitionInfo>,
                    resizeOut: string, after: map<int, ImgTools.PartitionInfo>): ResizeRun
  {
    if rootNumber !in before then Raised
    else
      var start := before[rootNumber].start;
      match ImgTools.Resize2fs("minimum", resizeOut)
      case Exit(code) => Exited(code)
      case BadSize => assert false; Raised
      case NewSize(bytes) =>
        var newEnd := start + bytes / ImgTools.SectorBytes - 1;
        if rootNumber !in after then RaisedAfterRewrite(ImgTools.ResizePart(disk, rootNumber, start, newEnd))
        else if after[rootNumber].end != newEnd then
          EndMismatch(ImgTools.ResizePart(disk, rootNumber, start, newEnd), newEnd, after[rootNumber].end)
        else Truncated(ImgTools.ResizePart(disk, rootNumber, start, newEnd), start * ImgTools.SectorBytes + bytes)
  }

  /** The image is cut exactly after the root partition as read back,
      which starts where it started before and is recreated by `fdisk`
      with those bounds. */
  lemma ResizeTruncatesAtEnd(disk: string, rootNumber: int, before: map<int, ImgTools.PartitionInfo>,
                             resizeOut: string, after: map<int, ImgTools.PartitionInfo>)
    ensures DoResize(disk, rootNumber, before, resizeOut, after).Truncated? ==>
      var r := DoResize(disk, rootNumber, before, resizeOut, after);
      && rootNumber in before && rootNumber in after
      && r.totalBytes == (after[rootNumber].end + 1) * ImgTools.SectorBytes
      && r.totalBytes >= before[rootNumber].start * ImgTools.SectorBytes
      && r.fdisk == ImgTools.ResizePart(disk, rootNumber, before[rootNumber].start, after[rootNumber].end)
  {
    if rootNumber in before {
      match ImgTools.Resize2fs("minimum", resizeOut)
      case NewSize(bytes) =>
        assert bytes % ImgTools.SectorBytes == 0;
        assert (bytes / ImgTools.SectorBytes) * ImgTools.SectorBytes == bytes;
      case _ =>
    }
  }

  /** Once the file system has been shrunk, the run exits with status 1
      exactly when the end sector read back is not the computed one, after
      `fdisk` has rewritten the table with the computed bounds, and it is
      cut otherwise. */
  lemma ResizeChecksEnd(disk: string, rootNumber: int, before: map<int, ImgTools.PartitionInfo>,
                        resizeOut: string, after: map<int, ImgTools.PartitionInfo>)
    requires rootNumber in before && rootNumber in after
    requires ImgTools.ReportedSize(resizeOut).Some?
    ensures var newEnd := before[rootNumber].start + ImgTools.ReportedSize(resizeOut).value / ImgTools.SectorBytes - 1;
      var r := DoResize(disk, rootNumber, before, resizeOut, after);
      && (r.EndMismatch? <==> after[rootNumber].end != newEnd)
      && (r.EndMismatch? ==>
            && ExitCode(r) == Some(1) && r.expected == newEnd && r.written == after[rootNumber].end
            && r.fdisk == ImgTools.ResizePart(disk, rootNumber, before[rootNumber].start, newEnd))
      && (r.Truncated? <==> after[rootNumber].end == newEnd)
  {
  }

  /** A `KeyError` is raised before anything is changed exactly when the
      root partition is missing from the first table; a missing partition
      in the table read back raises only after `fdisk` has rewritten it
      with the computed bounds. */
  lemma ResizeRaises(disk: string, rootNumber: int, before: map<int, ImgTools.PartitionInfo>,
                     resizeOut: string, after: map<int, ImgTools.PartitionInfo>)
    ensures var r := DoResize(disk, rootNumber, before, resizeOut, after);
      && (r.Raised? <==> rootNumber !in before)
      && (r.RaisedAfterRewrite? <==>
            rootNumber in before && rootNumber !in after && ImgTools.ReportedSize(resizeOut).Some?)
      && (r.RaisedAfterRewrite? ==>
            r.fdisk == ImgTools.ResizePart(disk, rootNumber, before[rootNumber].start,
              before[rootNumber].start + ImgTools.ReportedSize(resizeOut).value / ImgTools.SectorBytes - 1))
  {
  }

  /** Without a size in the output of `resize2fs` the run exits with
      status 1 before any partition is changed: `Exited` carries no
      `fdisk` call. */
  lemma ResizeNeedsSize(disk: string, rootNumber: int, before: map<int, ImgTools.PartitionInfo>,
                        resizeOut: string, after: map<int, ImgTools.PartitionInfo>)
    requires rootNumber in before && ImgTools.ReportedSize(resizeOut).None?
    ensures DoResize(disk, rootNumber, before, resizeOut, after) == Exited(1)
  {
  }

  // ---------------------------------------------------------------------
  // set_expand_boot

  /** The kernel command-line flags that make the first boot grow the
      root partition. */
  const CmdlineExpand := " " + Quiet + " " + InitResize
  const Quiet := "quiet"
  const InitResize := "init=/usr/lib/raspi-config/init_resize.sh"

  /** The command line after `set_expand_boot`: without `expand` every
      occurrence of the flags is removed; with it they are appended to the
      stripped line unless already present. */
  function NewCmdline(cmdline: string, expand: bool): (r: string)
    ensures expand ==> Contains(r, CmdlineExpand)
    ensures !Contains(cmdline, CmdlineExpand) && !expand ==> r == cmdline
    ensures Contains(cmdline, CmdlineExpand) && expand ==> r == cmdline
  {
    if !expand then ReplaceAll(cmdline, CmdlineExpand, "")
    else if !Contains(cmdline, CmdlineExpand) then
      ContainsMiddle(Strip(cmdline), CmdlineExpand, "\n");
      Strip(cmdline) + CmdlineExpand + "\n"
    else cmdline
  }

  /** `set_expand_boot(args, boot_mnt, expand)`: what is written to
      `cmdline.txt`, if anything. */
  function SetExpandBoot(cmdline: string, expand: bool): (w: Option<string>)
    ensures w.Some? ==> w.value != cmdline
  {
    var n := NewCmdline(cmdline, expand);
    if n != cmdline then Some(n) else None
  }

  /** Enabling twice writes the file once: the second call finds the
      flags and writes nothing. */
  lemma ExpandBootIdempotent(cmdline: string)
    ensures SetExpandBoot(NewCmdline(cmdline, true), true) == None
  {
  }

  /** Disabling on a command line without the flags writes nothing. */
  lemma NoExpandWithoutFlags(cmdline: string)
    requires !Contains(cmdline, CmdlineExpand)
    ensures SetExpandBoot(cmdline, false) == None
  {
  }

  /** Disabling undoes enabling: the flags come off again and leave the
      stripped line, newline-terminated. */
  lemma NoExpandUndoesExpand(cmdline: string)
    requires !Contains(cmdline, CmdlineExpand)
    ensures NewCmdline(NewCmdline(cmdline, true), false) == Strip(cmdline) + "\n"
  {
    var a := Strip(cmdline);
    StripInside(cmdline, CmdlineExpand);
    var s := a + CmdlineExpand + "\n";
    assert OccursAt(s, CmdlineExpand, |a|) by {
      assert s[|a|..|a| + |CmdlineExpand|] == CmdlineExpand;
    }
    forall j | 0 <= j < |a| ensures !OccursAt(s, CmdlineExpand, j) {
      NotBefore(a, j);
    }
    var i := FindSub(s, CmdlineExpand);
    assert i == |a|;
    assert s[..i] == a;
    assert s[i + |CmdlineExpand|..] == "\n";
    ReplaceAllShort("\n", CmdlineExpand, "");
  }

  /** The flags start with a space and hold one more, at index 6, followed
      by a character other than their second; so no occurrence can begin
      inside the text before them. */
  lemma NotBefore(a: string, j: int)
    requires !Contains(a, CmdlineExpand) && 0 <= j < |a|
    ensures !OccursAt(a + CmdlineExpand + "\n", CmdlineExpand, j)
  {
    var s := a + CmdlineExpand + "\n";
    var f := CmdlineExpand;
    if j + |f| <= |a| {
      assert !OccursAt(a, f, j);
      assert a[j..j + |f|] == s[j..j + |f|];
    } else {
      var k := |a| - j;
      var w := s[j..j + |f|];
      assert w[k] == s[|a|] == f[0] == ' ';
      if k == 6 {
        assert w[7] == s[|a| + 1] == f[1] == Quiet[0];
        assert f[7] == InitResize[0] != Quiet[0];
      } else {
        FlagSpaces(k);
      }
    }
  }

  /** The flags' spaces are at indices 0 and 6 only. */
  lemma FlagSpaces(k: int)
    requires 0 < k < |CmdlineExpand| && k != 6
    ensures CmdlineExpand[k] != ' '
  {
    assert ' ' !in Quiet && ' ' !in InitResize;
    if k < 6 {
      assert CmdlineExpand[k] == Quiet[k - 1];
    } else {
      assert CmdlineExpand[k] == InitResize[k - 7];
    }
  }

  /** A piece of a text holds no pattern the text does not hold. */
  lemma SliceInside(s: string, p: string, a: int, b: int)
    requires 0 <= a <= b <= |s| && !Contains(s, p)
    ensures !Contains(s[a..b], p)
  {
    var t := s[a..b];
    forall i | 0 <= i <= |t| - |p| ensures !OccursAt(t, p, i) {
      assert !OccursAt(s, p, a + i);
      var u, v := t[i..i + |p|], s[a + i..a + i + |p|];
      forall m | 0 <= m < |p| ensures u[m] == v[m] {
        assert u[m] == t[i + m] == s[a + i + m];
      }
      assert u == v;
    }
  }

  /** The stripped text is a piece of the text, so it holds no pattern
      the text does not hold. */
  lemma StripInside(s: string, p: string)
    requires !Contains(s, p)
    ensures !Contains(Strip(s), p)
  {
    var l := LStrip(s, Whitespace);
    LStripSuffix(s, Whitespace);
    RStripPrefix(l, Whitespace);
    var x := |s| - |l|;
    var n := |Strip(s)|;
    assert Strip(s) == l[..n];
    assert l[..n] == s[x..x + n];
    SliceInside(s, p, x, x + n);
  }

  // ---------------------------------------------------------------------
  // set_expand_root

  const ScriptName := "resize2fs_once"
  const LinkName := "S01" + ScriptName
  const ScriptRelativePath := "../init.d/" + ScriptName
  /** The run levels whose `rc<N>.d` directory gets a start link. */
  const Runlevels: seq<string> := ["3"]

  /** `stat.S_IXUSR | stat.S_IXGRP | stat.S_IXOTH` */
  const ExecuteOnly := 0x40 + 0x08 + 0x01

  /** The init script that grows the root file system once and then
      removes itself. */
  const ResizeScript := @"#!/bin/sh
### BEGIN INIT INFO
# Provides:          resize2fs_once
# Required-Start:
# Required-Stop:
# Default-Start: 3
# Default-Stop:
# Short-Description: Resize the root filesystem to fill partition
# Description:
### END INIT INFO
. /lib/lsb/init-functions
case ""$1"" in
  start)
    log_daemon_msg ""Starting resize2fs_once""
    ROOT_DEV=`grep -Eo 'root=[[:graph:]]+' /proc/cmdline | cut -d '=' -f 2-` &&
    resize2fs $ROOT_DEV &&
    update-rc.d resize2fs_once remove &&
    rm /etc/init.d/resize2fs_once &&
    log_end_msg $?
    ;;
  *)
    echo ""Usage: $0 start"" >&2
    exit 3
    ;;
esac
"

  /** An entry of the image's file system. */
  datatype Entry = File(content: string, mode: int) | Link(target: string)

  function EtcDir(rootMnt: string): string {
    PyPath.Join(rootMnt, "etc")
  }

  function ScriptPath(rootMnt: string): string {
    PyPath.Join(PyPath.Join(EtcDir(rootMnt), "init.d"), ScriptName)
  }

  function LinkPath(rootMnt: string, runlevel: string): string {
    PyPath.Join(PyPath.Join(EtcDir(rootMnt), "rc" + runlevel + ".d"), LinkName)
  }

  function Links(rootMnt: string): (r: seq<string>)
    ensures |r| == |Runlevels| && forall i :: 0 <= i < |r| ==> r[i] == LinkPath(rootMnt, Runlevels[i])
  {
    seq(|Runlevels|, i requires 0 <= i < |Runlevels| => LinkPath(rootMnt, Runlevels[i]))
  }

  /** The part of a path below `etc/` matching `rc?.d/???resize2fs_once`
      as `glob` matches: a `?` stands for one character other than '/',
      and the leading `?` of a name does not match the '.' of a hidden
      file. */
  predicate LinkGlobTail(t: string) {
    && |t| == 9 + |ScriptName|
    && t[0] == 'r' && t[1] == 'c' && t[2] != '/' && t[3] == '.' && t[4] == 'd' && t[5] == '/'
    && t[6] != '/' && t[6] != '.' && t[7] != '/' && t[8] != '/'
    && t[9..] == ScriptName
  }

  /** `p` is listed by `glob` for `<root>/etc/rc?.d/???resize2fs_once`. */
  predicate MatchesLinkGlob(rootMnt: string, p: string) {
    var n := |EtcDir(rootMnt)| + 1;
    n <= |p| && p[..n] == EtcDir(rootMnt) + "/" && LinkGlobTail(p[n..])
  }

  /** `os.path.join` twice, below a directory not ending in '/', with
      relative names. */
  lemma JoinTwo(dir: string, a: string, b: string)
    requires dir != [] && dir[|dir| - 1] != '/'
    requires a != [] && a[0] != '/' && a[|a| - 1] != '/' && b != [] && b[0] != '/'
    ensures PyPath.Join(PyPath.Join(dir, a), b) == dir + "/" + (a + "/" + b)
  {
    assert PyPath.Join(dir, a) == dir + "/" + a;
  }

  lemma EtcDirShape(rootMnt: string)
    ensures EtcDir(rootMnt) != [] && EtcDir(rootMnt)[|EtcDir(rootMnt)| - 1] == 'c'
  {
    var e := EtcDir(rootMnt);
    assert EndsWith(e, "etc");
    assert e[|e| - 3..][2] == e[|e| - 1];
  }

  /** Where the script is, below `etc/`. */
  lemma ScriptPathShape(rootMnt: string)
    ensures ScriptPath(rootMnt) == EtcDir(rootMnt) + "/" + ("init.d" + "/" + ScriptName)
  {
    EtcDirShape(rootMnt);
    JoinTwo(EtcDir(rootMnt), "init.d", ScriptName);
  }

  /** Where the run-level 3 link is, below `etc/`. */
  lemma LinkPathShape(rootMnt: string)
    ensures LinkPath(rootMnt, "3") == EtcDir(rootMnt) + "/" + ("rc3.d" + "/" + LinkName)
  {
    EtcDirShape(rootMnt);
    assert "rc" + "3" + ".d" == "rc3.d";
    JoinTwo(EtcDir(rootMnt), "rc3.d", LinkName);
  }

  /** The link's place below `etc/` matches the pattern. */
  lemma LinkTailMatches()
    ensures LinkGlobTail("rc3.d" + "/" + LinkName)
  {
    var t := "rc3.d" + "/" + LinkName;
    assert t == "rc3.d/S01" + ScriptName;
    assert t[9..] == ScriptName;
  }

  /** A path below `etc/` whose rest matches the pattern is listed. */
  lemma GlobBelowEtc(rootMnt: string, t: string)
    ensures MatchesLinkGlob(rootMnt, EtcDir(rootMnt) + "/" + t) == LinkGlobTail(t)
  {
    var e := EtcDir(rootMnt) + "/";
    assert (e + t)[..|e|] == e && (e + t)[|e|..] == t;
  }

  /** The link that enabling creates is one that disabling removes, and
      the script is not. */
  lemma LinkMatchesGlob(rootMnt: string)
    ensures MatchesLinkGlob(rootMnt, LinkPath(rootMnt, "3"))
    ensures !MatchesLinkGlob(rootMnt, ScriptPath(rootMnt))
    ensures ScriptPath(rootMnt) != LinkPath(rootMnt, "3")
  {
    ScriptPathShape(rootMnt);
    LinkPathShape(rootMnt);
    LinkTailMatches();
    GlobBelowEtc(rootMnt, "rc3.d" + "/" + LinkName);
    GlobBelowEtc(rootMnt, "init.d" + "/" + ScriptName);
    assert |ScriptPath(rootMnt)| != |LinkPath(rootMnt, "3")|;
  }

  /** The `os.symlink` loop: each link is created in turn, and one that
      already exists raises FileExistsError (the second component false). */
  function Symlinks(entries: map<string, Entry>, links: seq<string>, target: string): (map<string, Entry>, bool)
    decreases |links|
  {
    if links == [] then (entries, true)
    else if links[0] in entries then (entries, false)
    else Symlinks(entries[links[0] := Link(target)], links[1..], target)
  }

  /** The entries left after the script and every entry matching the
      link pattern are removed. */
  function WithoutScript(entries: map<string, Entry>, rootMnt: string): map<string, Entry> {
    map p | p in entries && p != ScriptPath(rootMnt) && !MatchesLinkGlob(rootMnt, p) :: entries[p]
  }

  /** A map holding exactly the entries other than the script and the
      links, unchanged, is `WithoutScript`. */
  lemma WithoutScriptOf(entries: map<string, Entry>, rootMnt: string, rest: map<string, Entry>)
    requires forall p :: p in rest <==> p in entries && p != ScriptPath(rootMnt) && !MatchesLinkGlob(rootMnt, p)
    requires forall p :: p in rest ==> rest[p] == entries[p]
    ensures rest == WithoutScript(entries, rootMnt)
  {
  }

  /** `set_expand_root(args, root_mnt, expand)` on the entries of the
      image, writing `script`: with `expand` and no script, the script is
      written, made executable and linked from each run level; without
      `expand`, the script and every entry matching the link pattern are
      removed. */
  function ExpandRoot(entries: map<string, Entry>, rootMnt: string, expand: bool, script: string): (map<string, Entry>, bool)
  {
    if expand then
      if ScriptPath(rootMnt) in entries then (entries, true)
      else Symlinks(entries[ScriptPath(rootMnt) := File(script, ExecuteOnly)], Links(rootMnt), ScriptRelativePath)
    else (WithoutScript(entries, rootMnt), true)
  }

  /** Enabling creates exactly the script and its link when neither is
      there, and enabling again changes nothing. */
  lemma ExpandRootCreates(entries: map<string, Entry>, rootMnt: string, script: string)
    requires ScriptPath(rootMnt) !in entries && LinkPath(rootMnt, "3") !in entries
    ensures var (e, ok) := ExpandRoot(entries, rootMnt, true, script);
      && ok
      && e == entries[ScriptPath(rootMnt) := File(script, ExecuteOnly)][LinkPath(rootMnt, "3") := Link(ScriptRelativePath)]
      && ExpandRoot(e, rootMnt, true, script) == (e, true)
  {
    LinkMatchesGlob(rootMnt);
    var links := Links(rootMnt);
    assert links == [LinkPath(rootMnt, "3")];
    var e1 := entries[ScriptPath(rootMnt) := File(script, ExecuteOnly)];
    assert Symlinks(e1, links, ScriptRelativePath) == Symlinks(e1[links[0] := Link(ScriptRelativePath)], [], ScriptRelativePath);
  }

  /** Disabling leaves neither the script nor any start link, and keeps
      every other entry as it was. */
  lemma NoExpandRemoves(entries: map<string, Entry>, rootMnt: string, script: string)
    ensures var (e, ok) := ExpandRoot(entries, rootMnt, false, script);
      && ok
      && ScriptPath(rootMnt) !in e && LinkPath(rootMnt, "3") !in e
      && (forall p :: p in e ==> !MatchesLinkGlob(rootMnt, p))
      && (forall p :: p in entries && p != ScriptPath(rootMnt) && !MatchesLinkGlob(rootMnt, p) ==> p in e && e[p] == entries[p])
  {
    LinkMatchesGlob(rootMnt);
  }

  /** Disabling after enabling restores an image that had neither the
      script nor a start link. */
  lemma NoExpandUndoesExpandRoot(entries: map<string, Entry>, rootMnt: string, script: string)
    requires ScriptPath(rootMnt) !in entries
    requires forall p :: p in entries ==> !MatchesLinkGlob(rootMnt, p)
    ensures ExpandRoot(ExpandRoot(entries, rootMnt, true, script).0, rootMnt, false, script).0 == entries
  {
    LinkMatchesGlob(rootMnt);
    ExpandRootCreates(entries, rootMnt, script);
  }

  /** The mounted root file system of the image. */
  class ImageRoot {
    var entries: map<string, Entry>

    constructor (entries: map<string, Entry>)
      ensures this.entries == entries
    {
      this.entries := entries;
    }

    /** `set_expand_root`; `ok` is false when a link already existed and
        `os.symlink` raised. */
    method SetExpandRoot(rootMnt: string, expand: bool) returns (ok: bool)
      modifies this
      ensures (entries, ok) == ExpandRoot(old(entries), rootMnt, expand, ResizeScript)
    {
      var scriptPath := ScriptPath(rootMnt);
      ok := true;
      if expand && scriptPath !in entries {
        ok := Install(rootMnt, ResizeScript);
      }
      if !expand {
        Uninstall(rootMnt);
      }
    }

    /** Writing the script and creating the links. */
    method Install(rootMnt: string, script: string) returns (ok: bool)
      requires ScriptPath(rootMnt) !in entries
      modifies this
      ensures (entries, ok) == ExpandRoot(old(entries), rootMnt, true, script)
    {
      var links := Links(rootMnt);
      entries := entries[ScriptPath(rootMnt) := File(script, ExecuteOnly)];
      ok := true;
      for i := 0 to |links|
        invariant Symlinks(entries, links[i..], ScriptRelativePath) == ExpandRoot(old(entries), rootMnt, true, script)
      {
        assert links[i..][1..] == links[i + 1..];
        if links[i] in entries {
          return false;
        }
        entries := entries[links[i] := Link(ScriptRelativePath)];
      }
      assert links[|links|..] == [];
    }

    /** Removing the script, then every entry the link pattern lists, in
        whatever order `glob` lists them. */
    method Uninstall(rootMnt: string)
      modifies this
      ensures entries == WithoutScript(old(entries), rootMnt)
    {
      var scriptPath := ScriptPath(rootMnt);
      if scriptPath in entries {
        entries := entries - {scriptPath};
      }
      var start := entries;
      var listed := set p | p in entries && MatchesLinkGlob(rootMnt, p);
      var matches := listed;
      while matches != {}
        invariant matches <= listed
        invariant forall p :: p in entries <==> p in start && (p !in listed || p in matches)
        invariant forall p :: p in entries ==> entries[p] == start[p]
        decreases matches
      {
        var link :| link in matches;
        entries := entries - {link};
        matches := matches - {link};
      }
      WithoutScriptOf(old(entries), rootMnt, entries);
    }
  }

  // ---------------------------------------------------------------------
  // main

  /** The command-line options; `DefaultOptions` holds argparse's defaults. */
  datatype Options = Options(image: string, bootNumber: int, rootNumber: int,
                             resize: bool, expand: bool, compress: bool, compressionLevel: int)

  function DefaultOptions(image: string): Options {
    Options(image, 1, 2, true, true, true, 3)
  }

  datatype Step = Resize | SetExpand(expand: bool) | Compress(argv: seq<string>)

  /** `do_compress`: the `xz` command line. */
  function CompressArgv(level: int, image: string): seq<string> {
    ["xz", "-" + Decimal(level), "--force", image]
  }

  function Rank(s: Step): int {
    match s
    case Resize => 0
    case SetExpand(_) => 1
    case Compress(_) => 2
  }

  /** The steps `main` runs: resizing if asked, switching expansion on or
      off always, compressing if asked, in that order. */
  function MainSteps(o: Options): (r: seq<Step>)
    ensures Resize in r <==> o.resize
    ensures SetExpand(o.expand) in r && forall s :: s in r && s.SetExpand? ==> s == SetExpand(o.expand)
    ensures Compress(CompressArgv(o.compressionLevel, o.image)) in r <==> o.compress
    ensures forall s :: s in r && s.Compress? ==> s.argv == CompressArgv(o.compressionLevel, o.image)
    ensures forall i, j :: 0 <= i < j < |r| ==> Rank(r[i]) < Rank(r[j])
  {
    (if o.resize then [Resize] else [])
    + [SetExpand(o.expand)]
    + (if o.compress then [Compress(CompressArgv(o.compressionLevel, o.image))] else [])
  }

  /** Running steps until one fails: the steps run and the exit status,
      given the status each step ends with (0 for normal completion). */
  function RunSteps(steps: seq<Step>, status: Step -> int): (r: (seq<Step>, int))
  {
    if steps == [] then ([], 0)
    else if status(steps[0]) != 0 then ([steps[0]], status(steps[0]))
    else var rest := RunSteps(steps[1..], status); ([steps[0]] + rest.0, rest.1)
  }

  /** The run stops at the first failing step: the steps run are a prefix
      of the plan, all but the last completed, and the status is 0 exactly
      when every step completed. */
  lemma {:induction false} RunStepsStops(steps: seq<Step>, status: Step -> int)
    ensures var (ran, code) := RunSteps(steps, status);
      && ran <= steps
      && (code == 0 <==> ran == steps && forall s :: s in steps ==> status(s) == 0)
      && (code != 0 ==> ran != [] && code == status(ran[|ran| - 1]))
      && (forall i :: 0 <= i < |ran| - 1 ==> status(ran[i]) == 0)
  {
    if steps != [] && status(steps[0]) == 0 {
      RunStepsStops(steps[1..], status);
      var rest := RunSteps(steps[1..], status);
      assert forall s :: s in steps ==> s == steps[0] || s in steps[1..];
      assert forall i :: 1 <= i < |rest.0| + 1 ==> ([steps[0]] + rest.0)[i] == rest.0[i - 1];
    }
  }

  /** Expansion is switched only after a requested resize completed, and
      compression only after both. */
  lemma MainOrder(o: Options, status: Step -> int)
    ensures var (ran, code) := RunSteps(MainSteps(o), status);
      && (SetExpand(o.expand) in ran && o.resize ==> status(Resize) == 0)
      && (forall s :: s in ran && s.Compress? ==> status(SetExpand(o.expand)) == 0 && (o.resize ==> status(Resize) == 0))
  {
    var steps := MainSteps(o);
    RunStepsStops(steps, status);
  }
}

=== FILE: sta_wpas_client.dfy ===
/** The station client of packages/aiy-bt-prov-server/sta_wpas_client.py:
    the association and DHCP bookkeeping that wpa_supplicant events and
    dhcpcd events drive, the connected predicate and early exits of
    `WaitForNetwork`, and the command sequence of `ConnectNetwork`. Replies
    of wpa_supplicant are parameters; the regular expression that splits a
    `CTRL-EVENT-SSID-TEMP-DISABLED` event arrives as its parsed groups. */
module StaWpasClient {
  import opened Wrappers
  import opened PyStr
  import opened WpasClient

  const StatusCommandEvent := "Control interface command 'STATUS'"
  const TryingToAssociate := "Trying to associate with "
  const ScanResultsEvent := "CTRL-EVENT-SCAN-RESULTS"
  const TempDisabledEvent := "CTRL-EVENT-SSID-TEMP-DISABLED"

  // ---------------------------------------------------------------------
  // `re.search("'(.*)'", event).group(1)`

  /** The last index of `c` in `s`, or -1. */
  function LastIndex(s: string, c: char): (r: int)
    ensures -1 <= r < |s|
    ensures r >= 0 ==> s[r] == c
    ensures forall j :: r < j < |s| ==> s[j] != c
  {
    if s == [] then -1
    else if s[|s| - 1] == c then |s| - 1
    else LastIndex(s[..|s| - 1], c)
  }

  /** `s` up to its first newline: what `.` can match from the start. */
  function LineOf(s: string): (r: string)
    ensures '\n' !in r
  {
    var k := Find(s, '\n');
    if k == -1 then s else s[..k]
  }

  /** The regular expression search: the leftmost quote that has a later
      quote on the same line opens the match, and `.*` runs greedily up to
      the last quote of that line. `None` is the failed search whose
      `.group(1)` raises AttributeError. */
  function QuotedGroup(s: string): Option<string>
    decreases |s|
  {
    var i := Find(s, '\'');
    if i == -1 then None
    else
      var rest := s[i + 1..];
      var j := LastIndex(LineOf(rest), '\'');
      if j == -1 then QuotedGroup(rest) else Some(LineOf(rest)[..j])
  }

  lemma {:induction false} LastIndexAt(a: string, c: char, b: string)
    requires c !in b
    ensures LastIndex(a + [c] + b, c) == |a|
    decreases |b|
  {
    var s := a + [c] + b;
    if b != [] {
      assert s[..|s| - 1] == a + [c] + b[..|b| - 1];
      LastIndexAt(a, c, b[..|b| - 1]);
    }
  }

  lemma LineOfUpTo(name: string, suffix: string)
    requires '\n' !in name
    ensures exists t :: LineOf(name + "'" + suffix) == name + "'" + t && t <= suffix
  {
    var s := name + "'" + suffix;
    var k := Find(s, '\n');
    if k == -1 {
      assert LineOf(s) == name + "'" + suffix;
    } else {
      assert s[k] == '\n';
      assert k > |name|;
      var t := suffix[..k - |name| - 1];
      assert s[..k] == name + "'" + t;
    }
  }

  /** A name between the quotes of an event on one line is what the search
      returns, quotes inside the name included, as `.*` is greedy. */
  lemma QuotedGroupOf(prefix: string, name: string, suffix: string)
    requires '\'' !in prefix && '\n' !in name && '\'' !in suffix
    ensures QuotedGroup(prefix + "'" + name + "'" + suffix) == Some(name)
  {
    var s := prefix + "'" + name + "'" + suffix;
    assert s[|prefix|] == '\'';
    FindAt(s, '\'', |prefix|);
    var rest := s[|prefix| + 1..];
    assert rest == name + "'" + suffix;
    LineOfUpTo(name, suffix);
    var t :| LineOf(rest) == name + "'" + t && t <= suffix;
    assert forall j :: 0 <= j < |t| ==> t[j] == suffix[j];
    LastIndexAt(name, '\'', t);
    assert (name + "'" + t)[..|name|] == name;
  }

  // ---------------------------------------------------------------------
  // Events

  /** The groups of a `CTRL-EVENT-SSID-TEMP-DISABLED` event. */
  datatype DisabledEvent = DisabledEvent(id: int, ssid: string, authFailures: int, duration: int, reason: string)

  /** Which condition variables an event handler notifies. */
  datatype Notice = Notice(stateChange: bool, scanResults: bool)

  /** The status map `_UpdateSupplicantStatus` installs: `GetStatus`, and a
      KeyError when the reply has no `wpa_state`. */
  function NewStatus(statusReply: string): (r: Result<map<string, string>>)
    ensures r.Success? ==> "wpa_state" in r.value
    ensures r.Success? <==> StatusOf(statusReply).Success? && "wpa_state" in StatusOf(statusReply).value
  {
    match StatusOf(statusReply)
    case Failure(e) => Failure(e)
    case Success(s) => if "wpa_state" in s then Success(s) else Failure("KeyError")
  }

  /** `_GetRssi`: 0 without an `RSSI` key, else the key's integer value
      (ValueError when it is not one). */
  function Rssi(signalReply: string): Result<int> {
    var signal := SignalOf(signalReply);
    if "RSSI" !in signal then Success(0)
    else
      match PyInt(signal["RSSI"], 10)
      case None => Failure("ValueError")
      case Some(n) => Success(n)
  }

  /** A SIGNAL_POLL reply whose last `RSSI` line holds a decimal reports that
      number; a reply without one reports 0. */
  lemma RssiReported(signalReply: string, n: int)
    requires !Contains(signalReply, "FAIL")
    requires var kv := KeyValuesOf(ReplyLines(signalReply));
      "RSSI" in kv && kv["RSSI"] == Decimal(n)
    ensures Rssi(signalReply) == Success(n)
  {
    DecimalRoundTrip(n);
  }

  lemma RssiAbsent(signalReply: string)
    requires Contains(signalReply, "FAIL") || "RSSI" !in KeyValuesOf(ReplyLines(signalReply))
    ensures Rssi(signalReply) == Success(0)
  {
  }

  /** `_GetRssi` */
  method GetRssi(signalReply: string) returns (r: Result<int>)
    ensures r == Rssi(signalReply)
    ensures "RSSI" !in SignalOf(signalReply) ==> r == Success(0)
  {
    var signal := GetSignal(signalReply);
    if "RSSI" !in signal {
      return Success(0);
    }
    var n := PyInt(signal["RSSI"], 10);
    if n.None? {
      return Failure("ValueError");
    }
    r := Success(n.value);
  }

  /** The station's view of wpa_supplicant and dhcpcd. */
  class Station {
    var status: map<string, string>
    var assSsid: string
    var dhcpAddress: string
    var lastDisabled: Option<DisabledEvent>

    ghost predicate Valid()
      reads this
    {
      "wpa_state" in status
    }

    constructor ()
      ensures Valid()
      ensures status == map["wpa_state" := "UNKNOWN"]
      ensures assSsid == "" && dhcpAddress == "" && lastDisabled == None
    {
      status := map["wpa_state" := "UNKNOWN"];
      assSsid := "";
      dhcpAddress := "";
      lastDisabled := None;
    }

    function State(): string
      requires Valid()
      reads this
    {
      status["wpa_state"]
    }

    /** `_GetSsid`: the SSID being associated with while associating, else
        the status `ssid`, else the empty string. */
    function GetSsid(): (r: string)
      requires Valid()
      reads this
      ensures State() == "ASSOCIATING" ==> r == assSsid
      ensures State() != "ASSOCIATING" && "ssid" in status ==> r == status["ssid"]
      ensures State() != "ASSOCIATING" && "ssid" !in status ==> r == ""
    {
      if status["wpa_state"] == "ASSOCIATING" then assSsid
      else if "ssid" in status then status["ssid"]
      else ""
    }

    /** `_IsConnected` inside `WaitForNetwork`: the supplicant has
        completed and DHCP has given an address, so the SSID reported is
        the status one, not the associating one. */
    predicate IsConnected()
      requires Valid()
      reads this
      ensures IsConnected() ==> dhcpAddress != "" && State() != "ASSOCIATING"
      ensures IsConnected() ==> GetSsid() == (if "ssid" in status then status["ssid"] else "")
    {
      State() == "COMPLETED" && dhcpAddress != ""
    }

    /** `_UpdateSupplicantStatus`: the new status replaces the old one and
        the result says whether `wpa_state` changed; a failed STATUS leaves
        everything as it was. */
    method UpdateSupplicantStatus(statusReply: string) returns (r: Result<bool>)
      requires Valid()
      modifies this
      ensures Valid()
      ensures assSsid == old(assSsid) && dhcpAddress == old(dhcpAddress) && lastDisabled == old(lastDisabled)
      ensures NewStatus(statusReply).Success? ==>
        status == NewStatus(statusReply).value
        && r == Success(old(status)["wpa_state"] != status["wpa_state"])
      ensures NewStatus(statusReply).Failure? ==>
        status == old(status) && r == Failure(NewStatus(statusReply).error)
    {
      var newStatus := GetStatus(statusReply);
      if newStatus.Failure? {
        return Failure(newStatus.error);
      }
      if "wpa_state" !in newStatus.value {
        return Failure("KeyError");
      }
      var changed := status["wpa_state"] != newStatus.value["wpa_state"];
      status := newStatus.value;
      r := Success(changed);
    }

    /** The `Trying to associate` step of `_OnEvent`: the quoted SSID of
        the event, decoded, becomes the associating SSID. */
    method Associate(event: string) returns (r: Result<()>)
      modifies this
      ensures status == old(status) && dhcpAddress == old(dhcpAddress) && lastDisabled == old(lastDisabled)
      ensures r.Failure? ==> assSsid == old(assSsid)
      ensures match QuotedGroup(event)
        case None => r == Failure("AttributeError")
        case Some(g) =>
          (DecodedSsid(g).Failure? ==> r == Failure(DecodedSsid(g).error))
          && (DecodedSsid(g).Success? ==> r == Success(()) && assSsid == DecodedSsid(g).value)
    {
      var group := QuotedGroup(event);
      if group.None? {
        return Failure("AttributeError");
      }
      var ssid := DecodeSsid(group.value);
      if ssid.Failure? {
        return Failure(ssid.error);
      }
      assSsid := ssid.value;
      r := Success(());
    }

    /** `_OnEvent` with the STATUS reply it fetches and the groups of the
        temp-disabled pattern. `notice` says which waiters were woken, also
        when a later step raises. */
    method OnEvent(event: string, statusReply: string, disabled: Option<DisabledEvent>)
      returns (r: Result<()>, notice: Notice)
      requires Valid()
      modifies this
      ensures Valid()
      ensures dhcpAddress == old(dhcpAddress)
      // The supplicant's own echo of a STATUS command is ignored.
      ensures Contains(event, StatusCommandEvent) ==>
        r == Success(()) && notice == Notice(false, false)
        && status == old(status) && assSsid == old(assSsid) && lastDisabled == old(lastDisabled)
      ensures !Contains(event, StatusCommandEvent) && NewStatus(statusReply).Failure? ==>
        r == Failure(NewStatus(statusReply).error) && notice == Notice(false, false)
        && status == old(status) && assSsid == old(assSsid) && lastDisabled == old(lastDisabled)
      ensures !Contains(event, StatusCommandEvent) && NewStatus(statusReply).Success? ==>
        status == NewStatus(statusReply).value
      // The associating SSID is kept only while associating, or set from a
      // `Trying to associate` event whose SSID decodes; when that event
      // fails, it stays as the status update left it and nobody is woken.
      ensures !Contains(event, StatusCommandEvent) && NewStatus(statusReply).Success? &&
              (!StartsWith(event, TryingToAssociate) || r.Failure?) ==>
        assSsid == (if State() == "ASSOCIATING" then old(assSsid) else "")
      ensures !Contains(event, StatusCommandEvent) && NewStatus(statusReply).Success? && StartsWith(event, TryingToAssociate) ==>
        match QuotedGroup(event)
        case None => r == Failure("AttributeError") && notice == Notice(false, false)
        case Some(g) =>
          (DecodedSsid(g).Failure? ==> r == Failure(DecodedSsid(g).error) && notice == Notice(false, false))
          && (DecodedSsid(g).Success? ==> assSsid == DecodedSsid(g).value)
      // Waiters on a state change are woken by a change of `wpa_state` other
      // than into ASSOCIATING, by `Trying to associate` and by a
      // temporarily disabled network; scan waiters by new scan results.
      // Both are woken before the temp-disabled groups are read, so they
      // stay woken when that raises.
      ensures (&& !Contains(event, StatusCommandEvent) && NewStatus(statusReply).Success?
               && (r.Success? || !StartsWith(event, TryingToAssociate))) ==>
        && (notice.stateChange <==>
              || StartsWith(event, TryingToAssociate)
              || (StartsWith(event, TempDisabledEvent) && disabled.Some?)
              || (old(status)["wpa_state"] != State() && State() != "ASSOCIATING"))
        && (notice.scanResults <==> StartsWith(event, ScanResultsEvent))
      ensures !Contains(event, StatusCommandEvent) && r.Success? ==>
        lastDisabled == (if StartsWith(event, TempDisabledEvent) then disabled else old(lastDisabled))
      ensures r.Failure? ==> lastDisabled == old(lastDisabled)
      ensures (&& !Contains(event, StatusCommandEvent) && NewStatus(statusReply).Success?
               && !StartsWith(event, TryingToAssociate)
               && StartsWith(event, TempDisabledEvent)) ==> (r.Failure? <==> disabled.None?)
    {
      notice := Notice(false, false);
      if Contains(event, StatusCommandEvent) {
        return Success(()), notice;
      }
      var changed := UpdateSupplicantStatus(statusReply);
      if changed.Failure? {
        return Failure(changed.error), notice;
      }
      var stateChanged := changed.value;
      var state := status["wpa_state"];
      if stateChanged && state == "ASSOCIATING" {
        stateChanged := false;
      }
      if state != "ASSOCIATING" {
        assSsid := "";
      }
      if StartsWith(event, TryingToAssociate) {
        var associated := Associate(event);
        if associated.Failure? {
          return associated, notice;
        }
        stateChanged := true;
      }
      notice := Notice(stateChanged, StartsWith(event, ScanResultsEvent));
      if StartsWith(event, TempDisabledEvent) {
        if disabled.None? {
          assert event[0] == TempDisabledEvent[0] != TryingToAssociate[0];
          return Failure("AttributeError"), notice;
        }
        lastDisabled := disabled;
        notice := notice.(stateChange := true);
      }
      r := Success(());
    }

    /** `_OnNewIp`: refresh the status, then record the address. */
    method OnNewIp(ip: string, statusReply: string) returns (r: Result<()>)
      requires Valid()
      modifies this
      ensures Valid()
      ensures assSsid == old(assSsid) && lastDisabled == old(lastDisabled)
      ensures NewStatus(statusReply).Success? ==>
        r.Success? && status == NewStatus(statusReply).value && dhcpAddress == ip
      ensures NewStatus(statusReply).Failure? ==>
        r.Failure? && status == old(status) && dhcpAddress == old(dhcpAddress)
    {
      var changed := UpdateSupplicantStatus(statusReply);
      if changed.Failure? {
        return Failure(changed.error);
      }
      dhcpAddress := ip;
      r := Success(());
    }

    /** The part of `WaitForNetwork` before it waits: `Some(false)` on a
        disabled interface or when no network is configured, `Some(true)`
        when already connected, `None` when it has to wait. */
    method WaitForNetworkStart(listReply: string) returns (r: Result<Option<bool>>)
      requires Valid()
      ensures State() == "INTERFACE_DISABLED" ==> r == Success(Some(false))
      ensures State() != "INTERFACE_DISABLED" && IsConnected() ==> r == Success(Some(true))
      ensures State() != "INTERFACE_DISABLED" && !IsConnected() ==>
        match NetworksOf(BodyLines(listReply))
        case Failure(e) => r == Failure(e)
        case Success(ns) => r == Success(if ns == [] then Some(false) else None)
    {
      if status["wpa_state"] == "INTERFACE_DISABLED" {
        return Success(Some(false));
      }
      if status["wpa_state"] == "COMPLETED" && dhcpAddress != "" {
        return Success(Some(true));
      }
      var networks := GetNetworks(listReply);
      if networks.Failure? {
        return Failure(networks.error);
      }
      if networks.value == [] {
        return Success(Some(false));
      }
      r := Success(None);
    }
  }

  // ---------------------------------------------------------------------
  // `_NewIpDhcpcdClient.OnEvent`

  /** The address a dhcpcd event reports: empty when the interface went
      down, the new address when there is one, else the last reported. */
  function ReportedIp(event: map<string, string>, reported: string): string {
    if ("if_up" in event && event["if_up"] == "false") || ("if_down" in event && event["if_down"] == "true") then ""
    else if "new_ip_address" in event then event["new_ip_address"]
    else reported
  }

  /** The owner hears of an address once: the same event again reports
      nothing new. */
  lemma ReportedIpIdempotent(event: map<string, string>, reported: string)
    ensures ReportedIp(event, ReportedIp(event, reported)) == ReportedIp(event, reported)
  {
  }

  /** A down event always reports the released address, whatever came
      before; an event that says nothing keeps the last address. */
  lemma ReportedIpCases(event: map<string, string>, reported: string)
    ensures ("if_up" in event && event["if_up"] == "false") ==> ReportedIp(event, reported) == ""
    ensures ("if_down" in event && event["if_down"] == "true") ==> ReportedIp(event, reported) == ""
    ensures "if_up" !in event && "if_down" !in event && "new_ip_address" !in event ==>
      ReportedIp(event, reported) == reported
  {
  }

  class NewIpDhcpcdClient {
    var reportedIp: string

    constructor ()
      ensures reportedIp == ""
    {
      reportedIp := "";
    }

    /** `OnEvent`: the address passed to the owner's `_OnNewIp`, sent only
        when it differs from the one reported last. */
    method OnEvent(event: map<string, string>) returns (notify: Option<string>)
      modifies this
      ensures reportedIp == ReportedIp(event, old(reportedIp))
      ensures notify.Some? <==> reportedIp != old(reportedIp)
      ensures notify.Some? ==> notify.value == reportedIp
    {
      var ip := ReportedIp(event, reportedIp);
      if ip != reportedIp {
        reportedIp := ip;
        return Some(ip);
      }
      notify := None;
    }
  }

  // ---------------------------------------------------------------------
  // `ConnectNetwork`

  /** `DISABLE_NETWORK` for every configured network, in order. */
  function DisableAll(networks: seq<Network>): (r: seq<string>)
    ensures |r| == |networks|
    ensures forall k :: 0 <= k < |networks| ==> r[k] == "DISABLE_NETWORK " + networks[k].id
  {
    if networks == [] then []
    else DisableAll(networks[..|networks| - 1]) + ["DISABLE_NETWORK " + networks[|networks| - 1].id]
  }

  /** The commands that configure and select the new network `netId`. */
  function NetworkSetup(netId: int, ssid: string, psk: string): seq<string> {
    [SsidCommand(netId, ssid), ScanSsidCommand(netId, true), KeyMgmtCommand(netId, psk != [])]
    + (if psk != [] then [PskCommand(netId, psk)] else [])
    + ["SELECT_NETWORK " + Decimal(netId)]
  }

  /** Two SET_NETWORK commands for one network differ when their property
      or their value differs. */
  lemma SetNetworkDistinct(netId: int, p1: string, v1: string, p2: string, v2: string)
    requires ' ' !in p1 && ' ' !in p2 && (p1 != p2 || v1 != v2)
    ensures SetNetworkCommand(netId, p1, v1) != SetNetworkCommand(netId, p2, v2)
  {
    SetNetworkCommandParts(netId, p1, v1);
    SetNetworkCommandParts(netId, p2, v2);
  }

  lemma SelectIsNotSet(netId: int, p: string, v: string)
    ensures "SELECT_NETWORK " + Decimal(netId) != SetNetworkCommand(netId, p, v)
  {
    assert ("SELECT_NETWORK " + Decimal(netId))[2] == 'L';
    assert SetNetworkCommand(netId, p, v)[2] == 'T';
  }

  /** The PSK is sent exactly for a non-empty psk. */
  lemma NetworkSetupPsk(netId: int, ssid: string, psk: string)
    ensures PskCommand(netId, psk) in NetworkSetup(netId, ssid, psk) <==> psk != []
  {
    if psk == [] {
      var c := PskCommand(netId, psk);
      SetNetworkDistinct(netId, "psk", Quoted(psk), "ssid", Quoted(ssid));
      SetNetworkDistinct(netId, "psk", Quoted(psk), "scan_ssid", "1");
      SetNetworkDistinct(netId, "psk", Quoted(psk), "key_mgmt", KeyMgmtValue(false));
      SelectIsNotSet(netId, "psk", Quoted(psk));
      assert NetworkSetup(netId, ssid, psk) == [SsidCommand(netId, ssid), ScanSsidCommand(netId, true),
        KeyMgmtCommand(netId, false), "SELECT_NETWORK " + Decimal(netId)];
    } else {
      assert NetworkSetup(netId, ssid, psk)[3] == PskCommand(netId, psk);
    }
  }

  /** Key management is set to WPA-PSK exactly for a non-empty psk, and the
      network is selected last. */
  lemma NetworkSetupKeyMgmt(netId: int, ssid: string, psk: string)
    ensures KeyMgmtCommand(netId, true) in NetworkSetup(netId, ssid, psk) <==> psk != []
    ensures var s := NetworkSetup(netId, ssid, psk); s[|s| - 1] == "SELECT_NETWORK " + Decimal(netId)
  {
    if psk == [] {
      SetNetworkDistinct(netId, "key_mgmt", KeyMgmtValue(true), "ssid", Quoted(ssid));
      SetNetworkDistinct(netId, "key_mgmt", KeyMgmtValue(true), "scan_ssid", "1");
      SetNetworkDistinct(netId, "key_mgmt", KeyMgmtValue(true), "key_mgmt", KeyMgmtValue(false));
      SelectIsNotSet(netId, "key_mgmt", KeyMgmtValue(true));
      assert NetworkSetup(netId, ssid, psk) == [SsidCommand(netId, ssid), ScanSsidCommand(netId, true),
        KeyMgmtCommand(netId, false), "SELECT_NETWORK " + Decimal(netId)];
    } else {
      assert NetworkSetup(netId, ssid, psk)[2] == KeyMgmtCommand(netId, true);
    }
  }

  /** Everything `ConnectNetwork` sends before adding the new network: the
      listing that looks up the name, the removal of an old network of that
      name, the second listing and the disabling of every listed network. */
  function Preparation(found: Option<Network>, networks: seq<Network>): seq<string> {
    ["LIST_NETWORKS"] + (if found.Some? then ["REMOVE_NETWORK " + found.value.id] else [])
    + ["LIST_NETWORKS"] + DisableAll(networks)
  }

  lemma PreparationSnoc(found: Option<Network>, ns: seq<Network>, i: int)
    requires 0 <= i < |ns|
    ensures Preparation(found, ns[..i + 1]) == Preparation(found, ns[..i]) + ["DISABLE_NETWORK " + ns[i].id]
  {
    assert ns[..i + 1][..i] == ns[..i];
  }

  /** The first half of `ConnectNetwork`: remove an old network of the
      same name, then disable every configured network. */
  method PrepareConnect(ssid: string, firstListReply: string, secondListReply: string)
    returns (r: Result<()>, sent: seq<string>, ghost found: Option<Network>)
    ensures r.Success? <==>
      NetworksOf(BodyLines(firstListReply)).Success? && NetworksOf(BodyLines(secondListReply)).Success?
    ensures NetworksOf(BodyLines(firstListReply)).Failure? ==> sent == ["LIST_NETWORKS"]
    ensures NetworksOf(BodyLines(firstListReply)).Success? ==>
      FirstBySsid(NetworksOf(BodyLines(firstListReply)).value, ssid, found)
    ensures NetworksOf(BodyLines(firstListReply)).Success? && NetworksOf(BodyLines(secondListReply)).Failure? ==>
      sent == Preparation(found, [])
    ensures r.Success? ==>
      && FirstBySsid(NetworksOf(BodyLines(firstListReply)).value, ssid, found)
      && sent == Preparation(found, NetworksOf(BodyLines(secondListReply)).value)
  {
    sent := ["LIST_NETWORKS"];
    found := None;
    var first := GetNetworkBySsid(firstListReply, ssid);
    if first.Failure? {
      return Failure(first.error), sent, found;
    }
    found := first.value;
    if first.value.Some? {
      sent := sent + ["REMOVE_NETWORK " + first.value.value.id];
    }
    sent := sent + ["LIST_NETWORKS"];
    var networks := GetNetworks(secondListReply);
    if networks.Failure? {
      return Failure(networks.error), sent, found;
    }
    var ns := networks.value;
    var i := 0;
    while i < |ns|
      invariant 0 <= i <= |ns|
      invariant sent == Preparation(found, ns[..i])
    {
      PreparationSnoc(found, ns, i);
      sent := sent + ["DISABLE_NETWORK " + ns[i].id];
      i := i + 1;
    }
    assert ns[..i] == ns;
    r := Success(());
  }

  /** The decision skeleton of `ConnectNetwork`: the first LIST_NETWORKS
      reply finds an old network of the same name, the second lists the
      networks to disable, `dhcpAfterRelease` is the address still held
      when the wait for its release ends, `addReply` is the ADD_NETWORK
      reply and `connected` the connected predicate when the wait for the
      connection ends. `sent` lists the commands in order. */
  method ConnectNetwork(ssid: string, psk: string, firstListReply: string, secondListReply: string,
                        dhcpAfterRelease: string, addReply: string, connected: bool)
    returns (r: Result<bool>, sent: seq<string>, ghost found: Option<Network>)
    ensures NetworksOf(BodyLines(firstListReply)).Failure? ==> r.Failure? && sent == ["LIST_NETWORKS"]
    ensures r == Success(true) <==>
      && NetworksOf(BodyLines(firstListReply)).Success?
      && NetworksOf(BodyLines(secondListReply)).Success?
      && dhcpAfterRelease == ""
      && PyInt(addReply, 10).Some?
      && connected
    ensures r.Success? && dhcpAfterRelease != "" ==>
      r == Success(false) && NetworksOf(BodyLines(secondListReply)).Success? && sent == Preparation(found, NetworksOf(BodyLines(secondListReply)).value)
    ensures (&& NetworksOf(BodyLines(firstListReply)).Success?
             && NetworksOf(BodyLines(secondListReply)).Success?
             && dhcpAfterRelease == "" && PyInt(addReply, 10).None?) ==>
      r == Failure("ValueError")
      && sent == Preparation(found, NetworksOf(BodyLines(secondListReply)).value) + ["ADD_NETWORK"]
    ensures (&& r.Success? && dhcpAfterRelease == ""
             && NetworksOf(BodyLines(firstListReply)).Success?
             && NetworksOf(BodyLines(secondListReply)).Success?
             && PyInt(addReply, 10).Some?) ==>
      && FirstBySsid(NetworksOf(BodyLines(firstListReply)).value, ssid, found)
      && var netId := PyInt(addReply, 10).value;
         sent == Preparation(found, NetworksOf(BodyLines(secondListReply)).value)
                 + ["ADD_NETWORK"] + NetworkSetup(netId, ssid, psk)
                 + [if connected then "SAVE_CONFIG" else "REMOVE_NETWORK " + Decimal(netId)]
  {
    var prepared;
    prepared, sent, found := PrepareConnect(ssid, firstListReply, secondListReply);
    if prepared.Failure? {
      return Failure(prepared.error), sent, found;
    }
    if dhcpAfterRelease != "" {
      return Success(false), sent, found;
    }
    sent := sent + ["ADD_NETWORK"];
    var netId := PyInt(addReply, 10);
    if netId.None? {
      return Failure("ValueError"), sent, found;
    }
    var id := netId.value;
    var setup := [SsidCommand(id, ssid), ScanSsidCommand(id, true), KeyMgmtCommand(id, psk != [])];
    if psk != [] {
      setup := setup + [PskCommand(id, psk)];
    }
    setup := setup + ["SELECT_NETWORK " + Decimal(id)];
    assert setup == NetworkSetup(id, ssid, psk);
    sent := sent + setup;
    if connected {
      sent := sent + ["SAVE_CONFIG"];
      r := Success(true);
    } else {
      sent := sent + ["REMOVE_NETWORK " + Decimal(id)];
      r := Success(false);
    }
  }
}

=== FILE: utf8.dfy ===
/** UTF-8 as Python's strict codec applies it: `str.encode("utf-8")` and
    `bytes.decode("utf-8")`. The decoder rejects overlong forms, surrogates,
    code points above U+10FFFF and truncated or stray continuation bytes;
    `None` stands for the UnicodeDecodeError it raises. */
module Utf8 {
  import opened Wrappers

  function EncodeChar(c: char): (r: seq<byte>)
    ensures 1 <= |r| <= 4
  {
    var v := c as int;
    if v < 0x80 then [v]
    else if v < 0x800 then [0xC0 + v / 64, 0x80 + v % 64]
    else if v < 0x10000 then [0xE0 + v / 4096, 0x80 + (v / 64) % 64, 0x80 + v % 64]
    else [0xF0 + v / 262144, 0x80 + (v / 4096) % 64, 0x80 + (v / 64) % 64, 0x80 + v % 64]
  }

  /** `s.encode("utf-8")` */
  function Encode(s: string): seq<byte> {
    if s == [] then [] else EncodeChar(s[0]) + Encode(s[1..])
  }

  predicate IsContinuation(b: int) {
    0x80 <= b <= 0xBF
  }

  /** The first character of `b` and the number of bytes it takes. */
  function DecodeFirst(b: seq<byte>): (r: Option<(char, nat)>)
    requires b != []
    ensures r.Some? ==> 1 <= r.value.1 <= |b|
  {
    var b0: int := b[0];
    var b1: int := if |b| > 1 then b[1] else 0;
    var b2: int := if |b| > 2 then b[2] else 0;
    var b3: int := if |b| > 3 then b[3] else 0;
    if b0 < 0x80 then Some((b0 as char, 1))
    else if 0xC2 <= b0 <= 0xDF then
      if |b| < 2 || !IsContinuation(b1) then None
      else Some((((b0 - 0xC0) * 64 + (b1 - 0x80)) as char, 2))
    else if 0xE0 <= b0 <= 0xEF then
      var lo := if b0 == 0xE0 then 0xA0 else 0x80;
      var hi := if b0 == 0xED then 0x9F else 0xBF;
      if |b| < 3 || !(lo <= b1 <= hi) || !IsContinuation(b2) then None
      else Some((((b0 - 0xE0) * 4096 + (b1 - 0x80) * 64 + (b2 - 0x80)) as char, 3))
    else if 0xF0 <= b0 <= 0xF4 then
      var lo := if b0 == 0xF0 then 0x90 else 0x80;
      var hi := if b0 == 0xF4 then 0x8F else 0xBF;
      if |b| < 4 || !(lo <= b1 <= hi) || !IsContinuation(b2) || !IsContinuation(b3) then None
      else Some((((b0 - 0xF0) * 262144 + (b1 - 0x80) * 4096 + (b2 - 0x80) * 64 + (b3 - 0x80)) as char, 4))
    else None
  }

  /** `b.decode("utf-8")` */
  function Decode(b: seq<byte>): Option<string>
    decreases |b|
  {
    if b == [] then Some([])
    else
      match DecodeFirst(b)
      case None => None
      case Some((c, n)) =>
        match Decode(b[n..])
        case None => None
        case Some(rest) => Some([c] + rest)
  }

  lemma Split64(v: int)
    requires v >= 0
    ensures v == (v / 64) * 64 + v % 64 && 0 <= v % 64 < 64
  {
  }

  lemma DecodeFirstTwo(c: char, rest: seq<byte>)
    requires 0x80 <= c as int < 0x800
    ensures DecodeFirst(EncodeChar(c) + rest) == Some((c, 2))
  {
    var v := c as int;
    Split64(v);
    var b := EncodeChar(c) + rest;
    assert b[0] == 0xC0 + v / 64 && b[1] == 0x80 + v % 64;
  }

  lemma DecodeFirstThree(c: char, rest: seq<byte>)
    requires 0x800 <= c as int < 0x10000
    ensures DecodeFirst(EncodeChar(c) + rest) == Some((c, 3))
  {
    var v := c as int;
    var q := v / 64;
    Split64(v);
    Split64(q);
    assert v / 4096 == q / 64;
    var b := EncodeChar(c) + rest;
    assert b[0] == 0xE0 + q / 64 && b[1] == 0x80 + q % 64 && b[2] == 0x80 + v % 64;
  }

  lemma DecodeFirstFour(c: char, rest: seq<byte>)
    requires 0x10000 <= c as int
    ensures DecodeFirst(EncodeChar(c) + rest) == Some((c, 4))
  {
    var v := c as int;
    var q := v / 64;
    var q2 := q / 64;
    Split64(v);
    Split64(q);
    Split64(q2);
    assert v / 4096 == q2;
    assert v / 262144 == q2 / 64;
    var b := EncodeChar(c) + rest;
    assert b[0] == 0xF0 + q2 / 64 && b[1] == 0x80 + q2 % 64;
    assert b[2] == 0x80 + q % 64 && b[3] == 0x80 + v % 64;
  }

  lemma DecodeFirstEncodeChar(c: char, rest: seq<byte>)
    ensures DecodeFirst(EncodeChar(c) + rest) == Some((c, |EncodeChar(c)|))
  {
    var v := c as int;
    if v < 0x80 {
    } else if v < 0x800 {
      DecodeFirstTwo(c, rest);
    } else if v < 0x10000 {
      DecodeFirstThree(c, rest);
    } else {
      DecodeFirstFour(c, rest);
    }
  }

  /** Decoding what was encoded gives back the string. */
  lemma {:induction false} DecodeEncode(s: string)
    ensures Decode(Encode(s)) == Some(s)
  {
    if s != [] {
      var e := EncodeChar(s[0]);
      DecodeFirstEncodeChar(s[0], Encode(s[1..]));
      var b := Encode(s);
      assert b == e + Encode(s[1..]);
      assert b[|e|..] == Encode(s[1..]);
      DecodeEncode(s[1..]);
      assert [s[0]] + s[1..] == s;
    }
  }

  predicate IsAscii(s: string) {
    forall j :: 0 <= j < |s| ==> s[j] < '\U{0080}'
  }

  /** ASCII text encodes to its own code points, one byte per character. */
  lemma {:induction false} EncodeAscii(s: string)
    requires IsAscii(s)
    ensures |Encode(s)| == |s|
    ensures forall j :: 0 <= j < |s| ==> Encode(s)[j] == s[j] as int
  {
    if s != [] {
      EncodeAscii(s[1..]);
      assert Encode(s) == [s[0] as int] + Encode(s[1..]);
    }
  }

  /** An ASCII byte of valid UTF-8 text stands for its own character: the
      lead and continuation bytes of longer forms are all at least 0x80. */
  lemma {:induction false} DecodeAsciiByte(b: seq<byte>, i: int)
    requires Decode(b).Some? && 0 <= i < |b| && b[i] < 0x80
    ensures b[i] as char in Decode(b).value
    decreases |b|
  {
    var first := DecodeFirst(b).value;
    var n := first.1;
    var rest := Decode(b[n..]).value;
    assert Decode(b).value == [first.0] + rest;
    if i < n {
      assert i == 0 && n == 1;
    } else {
      assert b[n..][i - n] == b[i];
      DecodeAsciiByte(b[n..], i - n);
    }
  }

  /** Only the NUL character encodes to a zero byte. */
  lemma {:induction false} EncodeNoNul(s: string)
    requires '\0' !in s
    ensures 0 !in Encode(s)
  {
    if s != [] {
      assert s[0] != '\0';
      assert 0 !in EncodeChar(s[0]);
      assert '\0' !in s[1..];
      EncodeNoNul(s[1..]);
      assert Encode(s) == EncodeChar(s[0]) + Encode(s[1..]);
    }
  }
}

=== FILE: wpas_client.dfy ===
/** The wpa_supplicant control-interface client of
    packages/aiy-bt-prov-server/wpas_client.py: the parsers of the `STATUS`,
    `SIGNAL_POLL`, `SCAN_RESULTS` and `LIST_NETWORKS` replies, the SSID
    unescaper, the `SET_NETWORK` commands, the alarm queue of the event
    thread and the attach/detach flags of a control connection. Replies of
    wpa_supplicant are parameters; commands a connection sends are recorded. */
module WpasClient {
  import opened Wrappers
  import opened PyStr
  import Utf8

  // ---------------------------------------------------------------------
  // `key=value` replies (STATUS, SIGNAL_POLL)

  /** The text before the first `c`, if `c` occurs. */
  function Before(s: string, c: char): Option<string> {
    if s == [] then None
    else if s[0] == c then Some([])
    else
      match Before(s[1..], c)
      case None => None
      case Some(k) => Some([s[0]] + k)
  }

  /** The text after the first `c`, if `c` occurs. */
  function After(s: string, c: char): Option<string> {
    if s == [] then None
    else if s[0] == c then Some(s[1..])
    else After(s[1..], c)
  }

  /** The key of a reply line: the text before the first `=`, or, with no
      `=`, the line without its last character. */
  function EntryKey(entry: string): string {
    match Before(entry, '=')
    case Some(k) => k
    case None => if entry == [] then [] else entry[..|entry| - 1]
  }

  /** The value of a reply line: the text after the first `=`, or the whole
      line when there is none. */
  function EntryValue(entry: string): string {
    match After(entry, '=')
    case Some(v) => v
    case None => entry
  }

  lemma {:induction false} BeforeAfterFind(s: string, c: char)
    ensures var pos := Find(s, c);
      && (pos >= 0 ==> Before(s, c) == Some(s[..pos]) && After(s, c) == Some(s[pos + 1..]))
      && (pos == -1 ==> Before(s, c).None? && After(s, c).None?)
  {
    if s != [] && s[0] != c {
      BeforeAfterFind(s[1..], c);
      var pos := Find(s, c);
      if pos >= 0 {
        assert s[1..][..pos - 1] == s[1..pos];
        assert [s[0]] + s[1..pos] == s[..pos];
        assert s[1..][pos..] == s[pos + 1..];
      }
    }
  }

  /** With `pos = entry.find("=")`, the key is `entry[0:pos]` and the value
      `entry[pos + 1:]`, Python slices with a negative index counting from
      the end. */
  lemma {:induction false} EntrySlices(entry: string)
    ensures var pos := Find(entry, '=');
      && EntryKey(entry) == (if pos >= 0 then entry[..pos] else if entry == [] then [] else entry[..|entry| - 1])
      && EntryValue(entry) == entry[pos + 1..]
  {
    BeforeAfterFind(entry, '=');
  }

  /** An entry with `=` is exactly its key, `=`, and its value, and the key
      holds no `=`. */
  lemma EntryWithEquals(entry: string)
    requires '=' in entry
    ensures EntryKey(entry) + "=" + EntryValue(entry) == entry
    ensures '=' !in EntryKey(entry)
  {
    EntrySlices(entry);
    var pos := Find(entry, '=');
    assert entry == entry[..pos] + [entry[pos]] + entry[pos + 1..];
  }

  /** An entry without `=` is its own value, and its key drops its last
      character. */
  lemma EntryWithoutEquals(entry: string)
    requires '=' !in entry && entry != []
    ensures EntryValue(entry) == entry
    ensures EntryKey(entry) + [entry[|entry| - 1]] == entry
  {
    BeforeAfterFind(entry, '=');
    var pos := Find(entry, '=');
    assert entry[..|entry| - 1] + [entry[|entry| - 1]] == entry;
  }

  /** The lines of a reply: `response.strip().split("\n")`. */
  function ReplyLines(response: string): seq<string> {
    Split(Strip(response), '\n')
  }

  /** `d[entry[0:pos]] = entry[pos + 1:]` */
  function Assign(d: map<string, string>, entry: string): map<string, string> {
    d[EntryKey(entry) := EntryValue(entry)]
  }

  /** The dictionary built by assigning each entry's key to its value in
      order, so that a later entry overwrites an earlier one. */
  function KeyValuesOf(entries: seq<string>): map<string, string> {
    if entries == [] then map[]
    else Assign(KeyValuesOf(entries[..|entries| - 1]), entries[|entries| - 1])
  }

  /** A key is present iff some entry has it. */
  lemma {:induction false} KeyValuesDomain(entries: seq<string>, k: string)
    ensures k in KeyValuesOf(entries) <==> exists i | 0 <= i < |entries| :: EntryKey(entries[i]) == k
  {
    if entries != [] {
      var n := |entries|;
      var front := entries[..n - 1];
      KeyValuesDomain(front, k);
      assert k in KeyValuesOf(entries) <==> k == EntryKey(entries[n - 1]) || k in KeyValuesOf(front);
      if k in KeyValuesOf(front) {
        var i :| 0 <= i < n - 1 && EntryKey(front[i]) == k;
        assert EntryKey(entries[i]) == k;
      }
      if exists i | 0 <= i < n :: EntryKey(entries[i]) == k {
        var i :| 0 <= i < n && EntryKey(entries[i]) == k;
        if i < n - 1 {
          assert EntryKey(front[i]) == k;
        }
      }
    }
  }

  /** The value of a key is that of the last entry with that key. */
  lemma {:induction false} KeyValuesLast(entries: seq<string>, i: int)
    requires 0 <= i < |entries|
    requires forall j | i < j < |entries| :: EntryKey(entries[j]) != EntryKey(entries[i])
    ensures EntryKey(entries[i]) in KeyValuesOf(entries)
    ensures KeyValuesOf(entries)[EntryKey(entries[i])] == EntryValue(entries[i])
  {
    var n := |entries|;
    var front := entries[..n - 1];
    assert KeyValuesOf(entries) == Assign(KeyValuesOf(front), entries[n - 1]);
    if i < n - 1 {
      assert front[i] == entries[i];
      assert forall j | i < j < n - 1 :: front[j] == entries[j];
      assert EntryKey(entries[n - 1]) != EntryKey(entries[i]);
      KeyValuesLast(front, i);
    }
  }

  /** Builds the dictionary of the lines of a `key=value` reply, one line at
      a time. */
  method ParseKeyValues(entries: seq<string>) returns (m: map<string, string>)
    ensures m == KeyValuesOf(entries)
  {
    m := map[];
    var i := 0;
    while i < |entries|
      invariant 0 <= i <= |entries|
      invariant m == KeyValuesOf(entries[..i])
    {
      assert entries[..i + 1][..i] == entries[..i];
      m := Assign(m, entries[i]);
      i := i + 1;
    }
    assert entries[..|entries|] == entries;
  }

  /** The STATUS dictionary, with the `ssid` value unescaped; a failure of
      the unescaper escapes from `GetStatus`. */
  function StatusOf(response: string): Result<map<string, string>> {
    var kv := KeyValuesOf(ReplyLines(response));
    if "ssid" !in kv then Success(kv)
    else
      match DecodedSsid(kv["ssid"])
      case Failure(e) => Failure(e)
      case Success(ssid) => Success(kv["ssid" := ssid])
  }

  /** `GetStatus` */
  method GetStatus(response: string) returns (r: Result<map<string, string>>)
    ensures r == StatusOf(response)
  {
    var status := ParseKeyValues(ReplyLines(response));
    if "ssid" in status {
      var ssid := DecodeSsid(status["ssid"]);
      if ssid.Failure? {
        return Failure(ssid.error);
      }
      status := status["ssid" := ssid.value];
    }
    r := Success(status);
  }

  /** A STATUS reply whose `ssid` line holds what wpa_supplicant printed for
      a UTF-8 name reports that name, and every other key as its last
      line gives it. */
  lemma StatusOfPrintedSsid(response: string, name: string)
    requires var kv := KeyValuesOf(ReplyLines(response));
      "ssid" in kv && kv["ssid"] == PrintfEncode(Utf8.Encode(name))
    ensures StatusOf(response).Success?
    ensures StatusOf(response).value == KeyValuesOf(ReplyLines(response))["ssid" := name]
  {
    SsidRoundTrip(name);
  }

  /** What `GetSignal` returns. */
  function SignalOf(response: string): map<string, string> {
    if Contains(response, "FAIL") then map[] else KeyValuesOf(ReplyLines(response))
  }

  /** `GetSignal`: empty whenever the reply contains `FAIL`, otherwise the
      dictionary of the reply. */
  method GetSignal(response: string) returns (m: map<string, string>)
    ensures m == SignalOf(response)
    ensures Contains(response, "FAIL") ==> m == map[]
    ensures !Contains(response, "FAIL") ==> m == KeyValuesOf(ReplyLines(response))
  {
    m := map[];
    if !Contains(response, "FAIL") {
      m := ParseKeyValues(ReplyLines(response));
    }
  }

  // ---------------------------------------------------------------------
  // SSID escapes

  /** `[b] + bytes`, passing a failure through. */
  function Cons(b: byte, r: Result<seq<byte>>): Result<seq<byte>> {
    match r
    case Failure(e) => Failure(e)
    case Success(bs) => Success([b] + bs)
  }

  /** `prefix + bytes`, passing a failure through. */
  function Prepend(prefix: seq<byte>, r: Result<seq<byte>>): Result<seq<byte>> {
    match r
    case Failure(e) => Failure(e)
    case Success(bs) => Success(prefix + bs)
  }

  lemma PrependEmpty(r: Result<seq<byte>>)
    ensures Prepend([], r) == r
  {
    if r.Success? {
      assert [] + r.value == r.value;
    }
  }

  lemma PrependCons(prefix: seq<byte>, b: byte, r: Result<seq<byte>>)
    ensures Prepend(prefix, Cons(b, r)) == Prepend(prefix + [b], r)
  {
    if r.Success? {
      assert prefix + ([b] + r.value) == (prefix + [b]) + r.value;
    }
  }

  /** The lower-case hexadecimal digit of a value below 16. */
  function HexChar(v: int): (c: char)
    requires 0 <= v < 16
    ensures DigitValue(c, 16) == v
  {
    if v < 10 then ('0' as int + v) as char else ('a' as int + (v - 10)) as char
  }

  /** The byte a two-character escape `\c` stands for, or -1: `\\`, `\"`,
      `\e` (ESC), `\n`, `\r` and `\t`. */
  function EscapedByte(c: char): int {
    if c == '\\' then 0x5C
    else if c == '"' then 0x22
    else if c == 'e' then 0x1B
    else if c == 'n' then 0x0A
    else if c == 'r' then 0x0D
    else if c == 't' then 0x09
    else -1
  }

  /** wpa_supplicant's `printf_encode` of one byte: the six escapes above,
      printable ASCII as itself, anything else as `\x` and two lower-case
      hexadecimal digits. */
  function EscapeByte(b: byte): string {
    if b == 0x5C then "\\\\"
    else if b == 0x22 then "\\\""
    else if b == 0x1B then "\\e"
    else if b == 0x0A then "\\n"
    else if b == 0x0D then "\\r"
    else if b == 0x09 then "\\t"
    else if 32 <= b <= 126 then [b as char]
    else ['\\', 'x', HexChar(b / 16), HexChar(b % 16)]
  }

  /** How wpa_supplicant prints the SSID bytes in its replies. */
  function PrintfEncode(ssid: seq<byte>): string {
    if ssid == [] then [] else EscapeByte(ssid[0]) + PrintfEncode(ssid[1..])
  }

  /** The bytes of an escaped SSID, reading each escape exactly once: the
      inverse of `printf_encode`. Characters above U+00FF are refused, as
      `bytearray.append` refuses them. */
  function Unescape(t: string): Result<seq<byte>>
    decreases |t|
  {
    if t == [] then Success([])
    else if t[0] != '\\' then
      if t[0] as int < 256 then Cons(t[0] as int, Unescape(t[1..])) else Failure("ValueError")
    else if |t| >= 4 && t[1] == 'x' && 0 <= DigitValue(t[2], 16) && 0 <= DigitValue(t[3], 16) then
      Cons(DigitValue(t[2], 16) * 16 + DigitValue(t[3], 16), Unescape(t[4..]))
    else if |t| >= 2 && EscapedByte(t[1]) >= 0 then
      Cons(EscapedByte(t[1]), Unescape(t[2..]))
    else Failure("ValueError")
  }

  /** The SSID text: its unescaped bytes read as UTF-8. */
  function DecodedSsid(ssid: string): Result<string> {
    match Unescape(ssid)
    case Failure(e) => Failure(e)
    case Success(bytes) =>
      match Utf8.Decode(bytes)
      case None => Failure("UnicodeDecodeError")
      case Some(s) => Success(s)
  }

  /** `_DecodeSsid` with each escape read once: unescapes in one pass over
      the text, then decodes the bytes as UTF-8. */
  method DecodeSsid(ssid: string) returns (r: Result<string>)
    ensures r == DecodedSsid(ssid)
  {
    var buf: seq<byte> := [];
    var i := 0;
    assert ssid[0..] == ssid;
    PrependEmpty(Unescape(ssid));
    while i < |ssid|
      invariant 0 <= i <= |ssid|
      invariant Unescape(ssid) == Prepend(buf, Unescape(ssid[i..]))
    {
      var t := ssid[i..];
      if t[0] != '\\' {
        if t[0] as int >= 256 {
          return Failure("ValueError");
        }
        assert t[1..] == ssid[i + 1..];
        PrependCons(buf, t[0] as int, Unescape(t[1..]));
        buf := buf + [t[0] as int];
        i := i + 1;
      } else if |t| >= 4 && t[1] == 'x' && 0 <= DigitValue(t[2], 16) && 0 <= DigitValue(t[3], 16) {
        var b := DigitValue(t[2], 16) * 16 + DigitValue(t[3], 16);
        assert t[4..] == ssid[i + 4..];
        PrependCons(buf, b, Unescape(t[4..]));
        buf := buf + [b];
        i := i + 4;
      } else if |t| >= 2 && EscapedByte(t[1]) >= 0 {
        var b := EscapedByte(t[1]);
        assert t[2..] == ssid[i + 2..];
        PrependCons(buf, b, Unescape(t[2..]));
        buf := buf + [b];
        i := i + 2;
      } else {
        return Failure("ValueError");
      }
    }
    assert ssid[|ssid|..] == [] && buf + [] == buf;
    match Utf8.Decode(buf)
    case None => r := Failure("UnicodeDecodeError");
    case Some(s) => r := Success(s);
  }

  lemma UnescapePlain(c: char, rest: string)
    requires c != '\\' && c as int < 256
    ensures Unescape([c] + rest) == Cons(c as int, Unescape(rest))
  {
    assert ([c] + rest)[1..] == rest;
  }

  lemma UnescapePair(c: char, rest: string)
    requires EscapedByte(c) >= 0 && c != 'x'
    ensures Unescape(['\\', c] + rest) == Cons(EscapedByte(c), Unescape(rest))
  {
    assert (['\\', c] + rest)[2..] == rest;
  }

  lemma UnescapeHex(b: byte, rest: string)
    ensures Unescape(['\\', 'x', HexChar(b / 16), HexChar(b % 16)] + rest) == Cons(b, Unescape(rest))
  {
    var t := ['\\', 'x', HexChar(b / 16), HexChar(b % 16)] + rest;
    assert t[4..] == rest;
    assert t[1] == 'x' && t[2] == HexChar(b / 16) && t[3] == HexChar(b % 16);
  }

  lemma UnescapeEscapeByte(b: byte, rest: string)
    ensures Unescape(EscapeByte(b) + rest) == Cons(b, Unescape(rest))
  {
    if b == 0x5C {
      UnescapePair('\\', rest);
    } else if b == 0x22 {
      UnescapePair('"', rest);
    } else if b == 0x1B {
      UnescapePair('e', rest);
    } else if b == 0x0A {
      UnescapePair('n', rest);
    } else if b == 0x0D {
      UnescapePair('r', rest);
    } else if b == 0x09 {
      UnescapePair('t', rest);
    } else if 32 <= b <= 126 {
      UnescapePlain(b as char, rest);
    } else {
      UnescapeHex(b, rest);
    }
  }

  /** Unescaping what wpa_supplicant printed gives back the SSID bytes. */
  lemma {:induction false} UnescapePrintfEncode(ssid: seq<byte>)
    ensures Unescape(PrintfEncode(ssid)) == Success(ssid)
  {
    if ssid != [] {
      UnescapeEscapeByte(ssid[0], PrintfEncode(ssid[1..]));
      UnescapePrintfEncode(ssid[1..]);
      assert [ssid[0]] + ssid[1..] == ssid;
    }
  }

  /** An SSID that is UTF-8 text reads back as that text. */
  lemma SsidRoundTrip(name: string)
    ensures DecodedSsid(PrintfEncode(Utf8.Encode(name))) == Success(name)
  {
    UnescapePrintfEncode(Utf8.Encode(name));
    Utf8.DecodeEncode(name);
  }

  /** wpa_supplicant prints an SSID in printable ASCII only: every
      control character and every byte from 0x7F on is escaped. */
  lemma {:induction false} PrintfEncodePrintable(ssid: seq<byte>)
    ensures forall k :: 0 <= k < |PrintfEncode(ssid)| ==> 32 <= PrintfEncode(ssid)[k] as int <= 126
  {
    if ssid != [] {
      PrintfEncodePrintable(ssid[1..]);
      var e, rest := EscapeByte(ssid[0]), PrintfEncode(ssid[1..]);
      assert PrintfEncode(ssid) == e + rest;
      assert forall k :: 0 <= k < |e| ==> 32 <= e[k] as int <= 126;
    }
  }

  /** A character that is not printable ASCII never appears raw in a
      printed SSID. */
  lemma PrintfEncodeNoRaw(ssid: seq<byte>, c: char)
    requires c as int < 32 || c as int > 126
    ensures c !in PrintfEncode(ssid)
  {
    PrintfEncodePrintable(ssid);
  }

  /** No escape ever contains a tab, so an escaped SSID is one tab-separated
      field. */
  lemma PrintfEncodeNoTab(ssid: seq<byte>)
    ensures '\t' !in PrintfEncode(ssid)
  {
    PrintfEncodeNoRaw(ssid, '\t');
  }

  /** No escape ever contains a newline, so an escaped SSID stays on its
      line. */
  lemma PrintfEncodeNoNewline(ssid: seq<byte>)
    ensures '\n' !in PrintfEncode(ssid)
  {
    PrintfEncodeNoRaw(ssid, '\n');
  }

  // The decoder as the source writes it: six `str.replace` passes, then
  // `\xNN` and single characters to bytes.

  /** The six `replace` calls, applied one after the other. */
  function ReplaceEscapes(ssid: string): string {
    var s1 := ReplaceAll(ssid, "\\\\", "\\");
    var s2 := ReplaceAll(s1, "\\\"", "\"");
    var s3 := ReplaceAll(s2, "\\e", "E");
    var s4 := ReplaceAll(s3, "\\n", "\n");
    var s5 := ReplaceAll(s4, "\\r", "\r");
    ReplaceAll(s5, "\\t", "\t")
  }

  /** The byte loop: `\x` followed by up to two characters read by
      `int(_, 16)`, otherwise `ord` of one character; a value outside
      0..255 is a ValueError. */
  function HexBytes(t: string): Result<seq<byte>>
    decreases |t|
  {
    if t == [] then Success([])
    else if |t| >= 2 && t[0] == '\\' && t[1] == 'x' then
      var end := if |t| < 4 then |t| else 4;
      match PyInt(t[2..end], 16)
      case None => Failure("ValueError")
      case Some(v) => if 0 <= v < 256 then Cons(v, HexBytes(t[end..])) else Failure("ValueError")
    else if t[0] as int < 256 then Cons(t[0] as int, HexBytes(t[1..]))
    else Failure("ValueError")
  }

  function AsWrittenDecodedSsid(ssid: string): Result<string> {
    match HexBytes(ReplaceEscapes(ssid))
    case Failure(e) => Failure(e)
    case Success(bytes) =>
      match Utf8.Decode(bytes)
      case None => Failure("UnicodeDecodeError")
      case Some(s) => Success(s)
  }

  /** `_DecodeSsid` as the source writes it. */
  method DecodeSsidAsWritten(ssid: string) returns (r: Result<string>)
    ensures r == AsWrittenDecodedSsid(ssid)
  {
    var t := ReplaceEscapes(ssid);
    var buf: seq<byte> := [];
    var i := 0;
    assert t[0..] == t;
    PrependEmpty(HexBytes(t));
    while i < |t|
      invariant 0 <= i <= |t|
      invariant HexBytes(t) == Prepend(buf, HexBytes(t[i..]))
    {
      var u := t[i..];
      if |u| >= 2 && u[0] == '\\' && u[1] == 'x' {
        var end := if |u| < 4 then |u| else 4;
        var v := PyInt(u[2..end], 16);
        if v.None? || v.value < 0 || v.value >= 256 {
          return Failure("ValueError");
        }
        assert u[end..] == t[i + end..];
        PrependCons(buf, v.value, HexBytes(u[end..]));
        buf := buf + [v.value];
        i := i + end;
      } else {
        if u[0] as int >= 256 {
          return Failure("ValueError");
        }
        assert u[1..] == t[i + 1..];
        PrependCons(buf, u[0] as int, HexBytes(u[1..]));
        buf := buf + [u[0] as int];
        i := i + 1;
      }
    }
    assert t[|t|..] == [] && buf + [] == buf;
    match Utf8.Decode(buf)
    case None => r := Failure("UnicodeDecodeError");
    case Some(s) => r := Success(s);
  }

  lemma NoBackslashNoPattern(s: string, p: string)
    requires '\\' !in s && p != [] && p[0] == '\\'
    ensures !Contains(s, p)
  {
    forall i | 0 <= i <= |s| - |p|
      ensures !OccursAt(s, p, i)
    {
      assert s[i] != '\\' && s[i..i + |p|][0] == s[i];
    }
  }

  /** The replacements leave text without a backslash untouched. */
  lemma ReplaceEscapesNoBackslash(s: string)
    requires '\\' !in s
    ensures ReplaceEscapes(s) == s
  {
    NoBackslashNoPattern(s, "\\\\");
    NoBackslashNoPattern(s, "\\\"");
    NoBackslashNoPattern(s, "\\e");
    NoBackslashNoPattern(s, "\\n");
    NoBackslashNoPattern(s, "\\r");
    NoBackslashNoPattern(s, "\\t");
  }

  /** Without a backslash every character becomes its own code as one byte. */
  lemma {:induction false} HexBytesNoBackslash(s: string)
    requires '\\' !in s && forall j :: 0 <= j < |s| ==> s[j] as int < 256
    ensures HexBytes(s).Success?
    ensures |HexBytes(s).value| == |s|
    ensures forall j :: 0 <= j < |s| ==> HexBytes(s).value[j] == s[j] as int
  {
    if s != [] {
      HexBytesNoBackslash(s[1..]);
    }
  }

  /** ASCII text without a backslash decodes to itself, by either decoder. */
  lemma DecodeNoBackslash(s: string)
    requires '\\' !in s && Utf8.IsAscii(s)
    ensures AsWrittenDecodedSsid(s) == Success(s)
    ensures DecodedSsid(s) == Success(s)
  {
    ReplaceEscapesNoBackslash(s);
    HexBytesNoBackslash(s);
    Utf8.EncodeAscii(s);
    assert HexBytes(s).value == Utf8.Encode(s);
    Utf8.DecodeEncode(s);
    UnescapeNoBackslash(s);
  }

  lemma {:induction false} UnescapeNoBackslash(s: string)
    requires '\\' !in s && forall j :: 0 <= j < |s| ==> s[j] as int < 256
    ensures Unescape(s) == HexBytes(s)
  {
    if s != [] {
      UnescapeNoBackslash(s[1..]);
    }
  }

  lemma ReplaceEscapesBackslashN()
    ensures ReplaceEscapes("\\\\n") == "\n"
  {
    ReplaceAllAtStart("\\\\n", "\\\\", "\\");
    assert "\\\\n"[2..] == "n";
    ReplaceAllShort("n", "\\\\", "\\");
    assert "\\" + "n" == "\\n";
    ReplaceAllSameLength("\\n", "\\\"", "\"");
    ReplaceAllSameLength("\\n", "\\e", "E");
    ReplaceAllSameLength("\\n", "\\n", "\n");
    ReplaceAllShort("\n", "\\r", "\r");
    ReplaceAllShort("\n", "\\t", "\t");
  }

  lemma ReplaceEscapesE()
    ensures ReplaceEscapes("\\e") == "E"
  {
    ReplaceAllSameLength("\\e", "\\\\", "\\");
    ReplaceAllSameLength("\\e", "\\\"", "\"");
    ReplaceAllSameLength("\\e", "\\e", "E");
    ReplaceAllShort("E", "\\n", "\n");
    ReplaceAllShort("E", "\\r", "\r");
    ReplaceAllShort("E", "\\t", "\t");
  }

  /** Text whose replacement chain leaves one ASCII character other than a
      backslash decodes, as written, to that character. */
  lemma AsWrittenOneAscii(esc: string, c: char)
    requires c < '\U{0080}' && c != '\\'
    requires ReplaceEscapes(esc) == [c]
    ensures AsWrittenDecodedSsid(esc) == Success([c])
  {
    assert [c][1..] == [];
    assert HexBytes([]) == Success([]) && [c as int] + [] == [c as int];
    assert HexBytes([c]) == Success([c as int]);
    Utf8.DecodeEncode([c]);
    assert Utf8.Encode([c]) == Utf8.EncodeChar(c) + Utf8.Encode([]);
  }

  /** Escaped text that wpa_supplicant printed for the UTF-8 of `name`
      decodes, with the one-pass unescaper, to `name`. */
  lemma DecodedOfPrinted(name: string, esc: string)
    requires PrintfEncode(Utf8.Encode(name)) == esc
    ensures DecodedSsid(esc) == Success(name)
  {
    SsidRoundTrip(name);
  }

  /** Two bytes that wpa_supplicant prints as `\\n`, and the text they are. */
  lemma BackslashNBytes()
    ensures Utf8.Encode("\\n") == [0x5C, 0x6E]
    ensures PrintfEncode([0x5C, 0x6E]) == "\\\\n"
  {
    assert Utf8.Encode("\\n") == Utf8.EncodeChar('\\') + Utf8.Encode("n");
    assert Utf8.Encode("n") == Utf8.EncodeChar('n') + Utf8.Encode([]);
    assert PrintfEncode([0x5C, 0x6E]) == EscapeByte(0x5C) + PrintfEncode([0x6E]);
    assert PrintfEncode([0x6E]) == EscapeByte(0x6E) + PrintfEncode([]);
  }

  /** An SSID holding a backslash followed by `n`: wpa_supplicant prints
      it as `\\n`; the replacement chain turns that into a newline, the
      one-pass unescaper gives back the two original characters. */
  lemma AsWrittenEscapedBackslash()
    ensures PrintfEncode(Utf8.Encode("\\n")) == "\\\\n"
    ensures AsWrittenDecodedSsid("\\\\n") == Success("\n")
    ensures DecodedSsid("\\\\n") == Success("\\n")
  {
    BackslashNBytes();
    ReplaceEscapesBackslashN();
    AsWrittenOneAscii("\\\\n", '\n');
    DecodedOfPrinted("\\n", "\\\\n");
  }

  /** The one byte ESC, and how wpa_supplicant prints it. */
  lemma EscBytes()
    ensures Utf8.Encode("\U{001B}") == [0x1B]
    ensures PrintfEncode([0x1B]) == "\\e"
  {
    assert Utf8.Encode("\U{001B}") == Utf8.EncodeChar('\U{001B}') + Utf8.Encode([]);
    assert PrintfEncode([0x1B]) == EscapeByte(0x1B) + PrintfEncode([]);
  }

  /** `\e` is ESC (0x1B) in wpa_supplicant's escapes; the replacement chain
      turns it into the letter `E` (0x45). */
  lemma AsWrittenEscapeE()
    ensures PrintfEncode(Utf8.Encode("\U{001B}")) == "\\e"
    ensures AsWrittenDecodedSsid("\\e") == Success("E")
    ensures DecodedSsid("\\e") == Success("\U{001B}")
  {
    EscBytes();
    ReplaceEscapesE();
    AsWrittenOneAscii("\\e", 'E');
    DecodedOfPrinted("\U{001B}", "\\e");
  }

  // ---------------------------------------------------------------------
  // SCAN_RESULTS

  /** One entry of the list `GetScanResults` returns. */
  datatype ScanResult = ScanResult(ssid: string, secure: bool, rssi: int)

  /** A flag naming WPA2 or WPA with a pre-shared key names a `-PSK`
      mode. */
  lemma PskFlag(flags: string)
    ensures Contains(flags, "WPA2-PSK") || Contains(flags, "WPA-PSK") ==> Contains(flags, "-PSK")
  {
    if Contains(flags, "WPA2-PSK") {
      var i :| 0 <= i <= |flags| - 8 && OccursAt(flags, "WPA2-PSK", i);
      assert flags[i + 4..i + 8] == flags[i..i + 8][4..];
      assert OccursAt(flags, "-PSK", i + 4);
    } else if Contains(flags, "WPA-PSK") {
      var i :| 0 <= i <= |flags| - 7 && OccursAt(flags, "WPA-PSK", i);
      assert flags[i + 3..i + 7] == flags[i..i + 7][3..];
      assert OccursAt(flags, "-PSK", i + 3);
    }
  }

  /** `_IsSecure`: WPA2 or WPA with a pre-shared key. Enterprise and open
      networks are not secure in this sense: their flags name no `-PSK`
      mode. */
  predicate IsSecure(flags: string)
    ensures IsSecure(flags) ==> Contains(flags, "-PSK")
  {
    PskFlag(flags);
    Contains(flags, "WPA2-PSK") || Contains(flags, "WPA-PSK")
  }

  /** Wherever a WPA2-PSK or WPA-PSK group stands among the flags, the
      network is secure. */
  lemma IsSecureGroup(before: string, mode: string, after: string)
    requires mode in {"WPA2-PSK", "WPA-PSK"}
    ensures IsSecure(before + mode + after)
  {
    ContainsMiddle(before, mode, after);
  }

  /** `response.split("\n")[1:-1]`: the pieces between the header line and
      the piece after the last newline. */
  function BodyLines(response: string): seq<string> {
    var pieces := Split(response, '\n');
    if |pieces| < 2 then [] else pieces[1..|pieces| - 1]
  }

  /** A reply made of a header line and newline-terminated body lines has
      exactly those body lines. */
  lemma BodyLinesOfReply(header: string, lines: seq<string>)
    requires '\n' !in header
    requires forall k :: 0 <= k < |lines| ==> '\n' !in lines[k]
    ensures BodyLines(Join([header] + lines + [""], "\n")) == lines
  {
    var pieces := [header] + lines + [""];
    forall k | 0 <= k < |pieces|
      ensures '\n' !in pieces[k]
    {
      if 0 < k <= |lines| {
        assert pieces[k] == lines[k - 1];
      }
    }
    JoinSplit(pieces, '\n');
    assert pieces[1..|pieces| - 1] == lines;
  }

  /** One body line `bssid <tab> frequency <tab> signal level <tab> flags
      <tab> ssid`: `None` for an empty SSID, which is skipped; a line
      without exactly five fields, an SSID the decoder refuses or a signal
      level that is not an integer is an error. */
  function ScanLine(line: string): Result<Option<ScanResult>> {
    var fields := Split(line, '\t');
    if |fields| != 5 then Failure("ValueError")
    else if fields[4] == [] then Success(None)
    else
      match DecodedSsid(fields[4])
      case Failure(e) => Failure(e)
      case Success(ssid) =>
        match PyInt(fields[2], 10)
        case None => Failure("ValueError")
        case Some(rssi) => Success(Some(ScanResult(ssid, IsSecure(fields[3]), rssi)))
  }

  /** The entries of the body lines in order, up to the first line that
      raises. */
  function EntriesOf(lines: seq<string>): Result<seq<ScanResult>> {
    if lines == [] then Success([])
    else
      match EntriesOf(lines[..|lines| - 1])
      case Failure(e) => Failure(e)
      case Success(es) =>
        match ScanLine(lines[|lines| - 1])
        case Failure(e) => Failure(e)
        case Success(None) => Success(es)
        case Success(Some(x)) => Success(es + [x])
  }

  /** Once a line raises, the whole reply does, with that error. */
  lemma {:induction false} EntriesOfFailure(lines: seq<string>, i: int)
    requires 0 <= i <= |lines| && EntriesOf(lines[..i]).Failure?
    ensures EntriesOf(lines) == EntriesOf(lines[..i])
    decreases |lines|
  {
    if i < |lines| {
      var front := lines[..|lines| - 1];
      assert front[..i] == lines[..i];
      EntriesOfFailure(front, i);
    } else {
      assert lines[..i] == lines;
    }
  }

  lemma EntriesOfNext(lines: seq<string>, i: int, es: seq<ScanResult>)
    requires 0 <= i < |lines| && EntriesOf(lines[..i]) == Success(es)
    ensures EntriesOf(lines[..i + 1]) ==
      match ScanLine(lines[i])
      case Failure(e) => Failure(e)
      case Success(None) => Success(es)
      case Success(Some(x)) => Success(es + [x])
  {
    assert lines[..i + 1][..i] == lines[..i];
  }

  /** The position of the entry for `ssid`, or -1. */
  function IndexOfSsid(rs: seq<ScanResult>, ssid: string): (k: int)
    ensures -1 <= k < |rs|
    ensures k >= 0 ==> rs[k].ssid == ssid && forall j :: 0 <= j < k ==> rs[j].ssid != ssid
    ensures k == -1 ==> forall j :: 0 <= j < |rs| ==> rs[j].ssid != ssid
  {
    if rs == [] then -1
    else if rs[0].ssid == ssid then 0
    else
      var k := IndexOfSsid(rs[1..], ssid);
      if k == -1 then -1 else k + 1
  }

  /** `results[ssid] = entry` unless the dictionary already holds the SSID
      with a stronger signal; a new SSID goes last and a replaced one keeps
      its place, as in a Python dictionary. */
  function Upsert(rs: seq<ScanResult>, x: ScanResult): seq<ScanResult> {
    var k := IndexOfSsid(rs, x.ssid);
    if k == -1 then rs + [x]
    else if x.rssi < rs[k].rssi then rs
    else rs[k := x]
  }

  /** `list(results.values())` after all entries went through `Upsert`:
      never more entries than lines. DedupMembers, DedupOrder and
      DedupWinner say which entries they are. */
  function Dedup(es: seq<ScanResult>): (r: seq<ScanResult>)
    ensures |r| <= |es|
  {
    if es == [] then [] else Upsert(Dedup(es[..|es| - 1]), es[|es| - 1])
  }

  /** What `GetScanResults` returns for a SCAN_RESULTS reply. */
  function ScanResultsOf(response: string): Result<seq<ScanResult>> {
    match EntriesOf(BodyLines(response))
    case Failure(e) => Failure(e)
    case Success(es) => Success(Dedup(es))
  }

  /** The body of the loop of `GetScanResults` for one line: five
      tab-separated fields, and an entry only when the SSID field is not
      empty. */
  method ParseScanLine(line: string) returns (r: Result<Option<ScanResult>>)
    ensures r == ScanLine(line)
  {
    var fields := Split(line, '\t');
    if |fields| != 5 {
      return Failure("ValueError");
    }
    if fields[4] == [] {
      return Success(None);
    }
    var ssid := DecodeSsid(fields[4]);
    if ssid.Failure? {
      return Failure(ssid.error);
    }
    var rssi := PyInt(fields[2], 10);
    if rssi.None? {
      return Failure("ValueError");
    }
    r := Success(Some(ScanResult(ssid.value, IsSecure(fields[3]), rssi.value)));
  }

  /** One step of the loop of `GetScanResults`: the entry goes in unless
      its SSID already has a stronger one. */
  method KeepStronger(results: seq<ScanResult>, entry: ScanResult) returns (r: seq<ScanResult>)
    ensures r == Upsert(results, entry)
  {
    r := results;
    var k := IndexOfSsid(results, entry.ssid);
    if !(k >= 0 && entry.rssi < results[k].rssi) {
      if k >= 0 {
        r := results[k := entry];
      } else {
        r := results + [entry];
      }
    }
  }

  /** `GetScanResults`, line by line. */
  method GetScanResults(response: string) returns (r: Result<seq<ScanResult>>)
    ensures r == ScanResultsOf(response)
  {
    var lines := BodyLines(response);
    var results: seq<ScanResult> := [];
    ghost var es: seq<ScanResult> := [];
    var i := 0;
    while i < |lines|
      invariant 0 <= i <= |lines|
      invariant EntriesOf(lines[..i]) == Success(es)
      invariant results == Dedup(es)
    {
      EntriesOfNext(lines, i, es);
      var parsed := ParseScanLine(lines[i]);
      if parsed.Failure? {
        EntriesOfFailure(lines, i + 1);
        return Failure(parsed.error);
      }
      if parsed.value.Some? {
        var entry := parsed.value.value;
        DedupSnoc(es, entry);
        results := KeepStronger(results, entry);
        es := es + [entry];
      }
      i := i + 1;
    }
    assert lines[..i] == lines;
    r := Success(results);
  }

  /** The line that supplies the entry for `ssid`: the strongest signal, and
      the later line among equally strong ones; -1 when no line has it. */
  function BestIndex(es: seq<ScanResult>, ssid: string): (k: int)
    ensures -1 <= k < |es|
    ensures k == -1 <==> forall j :: 0 <= j < |es| ==> es[j].ssid != ssid
    ensures k >= 0 ==> es[k].ssid == ssid
    ensures k >= 0 ==> forall j :: 0 <= j < |es| && es[j].ssid == ssid ==> es[j].rssi <= es[k].rssi
    ensures k >= 0 ==> forall j :: k < j < |es| && es[j].ssid == ssid ==> es[j].rssi < es[k].rssi
  {
    if es == [] then -1
    else
      var n := |es|;
      var k := BestIndex(es[..n - 1], ssid);
      if es[n - 1].ssid != ssid then k
      else if k >= 0 && es[n - 1].rssi < es[k].rssi then k
      else n - 1
  }

  lemma IndexOfSsidSnoc(es: seq<ScanResult>, x: ScanResult, ssid: string)
    ensures IndexOfSsid(es + [x], ssid)
            == (if IndexOfSsid(es, ssid) >= 0 then IndexOfSsid(es, ssid) else if x.ssid == ssid then |es| else -1)
  {
    var k := IndexOfSsid(es + [x], ssid);
    var k0 := IndexOfSsid(es, ssid);
    if k0 >= 0 {
      assert (es + [x])[k0] == es[k0];
    } else {
      assert (es + [x])[|es|] == x;
      assert forall j :: 0 <= j < |es| ==> (es + [x])[j] == es[j];
    }
  }

  lemma DedupSnoc(front: seq<ScanResult>, x: ScanResult)
    ensures Dedup(front + [x]) == Upsert(Dedup(front), x)
  {
    assert (front + [x])[..|front|] == front;
  }

  lemma DedupKeptStep(front: seq<ScanResult>, x: ScanResult, i: int)
    requires forall i :: 0 <= i < |Dedup(front)| ==> IndexOfSsid(front, Dedup(front)[i].ssid) >= 0
    requires 0 <= i < |Dedup(front + [x])|
    ensures IndexOfSsid(front + [x], Dedup(front + [x])[i].ssid) >= 0
  {
    DedupSnoc(front, x);
    var s := Dedup(front + [x])[i].ssid;
    IndexOfSsidSnoc(front, x, s);
    if s != x.ssid {
      assert Dedup(front + [x])[i] == Dedup(front)[i];
    }
  }

  lemma IndexOfSsidPresent(rs: seq<ScanResult>, p: int, ssid: string)
    requires 0 <= p < |rs| && rs[p].ssid == ssid
    ensures 0 <= IndexOfSsid(rs, ssid) <= p
  {
  }

  /** The SSIDs kept after `Upsert` are those before it and the new one. */
  lemma UpsertKeeps(rs: seq<ScanResult>, x: ScanResult, p: int)
    requires 0 <= p < |rs|
    ensures p < |Upsert(rs, x)| && Upsert(rs, x)[p].ssid == rs[p].ssid
    ensures IndexOfSsid(Upsert(rs, x), x.ssid) >= 0
  {
    var k := IndexOfSsid(rs, x.ssid);
    var u := Upsert(rs, x);
    if k == -1 {
      assert u[p] == rs[p];
      IndexOfSsidPresent(u, |rs|, x.ssid);
    } else {
      IndexOfSsidPresent(u, k, x.ssid);
    }
  }

  lemma DedupAllStep(front: seq<ScanResult>, x: ScanResult, j: int)
    requires forall j :: 0 <= j < |front| ==> IndexOfSsid(Dedup(front), front[j].ssid) >= 0
    requires 0 <= j < |front| + 1
    ensures IndexOfSsid(Dedup(front + [x]), (front + [x])[j].ssid) >= 0
  {
    DedupSnoc(front, x);
    var d := Dedup(front);
    if j < |front| {
      var s := front[j].ssid;
      assert (front + [x])[j] == front[j];
      var m := IndexOfSsid(d, s);
      UpsertKeeps(d, x, m);
      IndexOfSsidPresent(Upsert(d, x), m, s);
    } else {
      assert (front + [x])[j] == x;
      if d == [] {
        assert Upsert(d, x) == [x];
        IndexOfSsidPresent([x], 0, x.ssid);
      } else {
        UpsertKeeps(d, x, 0);
      }
    }
  }

  /** Every SSID of the reply is kept, and nothing else. */
  lemma {:induction false} DedupMembers(es: seq<ScanResult>)
    ensures forall i :: 0 <= i < |Dedup(es)| ==> IndexOfSsid(es, Dedup(es)[i].ssid) >= 0
    ensures forall j :: 0 <= j < |es| ==> IndexOfSsid(Dedup(es), es[j].ssid) >= 0
  {
    if es != [] {
      var front, x := es[..|es| - 1], es[|es| - 1];
      assert es == front + [x];
      DedupMembers(front);
      forall i | 0 <= i < |Dedup(es)|
        ensures IndexOfSsid(es, Dedup(es)[i].ssid) >= 0
      {
        DedupKeptStep(front, x, i);
      }
      forall j | 0 <= j < |es|
        ensures IndexOfSsid(Dedup(es), es[j].ssid) >= 0
      {
        DedupAllStep(front, x, j);
      }
    }
  }

  /** An SSID missing from the deduplicated list is on no line. */
  lemma DedupAbsent(es: seq<ScanResult>, s: string)
    requires IndexOfSsid(Dedup(es), s) == -1
    ensures forall j :: 0 <= j < |es| ==> es[j].ssid != s
  {
    DedupMembers(es);
    forall j | 0 <= j < |es|
      ensures es[j].ssid != s
    {
      var m := IndexOfSsid(Dedup(es), es[j].ssid);
      assert Dedup(es)[m].ssid == es[j].ssid;
    }
  }

  lemma DedupOrderStep(front: seq<ScanResult>, x: ScanResult, i: int, j: int)
    requires forall i, j :: 0 <= i < j < |Dedup(front)| ==>
      IndexOfSsid(front, Dedup(front)[i].ssid) < IndexOfSsid(front, Dedup(front)[j].ssid)
    requires forall i :: 0 <= i < |Dedup(front)| ==> IndexOfSsid(front, Dedup(front)[i].ssid) >= 0
    requires 0 <= i < j < |Dedup(front + [x])|
    ensures IndexOfSsid(front + [x], Dedup(front + [x])[i].ssid) < IndexOfSsid(front + [x], Dedup(front + [x])[j].ssid)
  {
    DedupSnoc(front, x);
    var d := Dedup(front);
    var k := IndexOfSsid(d, x.ssid);
    var a, b := Dedup(front + [x])[i].ssid, Dedup(front + [x])[j].ssid;
    IndexOfSsidSnoc(front, x, a);
    IndexOfSsidSnoc(front, x, b);
    if k == -1 && j == |d| {
      assert a == d[i].ssid;
      DedupAbsent(front, x.ssid);
    } else {
      assert a == d[i].ssid && b == d[j].ssid;
    }
  }

  /** The entries come in the order in which their SSIDs first appear, so
      no SSID is listed twice. */
  lemma {:induction false} DedupOrder(es: seq<ScanResult>)
    ensures forall i, j :: 0 <= i < j < |Dedup(es)| ==>
      IndexOfSsid(es, Dedup(es)[i].ssid) < IndexOfSsid(es, Dedup(es)[j].ssid)
  {
    if es != [] {
      var n := |es|;
      var front, x := es[..n - 1], es[n - 1];
      assert es == front + [x];
      DedupOrder(front);
      DedupMembers(front);
      forall i, j | 0 <= i < j < |Dedup(es)|
        ensures IndexOfSsid(es, Dedup(es)[i].ssid) < IndexOfSsid(es, Dedup(es)[j].ssid)
      {
        DedupOrderStep(front, x, i, j);
      }
    }
  }

  lemma BestIndexSnoc(front: seq<ScanResult>, x: ScanResult, s: string)
    ensures BestIndex(front + [x], s)
            == (if x.ssid != s then BestIndex(front, s)
                else if BestIndex(front, s) >= 0 && x.rssi < front[BestIndex(front, s)].rssi then BestIndex(front, s)
                else |front|)
  {
    assert (front + [x])[..|front|] == front;
  }

  lemma DedupWinnerStep(front: seq<ScanResult>, x: ScanResult, i: int)
    requires forall i :: 0 <= i < |Dedup(front)| ==>
      BestIndex(front, Dedup(front)[i].ssid) >= 0 && Dedup(front)[i] == front[BestIndex(front, Dedup(front)[i].ssid)]
    requires 0 <= i < |Dedup(front + [x])|
    ensures var s := Dedup(front + [x])[i].ssid;
      BestIndex(front + [x], s) >= 0 && Dedup(front + [x])[i] == (front + [x])[BestIndex(front + [x], s)]
  {
    DedupSnoc(front, x);
    var d := Dedup(front);
    var k := IndexOfSsid(d, x.ssid);
    var s := Dedup(front + [x])[i].ssid;
    BestIndexSnoc(front, x, s);
    if s != x.ssid {
      assert Dedup(front + [x])[i] == d[i];
      assert (front + [x])[BestIndex(front, s)] == front[BestIndex(front, s)];
    } else if k == -1 {
      DedupAbsent(front, s);
      assert (front + [x])[|front|] == x;
    } else {
      DedupOrder(front);
      assert i == k;
      assert d[k] == front[BestIndex(front, s)];
      assert (front + [x])[|front|] == x;
      assert (front + [x])[BestIndex(front, s)] == front[BestIndex(front, s)];
    }
  }

  /** Each kept entry is the one of its SSID's best line. */
  lemma {:induction false} DedupWinner(es: seq<ScanResult>)
    ensures forall i :: 0 <= i < |Dedup(es)| ==>
      BestIndex(es, Dedup(es)[i].ssid) >= 0 && Dedup(es)[i] == es[BestIndex(es, Dedup(es)[i].ssid)]
  {
    if es != [] {
      var n := |es|;
      var front, x := es[..n - 1], es[n - 1];
      assert es == front + [x];
      DedupWinner(front);
      forall i | 0 <= i < |Dedup(es)|
        ensures BestIndex(es, Dedup(es)[i].ssid) >= 0 && Dedup(es)[i] == es[BestIndex(es, Dedup(es)[i].ssid)]
      {
        DedupWinnerStep(front, x, i);
      }
    }
  }

  lemma PrintfEncodeNonEmpty(ssid: seq<byte>)
    requires ssid != []
    ensures PrintfEncode(ssid) != []
  {
  }

  lemma DecimalNoTab(n: int)
    ensures '\t' !in Decimal(n)
  {
    var d := Decimal(n);
    forall j | 0 <= j < |d|
      ensures d[j] != '\t'
    {
    }
  }

  /** A line as wpa_supplicant prints it for a named network reads back as
      that network's entry. */
  lemma ScanLineRoundTrip(bssid: string, freq: string, rssi: int, flags: string, name: string)
    requires '\t' !in bssid && '\t' !in freq && '\t' !in flags
    requires name != []
    ensures ScanLine(Join([bssid, freq, Decimal(rssi), flags, PrintfEncode(Utf8.Encode(name))], "\t"))
            == Success(Some(ScanResult(name, IsSecure(flags), rssi)))
  {
    var esc := PrintfEncode(Utf8.Encode(name));
    var fields := [bssid, freq, Decimal(rssi), flags, esc];
    PrintfEncodeNoTab(Utf8.Encode(name));
    DecimalNoTab(rssi);
    assert Utf8.Encode(name) != [] by {
      assert Utf8.Encode(name) == Utf8.EncodeChar(name[0]) + Utf8.Encode(name[1..]);
    }
    PrintfEncodeNonEmpty(Utf8.Encode(name));
    JoinSplit(fields, '\t');
    SsidRoundTrip(name);
    DecimalRoundTrip(rssi);
  }

  // ---------------------------------------------------------------------
  // LIST_NETWORKS

  /** One entry of `GetNetworks`; every field is kept as text. */
  datatype Network = Network(id: string, ssid: string, bssid: string, flags: string)

  /** One body line `id <tab> ssid <tab> bssid <tab> flags`; any other
      number of fields is an error. */
  function NetworkLine(line: string): Result<Network> {
    var fields := Split(line, '\t');
    if |fields| != 4 then Failure("ValueError")
    else Success(Network(fields[0], fields[1], fields[2], fields[3]))
  }

  /** The networks of the body lines in order, up to the first line that
      raises. */
  function NetworksOf(lines: seq<string>): Result<seq<Network>> {
    if lines == [] then Success([])
    else
      match NetworksOf(lines[..|lines| - 1])
      case Failure(e) => Failure(e)
      case Success(ns) =>
        match NetworkLine(lines[|lines| - 1])
        case Failure(e) => Failure(e)
        case Success(n) => Success(ns + [n])
  }

  lemma {:induction false} NetworksOfFailure(lines: seq<string>, i: int)
    requires 0 <= i <= |lines| && NetworksOf(lines[..i]).Failure?
    ensures NetworksOf(lines) == NetworksOf(lines[..i])
    decreases |lines|
  {
    if i < |lines| {
      var front := lines[..|lines| - 1];
      assert front[..i] == lines[..i];
      NetworksOfFailure(front, i);
    } else {
      assert lines[..i] == lines;
    }
  }

  /** `GetNetworks`, line by line. */
  method GetNetworks(response: string) returns (r: Result<seq<Network>>)
    ensures r == NetworksOf(BodyLines(response))
  {
    var lines := BodyLines(response);
    var networks: seq<Network> := [];
    var i := 0;
    while i < |lines|
      invariant 0 <= i <= |lines|
      invariant NetworksOf(lines[..i]) == Success(networks)
    {
      assert lines[..i + 1][..i] == lines[..i];
      var fields := Split(lines[i], '\t');
      if |fields| != 4 {
        NetworksOfFailure(lines, i + 1);
        return Failure("ValueError");
      }
      networks := networks + [Network(fields[0], fields[1], fields[2], fields[3])];
      i := i + 1;
    }
    assert lines[..i] == lines;
    r := Success(networks);
  }

  /** The reply parses iff every line does, and then the i-th network is
      that of the i-th line. */
  lemma {:induction false} NetworksOfLines(lines: seq<string>)
    ensures NetworksOf(lines).Success? <==> forall k :: 0 <= k < |lines| ==> NetworkLine(lines[k]).Success?
    ensures NetworksOf(lines).Success? ==>
      && |NetworksOf(lines).value| == |lines|
      && forall k :: 0 <= k < |lines| ==> NetworkLine(lines[k]) == Success(NetworksOf(lines).value[k])
  {
    if lines != [] {
      var n := |lines|;
      var front := lines[..n - 1];
      NetworksOfLines(front);
      assert forall k :: 0 <= k < n - 1 ==> front[k] == lines[k];
    }
  }

  /** A line as wpa_supplicant prints it for a network reads back as that
      network. */
  lemma NetworkLineRoundTrip(n: Network)
    requires '\t' !in n.id && '\t' !in n.ssid && '\t' !in n.bssid && '\t' !in n.flags
    ensures NetworkLine(Join([n.id, n.ssid, n.bssid, n.flags], "\t")) == Success(n)
  {
    JoinSplit([n.id, n.ssid, n.bssid, n.flags], '\t');
  }

  /** `found` is the first network named `ssid`, or `None` when there is no
      such network. */
  predicate FirstBySsid(networks: seq<Network>, ssid: string, found: Option<Network>) {
    && (found.None? <==> forall k :: 0 <= k < |networks| ==> networks[k].ssid != ssid)
    && (found.Some? ==> exists k :: 0 <= k < |networks| && networks[k] == found.value
                                   && networks[k].ssid == ssid
                                   && forall j :: 0 <= j < k ==> networks[j].ssid != ssid)
  }

  /** `GetNetworkBySsid`: the first configured network named `ssid`. */
  method GetNetworkBySsid(response: string, ssid: string) returns (r: Result<Option<Network>>)
    ensures NetworksOf(BodyLines(response)).Failure? ==> r == Failure(NetworksOf(BodyLines(response)).error)
    ensures NetworksOf(BodyLines(response)).Success? ==>
      r.Success? && FirstBySsid(NetworksOf(BodyLines(response)).value, ssid, r.value)
  {
    var networks := GetNetworks(response);
    if networks.Failure? {
      return Failure(networks.error);
    }
    var ns := networks.value;
    var i := 0;
    while i < |ns|
      invariant 0 <= i <= |ns|
      invariant forall j :: 0 <= j < i ==> ns[j].ssid != ssid
    {
      if ns[i].ssid == ssid {
        return Success(Some(ns[i]));
      }
      i := i + 1;
    }
    r := Success(None);
  }

  // ---------------------------------------------------------------------
  // SET_NETWORK

  /** `"SET_NETWORK %d %s %s" % (net_id, prop, value)`: for a property
      without spaces, wpa_supplicant reads back the verb, the id, the
      property and the whole value. */
  function SetNetworkCommand(netId: int, prop: string, value: string): (r: string)
    ensures ' ' !in prop ==> CommandWords(r) == Some(("SET_NETWORK", Decimal(netId), prop, value))
  {
    var d := Decimal(netId);
    var rest2 := prop + [' '] + value;
    var rest1 := d + [' '] + rest2;
    BeforeAfterSeparator("SET_NETWORK", ' ', rest1);
    DecimalNoSpace(netId);
    BeforeAfterSeparator(d, ' ', rest2);
    if ' ' in prop then "SET_NETWORK" + [' '] + rest1
    else
      BeforeAfterSeparator(prop, ' ', value);
      "SET_NETWORK" + [' '] + rest1
  }

  /** `"\"%s\"" % s` */
  function Quoted(s: string): string {
    "\"" + s + "\""
  }

  /** `SetNetworkSsid`: the `ssid` property, its value the quoted name. */
  function SsidCommand(netId: int, ssid: string): (r: string)
    ensures CommandWords(r) == Some(("SET_NETWORK", Decimal(netId), "ssid", "\"" + ssid + "\""))
  {
    SetNetworkCommand(netId, "ssid", Quoted(ssid))
  }

  /** `SetNetworkPsk`: the `psk` property, its value the quoted key. */
  function PskCommand(netId: int, psk: string): (r: string)
    ensures CommandWords(r) == Some(("SET_NETWORK", Decimal(netId), "psk", "\"" + psk + "\""))
  {
    SetNetworkCommand(netId, "psk", Quoted(psk))
  }

  /** `SetNetworkScanSsid` sends `int(scan)`: `1` to scan for the SSID,
      `0` not to. */
  function ScanSsidCommand(netId: int, scan: bool): (r: string)
    ensures CommandWords(r).Some? && CommandWords(r).value.2 == "scan_ssid"
    ensures CommandWords(r).value.3 == "1" <==> scan
    ensures CommandWords(r).value.3 == "0" <==> !scan
  {
    SetNetworkCommand(netId, "scan_ssid", if scan then "1" else "0")
  }

  /** `SetNetworkKeyMgmt`: `WPA-PSK` for a secure network, `NONE` otherwise. */
  function KeyMgmtValue(secure: bool): string {
    if secure then "WPA-PSK" else "NONE"
  }

  /** `SetNetworkKeyMgmt`: the `key_mgmt` property set to KeyMgmtValue. */
  function KeyMgmtCommand(netId: int, secure: bool): (r: string)
    ensures CommandWords(r) == Some(("SET_NETWORK", Decimal(netId), "key_mgmt", KeyMgmtValue(secure)))
  {
    SetNetworkCommand(netId, "key_mgmt", KeyMgmtValue(secure))
  }

  /** A command succeeded when its reply contains `OK`. */
  predicate Accepted(reply: string) {
    Contains(reply, "OK")
  }

  lemma {:induction false} BeforeAfterSeparator(a: string, c: char, b: string)
    requires c !in a
    ensures Before(a + [c] + b, c) == Some(a)
    ensures After(a + [c] + b, c) == Some(b)
  {
    if a != [] {
      assert (a + [c] + b)[1..] == a[1..] + [c] + b;
      BeforeAfterSeparator(a[1..], c, b);
      assert [a[0]] + a[1..] == a;
    }
  }

  lemma DecimalNoSpace(n: int)
    ensures ' ' !in Decimal(n)
  {
    var d := Decimal(n);
    forall j | 0 <= j < |d|
      ensures d[j] != ' '
    {
    }
  }

  /** The words of a command as wpa_supplicant reads them: each of the
      first three spaces ends a word, and the rest of the line is the
      value. */
  function CommandWords(cmd: string): Option<(string, string, string, string)> {
    match (Before(cmd, ' '), After(cmd, ' '))
    case (Some(verb), Some(r1)) =>
      (match (Before(r1, ' '), After(r1, ' '))
       case (Some(id), Some(r2)) =>
         (match (Before(r2, ' '), After(r2, ' '))
          case (Some(prop), Some(value)) => Some((verb, id, prop, value))
          case _ => None)
       case _ => None)
    case _ => None
  }

  /** A SET_NETWORK command reads back as its verb, the network id (which
      parses back to the number), the property and the value, spaces in
      the value included. */
  lemma SetNetworkCommandParts(netId: int, prop: string, value: string)
    requires ' ' !in prop
    ensures CommandWords(SetNetworkCommand(netId, prop, value)) == Some(("SET_NETWORK", Decimal(netId), prop, value))
    ensures PyInt(Decimal(netId), 10) == Some(netId)
  {
    DecimalRoundTrip(netId);
  }

  /** The key management value is `WPA-PSK` exactly for a secure network. */
  lemma KeyMgmtSecure(netId: int, secure: bool)
    ensures CommandWords(KeyMgmtCommand(netId, secure)).Some?
    ensures CommandWords(KeyMgmtCommand(netId, secure)).value.3 == "WPA-PSK" <==> secure
  {
    assert "NONE"[0] != "WPA-PSK"[0];
  }

  // ---------------------------------------------------------------------
  // Alarms of the event thread

  /** An alarm `(deadline, name)`; deadlines are integer times. */
  datatype Alarm = Alarm(deadline: int, name: string)

  predicate SortedByDeadline(a: seq<Alarm>) {
    forall i, j :: 0 <= i < j < |a| ==> a[i].deadline <= a[j].deadline
  }

  /** What `list.sort(key=deadline)`, a stable sort, makes of a sorted list
      with `e` appended: `e` moves in front of every later alarm. */
  function InsertByDeadline(a: seq<Alarm>, e: Alarm): seq<Alarm> {
    if a == [] || a[|a| - 1].deadline <= e.deadline then a + [e]
    else InsertByDeadline(a[..|a| - 1], e) + [a[|a| - 1]]
  }

  /** `[a for a in alarms if now >= a.deadline]` */
  function Due(a: seq<Alarm>, now: int): seq<Alarm> {
    if a == [] then []
    else (if now >= a[0].deadline then [a[0]] else []) + Due(a[1..], now)
  }

  /** `[a for a in alarms if not now >= a.deadline]` */
  function Pending(a: seq<Alarm>, now: int): seq<Alarm> {
    if a == [] then []
    else (if now >= a[0].deadline then [] else [a[0]]) + Pending(a[1..], now)
  }

  function Names(a: seq<Alarm>): seq<string> {
    if a == [] then [] else [a[0].name] + Names(a[1..])
  }

  /** The two filters keep every alarm once. */
  lemma {:induction false} DuePendingMultiset(a: seq<Alarm>, now: int)
    ensures multiset(Due(a, now)) + multiset(Pending(a, now)) == multiset(a)
  {
    if a != [] {
      DuePendingMultiset(a[1..], now);
      assert a == [a[0]] + a[1..];
    }
  }

  /** The due alarms are those whose deadline has come. */
  lemma {:induction false} DueDeadlines(a: seq<Alarm>, now: int)
    ensures forall k :: 0 <= k < |Due(a, now)| ==> Due(a, now)[k].deadline <= now
    ensures forall k :: 0 <= k < |Pending(a, now)| ==> Pending(a, now)[k].deadline > now
  {
    if a != [] {
      DueDeadlines(a[1..], now);
    }
  }

  lemma {:induction false} NoneDue(a: seq<Alarm>, now: int)
    requires forall k :: 0 <= k < |a| ==> a[k].deadline > now
    ensures Due(a, now) == [] && Pending(a, now) == a
  {
    if a != [] {
      NoneDue(a[1..], now);
      assert a == [a[0]] + a[1..];
    }
  }

  /** On a sorted list the due alarms are a prefix and the pending ones the
      rest. */
  lemma {:induction false} SortedDueFirst(a: seq<Alarm>, now: int)
    requires SortedByDeadline(a)
    ensures a == Due(a, now) + Pending(a, now)
  {
    if a != [] {
      if now < a[0].deadline {
        NoneDue(a, now);
      } else {
        SortedDueFirst(a[1..], now);
        assert a == [a[0]] + a[1..];
      }
    }
  }

  /** `_ProcessAlarms` returns early on an empty list or a head in the
      future; on a sorted list nothing is due then, so the early return
      changes nothing. */
  lemma EarlyReturnNothingDue(a: seq<Alarm>, now: int)
    requires SortedByDeadline(a)
    requires a == [] || a[0].deadline > now
    ensures Due(a, now) == [] && Pending(a, now) == a
  {
    NoneDue(a, now);
  }

  lemma {:induction false} AllDue(a: seq<Alarm>, now: int)
    requires forall k :: 0 <= k < |a| ==> a[k].deadline <= now
    ensures Due(a, now) == a && Pending(a, now) == []
  {
    if a != [] {
      AllDue(a[1..], now);
      assert a == [a[0]] + a[1..];
    }
  }

  lemma {:induction false} DuePendingSnoc(a: seq<Alarm>, x: Alarm, now: int)
    ensures Due(a + [x], now) == Due(a, now) + (if now >= x.deadline then [x] else [])
    ensures Pending(a + [x], now) == Pending(a, now) + (if now >= x.deadline then [] else [x])
  {
    if a != [] {
      assert (a + [x])[1..] == a[1..] + [x];
      DuePendingSnoc(a[1..], x, now);
    } else {
      assert [x][1..] == [];
    }
  }

  /** The new alarm goes after every alarm due no later than it, earlier
      ones with the same deadline included, and before every later one;
      the other alarms keep their order. */
  lemma {:induction false} InsertStable(a: seq<Alarm>, e: Alarm)
    requires SortedByDeadline(a)
    ensures InsertByDeadline(a, e) == Due(a, e.deadline) + [e] + Pending(a, e.deadline)
  {
    if a != [] {
      var n := |a|;
      var front, last := a[..n - 1], a[n - 1];
      assert a == front + [last];
      if last.deadline <= e.deadline {
        AllDue(a, e.deadline);
      } else {
        InsertStable(front, e);
        DuePendingSnoc(front, last, e.deadline);
      }
    }
  }

  /** Inserting adds exactly the new alarm. */
  lemma {:induction false} InsertMultiset(a: seq<Alarm>, e: Alarm)
    ensures multiset(InsertByDeadline(a, e)) == multiset(a) + multiset{e}
  {
    if a != [] && a[|a| - 1].deadline > e.deadline {
      var n := |a|;
      InsertMultiset(a[..n - 1], e);
      assert a == a[..n - 1] + [a[n - 1]];
    }
  }

  /** Inserting keeps the list sorted by deadline. */
  lemma {:induction false} InsertSorted(a: seq<Alarm>, e: Alarm)
    requires SortedByDeadline(a)
    ensures SortedByDeadline(InsertByDeadline(a, e))
  {
    if a != [] && a[|a| - 1].deadline > e.deadline {
      var n := |a|;
      var front, last := a[..n - 1], a[n - 1];
      InsertSorted(front, e);
      InsertMultiset(front, e);
      var r := InsertByDeadline(front, e);
      forall k | 0 <= k < |r|
        ensures r[k].deadline <= last.deadline
      {
        assert r[k] in multiset(r);
        if r[k] != e {
          assert r[k] in multiset(front);
          var m :| 0 <= m < |front| && front[m] == r[k];
          assert a[m] == front[m];
        }
      }
    }
  }

  /** The pending alarms of a sorted list stay sorted. */
  lemma PendingSorted(a: seq<Alarm>, now: int)
    requires SortedByDeadline(a)
    ensures SortedByDeadline(Pending(a, now))
  {
    SortedDueFirst(a, now);
    var d := |Due(a, now)|;
    assert Pending(a, now) == a[d..];
  }

  /** The alarm list of `_EventThread`, kept sorted by deadline. Time is an
      integer parameter. */
  class EventThread {
    var alarms: seq<Alarm>

    ghost predicate Valid()
      reads this
    {
      SortedByDeadline(alarms)
    }

    constructor ()
      ensures Valid() && alarms == []
    {
      alarms := [];
    }

    /** `SetAlarm(alarm, delay)` at time `now`: append, then sort by
        deadline. Times and delays are integer milliseconds, so the
        source's `now + delay / 1000` in seconds is `now + delay` here. */
    method SetAlarm(now: int, name: string, delay: int)
      requires Valid()
      modifies this
      ensures Valid()
      ensures alarms == InsertByDeadline(old(alarms), Alarm(now + delay, name))
    {
      InsertSorted(alarms, Alarm(now + delay, name));
      alarms := InsertByDeadline(alarms, Alarm(now + delay, name));
    }

    /** `_ProcessAlarms` at time `now`: removes the due alarms and returns
        their names in the order they are fired. */
    method ProcessAlarms(now: int) returns (fired: seq<string>)
      requires Valid()
      modifies this
      ensures Valid()
      ensures alarms == Pending(old(alarms), now)
      ensures fired == Names(Due(old(alarms), now))
    {
      if alarms == [] || alarms[0].deadline > now {
        EarlyReturnNothingDue(alarms, now);
        return [];
      }
      var expired := Due(alarms, now);
      PendingSorted(alarms, now);
      alarms := Pending(alarms, now);
      fired := Names(expired);
    }
  }

  // ---------------------------------------------------------------------
  // Control connection flags

  /** `InterfaceConnection`: the `started` and `attached` flags and the
      commands sent so far. The reply to each command is a parameter. */
  class InterfaceConnection {
    var started: bool
    var attached: bool
    var sent: seq<string>

    /** A connection whose socket has connected. */
    constructor ()
      ensures started && !attached && sent == []
    {
      started := true;
      attached := false;
      sent := [];
    }

    /** `Attach(level)`: nothing when already attached; otherwise `ATTACH`,
        and on an `OK` reply `LEVEL <level>` and the flag set; any other
        reply raises. */
    method Attach(level: int, reply: string) returns (r: Result<()>)
      modifies this
      ensures started == old(started)
      ensures old(attached) ==> attached && sent == old(sent) && r.Success?
      ensures !old(attached) && Contains(reply, "OK") ==>
        attached && sent == old(sent) + ["ATTACH", "LEVEL " + Decimal(level)] && r.Success?
      ensures !old(attached) && !Contains(reply, "OK") ==>
        !attached && sent == old(sent) + ["ATTACH"] && r == Failure("Exception")
    {
      if attached {
        return Success(());
      }
      sent := sent + ["ATTACH"];
      if Contains(reply, "OK") {
        sent := sent + ["LEVEL " + Decimal(level)];
        attached := true;
        return Success(());
      }
      r := Failure("Exception");
    }

    /** `Detach()`: nothing when not attached; otherwise `DETACH`, and the
        flag cleared unless the reply contains `FAIL`, which raises. */
    method Detach(reply: string) returns (r: Result<()>)
      modifies this
      ensures started == old(started)
      ensures !old(attached) ==> !attached && sent == old(sent) && r.Success?
      ensures old(attached) ==> sent == old(sent) + ["DETACH"]
      ensures old(attached) ==> (attached <==> Contains(reply, "FAIL")) && (r.Success? <==> !attached)
    {
      if !attached {
        return Success(());
      }
      sent := sent + ["DETACH"];
      if !Contains(reply, "FAIL") {
        attached := false;
        return Success(());
      }
      r := Failure("Exception");
    }

    /** `Close` as the source writes it: it calls `self.detach()`, a name
        the class does not define, so the AttributeError lands in the bare
        `except`, which only clears the flag; DETACH is never sent. */
    method CloseAsWritten()
      modifies this
      ensures !attached && !started && sent == old(sent)
    {
      if attached {
        attached := false;
      }
      if started {
        started := false;
      }
    }

    /** `Close` calling `Detach`: an attached connection sends DETACH
        before the socket closes; a failed DETACH still clears the flag. */
    method Close(detachReply: string)
      modifies this
      ensures !attached && !started
      ensures sent == old(sent) + (if old(attached) then ["DETACH"] else [])
    {
      if attached {
        var r := Detach(detachReply);
        if r.Failure? {
          attached := false;
        }
      }
      if started {
        started := false;
      }
    }
  }

  /** An attached connection closed by the as-written `Close`: only the
      attach commands ever reach wpa_supplicant. */
  method AsWrittenCloseSkipsDetach() returns (sent: seq<string>)
    ensures sent == ["ATTACH", "LEVEL 3"]
  {
    var c := new InterfaceConnection();
    assert OccursAt("OK", "OK", 0);
    assert Decimal(3) == "3";
    var _ := c.Attach(3, "OK");
    assert c.sent == ["ATTACH", "LEVEL " + Decimal(3)];
    assert "LEVEL " + Decimal(3) == "LEVEL 3";
    c.CloseAsWritten();
    sent := c.sent;
  }

  /** The same connection closed by the corrected `Close` detaches. */
  method CloseSendsDetach() returns (sent: seq<string>)
    ensures sent == ["ATTACH", "LEVEL 3", "DETACH"]
  {
    var c := new InterfaceConnection();
    assert OccursAt("OK", "OK", 0);
    assert Decimal(3) == "3";
    var _ := c.Attach(3, "OK");
    assert c.sent == ["ATTACH", "LEVEL " + Decimal(3)];
    assert "LEVEL " + Decimal(3) == "LEVEL 3";
    c.Close("OK");
    sent := c.sent;
  }
}

=== FILE: wrappers.dfy ===
/** Option and Result values used by every module of the model in place of
    Python's None returns and raised exceptions. */
module Wrappers {

  datatype Option<+T> = None | Some(value: T)

  /** `Failure` stands for a Python exception escaping the operation; its
      payload names the exception class the source would raise. */
  datatype Result<+T> = Success(value: T) | Failure(error: string)

  /** A byte, as held in Python `bytes` and `bytearray`. */
  type byte = b: int | 0 <= b < 256
}
